=== FILE: README.md ===
# Guardian parser: a Dafny model of the record-normalisation core

Guardian parser turns missing-person case documents into records of one fixed
schema. It has two paths. The legacy pipeline parses the text with
source-specific parsers and then normalises the record. The LLM path asks a
language model for the record as JSON, then sanitises it, validates it and
repairs it. This project models the deterministic logic around those steps and
proves what each step promises. It also models three geospatial scripts that
share nothing with the case pipeline.

Records are JSON values (`Json.Value`: `Null | Bool | Num | Str | Arr | Obj`)
rather than typed structs. The code tells three kinds of "missing" apart: a
key that is absent, a value that is `None` or `""`, and a falsy value. A
struct would lose that difference.

## Layout

| module | models |
|---|---|
| `Wrappers`, `Json`, `Text`, `Dates`, `Runtime` | Python's `None`/exception results, JSON values and dict helpers, string helpers, `strftime("%Y-%m-%d")`, and the environment of oracles |
| `Detect`, `Canon`, `Enrich`, `Harmonize`, `Backfill`, `Units`, `Geo`, `Csv`, `Parsers`, `Pdf` | the legacy pipeline of parser_pack.py: source detection; alias-to-canonical key migration; the never-overwrite enrichment pass; field harmonisation; the backfill pass; unit and gender helpers; the geocode cache and the Virginia override; the CSV header; per-source skeletons; and `parse_pdf` |
| `Sanitize`, `SanitizeProps` | `sanitize_guardian_row` (llm/agent/schema_sanitize.py) and its properties |
| `Coerce`, `CoerceProps` | `coerce_guardian` (llm/agent/postprocess.py) and its properties |
| `Common`, `Extraction`, `ExtractionProps` | `_sanitize_extracted` (llm/agent/llm_agent_simple.py) and the helpers the three sanitisers share |
| `Agent`, `AgentFlow`, `AgentDoc`, `AgentRun` | `run_agent_simple` and `_repair_with_validator_feedback`: retries, the case id, the drafted row, geocoding, the summary, the validate/repair decision, the write, and the final message |
| `JsonExtract`, `TextClean`, `Tools` | `_extract_json` (llm/agent/llm_client.py), the PDF text cleaners (llm/agent/text_clean.py), and geocode/validate_row (llm/agent/tools.py) |
| `FixDates`, `Metrics` | the date repair of fix_dates.py and the field-count metrics of tests/metrics/metrics_calculator.py |
| `Osm`, `Transport`, `Transit` | the attribute derivations of scripts/osm_import.py, the classification and counts of va_transport_extractor.py, and scripts/transform_transit_data.py |

## Oracles and parameters

The code calls libraries whose behaviour the model does not define. Each one
is a function-typed field of `Runtime.Env`:

- regular-expression searches;
- `strptime` and dateutil;
- `float()`/`int()` on text, `str()` of non-strings, and `json.loads`;
- NFKC normalisation;
- the order in which a dict's keys are visited, where that order shows;
- `hash()`;
- the geocoder;
- the Draft-7 validator.

The clock reading is a field of `Env`, and the uuid a station or segment
draws is a parameter. The language model's replies are part of each
document (`AgentDoc.Doc`): a reply is either the parsed JSON or the exception
the call raised. No statement is made about an oracle's results. The proofs
cover what the code does with them: which match wins, what is written where,
what is never overwritten, and what a second run changes.

Several quirks of the code are proved as written, each with a lemma that
exhibits it:

- `parse_last_seen_ts` reads its third pattern's label group instead of the
  date (`Backfill.ThirdPatternReadsLabel`).
- `harmonize_record_fields` is not idempotent (`Harmonize.RerunMovesReportedMissing`).
- Because `dict(raw)` is a shallow copy, only the hair and eye colours reach
  `original_fields` (`SanitizeProps.CapturedOnlyColours`).
- `sanitize_guardian_row` turns "F" into "male"
  (`SanitizeProps.AbbreviatedGenderBecomesMale`), and `coerce_guardian` does
  the same to "Female" (`CoerceProps.CapitalisedGenderBecomesMale`).
- Completeness can exceed 1 (`Metrics.CompletenessAboveOne`).
- The compliance rate can exceed 1 (`Metrics.ComplianceAboveOne`).
- `osint.setdefault("incident_summary", "No summary available")` never
  applies (`CoerceProps.SummaryNeverDefaulted`).
- The normalised row of `run_agent_simple` is never written: it has lost its
  `case_id`, and the clean row is written instead (`AgentFlow.Normalise`).
- The transit and road tag maps disagree on "Western Virginia" (`Transit.TagMapsDiffer`).
- "SR-n" is a Primary Highway to the OSM importer and a Secondary Highway to
  the PDF extractor (`Transport.SrReadTwoWays`).

Where the documentation promises something else, the model follows the code.
Harmonisation is described as idempotent, and the tests expect "F" to become
female and every alias to be captured. In each case the model keeps what the
code does.

For four of these quirks, "## Findings" names a corrected definition as
well and proves the intended property of it. The corrected members stand
beside the as-written ones; the pipeline members use the as-written ones.

## Model

| member | source | states |
|---|---|---|
| Dates.FormatYmdRoundTrip | parser_pack.py:731 | a date rendered with `%Y-%m-%d` from year 1000 on is an RFC 3339 full-date that parses back to the same date |
| Dates.FormatIsoRoundTrip | parser_pack.py:736 | a date rendered with `isoformat` is, for every year, an RFC 3339 full-date that parses back to the same date |
| Dates.IsoAgreesFromYear1000 | parser_pack.py:731-736 | from year 1000 on, `isoformat` and `%Y-%m-%d` render the same text |
| Dates.IsoPadsEarlyYears | parser_pack.py:731-736 | below year 1000 they differ: 7 February 197 renders as "0197-02-07" with `isoformat` and "197-02-07" with `%Y-%m-%d` |
| Detect.SourceNameRoundTrip | parser_pack.py:1778-1799 | the five identifiers `detect_source` returns name five distinct families: reading a family's name back gives the family |
| Detect.DetectSource | parser_pack.py:1778-1799 | exactly one family by first match: NamUs iff a NamUs marker occurs, NCMEC iff no NamUs marker and an NCMEC marker, FBI iff neither of those and an FBI marker, Charley iff none of the three and a Charley marker, else Unknown |
| Detect.NamUsBeatsAll | parser_pack.py:1778-1779 | a text holding "NamUs" anywhere is NamUs whatever else it holds |
| Detect.NcmecBeatsFbiAndCharley | parser_pack.py:1782-1783 | with no NamUs marker, a text holding "NCMEC" is NCMEC even when it also holds FBI or Charley markers |
| Detect.FbiBeatsCharley | parser_pack.py:1788-1793 | with neither NamUs nor NCMEC markers, an FBI marker wins over a Charley marker |
| Detect.EmptyTextIsUnknown | tests/unit/test_detect_source.py:130-133 | the empty text is Unknown (given that no FBI pattern matches the empty string) |
| Units.ToInches | parser_pack.py:831-863 | empty text gives None; two or more feet-inch matches give a value exactly midway between the first two heights in inches; a single match gives that height; otherwise an explicit inches value, else None |
| Units.HeightRangeExample | parser_pack.py:838 | the docstring example: 5'8" - 5'10" is 69 inches |
| Units.ToPounds | parser_pack.py:865-881 | empty text gives None; an "a - b lb" range gives the value midway between a and b; otherwise a single "n lb" gives n, else None |
| Units.WeightRangeExample | parser_pack.py:868 | the docstring example: "130 - 150 lbs" is 140 pounds |
| Units.ClampLat | parser_pack.py:900-902 | None stays None; any latitude ends in [-90, 90] and one already inside is unchanged |
| Units.ClampLon | parser_pack.py:904-906 | None stays None; any longitude ends in [-180, 180] and one already inside is unchanged |
| Units.ClampNearestBound | parser_pack.py:900-906 | an out-of-range value goes to the nearer bound, and clamping twice is clamping once |
| Units.ExtractCoords | parser_pack.py:908-916 | both coordinates or neither; they are present exactly when the text is non-empty and a pair matches, and they lie within the clamping bounds |
| Units.NormalizeGender | parser_pack.py:918-925 | only "male", "female" or None; "male" exactly when the stripped, lower-cased text starts with "m", "female" exactly when it starts with "f" |
| Units.NormalizeGenderIdempotent | parser_pack.py:918-925 | a normalised gender normalises to itself |
| Units.EstimateHeightWeight | parser_pack.py:144-193 | the growth-chart entry for ages 2 to 18 of "male" and "female", the adult default (68 in / 170 lb for "male", 64 in / 140 lb otherwise) above 18, nothing below 2 |
| Units.EstimatesGrowWithAge | parser_pack.py:144-193 | within the growth charts neither the height nor the weight estimate decreases with age |
| Units.GetNestedSingleKey | parser_pack.py:1581-1587 | a key without dots is a plain lookup of a present, non-None value, else the default |
| Units.GetNested | parser_pack.py:1565-1587 | the lookup never answers None unless that is the default, and a start that is not a non-empty dict gives the default whatever the path |
| Units.GetNestedCompose | parser_pack.py:1581-1587 | a dotted path is the lookup of its first segment followed by the lookup of the rest |
| Units.PickFirst | parser_pack.py:1915-1921 | the first value that is not None and not blank as text, all earlier ones being unusable; None exactly when no value is usable |
| Units.ParseDateToIsoUtc | parser_pack.py:488-502 | blank text gives None; a result is a calendar date followed by "T00:00:00Z"; None exactly when the text is blank or no listed format accepts it |
| Canon.CanonMapGood | parser_pack.py:81-92 | every alias pair stays within its own category, and no alias key is also a canonical target |
| Canon.Step | parser_pack.py:135-141 | one loop iteration keeps the demographic and spatial categories dicts |
| Canon.StepAbsent | parser_pack.py:136 | an iteration whose alias key is absent changes nothing |
| Canon.StepCopies | parser_pack.py:137-140 | an alias value that is not None and not blank is copied into an absent canonical slot |
| Canon.StepOtherKey | parser_pack.py:135-141 | an iteration leaves every key other than its alias and its target with its value |
| Canon.StepNoNewKey | parser_pack.py:138-140 | an iteration adds no key other than its canonical target |
| Canon.FoldKeepsKey | parser_pack.py:135-142 | a key that is not an alias survives the whole loop with its value |
| Canon.CanonizeKeys | parser_pack.py:122-142 | the demographic and spatial entries stay dicts |
| Canon.CanonizeKeysContract | parser_pack.py:122-142 | afterwards no alias key remains; the top-level keys are the same; other categories are untouched; every non-alias key keeps its value, so a populated canonical key is never overwritten; only canonical targets are added, each holding a value with text |
| Canon.AliasGone | parser_pack.py:141 | every alias key is deleted, whether or not its value was copied |
| Canon.CanonizeKeysIdempotent | parser_pack.py:122-142 | a second application changes nothing |
| Canon.SecondEntryCopies | parser_pack.py:135-141 | an entry unaffected by the one before it copies its alias value into an absent target, and no later entry overwrites it |
| Canon.FirstAliasWins | parser_pack.py:83-84 | "eyes" precedes "eyes_color", so with an "eyes" value with text and no eye_color, eye_color takes the "eyes" value whatever "eyes_color" holds |
| Enrich.SetIfMissing | parser_pack.py:218-223 | the write keeps the target category a dict, creating it when absent |
| Enrich.SetIfMissingFills | parser_pack.py:218-223 | a value with text fills a slot holding None or "" (or missing) and leaves a slot with any other value untouched |
| Enrich.SetIfFalsy | parser_pack.py:345-351 | the list-style write keeps the target category a dict, creating it when absent |
| Enrich.EnrichCommonFields | parser_pack.py:195-470 | the result has dict demographic and spatial categories, ready for the alias migration |
| Enrich.WriteSlot | parser_pack.py:221-223 | writing one slot keeps every key and leaves every other slot with its value |
| Enrich.ApplyWritten | parser_pack.py:218-223 | one finding changes at most its own slot, and only one that was empty or falsy for list-style fields |
| Enrich.ApplyAllKeeps | parser_pack.py:225-467 | the whole run of writes keeps every existing slot, and any slot it changes was empty (or falsy, for a list-style field) and now holds a value some finding carried |
| Enrich.ApplyAllShaped | parser_pack.py:225-467 | the run of writes keeps the record's dict categories |
| Enrich.ApplyAllTopKeys | parser_pack.py:229-428 | the run of writes adds no top-level key other than the four category dicts it writes into |
| Enrich.EnrichTopKeys | parser_pack.py:195-470 | the whole pass, alias migration included, adds no top-level key other than those four category dicts |
| Enrich.EnrichParts | parser_pack.py:216-470 | the pass is the run of writes followed by the alias migration of `_canonize_keys` |
| Enrich.EnrichKeepsTruthy | parser_pack.py:213-214 | a truthy value under a non-alias key survives the pass unchanged, as the docstring promises |
| Enrich.EnrichKeepsFilled | parser_pack.py:213-223 | a value other than None or "" survives unless a list-style finding for that key carries a replacement (the list-style writes test falsiness, so an empty list or 0 can be replaced) |
| Enrich.EnrichWritesText | parser_pack.py:219-223 | every value the pass adds or changes has text, unless a list-style finding carried it |
| Harmonize.HarmonizeRecordFields | parser_pack.py:504-675 | an empty record comes back as it is; any other record comes back with all six buckets as dicts |
| Harmonize.Open | parser_pack.py:525-531 | the `setdefault` calls leave all six buckets as dicts |
| Harmonize.RenameAliases | parser_pack.py:538-548 | the alias renames touch only the spatial and temporal buckets; `reported_missing_ts` moves to `reported_ts` only when that key is absent |
| Harmonize.LiftTop | parser_pack.py:552-553 | a top-level key moves into the case bucket; every other top-level and case key is unchanged |
| Harmonize.LiftTopSpec | parser_pack.py:552-553 | a top-level key that the case bucket lacks moves there and leaves the top level; a key the bucket already has stays in the bucket unchanged |
| Harmonize.CaseIdLifted | parser_pack.py:552-553 | when the case bucket has no `case_id`, a top-level `case_id` ends in that bucket and none is left at the top level after the whole pass |
| Harmonize.EarlyLiftsCaseId | parser_pack.py:552-553 | the early steps move a top-level `case_id` into a case bucket that lacks one and leave none at the top level |
| Harmonize.LateKeepsCaseId | parser_pack.py:563-675 | the later steps neither bring back a top-level `case_id` nor change the one in the case bucket |
| Harmonize.MetaKeepsCaseId | parser_pack.py:635-646 | with no top-level `case_id`, the case-meta synonyms add none and keep the case bucket's |
| Harmonize.CloseCaseId | parser_pack.py:525-531 | the buckets are the record's own dicts, so reading the record back adds no top-level `case_id` and keeps the case bucket's |
| Harmonize.FirstOf | parser_pack.py:559-561 | `srcs[0]` is an element of a list, or the first character of a string |
| Harmonize.LiftCase | parser_pack.py:550-561 | only `case_id`, `status` and `source` in the case bucket change; `case_id` is the only top-level key that can change |
| Harmonize.SexGender | parser_pack.py:566 | the normalised sex is "male", "female" or None |
| Harmonize.SexToGender | parser_pack.py:564-569 | `sex` is always dropped, and only `gender` may change |
| Harmonize.MoveFilled | parser_pack.py:571-581 | the old key is dropped; an existing new key keeps its value; an absent new key is filled exactly when the old value was not None or "", and then holds that value |
| Harmonize.DemoSynonyms | parser_pack.py:563-581 | `sex`, `weight_lb` and `height_inches` are gone, and no key outside the six synonyms changes |
| Harmonize.DemoSynonymsFill | parser_pack.py:564-581 | a truthy gender stays; otherwise a normalised sex that is not None fills it, and with none the gender is left as it was; `weight_lbs` and `height_in` take the old value only when absent |
| Harmonize.DemoSynonymsWeightHeight | parser_pack.py:571-581 | `weight_lbs` / `height_in` keep a present value and otherwise exist exactly when `weight_lb` / `height_inches` held a value other than None or "" |
| Harmonize.DemoSynonymsIdempotent | parser_pack.py:563-581 | renaming the synonyms twice gives the same bucket as once |
| Harmonize.NormalizeName | parser_pack.py:583-589 | only the name bucket and the demographic `name` key change |
| Harmonize.DateToTs | parser_pack.py:592-596 | one date step removes its `*_date` key and changes no key but its `*_ts` key |
| Harmonize.DateToTsSpec | parser_pack.py:592-596 | the `*_ts` key holds the parsed date when the date was present and parsed, and keeps its old presence and value otherwise |
| Harmonize.DateStepsDropDates | parser_pack.py:592-616 | no `*_date` key of the table survives the date steps |
| Harmonize.DateStepsTs | parser_pack.py:592-616 | every timestamp key holds its date parsed when that parsed, and its old value otherwise |
| Harmonize.NoDateKeysRemain | parser_pack.py:592-616 | after the function no `*_date` key is left in the temporal bucket |
| Harmonize.TsFromDate | parser_pack.py:592-616 | each `*_ts` key holds its `*_date` parsed when that parsed, and is otherwise left as it was |
| Harmonize.HarmonizeTemporal | parser_pack.py:546-616 | the temporal bucket of the result is the input's with `reported_missing_ts` renamed first and the dates parsed afterwards |
| Harmonize.RerunMovesReportedMissing | parser_pack.py:546-609 | the function is not idempotent: a parsed `reported_missing_date` becomes `reported_missing_ts` on the first run and `reported_ts` on the second |
| Harmonize.Or | parser_pack.py:620-622 | `a or b` is truthy exactly when one of them is |
| Harmonize.MetaSynonyms | parser_pack.py:635-646 | only `status`, `source` and `case_id` change, in both the top level and the case bucket |
| Harmonize.PullSummary | parser_pack.py:654-663 | the summary pull changes only the narrative bucket |
| Harmonize.ShowTruthy | parser_pack.py:666-667 | the string list is no longer than the item list |
| Harmonize.NarrativeSummary | parser_pack.py:654-667 | the narrative steps change only the narrative bucket |
| Harmonize.TruthyStrings | parser_pack.py:672-673 | the kept strings are exactly the truthy items, each one from the input |
| Harmonize.DedupeLists | parser_pack.py:669-673 | `demographic.aka` and `case.categories` are replaced by their de-duplicated lists when they are lists and kept otherwise; nothing else changes |
| Harmonize.SpatialNormalize | parser_pack.py:618-633 | each `last_seen_` city, state and country ends truthy exactly when it or its plain key was, a truthy one is kept, and every key outside the moved ones is kept |
| Harmonize.SpatialCoordsMoved | parser_pack.py:627-633 | the coordinates end under `last_seen_lat/lon`: an existing entry wins, then `lat`, then `lon` before `lng`; `lat` survives only beside an existing `last_seen_lat` |
| Harmonize.DedupeSpec | parser_pack.py:673 | the de-duplicated list holds exactly the truthy strings of the input, each once, in ascending order |
| Harmonize.HarmonizeLists | parser_pack.py:504-673 | after the whole harmonisation, `aka` and `case.categories` hold the truthy strings of the input list, each once, in ascending order, or are what they were when not lists |
| Harmonize.PipelineDemo | parser_pack.py:563-673 | after every step the demographic bucket is the synonym renames' result, with only `name` and `aka` changed afterwards |
| Harmonize.HarmonizeDemographic | parser_pack.py:504-675 | in the result `sex`, `weight_lb` and `height_inches` are gone, and every other demographic key but `name` and `aka` is as the synonym renames left it |
| Backfill.FirstPattern | parser_pack.py:713-722 | the pattern chosen is the first of the four that matches, or none when no pattern matches |
| Backfill.ParseDateText | parser_pack.py:724-739 | a result is a non-empty date rendered with `%Y-%m-%d` or `isoformat`; there is none exactly when no format accepts the text and the fuzzy parser fails; a date only the fuzzy parser reads is always an RFC 3339 full-date |
| Backfill.FuzzyYearPadded | parser_pack.py:734-736 | a text only the fuzzy parser reads as 7 February 197 comes back as "0197-02-07", with the year zero-padded |
| Backfill.ParseLastSeenTs | parser_pack.py:710-739 | a result is a non-empty date rendered with `%Y-%m-%d` or `isoformat`, and there is none when no pattern matches |
| Backfill.EarlierPatternWins | parser_pack.py:713-725 | an earlier pattern decides the result whenever it matches; later patterns are not consulted |
| Backfill.ThirdPatternReadsLabel | parser_pack.py:719-725 | the third pattern captures its label in group 1 and the date in group 2, but group 1 is read, so the result is the label parsed as a date |
| Backfill.ParseLastSeenTsIntended | parser_pack.py:710-739 | reading group 2 for the third pattern, a result is still a non-empty rendered date, and there is none when no pattern matches |
| Backfill.ThirdPatternReadsDate | parser_pack.py:719-725 | corrected, the third pattern yields its date group parsed as a date |
| Backfill.IntendedAgreesOtherwise | parser_pack.py:713-725 | the corrected parse agrees with the code whenever the third pattern does not decide |
| Backfill.ParseGender | parser_pack.py:741-787 | the result is "male", "female" or None |
| Backfill.HeaderGenderWins | parser_pack.py:769-781 | a "Sex:" header word in any letter case decides the result, and "female" is not mistaken for "male" |
| Backfill.FemaleWordFirst | parser_pack.py:784-787 | with no header or "Age Now" match, "Female" is looked for before "Male", and with neither the result is None |
| Backfill.LastSeenOrEmpty | parser_pack.py:818-819 | the value written is "" exactly when no date was found, and otherwise a rendered date |
| Backfill.BackfillTs | parser_pack.py:817-819 | the timestamp step changes at most the temporal bucket |
| Backfill.BackfillRecord | parser_pack.py:812-825 | after the loop body the record has a temporal `last_seen_ts` |
| Backfill.BackfillGender | parser_pack.py:822-825 | the gender step changes at most the demographic bucket |
| Backfill.BackfillAll | parser_pack.py:789-827 | every record is passed through the loop body, and the list keeps its length |
| Backfill.TsStepFrame | parser_pack.py:817-819 | the timestamp step writes only `temporal.last_seen_ts` |
| Backfill.GenderStepFrame | parser_pack.py:822-825 | the gender step writes only `demographic.gender` |
| Backfill.BackfillTouchesOnlyTwoSlots | parser_pack.py:812-825 | only `temporal.last_seen_ts` and `demographic.gender` can change |
| Backfill.BackfillLastSeen | parser_pack.py:817-819 | afterwards every record has a `last_seen_ts`: the old one when truthy, otherwise a rendered date or "" |
| Backfill.BackfillGenderValues | parser_pack.py:822-825 | a gender is written only into a falsy slot, and only as "male" or "female" |
| Backfill.TsSettled | parser_pack.py:817-819 | once the timestamp step has run, running it again does nothing |
| Backfill.GenderSettled | parser_pack.py:822-825 | once the gender step has run, running it again does nothing |
| Backfill.BackfillIdempotent | parser_pack.py:812-825 | a second pass over a record changes nothing |
| Backfill.BackfillAllIdempotent | parser_pack.py:789-827 | a second pass over the list changes nothing |
| Geo.RichmondInVirginia | parser_pack.py:1527-1534 | the Richmond stand-in lies inside the Virginia box |
| Geo.GeocodeCityState | parser_pack.py:1491-1520 | no cache entry is changed or removed; empty city and state give (None, None) and leave the cache alone; a cached key is answered from the cache |
| Geo.EmptyPlaceGivesNothing | parser_pack.py:1497-1498 | empty city and state give nothing, in both operations, and leave the cache alone |
| Geo.LookupClamped | parser_pack.py:1505-1517 | a fresh lookup gives both coordinates or neither, and any it gives are clamped into [-90, 90] and [-180, 180] |
| Geo.CacheOnlyInVirginia | parser_pack.py:1511-1516 | only coordinates inside the box are ever written to the cache, under the lookup's key |
| Geo.CacheOnlyMiss | parser_pack.py:1503-1504 | with `cache_only` a missing key gives nothing and the geocoder is not consulted |
| Geo.CachedReplay | parser_pack.py:1499-1502 | a lookup that landed in the box is answered from the cache the next time, whatever the geocoder says then |
| Geo.OverrideOutcomes | parser_pack.py:1536-1561 | the override yields nothing, or in-box coordinates with the input place, or Richmond with "Richmond", "Virginia" |
| Geo.OverrideCases | parser_pack.py:1543-1561 | for a city or state: in-box coordinates come back with the input place and the cache unchanged; out-of-box coordinates give Richmond and store it under the Richmond key; a missing coordinate gives nothing |
| Geo.GeocodeWithOverride | parser_pack.py:1536-1561 | both coordinates or neither come back, found exactly when a city or state was given, always inside Virginia, and every other cache entry is kept |
| Geo.OutsideGivesRichmond | parser_pack.py:1553-1559 | a lookup outside the box is replaced by Richmond, and the Richmond key is written to the cache |
| Geo.OverrideKeepsVirginiaCache | parser_pack.py:1514-1558 | neither operation stores coordinates outside the box: when every cached entry lies inside it before the call, every entry does after it |
| Csv.BaseOrderSize | parser_pack.py:1714-1724 | the fixed column order has 35 names, from "source" to "categories" |
| Csv.SortedKeys | parser_pack.py:1727 | `sorted(set(...))` is a strictly ascending list of exactly the given keys |
| Csv.FieldNames | parser_pack.py:1711-1728 | the header is the fixed order followed by the other keys of the rows, each once, in ascending order |
| Csv.EveryKeyHasAColumn | parser_pack.py:1726-1732 | every key of every row gets a column, so `extrasaction="ignore"` drops nothing |
| Csv.BaseRowsGiveBaseHeader | parser_pack.py:1726-1728 | rows that only hold fixed-order keys give exactly the fixed header |
| Parsers.Assemble | parser_pack.py:1011-1019 | the record holds the case id and the skeleton's six categories as dicts, with the case open, and `name` only when a name was read |
| Parsers.Subjects | parser_pack.py:1011-1015 | the first four skeleton entries carry the case id and the demographic, spatial and temporal buckets, and no name or text |
| Parsers.Outcomes | parser_pack.py:1016-1018 | the last three skeleton entries are the narrative, the provenance and an outcome with `case_status` "ongoing", and nothing else |
| Parsers.Coordinates | parser_pack.py:1128-1135 | the coordinates a parser writes lie in [-90, 90] and [-180, 180] |
| Parsers.Provenance | parser_pack.py:1018 | the provenance names the parser's source and has empty original fields and no source path yet |
| Parsers.Collect | parser_pack.py:1011-1148 | a parser keeps its case id and its provenance, and writes the coordinates last |
| Parsers.Placed | parser_pack.py:1128-1135 | the spatial bucket ends with the given coordinates |
| Parsers.Timezoned | parser_pack.py:1015 | the temporal bucket always has a timezone, "America/New_York" unless the parser read one, and keeps every value read |
| Parsers.Summarised | parser_pack.py:1017 | the narrative bucket always has an incident summary, "" unless the parser read one, and keeps every value read |
| Parsers.Stamp | parser_pack.py:1839-1862 | stamping changes only the provenance and `_fulltext`: the text is stored and the source path is added to the provenance |
| Parsers.AssembledSkeletal | parser_pack.py:1011-1019 | an assembled record has the skeleton's shape |
| Parsers.Parse | parser_pack.py:1001-1441 | every parser yields the skeleton's shape: all six categories, the case open, a timezone (New York unless one was read), a summary slot, numeric coordinates, its own source label and no original fields |
| Parsers.StampSkeletal | parser_pack.py:1839-1862 | stamping keeps the skeleton and every other top-level entry |
| Parsers.PlaceholderCoordinates | parser_pack.py:1128-1135 | only a NamUs document with a map link carries coordinates; every other record gets 0.0 for both |
| Parsers.EstimateByAgeSpec | parser_pack.py:1303-1315 | the NCMEC estimate writes nothing when either measurement is present, and otherwise writes the table values for a child's age and gender, each with its `*_estimate` flag set to true |
| Parsers.DispatchAs | parser_pack.py:1836-1862 | the dispatched record is skeletal, carries the path and the text, and its source label names the source (the Charley parser's label for a Charley document, "Unknown" when nothing matched) |
| Parsers.Dispatch | parser_pack.py:1836-1862 | `parse_pdf`'s record is skeletal, carries the path and the text, and is labelled with the detected source, or "Unknown" when no source was detected |
| Pdf.Bucket | parser_pack.py:1871 | `rec.get(k) or {}` is the dict when there is one and an empty dict otherwise |
| Pdf.FillTs | parser_pack.py:1871-1873 | only `temporal` changes; it becomes a dict whose `last_seen_ts` keeps a truthy value and otherwise takes the parsed date or "" |
| Pdf.FillGender | parser_pack.py:1875-1876 | only `demographic` changes; it becomes a dict whose gender keeps a truthy value and otherwise takes the parsed gender, None when there is none |
| Pdf.FillBoth | parser_pack.py:1870-1876 | the two fills leave both buckets dicts with the two slots present, and touch nothing else |
| Pdf.Finalize | parser_pack.py:1870-1876 | the normalisations before validation leave both buckets dicts with the two slots present, and touch nothing else |
| Pdf.AsPlace | parser_pack.py:1884-1885 | a place read from the record is the string stored there |
| Pdf.HookLookup | parser_pack.py:1886-1894 | any coordinates the lookups return lie in the Virginia box, and the cache stays a cache of in-box entries |
| Pdf.Placed | parser_pack.py:1895-1901 | the coordinates are written when both came back and the city and state when both are truthy; nothing else in `spatial` changes |
| Pdf.GeoHook | parser_pack.py:1878-1901 | the hook changes only `spatial`, and keeps the cache a cache of in-box entries |
| Pdf.Prepare | parser_pack.py:1864-1876 | after enrichment, harmonisation and the fills, both buckets are dicts with the two slots present |
| Pdf.ParsePdf | parser_pack.py:1801-1903 | the parsed record has both buckets filled, and the cache stays a cache of in-box entries |
| Pdf.ParseDispatched | parser_pack.py:1861-1903 | from the dispatched record on, the result has both buckets filled and the cache stays a cache of in-box entries |
| Pdf.HookKeepsFinalized | parser_pack.py:1878-1901 | a step that touches only `spatial` keeps the fills |
| Pdf.FillTsFixed | parser_pack.py:1872-1873 | a record whose timestamp is filled is left as it is |
| Pdf.FillGenderFixed | parser_pack.py:1876 | a record whose gender is filled is left as it is |
| Pdf.FillBothIdempotent | parser_pack.py:1870-1876 | filling twice with the same parses is filling once |
| Pdf.FinalizeIdempotent | parser_pack.py:1870-1876 | a second pass of the normalisations changes nothing |
| Pdf.GeoHookSkips | parser_pack.py:1879-1883 | without `do_geocode`, or with usable coordinates, the hook changes nothing |
| Pdf.GeoHookInVirginia | parser_pack.py:1878-1901 | coordinates the hook writes lie in the Virginia box, and only the four location entries of `spatial` can change |
| Coerce.Required | llm/agent/postprocess.py:43-50 | a missing or None value becomes "", and any other value is kept |
| Coerce.ZeroIfNone | llm/agent/postprocess.py:154-157 | a missing or None coordinate becomes 0.0, and any other value is kept |
| Coerce.DropBlank | llm/agent/postprocess.py:138-140 | a None or "" value is removed, and any other value is kept |
| Coerce.Default | llm/agent/postprocess.py:143-147 | a missing key takes the default, and a present key keeps its value, even None |
| Coerce.OneOf | llm/agent/postprocess.py:150-151 | the enum check keeps a value that is exactly one of the allowed strings and otherwise writes the fallback |
| Coerce.Features | llm/agent/postprocess.py:57-63 | a list becomes its non-blank elements stripped and joined with a space, a vertical bar and a space, or is removed when none remains; other values are left alone |
| Coerce.NumberText | llm/agent/postprocess.py:66-72 | a string becomes the number it parses to, or is removed when it does not parse; other values are left alone |
| Coerce.Age | llm/agent/postprocess.py:52-72 | `age_years` never stays a string, and a remaining birth year can only come from a string |
| Coerce.CoerceDemographic | llm/agent/postprocess.py:36-72 | the demographic category is the result of its steps in the source's order |
| Coerce.DemographicCoerced | llm/agent/postprocess.py:42-151 | afterwards the name is not None, the numbers are not strings, the features are not a list, and the gender is "male" or "female" |
| Coerce.TruthyText | llm/agent/postprocess.py:103-106 | a text is produced exactly for a truthy value |
| Coerce.NumberOf | llm/agent/postprocess.py:107-126 | None gives no number and a number is kept as it is |
| Coerce.CoercedPart | llm/agent/postprocess.py:85-126 | a rebuilt sighting holds only the seven allowed keys: `ts` is the text found, `lat` and `lon` are numbers, and `confidence` is clamped into [0, 1] |
| Coerce.CoerceSighting | llm/agent/postprocess.py:80-130 | a sighting is kept exactly when its stripped `ts` is not empty, and then holds each key as the rebuild rules give it |
| Coerce.CoerceSightings | llm/agent/postprocess.py:76-130 | the rebuilt list is no longer than the input, and every item in it is a clean sighting |
| Coerce.Sightings | llm/agent/postprocess.py:76-135 | a list of sightings is rebuilt, and removed when nothing survives; other values are left alone |
| Coerce.CoerceTemporal | llm/agent/postprocess.py:74-147 | the temporal category is the result of its steps in the source's order |
| Coerce.TemporalCoerced | llm/agent/postprocess.py:137-147 | afterwards the time zone is present, `last_seen_ts` holds neither None nor "", the other two timestamps are absent or hold a value, and a sightings list holds only clean sightings |
| Coerce.CoerceSpatial | llm/agent/postprocess.py:42-50 | the spatial category is the result of its steps in the source's order |
| Coerce.CoerceOutcome | llm/agent/postprocess.py:159-162 | `case_status` ends as a known status and every other outcome key is unchanged |
| Coerce.CoerceOsint | llm/agent/postprocess.py:42-50 | the narrative ends with an incident summary that is not None and every other key unchanged |
| Coerce.CoerceProvenance | llm/agent/postprocess.py:168-175 | the provenance ends with `sources` and `original_fields`, keeps every entry of a dict input, and adds nothing else |
| Coerce.KeepAllowed | llm/agent/postprocess.py:29-34 | the whitelist keeps exactly the allowed top-level keys, with their values |
| Coerce.Assemble | llm/agent/postprocess.py:36-175 | the record holds the whitelisted keys plus the six categories, and every other value unchanged |
| Coerce.CoerceGuardian | llm/agent/postprocess.py:10-177 | the result's keys are the six categories plus the allowed keys the input had, and every allowed key that is not a category keeps its value |
| CoerceProps.GenderExact | llm/agent/postprocess.py:149-151 | the gender is kept only when it is exactly "male" or "female", and is "male" otherwise |
| CoerceProps.CapitalisedGenderBecomesMale | llm/agent/postprocess.py:150-151 | the comparison is case-sensitive: "Female" becomes "male" |
| CoerceProps.BirthYearDropped | llm/agent/postprocess.py:53-55 | a numeric age above 1900 is removed |
| CoerceProps.TextYearSurvives | llm/agent/postprocess.py:52-72 | the birth-year check runs before text is converted, so a year given as text survives as a number |
| CoerceProps.TextYearDroppedOnRerun | llm/agent/postprocess.py:52-72 | a second pass removes the year the first pass converted, so the pass is not idempotent |
| CoerceProps.DemographicRerun | llm/agent/postprocess.py:36-151 | without an age given as text, a second demographic pass changes nothing |
| CoerceProps.LastSeenDefault | llm/agent/postprocess.py:138-147 | `last_seen_ts` is the input's when that is not None or "", and otherwise the clock's time |
| CoerceProps.NullTimezoneKept | llm/agent/postprocess.py:143-144 | the time zone is defaulted only when the key is missing, so a None time zone stays None |
| CoerceProps.TemporalRerun | llm/agent/postprocess.py:74-147 | a second temporal pass changes nothing but the sightings |
| CoerceProps.CoerceSightingsAppend | llm/agent/postprocess.py:80-130 | the list is rebuilt item by item: rebuilding a concatenation concatenates the rebuilt parts |
| CoerceProps.ZeroLatitudeDropped | llm/agent/postprocess.py:95-109 | a latitude of exactly 0.0 is falsy, so with no `latitude` spelling the rebuilt sighting has no `lat` |
| CoerceProps.SpatialCoerced | llm/agent/postprocess.py:42-157 | the location and both coordinates are present and not None |
| CoerceProps.SpatialRerun | llm/agent/postprocess.py:42-157 | a second spatial pass changes nothing |
| CoerceProps.SummaryNeverDefaulted | llm/agent/postprocess.py:43-50 | the summary is "" when missing or None and the input's otherwise, so the "No summary available" default at line 166 is never written |
| Coerce.SummaryIntended | llm/agent/postprocess.py:42-50 | with the default applied first, a missing summary becomes "No summary available"; a present one is treated as the code treats it |
| CoerceProps.CapitalisedStatusReset | llm/agent/postprocess.py:161-162 | the status is kept only when it is exactly a known one, so "Found" is reset to "ongoing" |
| CoerceProps.OutcomeRerun | llm/agent/postprocess.py:159-162 | a second outcome pass changes nothing |
| CoerceProps.ProvenanceRerun | llm/agent/postprocess.py:168-175 | a second provenance pass changes nothing |
| Runtime.ToFloat | llm/agent/schema_sanitize.py:51-63 | `float(v)` keeps a number, reads a bool as 0 or 1, and fails (None) on None, lists and dicts |
| Runtime.ToInt | llm/agent/schema_sanitize.py:65-77 | `int(v)` truncates a number toward zero, reads a bool as 0 or 1, and fails (None) on None, lists and dicts |
| Runtime.Trunc | llm/agent/schema_sanitize.py:74 | `int()` of a float truncates toward zero: the result is within one of the value, on the side of zero |
| Sanitize.SafeStr | llm/agent/schema_sanitize.py:38-49 | `_s` gives stripped, non-empty text, and nothing exactly when the value is None or blank |
| Sanitize.KeepFilled | llm/agent/schema_sanitize.py:198-200 | the elements kept are exactly those with text, each from the input |
| Sanitize.JoinListStr | llm/agent/schema_sanitize.py:79-94 | a string gives its stripped text or nothing when blank; a list gives its cleaned elements joined with a space, a vertical bar and a space, or nothing when none remains; other values give nothing; a result is never empty |
| Sanitize.ListField | llm/agent/schema_sanitize.py:220-224 | a list field is written exactly for a list with some element left after cleaning, and holds exactly the cleaned elements |
| Sanitize.InRange | llm/agent/schema_sanitize.py:206-214 | a number is kept exactly when it parsed and lies in [lo, hi], unchanged: out-of-range values are dropped, not clamped |
| Sanitize.PairInRange | llm/agent/schema_sanitize.py:388-393 | two coordinates are kept together exactly when both parsed and both lie in range |
| Sanitize.Move | llm/agent/schema_sanitize.py:113-125 | the alias always goes; an existing target is never overwritten; an absent target is filled exactly when the alias gave a usable value |
| Sanitize.MoveKeepsOthers | llm/agent/schema_sanitize.py:113-125 | a move touches only the alias and the target |
| Sanitize.MapDemographic | llm/agent/schema_sanitize.py:108-115 | `sex` and `weight_lb` are gone from the demographic category |
| Sanitize.MapTemporal | llm/agent/schema_sanitize.py:118-153 | `reported_ts` and `last_seen_date` are gone from the temporal category |
| Sanitize.MapSpatial | llm/agent/schema_sanitize.py:155-162 | `city` and `state` are gone from the spatial category |
| Sanitize.MapExtraKeys | llm/agent/schema_sanitize.py:96-165 | the three categories become dicts, and every other key keeps its value |
| Sanitize.SetMapped | llm/agent/schema_sanitize.py:164 | writing the three categories back keeps every other key |
| Sanitize.SightingItem | llm/agent/schema_sanitize.py:141-152 | a sighting is kept exactly when it has a `ts`; coordinates are kept only in range and the confidence is clamped into [0, 1] |
| Sanitize.Sighting | llm/agent/schema_sanitize.py:128-152 | a rebuilt sighting holds a `ts`, in-range coordinates and a confidence in [0, 1]; without aliases it is kept exactly when `ts` is filled, and a truthy filled `ts` always keeps it |
| Sanitize.Sightings | llm/agent/schema_sanitize.py:253-277 | every dict item that rebuilds to a sighting is in the list, every entry is some item rebuilt, and the list is no longer than the input |
| SanitizeProps.SightingsAppend | llm/agent/schema_sanitize.py:253-277 | rebuilding a concatenated list is rebuilding each part |
| Sanitize.Gender | llm/agent/schema_sanitize.py:202-236 | the gender is "male" or "female": the lower-cased input when it is one of the two full words, else "male" |
| Sanitize.CleanDemographic | llm/agent/schema_sanitize.py:191-239 | the rebuilt demographic category is a non-empty dict of whitelisted keys with a valid gender |
| Sanitize.CleanTemporal | llm/agent/schema_sanitize.py:242-285 | the rebuilt temporal category is a non-empty dict of whitelisted keys with a non-empty time zone and a `last_seen_ts` |
| Sanitize.SeenCoords | llm/agent/schema_sanitize.py:293-305 | the last-seen coordinates always lie in [-90, 90] and [-180, 180] |
| Sanitize.CleanSpatial | llm/agent/schema_sanitize.py:288-316 | the rebuilt spatial category is a non-empty dict of whitelisted keys with numeric in-range coordinates |
| Sanitize.CleanOsint | llm/agent/schema_sanitize.py:319-368 | the rebuilt narrative category is a non-empty dict of whitelisted keys with a non-empty incident summary |
| Sanitize.CaseStatus | llm/agent/schema_sanitize.py:372-373 | the status is the stripped input when its lower-case form is a known status, with the input's own letter case, and "ongoing" otherwise |
| Sanitize.NonNegative | llm/agent/schema_sanitize.py:395-401 | a number is kept exactly when it parsed and is not negative |
| Sanitize.CleanOutcome | llm/agent/schema_sanitize.py:371-408 | the rebuilt outcome is a non-empty dict of whitelisted keys with a known status, and the recovery coordinates appear together or not at all |
| Sanitize.CallerView | llm/agent/schema_sanitize.py:414-421 | the category a capture loop reads holds only keys the mapping left, because `dict(raw)` is a shallow copy |
| Sanitize.CleanProvenance | llm/agent/schema_sanitize.py:411-434 | `sources` is kept or set to []; the other keys are kept; `original_fields` becomes the captured fields when it was falsy, the old dict updated with them when it was a dict, and is kept otherwise |
| Sanitize.AuditInPlace | llm/agent/schema_sanitize.py:437-444 | only the confidences and the evidence change: each confidence is clamped into [0, 1] and blank evidence lines are dropped |
| Sanitize.AuditStep | llm/agent/schema_sanitize.py:437-448 | the audit keeps every substantial entry of the clamped audit, is the whole clamped audit when one entry is not substantial, stays the old falsy value when nothing is, and nothing else changes |
| Sanitize.KeptAudit | llm/agent/schema_sanitize.py:437-448 | the audit value left behind: a dict whenever the input audit was truthy or some cleaned entry is substantial; only cleaned entries; every substantial one; all of them once a non-substantial entry survives; the input value when it was falsy and nothing is substantial |
| Sanitize.CleanCategory | llm/agent/schema_sanitize.py:191-434 | each required category is rebuilt as a non-empty dict of its own shape |
| Sanitize.Whitelist | llm/agent/schema_sanitize.py:188 | exactly the whitelisted keys not holding None are kept, with their values |
| Sanitize.CleanedCategories | llm/agent/schema_sanitize.py:191-434 | every required category is rebuilt |
| Sanitize.DropEmpty | llm/agent/schema_sanitize.py:455 | exactly the whitelisted keys whose value is not None, `{}` or `[]` are kept, unchanged |
| Sanitize.WithCaseId | llm/agent/schema_sanitize.py:451-452 | `case_id` is copied from the input when it has one, and nothing else changes |
| Sanitize.SanitizeRow | llm/agent/schema_sanitize.py:167-455 | the row is sanitized (only whitelisted keys), keeps the source path, and each required category is the one rebuilt from the record; it has a `case_id` only when the input has one, and keeps the input's when that is not None, `{}` or `[]` |
| Sanitize.AssembledCaseId | llm/agent/schema_sanitize.py:188-455 | the whitelist keeps only the input's own `case_id`, the rebuilt categories and the audit step add none, and step 10 copies the input's |
| Sanitize.Rebuilt | llm/agent/schema_sanitize.py:167-434 | every required category is rebuilt as a dict, with the provenance read before the extra keys were mapped |
| Sanitize.Assembled | llm/agent/schema_sanitize.py:437-455 | the final row keeps only whitelisted keys, carries the source path and holds each rebuilt category unchanged |
| SanitizeProps.SanitizedCategory | llm/agent/schema_sanitize.py:167-455 | each required category of the row is the category cleaned from the extra-key-mapped record, with the fields captured from the raw record |
| SanitizeProps.RebuiltCategory | llm/agent/schema_sanitize.py:167-434 | the same, stated of the rebuilt categories before assembly |
| SanitizeProps.SafeStrStable | llm/agent/schema_sanitize.py:38-49 | `_s` of a value `_s` produced gives the same text back |
| SanitizeProps.StoredTextStable | llm/agent/schema_sanitize.py:38-49 | a stored `_s` result read back with `_s` is the same value |
| SanitizeProps.CleanStringsOfClean | llm/agent/schema_sanitize.py:222 | strings that are already clean come out of the list cleaning unchanged |
| SanitizeProps.CleanStringsIdempotent | llm/agent/schema_sanitize.py:222 | cleaning a list of strings twice is cleaning it once |
| SanitizeProps.KeepFilledIdempotent | llm/agent/schema_sanitize.py:200 | filtering the elements with text twice is filtering once |
| SanitizeProps.KeepFilledAppend | llm/agent/schema_sanitize.py:200 | the filter works element by element: filtering a concatenation concatenates the filtered parts |
| SanitizeProps.ListFieldStable | llm/agent/schema_sanitize.py:220-224 | a list field stored once is read back as the same list |
| SanitizeProps.SexOverridesGender | llm/agent/schema_sanitize.py:110-112 | a full-word `sex` in any letter case overrides `gender`; any other `sex` is dropped and `gender` stays |
| SanitizeProps.WeightAliasMoved | llm/agent/schema_sanitize.py:113-115 | `weight_lb` fills an absent `weight_lbs`; an existing one wins |
| SanitizeProps.TemporalAliasesMoved | llm/agent/schema_sanitize.py:120-125 | `reported_ts` and `last_seen_date` fill absent `reported_missing_ts` and `last_seen_ts` with their text; present targets are kept |
| SanitizeProps.SpatialAliasesMoved | llm/agent/schema_sanitize.py:157-162 | `city` and `state` fill absent `last_seen_city` and `last_seen_state`; present ones are kept |
| SanitizeProps.CaptureNothing | llm/agent/schema_sanitize.py:422-424 | a capture loop over keys none of which is present writes nothing |
| SanitizeProps.CapturedOnlyColours | llm/agent/schema_sanitize.py:414-424 | of the eight input fields looked for, only `hair_color` and `eye_color` can be recorded, since the mapping already removed the other six from the dicts the loops read |
| SanitizeProps.CaptureSplit | llm/agent/schema_sanitize.py:422-424 | a capture loop over `a + b` is the loop over `a` followed by the loop over `b` |
| SanitizeProps.AbbreviatedGenderBecomesMale | llm/agent/schema_sanitize.py:202-236 | only the full words count: "F" becomes "male", while "Female" becomes "female" |
| SanitizeProps.DemographicStored | llm/agent/schema_sanitize.py:191-239 | each whitelisted demographic key holds exactly what its field rule produced, and is present exactly when the rule produced something |
| SanitizeProps.TemporalStored | llm/agent/schema_sanitize.py:242-285 | each whitelisted temporal key holds exactly what its field rule produced, and is present exactly when the rule produced something |
| SanitizeProps.SpatialStored | llm/agent/schema_sanitize.py:288-316 | each whitelisted spatial key holds exactly what its field rule produced, and is present exactly when the rule produced something |
| SanitizeProps.OsintStored | llm/agent/schema_sanitize.py:319-368 | each whitelisted narrative key holds exactly what its field rule produced, and is present exactly when the rule produced something |
| SanitizeProps.OutcomeStored | llm/agent/schema_sanitize.py:371-408 | each whitelisted outcome key holds exactly what its field rule produced, and is present exactly when the rule produced something |
| SanitizeProps.DemographicRange | llm/agent/schema_sanitize.py:206-214 | age, height and weight are kept exactly when they parse and lie in 0-120 years, 10-96 inches and 5-600 pounds, and then unchanged |
| SanitizeProps.TemporalDefaults | llm/agent/schema_sanitize.py:253-282 | the sightings list is written only when some sighting survives, and `last_seen_ts` falls back to the clock only when the input has none |
| SanitizeProps.TemporalTimezoneAndElapsed | llm/agent/schema_sanitize.py:244-252 | the time zone defaults to "America/New_York", and the elapsed minutes are kept only as whole numbers that are not negative |
| SanitizeProps.SummaryDefault | llm/agent/schema_sanitize.py:321-365 | the incident summary is the input's text, or "No summary available" |
| SanitizeProps.SeenCoordsBothOrZero | llm/agent/schema_sanitize.py:293-305 | the last-seen coordinates are copied together when both parse and lie in range; otherwise both are 0.0 |
| SanitizeProps.RecoveryBothOrNeither | llm/agent/schema_sanitize.py:388-393 | the recovery coordinates are copied together when both parse and lie in range; otherwise neither is written |
| SanitizeProps.StatusSpellingKept | llm/agent/schema_sanitize.py:372-374 | a known status keeps its own spelling; anything else becomes "ongoing" |
| SanitizeProps.SightingLatitude | llm/agent/schema_sanitize.py:135-145 | a rebuilt sighting keeps its latitude exactly when one parsed and lies in range |
| SanitizeProps.ZeroLatitudeLostOnRerun | llm/agent/schema_sanitize.py:135-145 | a latitude of 0.0 survives the schema pass but not the mapping pass, because `lat or latitude` treats 0.0 as missing, so sanitising a sanitised row drops it |
| Common.Clamp01 | llm/agent/postprocess.py:124 | `max(0.0, min(1.0, x))` lies in [0, 1] and leaves a value already there unchanged |
| Common.CleanStrings | llm/agent/schema_sanitize.py:222 | every non-blank stripped text of an element is in the cleaned list, every entry is one of them, and the list is no longer than the input |
| Common.CleanStringsAppend | llm/agent/schema_sanitize.py:222 | cleaning a concatenated list is cleaning each part, so the elements keep their order |
| Extraction.Category | llm/agent/llm_agent_simple.py:111 | `x.get(k, {}) or {}` gives the dict, or `{}` for a falsy value, and raises for any other value |
| Extraction.TextOr | llm/agent/llm_agent_simple.py:126 | `(v or "")` used as a string succeeds exactly for a string or a falsy value: a non-empty string is itself, and a falsy value gives the fallback |
| Extraction.Items | llm/agent/llm_agent_simple.py:172 | `for x in (v or [])` fails exactly on a truthy number or boolean; a list gives its items and a falsy value nothing |
| Extraction.OnlyStrings | llm/agent/llm_agent_simple.py:172 | exactly the strings of the list are kept |
| Extraction.NonBlankStrings | llm/agent/llm_agent_simple.py:178 | exactly the non-blank strings of the list are kept |
| Extraction.Age | llm/agent/llm_agent_simple.py:120-124 | the age is None or a number below 1000; a number of 1000 or more is taken for a birth year and cleared |
| Extraction.Features | llm/agent/llm_agent_simple.py:132-139 | a features list becomes a string (or None); any other value is kept |
| Extraction.GenderField | llm/agent/llm_agent_simple.py:126-127 | the gender is "male", "female" or None, and is not None exactly when the lower-cased input is a known gender |
| Extraction.DemographicFields | llm/agent/llm_agent_simple.py:117-139 | the demographic holds exactly the fixed keys, each with its rule's value |
| Extraction.CleanDemographic | llm/agent/llm_agent_simple.py:110-144 | the step succeeds exactly when the gender can be read as text; the result is clean and carries `_fulltext` exactly when the input's has content |
| Extraction.Iso | llm/agent/llm_agent_simple.py:149-152 | `iso(s)` is None or a non-empty stripped string, and a non-blank string gives its stripped text |
| Extraction.Minutes | llm/agent/llm_agent_simple.py:156-161 | the minutes are None or a whole number, and a whole number is kept |
| Extraction.CleanTemporal | llm/agent/llm_agent_simple.py:146-162 | the temporal step never raises; the result is clean and each key holds its rule's value |
| Extraction.CleanSpatial | llm/agent/llm_agent_simple.py:164-172 | the spatial step succeeds exactly when `locations_raw` is iterable; the coordinates are cleared and the result is clean |
| Extraction.CleanNarrative | llm/agent/llm_agent_simple.py:174-178 | the narrative step succeeds exactly when the spans are iterable; the summary is kept as given and the result is clean |
| Extraction.CleanOutcome | llm/agent/llm_agent_simple.py:181-183 | the outcome step succeeds exactly when the status can be read as text; the status is the lower-cased known status or "ongoing" |
| Extraction.Confidence | llm/agent/llm_agent_simple.py:189-194 | each confidence lies in [0, 1] |
| Extraction.CleanAudit | llm/agent/llm_agent_simple.py:185-196 | the audit step succeeds exactly when `confidences` is a dict or falsy; the four clamped confidences replace it and the other audit entries are kept |
| Extraction.Build | llm/agent/llm_agent_simple.py:108-197 | an input on which nothing raises gives clean categories |
| Extraction.BuildParts | llm/agent/llm_agent_simple.py:108-197 | the seven values read give clean categories |
| Extraction.SanitizeExtracted | llm/agent/llm_agent_simple.py:99-197 | the function succeeds exactly when no value has the wrong type, and then every category is clean |
| ExtractionProps.GenderFixed | llm/agent/llm_agent_simple.py:126-127 | a clean gender reads back as itself |
| ExtractionProps.DemographicFixpoint | llm/agent/llm_agent_simple.py:110-144 | the demographic step keeps every clean demographic whose `_fulltext`, if any, has content |
| ExtractionProps.TemporalFixpoint | llm/agent/llm_agent_simple.py:146-162 | the temporal step keeps every clean temporal dict |
| ExtractionProps.SpatialFixpoint | llm/agent/llm_agent_simple.py:164-172 | the spatial step keeps every clean spatial dict |
| ExtractionProps.NarrativeFixpoint | llm/agent/llm_agent_simple.py:174-178 | the narrative step keeps every clean narrative dict |
| ExtractionProps.OutcomeFixpoint | llm/agent/llm_agent_simple.py:181-183 | the outcome step keeps every clean outcome |
| ExtractionProps.AuditFixpoint | llm/agent/llm_agent_simple.py:185-196 | the audit step keeps every clean audit |
| ExtractionProps.BuildPartsFixpoint | llm/agent/llm_agent_simple.py:108-197 | rebuilding clean categories gives them back |
| ExtractionProps.SanitizeExtractedFixpoint | llm/agent/llm_agent_simple.py:99-197 | a clean result is returned as it is, provided its `_fulltext`, if any, has content |
| ExtractionProps.SanitizeExtractedIdempotent | llm/agent/llm_agent_simple.py:99-197 | running the function on its own result changes nothing |
| ExtractionProps.CleanDemographicFields | llm/agent/llm_agent_simple.py:117-139 | the rebuilt demographic holds, under each key, the value its rule computes |
| ExtractionProps.CapitalisedGenderLowered | llm/agent/llm_agent_simple.py:126-127 | the gender is compared after lower-casing: "Female" becomes "female" |
| ExtractionProps.BirthYearCleared | llm/agent/llm_agent_simple.py:121-124 | an age of 1000 or more is cleared |
| ExtractionProps.NullTimezoneDefaulted | llm/agent/llm_agent_simple.py:148 | a None time zone is replaced by "America/New_York", since the step uses `or` |
| ExtractionProps.StringLocationsSplit | llm/agent/llm_agent_simple.py:171-172 | `locations_raw` given as one string is iterated character by character, so it becomes the list of its letters |
| ExtractionProps.CapitalisedStatusLowered | llm/agent/llm_agent_simple.py:182-183 | the status is compared after lower-casing: "Found" becomes "found" |
| Tools.Parts | llm/agent/tools.py:149 | splitting the query always gives at least one part |
| Tools.Geocode | llm/agent/tools.py:132-174 | the result keeps the query as `raw` and "nominatim" as the provider; it has both coordinates or neither, with confidence 0.9 when it has them and 0.0 otherwise |
| Tools.PlainQueryUsesBias | llm/agent/tools.py:149-151 | a query without a comma names its stripped self as the city and the bias as the state |
| Tools.CommaQueryNamesState | llm/agent/tools.py:149-151 | for "City, State" the stripped text before the first comma is the city and the stripped second part is the state; the bias is unused |
| Tools.CachedQuery | llm/agent/tools.py:154 | a query whose lookup is cached is answered from the cache, which stays as it was |
| Tools.DistinctSpec | llm/agent/tools.py:187-192 | the distinct places have no repeats and no empty place, and are exactly the non-empty places of the input |
| Tools.GeocodeAll | llm/agent/tools.py:188-192 | one result per query, in order, each keeping its query |
| Tools.DistinctHead | llm/agent/tools.py:187-192 | the first distinct place is the first place, when that is not empty |
| Tools.GeocodeAllHead | llm/agent/tools.py:188-192 | the first result is the lookup of the first query against the starting cache |
| Tools.GeocodeBatch | llm/agent/tools.py:177-193 | one lookup per distinct non-empty place, in the order of first occurrence |
| Tools.Insert | llm/agent/tools.py:228 | inserting an error into a path-sorted list keeps it sorted and adds exactly that error |
| Tools.SortByPath | llm/agent/tools.py:228 | the errors come out sorted by path, as a permutation of the input |
| Tools.ShowPath | llm/agent/tools.py:230 | an empty path is shown as `['root']` |
| Tools.Shown | llm/agent/tools.py:222-224 | the validator sees the row without `source_path` and `audit`, and every other key as it was |
| Tools.ValidateRow | llm/agent/tools.py:196-235 | a validator crash gives the single "Validation error: …" entry; otherwise the errors in path order, each as "{path}: {message}" |
| Tools.ValidationIgnoresPathAndAudit | llm/agent/tools.py:222-224 | the row's source path and audit never affect the verdict |
| Agent.RepairErrors | llm/agent/llm_agent_simple.py:70 | the repair prompt lists the first ten errors, in order, or all of them when there are fewer |
| Agent.Repair | llm/agent/llm_agent_simple.py:41-96 | the repair gives a row exactly when the model replies with a dict, and that row carries the preserved source path (the row's own, else the document's) |
| Agent.FirstAccepted | llm/agent/llm_agent_simple.py:367-375 | the attempt found is the first whose reply is a non-empty dict, and none is found when no attempt's reply is |
| Agent.Extracted | llm/agent/llm_agent_simple.py:366-381 | an error is recorded only when there was an attempt, the last attempt raised, and the data was cleared to None |
| Agent.Attempts | llm/agent/llm_agent_simple.py:367 | no more attempts are made than `max_retries` |
| Agent.ExtractWithRetries | llm/agent/llm_agent_simple.py:366-381 | the retry loop leaves the first accepted reply, else the last attempt's reply, else None with the error recorded, as stated without the loop; an error means every attempt was made |
| Agent.Padded | llm/agent/llm_agent_simple.py:397 | `{n:06d}` is at least six decimal digits |
| Agent.Zeros | llm/agent/llm_agent_simple.py:397 | the padding is the right number of zeros |
| Agent.CaseId | llm/agent/llm_agent_simple.py:395-397 | `GRD-{year}-{n:06d}` has the length of its parts |
| Agent.LeadingZeros | llm/agent/llm_agent_simple.py:397 | zero padding does not change the value of a digit string |
| Agent.ZerosValue | llm/agent/llm_agent_simple.py:397 | a run of zeros is worth nothing |
| Agent.CaseIdRoundTrip | llm/agent/llm_agent_simple.py:395-397 | the case identifier reads back as the number it was made from |
| Agent.CaseIdInjective | llm/agent/llm_agent_simple.py:395-397 | different counts give different case identifiers |
| Agent.FillTimestamp | llm/agent/llm_agent_simple.py:413-414 | a falsy `last_seen_ts` becomes the clock reading and a set one is left alone; no other key changes |
| Agent.FillGender | llm/agent/llm_agent_simple.py:417-418 | a falsy gender becomes "male" and a set one is left alone; no other key changes |
| Agent.FillCoords | llm/agent/llm_agent_simple.py:422-425 | a missing or None coordinate becomes 0.0, and a set one, even 0, is left alone |
| Agent.SynthesiseLocation | llm/agent/llm_agent_simple.py:428-436 | an empty location is made from the city and the state, the city alone or the state alone, whichever are set; the location ends truthy exactly when one of the three was |
| Agent.Queries | llm/agent/llm_agent_simple.py:441-453 | the location, when set, is the first query, and every item of a `locations_raw` list (or the string itself) is queried |
| Agent.BadQuery | llm/agent/llm_agent_simple.py:456-458 | the batch raises at the first truthy query that is not a string, and at no earlier one |
| Agent.Places | llm/agent/llm_agent_simple.py:458 | each query is passed as its string, and a falsy one as "", which the batch skips |
| Agent.BatchFirst | llm/agent/llm_agent_simple.py:456-466 | coordinates are returned only when no query made the batch raise |
| Agent.FirstQueryLocates | llm/agent/llm_agent_simple.py:458-463 | when every query is a string and the first names a place, the coordinates kept are those the lookup of that place gives |
| Agent.GeocodeStep | llm/agent/llm_agent_simple.py:461-466 | found coordinates replace `last_seen_lat` and `last_seen_lon`; a miss or an exception leaves the spatial dict as it was |
| Agent.SummaryStep | llm/agent/llm_agent_simple.py:486-502 | the summary ends truthy: the model's summary when it gave one, otherwise the old one or "No summary available"; the spans are dropped and nothing else changes |
| AgentFlow.RecordDump | llm/agent/llm_agent_simple.py:514 | `GuardianRow(**row)` succeeds exactly on an acceptable row, and the dump has exactly the model's fields |
| AgentFlow.DumpRoundTrip | llm/agent/llm_agent_simple.py:514 | a dumped record is accepted again and dumps to itself |
| AgentFlow.Check | llm/agent/llm_agent_simple.py:514-515 | validation gives messages exactly when the row can be built |
| AgentFlow.CoerceStep | llm/agent/llm_agent_simple.py:506 | `coerce_guardian` succeeds exactly on rows whose categories are dicts; it drops the audit and keeps the source path |
| AgentFlow.SanitizeStep | llm/agent/llm_agent_simple.py:508 | the sanitiser succeeds exactly inside its domain, sets the document's path, returns no `case` bucket, and returns a `case_id` only when its input had one |
| AgentFlow.CleanRow | llm/agent/llm_agent_simple.py:506-508 | a clean row carries the document's path and no `case` bucket |
| AgentFlow.ValidateStep | llm/agent/llm_agent_simple.py:511-558 | a row passes exactly when no error was logged, and then validates; at most one repair is made, exactly when the first check reported errors; a failure logs exactly one entry; a row without a `case` bucket passes without one |
| AgentFlow.HarmonizeStep | llm/agent/llm_agent_simple.py:570 | harmonisation succeeds exactly on rows of its shape, leaves a non-empty row bucketed, and leaves no top-level `case_id` when the case bucket had none |
| AgentFlow.EnrichStep | llm/agent/llm_agent_simple.py:571 | enrichment succeeds exactly on rows of its shape and adds no top-level key but the category dicts it writes, so no `case_id` |
| AgentFlow.Renormalise | llm/agent/llm_agent_simple.py:562-579 | a normalised row carries the document's path and no `_fulltext`, and has no `case_id` when the validated row's case bucket had none |
| AgentFlow.LegacyNormalisers | llm/agent/llm_agent_simple.py:570-571 | harmonisation and enrichment leave no top-level `case_id` when the case bucket had none |
| AgentFlow.Resanitise | llm/agent/llm_agent_simple.py:575-579 | the re-sanitised row carries the document's path and no `_fulltext`, and has a `case_id` only when its input had one |
| AgentFlow.Carried | llm/agent/llm_agent_simple.py:564 | the shallow copy shares category dicts: every key of the clean row stays, a dict category becomes the edited dict under that key, and every other value is kept |
| AgentFlow.MappedInPlace | llm/agent/schema_sanitize.py:96-165 | `_map_extra_keys` edits exactly the truthy mapped categories in place, to what the mapping gives them; every other entry is kept |
| AgentFlow.AuditedInPlace | llm/agent/schema_sanitize.py:437-448 | the sanitiser clamps a truthy audit in place and leaves a falsy one and every other entry alone |
| AgentFlow.ProvenanceInPlace | llm/agent/schema_sanitize.py:410-434 | step 8 rewrites a truthy provenance dict in place to the cleaned provenance, and leaves a falsy one and every other entry alone |
| AgentFlow.SanitizerEdits | llm/agent/schema_sanitize.py:181-434 | once steps 3 to 8 return, a truthy provenance shared with the caller holds step 8's cleaned provenance, with the captured fields merged into `original_fields` and `sources` defaulted to `[]`; otherwise the provenance entry is left as it was; no key is added or removed |
| AgentFlow.SharedProvenance | llm/agent/schema_sanitize.py:410-434 | a truthy provenance dict shared with the caller ends up equal to the provenance of the row the sanitiser returns |
| AgentFlow.Edited | llm/agent/llm_agent_simple.py:564-575 | the clean row after the normalisers ran on its copy, including the sanitiser's in-place edits of its mapped categories, its provenance and its audit, keeps its keys and every non-dict value, and each dict category stays a dict |
| AgentFlow.EditedDumpable | llm/agent/llm_agent_simple.py:589 | the fallback `GuardianRow(**clean_row)` still builds after those edits, with the same source path and case id |
| AgentFlow.Normalise | llm/agent/llm_agent_simple.py:561-592 | the row written has exactly the model's fields and keeps the document's path. When the clean row's case bucket holds no `case_id` (always, for a sanitised row), it is the dump of the clean row as the normalisers left it through the shared category dicts: the normalised row itself is never written. In general it either validates or is that dump, and it validates whenever the normalisers left the clean row as it was |
| AgentFlow.NoCaseIdNoRow | llm/agent/protocols.py:50-53 | a row without `case_id` is refused by `GuardianRow(**row)` |
| AgentFlow.RestoredRowBuilds | llm/agent/llm_agent_simple.py:575-580 | with the validated row's `case_id` put back, every row the sanitiser returns with a dict or no audit is accepted by `GuardianRow(**row)`, so it reaches the second validation |
| AgentDoc.Drafted | llm/agent/llm_agent_simple.py:392-502 | the draft has exactly the model's fields, the document's path and the case id, a truthy timestamp, gender and summary, no `locations_raw` or spans, and the extraction's provenance, audit and outcome |
| AgentDoc.Locate | llm/agent/llm_agent_simple.py:441-466 | no query means no call and no coordinates; coordinates come back only when no query made the batch raise |
| AgentDoc.ProcessExtraction | llm/agent/llm_agent_simple.py:387-606 | a written row has the model's fields and the document's path, is logged only with a failed summary, and is the dump of a validated row without a case bucket as the normalisers left it; a dropped row logs one or two entries |
| AgentDoc.NormaliseAndWrite | llm/agent/llm_agent_simple.py:561-603 | a validated row is written after normalisation, with the model's fields, the document's path when the row carries it, and no new log entry; without a case bucket it is the dump of the validated row as the normalisers left it; a failed write logs one "Write failed" entry and drops the row |
| AgentDoc.Written | llm/agent/llm_agent_simple.py:593-603 | the row is kept exactly when the write succeeds, unchanged and with no new log entry; a failed write logs one "Write failed" entry for the document; the cache is untouched |
| AgentDoc.ProcessDoc | llm/agent/llm_agent_simple.py:256-610 | a document without text logs "No text extracted"; a failed extraction logs its error; a document is dropped silently only when the extraction came back empty; a written row has the model's fields and carries the document's path |
| AgentRun.Take | llm/agent/llm_agent_simple.py:616 | `errors[:n]` is a prefix of at most n entries |
| AgentRun.RunMessage | llm/agent/llm_agent_simple.py:613-620 | the message is None exactly when records were written and no error was logged |
| AgentRun.Paths | llm/agent/llm_agent_simple.py:256 | the paths are the documents' paths, in order |
| AgentRun.NoTextKept | llm/agent/llm_agent_simple.py:262-264 | every "No text extracted" entry stays in the log as later documents add theirs |
| AgentRun.PathKept | llm/agent/llm_agent_simple.py:399-400 | every written record carries one of the documents' paths |
| AgentRun.RunAgent | llm/agent/llm_agent_simple.py:200-620 | no documents gives failure with "No PDF files found"; success exactly when a record was written; each written record has the model's fields and a document's path; every document without text is logged |
| JsonExtract.TrimLeft | llm/agent/llm_client.py:253 | stripping backticks from the front removes a run of them and nothing else, leaving a text that does not start with one |
| JsonExtract.TrimRight | llm/agent/llm_client.py:253 | stripping backticks from the back removes a run of them and nothing else, leaving a text that does not end with one |
| JsonExtract.StripTicks | llm/agent/llm_client.py:253 | `t.strip("`")` neither starts nor ends with a backtick |
| JsonExtract.DropTag | llm/agent/llm_client.py:255-256 | the language tag is everything up to and including the first newline; without a newline nothing is dropped |
| JsonExtract.Unfenced | llm/agent/llm_client.py:249-256 | the scan reads the stripped reply, or, when it opens a fence, the reply without backticks and without the tag line |
| JsonExtract.TrimLeftTicks | llm/agent/llm_client.py:253 | a run of backticks in front of a text that does not start with one is stripped exactly |
| JsonExtract.TrimRightTicks | llm/agent/llm_client.py:253 | a run of backticks after a text that does not end with one is stripped exactly |
| JsonExtract.TicksAround | llm/agent/llm_client.py:252-253 | the fence backticks around a text are stripped exactly |
| JsonExtract.TagDropped | llm/agent/llm_client.py:255-256 | the tag line of a fence is dropped and the body kept |
| JsonExtract.FencedBody | llm/agent/llm_client.py:249-256 | a reply fenced as "```tag", newline, body, "```" is read as the body |
| JsonExtract.Scan | llm/agent/llm_client.py:259-269 | the brace loop finds the span from the first opening brace at depth 0 to the first brace that brings the depth back to 0, or reports that no object closes |
| JsonExtract.SpanUnique | llm/agent/llm_client.py:259-269 | the span is determined by the text: two spans of the same text are the same |
| JsonExtract.NoSpan | llm/agent/llm_client.py:271 | when no object closes there is no span at all |
| JsonExtract.OnlySpan | llm/agent/llm_client.py:259-269 | a span found is the only span of the text |
| JsonExtract.DepthPositive | llm/agent/llm_client.py:260-269 | inside the span the brace depth never falls back to 0 |
| JsonExtract.DepthSlice | llm/agent/llm_client.py:274 | the depths inside the slice are the depths of the text, shifted |
| JsonExtract.SpanBalanced | llm/agent/llm_client.py:274 | the slice handed to `json.loads` opens with `{`, closes with `}`, is balanced, and no proper prefix of it is |
| JsonExtract.ParseObject | llm/agent/llm_client.py:276-284 | the slice is kept exactly when `json.loads` accepts it and gives an object; a non-object raises "Top-level JSON must be an object" |
| JsonExtract.ScanResult | llm/agent/llm_client.py:271-284 | without a closing brace the result is the "No top-level JSON object" error; otherwise it is the parse of the span |
| JsonExtract.ExtractJson | llm/agent/llm_client.py:235-284 | `_extract_json` raises "No top-level JSON object" when nothing closes and otherwise returns the parse of the unique balanced span of the unfenced reply |
| TextClean.LigatureText | llm/agent/text_clean.py:13-16 | each key of `LIGATURES` maps to one to three characters, none of them a key |
| TextClean.Expand | llm/agent/text_clean.py:29 | a character that is not a key is kept as it is |
| TextClean.ReplaceLigatures | llm/agent/text_clean.py:20-29 | no ligature or dash key survives the replacement, text without one is unchanged, and nothing gets shorter |
| TextClean.NoLigatureJoin | llm/agent/text_clean.py:29 | ligature-free pieces join into ligature-free text |
| TextClean.LigaturesSplit | llm/agent/text_clean.py:29 | the replacement works character by character: it commutes with concatenation |
| TextClean.LigaturesIdempotent | llm/agent/text_clean.py:20-29 | replacing twice is replacing once |
| TextClean.Dehyphenate | llm/agent/text_clean.py:32-44 | joining split words never lengthens the text |
| TextClean.NoHyphenUnchanged | llm/agent/text_clean.py:44 | text without a hyphen is left alone |
| TextClean.JoinsSplitWord | llm/agent/text_clean.py:41-44 | a word split by a hyphen, whitespace and a newline is joined: the hyphen and the whitespace go, both letters stay |
| TextClean.SkipSpaceExact | llm/agent/text_clean.py:44 | the `\s*` after the newline ends at the first non-whitespace character |
| TextClean.ChainedBreakKept | llm/agent/text_clean.py:44 | the substitution does not overlap matches: in "a-\nb-\nc" only the first break is joined |
| TextClean.SplitWordExample | llm/agent/text_clean.py:41-44 | "in-\nto" becomes "into" |
| TextClean.SnocNoDoubleSpace | llm/agent/text_clean.py:56 | appending keeps the absence of two spaces in a row unless two spaces meet |
| TextClean.SnocNoTripleNewline | llm/agent/text_clean.py:57 | appending keeps the absence of three newlines in a row unless three meet |
| TextClean.Squeeze | llm/agent/text_clean.py:56 | after squeezing there is no tab and no two spaces in a row, and the text ends in a space exactly when it ended in a blank |
| TextClean.SqueezeKeepsText | llm/agent/text_clean.py:56 | squeezing changes only blanks: the other characters stay, in order |
| TextClean.SqueezeFixed | llm/agent/text_clean.py:56 | text with no tab and no double space is its own squeeze |
| TextClean.Cap | llm/agent/text_clean.py:57 | after capping there are no three newlines in a row and the text's last two characters are kept |
| TextClean.CapKeepsText | llm/agent/text_clean.py:57 | capping removes only newlines: the other characters stay, in order |
| TextClean.CapKeepsBlanks | llm/agent/text_clean.py:56-57 | capping after squeezing brings back neither a tab nor a double space |
| TextClean.CapFixed | llm/agent/text_clean.py:57 | text without three newlines in a row is its own cap |
| TextClean.SliceKeeps | llm/agent/text_clean.py:58 | stripping keeps the absence of tabs, double spaces and triple newlines |
| TextClean.CollapseWs | llm/agent/text_clean.py:47-58 | the result of `_collapse_ws` is collapsed, and collapsed text is left alone |
| TextClean.CollapseFacts | llm/agent/text_clean.py:56-58 | the three steps give collapsed text and leave collapsed text alone |
| TextClean.StripKeeps | llm/agent/text_clean.py:58 | stripping squeezed and capped text gives collapsed text |
| TextClean.CollapsedFixed | llm/agent/text_clean.py:56-58 | collapsed text passes the three steps unchanged |
| TextClean.CollapseFixedPoints | llm/agent/text_clean.py:47-58 | the texts `_collapse_ws` leaves alone are exactly the collapsed ones, and collapsing twice is collapsing once |
| TextClean.BreakIndex | llm/agent/text_clean.py:77 | the next line boundary is the first one at or after the position |
| TextClean.SplitLines | llm/agent/text_clean.py:77 | `splitlines()` gives no line for empty text and no line holds a boundary |
| TextClean.SplitLinesJoin | llm/agent/text_clean.py:93-99 | text split at `\n` and joined with `\n` comes back unchanged when it does not end in a newline |
| TextClean.Clipped | llm/agent/text_clean.py:80-81 | `[:120]` is a prefix of at most 120 characters |
| TextClean.NonBlankLines | llm/agent/text_clean.py:77 | the stripped non-blank lines are non-empty and no more than the lines |
| TextClean.Edge | llm/agent/text_clean.py:76-81 | a page's first or last non-blank line, when there is one, is non-empty |
| TextClean.Count | llm/agent/text_clean.py:86-87 | no line is counted on more pages than there are |
| TextClean.BlankNeverCounted | llm/agent/text_clean.py:78-79 | blank pages are never counted towards a header or footer |
| TextClean.Trimmed | llm/agent/text_clean.py:92-99 | a page loses at most its raw first line, when it is a common header, and then at most its last line; what is left is a contiguous run of its lines |
| TextClean.StripHeadersFooters | llm/agent/text_clean.py:61-101 | no pages gives ""; all-blank pages are joined unchanged; otherwise one cleaned page per page, each a run of the page's lines, joined by blank lines |
| TextClean.RepeatedHeaderDropped | llm/agent/text_clean.py:86-96 | a line that opens every page is dropped from every page |
| TextClean.AllOpenWith | llm/agent/text_clean.py:86-88 | a line opening every page is counted on every page, so it is over 60% |
| TextClean.BlankFirstLineKeepsHeader | llm/agent/text_clean.py:77-96 | a page whose raw first line is blank keeps its header, since only the raw first line is ever removed |
| TextClean.CleanPdfText | llm/agent/text_clean.py:104-138 | the cleaned text is always collapsed |
| TextClean.PagesOverrideRaw | llm/agent/text_clean.py:120-127 | once page texts are given the raw text plays no part; a single page is used as it is, without normalisation or ligature replacement |
| FixDates.NormDate | fix_dates.py:48-84 | `norm_date` gives None exactly when no format accepts the text, and otherwise the rendering of what the first accepting format read |
| FixDates.NormDateReadsBack | fix_dates.py:78-81 | from year 1000 on, the rendered date reads back as the date parsed |
| FixDates.DocumentedDates | fix_dates.py:69-73 | the two documented renderings are "2025-09-08" and "1977-02-07" |
| FixDates.NormDateWordyExample | fix_dates.py:70-71 | "September 8, 2025" becomes "2025-09-08" |
| FixDates.NormDateSlashExample | fix_dates.py:72-73 | "02/07/1977" becomes "1977-02-07" through the third format |
| FixDates.ScalarText | fix_dates.py:130-131 | a string, number or bool contributes text and a string contributes itself |
| FixDates.ValueTexts | fix_dates.py:130-131 | every string value of a searched dict is in the texts |
| FixDates.Texts | fix_dates.py:127-133 | a string field contributes itself and a field that is neither dict nor string contributes nothing |
| FixDates.BlobReadsSearchedFields | fix_dates.py:123-136 | the search text depends only on `narrative_osint`, `provenance` and `outcome` |
| FixDates.DateText | fix_dates.py:139-141 | the wordy pattern's date wins whenever it matches; the slash pattern is consulted only otherwise |
| FixDates.FoundDate | fix_dates.py:139-143 | a date found is `norm_date` of the matched text |
| FixDates.WordyFailureBlocksSlash | fix_dates.py:139-143 | a wordy match that `norm_date` cannot read leaves the record without a date, even when a readable slash date is present |
| FixDates.Temporal | fix_dates.py:118-122 | `o.get("temporal") or {}` raises later exactly when the value is truthy and not a dict |
| FixDates.NewTemporal | fix_dates.py:122-143 | a truthy `last_seen_ts` or no date found leaves the temporal dict alone; otherwise only `last_seen_ts` is set |
| FixDates.FixRecord | fix_dates.py:112-146 | the record is written exactly when its temporal value does not raise; it has no `_fulltext` and its temporal is a dict |
| FixDates.KeepsTimestamp | fix_dates.py:122 | a truthy `last_seen_ts` is never changed: only `_fulltext` goes |
| FixDates.FixedIsFixpoint | fix_dates.py:112-146 | a record already fixed is its own fix |
| FixDates.FixIdempotent | fix_dates.py:112-146 | fixing a fixed record changes nothing |
| FixDates.FixLine | fix_dates.py:110-153 | a line gives a record exactly when it parses as a dict whose temporal value does not raise |
| FixDates.KeptStep | fix_dates.py:109-146 | writing a line's record keeps the records of earlier lines |
| FixDates.FixLines | fix_dates.py:86-153 | the records written are exactly the fixed records of the good lines, in order; none has `_fulltext` and each has a temporal dict |
| Metrics.FieldsCountRemove | tests/metrics/metrics_calculator.py:268-278 | the count of a dict does not depend on the order its keys are visited |
| Metrics.FieldsCount | tests/metrics/metrics_calculator.py:268-278 | every entry's contribution is part of the dict's count, and the count is zero exactly when no entry contributes |
| Metrics.FieldsCountSame | tests/metrics/metrics_calculator.py:268-278 | dicts whose entries count the same have the same count |
| Metrics.SkippedKeyIgnored | tests/metrics/metrics_calculator.py:270-272 | a key starting with "_", `source_path` or `audit` never changes the count, whatever it holds |
| Metrics.SingleField | tests/metrics/metrics_calculator.py:274-285 | a present scalar field counts one and a present container counts its own non-empty fields |
| Metrics.ValuesMatchReflexive | tests/metrics/metrics_calculator.py:332-358 | every value matches itself |
| Metrics.MatchesCountRemove | tests/metrics/metrics_calculator.py:303-327 | the matching count of a dict does not depend on the order its keys are visited |
| Metrics.MatchesCount | tests/metrics/metrics_calculator.py:303-327 | every golden entry's match is part of the count, and the count is zero exactly when no golden entry matches |
| Metrics.MatchBound | tests/metrics/metrics_calculator.py:290-329 | without lists in the golden record, no more fields match than it counts |
| Metrics.MatchesBound | tests/metrics/metrics_calculator.py:303-327 | the same bound, key by key |
| Metrics.SelfMatch | tests/metrics/metrics_calculator.py:290-329 | a record without lists matches itself in every field it counts |
| Metrics.SelfMatches | tests/metrics/metrics_calculator.py:303-327 | the same, key by key |
| Metrics.Completeness | tests/metrics/metrics_calculator.py:11-35 | completeness is 0.0 for an empty golden record, 1.0 when it has no countable field, and never negative |
| Metrics.Accuracy | tests/metrics/metrics_calculator.py:38-62 | accuracy is 0.0 for an empty generated record, 1.0 when it has no countable field, and never negative |
| Metrics.CompletenessBounded | tests/metrics/metrics_calculator.py:11-35 | with no list in the golden record, completeness lies between 0 and 1 |
| Metrics.DivAtMostOne | tests/metrics/metrics_calculator.py:35 | a count over a larger total is at most 1 |
| Metrics.SelfScoresOne | tests/metrics/metrics_calculator.py:11-62 | a non-empty record without lists scores 1 against itself in both completeness and accuracy |
| Metrics.ListMatchesOnce | tests/metrics/metrics_calculator.py:279-285 | a golden list counts each item but matches once, so a record with a two-name list scores 0.5 against itself |
| Metrics.CompletenessAboveOne | tests/metrics/metrics_calculator.py:319-323 | a list of empty items counts nothing but still matches once, so completeness can reach 2 |
| Metrics.F1 | tests/metrics/metrics_calculator.py:65-77 | F1 is 0.0 when both scores are 0 and otherwise lies between the two scores |
| Metrics.HarmonicBetween | tests/metrics/metrics_calculator.py:77 | the harmonic mean lies between its two arguments |
| Metrics.DivBetween | tests/metrics/metrics_calculator.py:77 | dividing bounds by a positive total keeps them |
| Metrics.F1Symmetric | tests/metrics/metrics_calculator.py:65-77 | F1 is symmetric, and the F1 of two equal scores is that score |
| Metrics.Passed | tests/metrics/metrics_calculator.py:96 | no more error lists are empty than there are |
| Metrics.ComplianceRate | tests/metrics/metrics_calculator.py:80-97 | the rate is 0.0 without records, never negative, and at most 1 when there are no more results than records |
| Metrics.ComplianceExample | tests/metrics/test_metrics.py:77-85 | three records with the second in error give 2/3 |
| Metrics.ComplianceAboveOne | tests/metrics/metrics_calculator.py:96-97 | the rate divides by the records, so more results than records can push it to 2 |
| Metrics.ComplianceOverResults | tests/metrics/metrics_calculator.py:80-97 | the rate over the results lies in [0, 1] for every input and is 1 when every result is empty |
| Metrics.ComplianceOverResultsAgrees | tests/metrics/metrics_calculator.py:92-97 | with one result per record it equals the code's rate |
| Metrics.Repaired | tests/metrics/metrics_calculator.py:114 | the repaired count is none exactly when no count is positive and all exactly when every count is |
| Metrics.RepairRate | tests/metrics/metrics_calculator.py:100-115 | the rate is 0.0 for no records, lies in [0, 1], is 1 exactly when every record was repaired and 0 exactly when none was |
| Metrics.RatioFacts | tests/metrics/metrics_calculator.py:115 | a count over a positive total lies in [0, 1], is 1 exactly when they are equal and 0 exactly when the count is |
| Metrics.CacheHitRate | tests/metrics/metrics_calculator.py:201-219 | hits over hits plus misses, each 0 when absent; 0.0 with no lookups, and 1 exactly when there was no miss |
| Metrics.UsedOcr | tests/metrics/metrics_calculator.py:194-196 | a record counts as OCR when its provenance says "ocr" or its text starts with "OCR"; the reads raise exactly when the provenance is not a dict or the text, when read, is not a string |
| Metrics.OcrCount | tests/metrics/metrics_calculator.py:194-196 | the count succeeds exactly when every record can be read, and is at most the number of records |
| Metrics.OcrFallbackRate | tests/metrics/metrics_calculator.py:180-198 | the rate is 0.0 without records, lies in [0, 1], and fails exactly when a record cannot be read |
| Osm.Mod360 | scripts/osm_import.py:68 | Python's `% 360.0` lies in [0, 360) for negative bearings too |
| Osm.Mod360Unique | scripts/osm_import.py:68 | the remainder is the unique value in [0, 360) that differs from the bearing by whole turns |
| Osm.BearingToCardinal | scripts/osm_import.py:64-76 | no bearing gives None; otherwise NB for [315, 360) and [0, 45), EB for [45, 135), SB for [135, 225), WB for the rest, each an if-and-only-if |
| Osm.CardinalPeriodic | scripts/osm_import.py:68 | whole turns do not change the quadrant |
| Osm.CardinalExamples | scripts/osm_import.py:64-76 | -90 is WB, 359.5 is NB and 90 is EB |
| Osm.Dashes | scripts/osm_import.py:90 | the en and em dashes become hyphens, character by character |
| Osm.Squash | scripts/osm_import.py:91 | collapsing whitespace never lengthens the text, leaves only single plain spaces, adds no other character and keeps a non-space first and last character |
| Osm.SquashNoSpace | scripts/osm_import.py:91 | text without whitespace is left alone |
| Osm.Normalize | scripts/osm_import.py:90-91 | the token is no longer than before, single-spaced, has no lower-case ASCII letter and no en or em dash, and neither starts nor ends with whitespace |
| Osm.NormalizeIdempotent | scripts/osm_import.py:90-91 | normalising twice is normalising once |
| Osm.FindWord | scripts/osm_import.py:95 | the keyword is found exactly when it occurs as a whole word |
| Osm.RemoveWord | scripts/osm_import.py:97 | removing the keyword never lengthens the text |
| Osm.TakeBranch | scripts/osm_import.py:93-98 | the branch is one of the table's names or "None", and "None" leaves the text unchanged |
| Osm.MatchRoute | scripts/osm_import.py:100-110 | a match yields a non-empty run of digits |
| Osm.ParseRef | scripts/osm_import.py:85-112 | the system is one of the four with its own signing, the branch is a table name or "None", and the number is digits, empty exactly for "Unknown" |
| Osm.CorridorCodes | scripts/osm_import.py:141-150 | no code for an empty system or number or an unmapped system; otherwise exactly one, "PREFIX-number", followed by the quadrant when there is a bearing |
| Osm.NormalizePlain | scripts/osm_import.py:90-91 | normalising plain upper-case text changes nothing |
| Osm.StripPlain | scripts/osm_import.py:90 | text without whitespace strips to itself |
| Osm.NoBranchIn | scripts/osm_import.py:95 | a code made of a short prefix, a hyphen and digits contains no branch keyword |
| Osm.ThreeNotLetters | scripts/osm_import.py:95 | any three neighbouring characters of such a code include a non-letter |
| Osm.NoBranchWord | scripts/osm_import.py:93-98 | such a code has no branch and is left as it is |
| Osm.CodeIsPlain | scripts/osm_import.py:149-150 | a corridor code is already normalised text |
| Osm.MatchOwnPrefix | scripts/osm_import.py:100-110 | a code matches its own prefix and yields its number |
| Osm.CodeUntouched | scripts/osm_import.py:90-98 | normalising a code and looking for a branch leaves it unchanged |
| Osm.CorridorCodeParses | scripts/osm_import.py:85-150 | a corridor code without a quadrant parses back to the route it was built from |
| Osm.SrIsPrimary | scripts/osm_import.py:108-110 | "SR-n" reads as a Primary Highway with VA signing |
| Osm.OtherPrefix | scripts/osm_import.py:100-110 | a token whose first letter differs from the prefix does not match it |
| Osm.Primary | scripts/osm_import.py:233-243 | the chosen route ranks at least as high as every token, is "Unknown" exactly when every token ranks 0, and otherwise is one of the tokens |
| Osm.PrimaryIsFirstBest | scripts/osm_import.py:238-243 | the chosen route is the first token of the highest rank |
| Osm.RefTokens | scripts/osm_import.py:237 | splitting at semicolons, vertical bars, slashes and commas gives at least one piece and no piece holds a separator |
| Osm.NoSepCons | scripts/osm_import.py:237 | a piece without separators stays one after a non-separator is put in front |
| Osm.RefTokensJoin | scripts/osm_import.py:237 | a ref split at `;` and joined back with `;` is unchanged |
| Osm.ParseAll | scripts/osm_import.py:238-239 | each token is parsed, in order |
| Osm.Designation | scripts/osm_import.py:233-247 | a falsy ref gives no route and no code; a route gives exactly one code |
| Osm.Pos | scripts/osm_import.py:229-230 | the position found is the first occurrence |
| Osm.DedupFrom | scripts/osm_import.py:229-230 | the kept names are distinct and are exactly the names not already seen |
| Osm.Dedup | scripts/osm_import.py:228-230 | the de-duplicated names are distinct and are exactly the names collected |
| Osm.PosTail | scripts/osm_import.py:229-230 | a name of the tail other than the head sits one further on in the whole list |
| Osm.DedupOrder | scripts/osm_import.py:228-230 | the kept names appear in the order of their first occurrences |
| Osm.DedupDistinct | scripts/osm_import.py:229-230 | a list without repeats is kept as it is |
| Osm.NamesOf | scripts/osm_import.py:221-226 | None contributes nothing and a non-list contributes its own text |
| Osm.TruthyTexts | scripts/osm_import.py:224 | every name taken from a list is the text of a truthy item |
| Osm.CollectNames | scripts/osm_import.py:211-226 | every name collected comes from one of the name attributes |
| Osm.LocalNames | scripts/osm_import.py:210-230 | `localNames` are distinct, are exactly the names collected, and each comes from one of the six attributes |
| Osm.AllowedDirections | scripts/osm_import.py:259-264 | a direction is allowed exactly when the edge is one-way and has a bearing, and then only one |
| Osm.DirectionMatchesCorridor | scripts/osm_import.py:246-264 | on a one-way mapped route the allowed direction is the quadrant the corridor code ends with |
| Osm.SpacedTokenNormal | scripts/osm_import.py:90-91 | "I BUS 95" is already normalised |
| Osm.SpacedTokenBranch | scripts/osm_import.py:95-97 | removing "BUS" from "I BUS 95" leaves "I  95" |
| Osm.BranchInsideLosesRoute | scripts/osm_import.py:85-112 | "I BUS 95" reads as an unknown route with a Business branch, because the number no longer matches |
| Osm.DoubleSpaceNoRoute | scripts/osm_import.py:100-110 | "I  95" matches none of the prefixes |
| Transport.Insert | va_transport_extractor.py:209 | inserting adds exactly the one item |
| Transport.InsertSorted | va_transport_extractor.py:209 | inserting into a sorted list keeps it sorted |
| Transport.Sort | va_transport_extractor.py:209 | `sorted` gives the same items, as a multiset, in ascending order |
| Transport.Union | va_transport_extractor.py:203-204 | an item is in a category's union exactly when some PDF found it there |
| Transport.ExtractFromFolder | va_transport_extractor.py:184-209 | every category is present, each strictly ascending and holding exactly the items some PDF found |
| Transport.SortedUnion | va_transport_extractor.py:209 | the sorted list of a union is strictly ascending and holds exactly its items |
| Transport.FilterIn | va_transport_extractor.py:228-231 | the filtered items are exactly the listed items in the network, in order |
| Transport.CityMatchSpec | va_transport_extractor.py:238-239 | a city is found exactly when one of the region's cities occurs in the item, ignoring case |
| Transport.FirstCityRegion | va_transport_extractor.py:237-244 | the region found is the first, in declaration order, whose city the item names, and none is found only when no region's city is named |
| Transport.HomeIsFirstCity | va_transport_extractor.py:235-244 | a named road goes to the first region whose city it names |
| Transport.HomeHashed | va_transport_extractor.py:246-250 | a road naming no city goes to the region `abs(hash(item)) % 8` selects |
| Transport.HomedIn | va_transport_extractor.py:234-250 | the roads listed under a region are exactly the category's roads whose home it is |
| Transport.AssignToRegions | va_transport_extractor.py:211-257 | every region gets every category, each sorted and holding, as a multiset, what the assignment put there |
| Transport.NamedRoadOneRegion | va_transport_extractor.py:233-250 | a named street or highway is listed under a region exactly when that region is its home |
| Transport.NetworkItemRegions | va_transport_extractor.py:224-231 | an interstate, US or state route is listed under a region exactly when it was found and the region's network has it |
| Transport.UnassignedCategoriesEmpty | va_transport_extractor.py:213-231 | the primary, secondary and transit lists of every region stay empty |
| Transport.RegionTagKnown | va_transport_extractor.py:285-308 | every region has an RL tag, and a name that is no region's gets "Unknown" |
| Transport.RoadRoute | va_transport_extractor.py:262-282 | an item with no known prefix is "Unknown" with itself as the number and no signing; a known prefix yields a number without a hyphen |
| Transport.SecondPiece | va_transport_extractor.py:269 | `split("-")[1]` holds no hyphen |
| Transport.RoadRouteRoundTrip | va_transport_extractor.py:267-282 | "I-n", "US-n", "VA-n" and "SR-n" read back as n with the system and signing of their prefix |
| Transport.InterstateRoundTrip | va_transport_extractor.py:267-270 | "I-n" reads back as Interstate n |
| Transport.UsRoundTrip | va_transport_extractor.py:271-274 | "US-n" reads back as US Highway n |
| Transport.VaRoundTrip | va_transport_extractor.py:275-278 | "VA-n" reads back as Primary Highway n |
| Transport.SrRoundTrip | va_transport_extractor.py:279-282 | "SR-n" reads back as Secondary Highway n with VA signing |
| Transport.SplitAfterPrefix | va_transport_extractor.py:269 | the second hyphen piece of "p-n" is n |
| Transport.SrReadTwoWays | va_transport_extractor.py:279-282 | "SR-n" is a Secondary Highway here but a Primary Highway to the OSM importer |
| Transport.RoadSegment | va_transport_extractor.py:259-332 | a route segment names its item, its region and the region's tag, with the route read off the prefix |
| Transport.NamedSegment | va_transport_extractor.py:334-385 | a named-street segment names the street, its region and tag, with an "Unknown" route and no signing |
| Transport.MakeSegments | va_transport_extractor.py:393-426 | one segment per item, in order, a named-street segment for named categories and a route segment otherwise |
| Transport.RegionSegments | va_transport_extractor.py:392-426 | a region yields one segment per item of its seven road categories, all in that region |
| Transport.Segments | va_transport_extractor.py:387-428 | one segment per road item of every region, each in a region that is present |
| Transport.TotalByColumns | va_transport_extractor.py:442 | counting segments region by region and category by category agree |
| Transport.RegionsOnce | va_transport_extractor.py:41-90 | each region is declared once |
| Transport.HomedPartition | va_transport_extractor.py:233-250 | every named road is homed in exactly one region, so the regional lists hold as many entries as the category |
| Transport.AssignedLengths | va_transport_extractor.py:252-255 | sorting keeps every regional list's length |
| Transport.MetadataColumns | va_transport_extractor.py:436-443 | the metadata's segment count is the sum of the seven road categories over the regions |
| Transport.SegmentCount | va_transport_extractor.py:387-443 | the segment count is every network route once per region whose network has it plus every named street and highway once |
| Transport.OutputMetadata | va_transport_extractor.py:430-446 | every category's item count is part of the total, the total is zero exactly when every category is empty, and the segment count is the per-region count of the road categories |
| Transit.AssignRegion | scripts/transform_transit_data.py:15-31 | the region is one of the six rule labels or "Unknown", never "Western Virginia" or "Northern Neck" |
| Transit.AssignRegionByRules | scripts/transform_transit_data.py:18-31 | the chain of conditions is the rule table read first match first |
| Transit.FirstRuleAt | scripts/transform_transit_data.py:18-31 | the first rule that holds gives the label |
| Transit.FirstRuleWins | scripts/transform_transit_data.py:18-29 | the first rule that holds decides, whatever later rules say |
| Transit.UnknownIffNoRule | scripts/transform_transit_data.py:30-31 | "Unknown" exactly when no rule holds |
| Transit.NoRuleUnknown | scripts/transform_transit_data.py:30-31 | with no rule labelled "Unknown", the table gives "Unknown" exactly when no rule holds |
| Transit.DefaultCoordinatesSouthside | scripts/transform_transit_data.py:50-52 | a station without geometry sits at (0, 0), which is Southside |
| Transit.RoanokeIsTidewater | scripts/transform_transit_data.py:22-23 | the Tidewater rule has no western bound, so Roanoke is Tidewater |
| Transit.TagMapsDiffer | scripts/transform_transit_data.py:33-46 | the transit tag map agrees with the road extractor's on every name but "Western Virginia", Shenandoah here and Piedmont there |
| Transit.AssignedRegionTagged | scripts/transform_transit_data.py:33-52 | a coordinate region has an RL tag exactly when it is not "Unknown" |
| Transit.Flags | scripts/transform_transit_data.py:80-97 | each flag is named as in the table and is true exactly when its tag is "yes" |
| Transit.AudioMirrorsTactile | scripts/transform_transit_data.py:93-96 | the audio announcement flag always equals the tactile paving flag |
| Transit.Coordinate | scripts/transform_transit_data.py:18-29 | a coordinate compares with floats exactly when it is a number or a bool |
| Transit.Coords | scripts/transform_transit_data.py:50 | no geometry gives [0, 0]; the read raises exactly when the geometry is not a dict |
| Transit.Tags | scripts/transform_transit_data.py:56-66 | no tags gives {}; the later reads raise exactly when the tags are not a dict |
| Transit.StopName | scripts/transform_transit_data.py:55-57 | the station's name is kept unless it is missing or "Unnamed", and then a truthy tag name replaces it |
| Transit.StopType | scripts/transform_transit_data.py:60-66 | railway station, then railway halt, then platform, otherwise the station's own type, "bus_stop" by default |
| Transit.StationToStop | scripts/transform_transit_data.py:48-114 | a stop is made exactly when the coordinates can be read and compared and the tags are a dict; it lies in a coordinate region and has no lines |
| Transit.StopFields | scripts/transform_transit_data.py:50-106 | the stop's region comes from the second coordinate as latitude and the first as longitude, its tag from its region, its id from the station or the fresh uuid |
| Transit.StopDescription | scripts/transform_transit_data.py:55-97 | the stop's name, type, facilities and accessibility are read from the station and its tags |
| Transit.BareStation | scripts/transform_transit_data.py:48-114 | a station without geometry or tags is a Southside bus stop with every flag off |
| Transit.AllOk | scripts/transform_transit_data.py:186-188 | all results when every one is a value, else a failure |
| Transit.TransformStations | scripts/transform_transit_data.py:185-188 | the stops are made exactly when every station transforms, one per station, in order |
| Transit.StopsLabelled | scripts/transform_transit_data.py:185-188 | every transformed stop lies in a coordinate region and has no lines |
| Transit.OrUnknown | scripts/transform_transit_data.py:124-125 | `v or "Unknown"` is truthy and keeps a truthy value |
| Transit.Entries | scripts/transform_transit_data.py:123-126 | one grouping entry per stop |
| Transit.Find | scripts/transform_transit_data.py:128 | a group found has the key, and none is found only when no group has it |
| Transit.Grouped | scripts/transform_transit_data.py:122-134 | one group per distinct key, each collecting the line entries of every stop with that key |
| Transit.GroupedOpened | scripts/transform_transit_data.py:128-133 | each group keeps the operator and network of the first stop with its key |
| Transit.NewKeyOpened | scripts/transform_transit_data.py:128-133 | a stop with a new key opens its group |
| Transit.OpenedExtends | scripts/transform_transit_data.py:134 | later stops only extend a group's entries |
| Transit.CollectedNew | scripts/transform_transit_data.py:128-134 | a key no stop has collects nothing |
| Transit.DistinctCount | scripts/transform_transit_data.py:122-134 | as many groups as keys |
| Transit.Ids | scripts/transform_transit_data.py:153 | the ids are read exactly when every entry is a dict with an id, one per entry |
| Transit.Multi | scripts/transform_transit_data.py:139 | exactly the groups with more than one entry are kept |
| Transit.MultiNone | scripts/transform_transit_data.py:139 | with no group above one entry no line is made |
| Transit.LinesOf | scripts/transform_transit_data.py:138-170 | one line per kept group, named "operator network", with the group's operator, network and entry ids |
| Transit.TransitLines | scripts/transform_transit_data.py:116-172 | None exactly for no stops; otherwise one line per group that collected more than one entry |
| Transit.MultiForKey | scripts/transform_transit_data.py:122-139 | a line is made for a key exactly when some stop has it and its stops collected more than one entry |
| Transit.FreshStopsNoLines | scripts/transform_transit_data.py:79-192 | freshly transformed stops carry no line entries, so they yield no lines |
| Transit.NoEntries | scripts/transform_transit_data.py:134 | stops without line entries collect nothing |
| Transit.KeysCollide | scripts/transform_transit_data.py:126 | operator "A_B" on network "C" and operator "A" on network "B_C" share one group |
| Transit.DatasetMetadata | scripts/transform_transit_data.py:195-207 | the metadata is built exactly when every truthy operator and network can go into a set (otherwise TypeError); it counts the stops and lines and lists exactly the stops' regions and their truthy operators and networks |
| Transit.MetadataRegionsLabelled | scripts/transform_transit_data.py:185-204 | the regions listed for transformed stations are coordinate-rule labels |
| Transit.RegionTagRL | scripts/transform_transit_data.py:33-47 | the tag is one of the five RL tags or "Unknown"; "Unknown" exactly for a name outside the eight regions; "Tidewater" exactly for Tidewater and the Northern Neck |

## Left out

- Reading PDFs: `extract_text` and `extract_text_primary_fallbacks`, OCR, and `read_pdf_text`/`iter_pdf_texts` in va_transport_extractor.py are I/O. The model starts from the extracted text.
- Regular expressions, `strptime`, dateutil, `float()`/`int()` on text, `json.loads` and NFKC are library behaviour. They are oracles of `Runtime.Env`. This covers `safe_search`, `to_iso8601`, `find_date_near`, `grab_after`, the parsers' field patterns, the enrichment patterns, the "Page n of m" substitution and `\w`.
- The language model client (llm/agent/llm_client.py apart from `_extract_json`), the geopy/Nominatim lookup and the Draft-7 validator are services. Replies, `Env.geocoder` and `Env.validator` stand for them.
- `datetime.now()`, `uuid4()` and `hash()` are nondeterministic. They become `Env.nowUtc`, explicit id parameters and `Env.hashOf`. The `extractedAt` stamps and segment ids they produce are not modelled.
- File and console I/O is not modelled: loading and saving the geocode cache (modelled as a map threaded through), `load_schema`, `write_csv`'s file writing and its PermissionError fallback, `write_output`, the JSONL writing in `main`, the input and output files of fix_dates.py (`FixDates.FixLines` takes the lines), and the report writers in tests/metrics/metrics_reporter.py. Warnings and progress printing are left out too.
- `flatten_for_csv` is not part of this model. `Csv.FieldNames` takes rows that are already flattened.
- `_prenormalize` is not part of this model: the curly-quote characters it replaces are lost in the source text.
- The CLI entry points are orchestration plumbing: `main` of parser_pack.py, sample_run.py, run_llm_system.py, llm/run_agent.py, llm/agent_api.py, extract_all_data.py and `main` of va_transport_extractor.py.
- llm/agent/llm_agent.py does whatever action the language model emits. It has no contract beyond the modelled steps.
- The VSP branch of `run_agent_simple` (llm/agent/llm_agent_simple.py:279-363) is not modelled. `detect_source` never returns "VSP", and `split_vsp_cases`, `parse_vsp` and `parse_pdf_vsp` are not part of this model.
- The prompt texts sent to the language model are not modelled. The texts of the exceptions it raises (`str(e)`) come with the replies.
- OSMnx and geopandas work is not modelled: `fetch_graph`, `load_rl_regions`, `pick_linestring`, and the geometry, centroid, length, functional class, toll flag and region join of `graph_to_segments`. Only the attribute derivations (quadrant, ref parsing, primary route, corridor codes, local names, allowed directions) are modelled. All of scripts/va_transit_extractor.py is left out as well.
- The pattern scan of `extract_transportation_data` is left out. `Transport.ExtractFromFolder` takes each PDF's findings as given.
- The constant fields of the segment, stop and line records are not modelled: schema versions, provenance texts, confidences, `None` placeholders and empty geometry.
- `calculate_latency`, the three latency wrappers, `calculate_llm_token_usage` and `calculate_all_metrics` are float statistics over timings and token counts, outside the field-count core.
- Floating point is modelled as exact reals. Rounding, NaN and infinity are not modelled, including the unit conversions and the harmonic mean of `calculate_f1_score`.
- Python's int/float distinction is not kept: both are `Num(real)`, and `int()` of a float is `Runtime.Trunc`.
- Dicts are maps, so insertion order is not kept. Where the order shows, an oracle (`Env.keyOrder`) supplies it, as in the fix_dates search text. The order of the `list(set(...))` lists in the transit metadata is not modelled; `Transit.DatasetMetadata` states their contents.
- Case mapping is ASCII-only (`Text.Lower`, `Text.Upper`). Full Unicode case mapping is not modelled. Python's `lower()` and `upper()` also map non-ASCII letters, and `upper()` can lengthen a string ("ß" becomes "SS"). So the members below follow the source only on ASCII text:
- Metrics.ValuesMatch: compares lower-cased strings; two strings that differ only in the case of a non-ASCII letter match in Python but not in the model.
- Geo.CacheKey: lower-cases city and state; a non-ASCII place name gives a different cache key in Python.
- Osm.Normalize: upper-cases the token; its length bound and its "no lower-case letter" clause speak of ASCII letters only, and Python's `upper()` can lengthen a token.
- `Dates.FormatYmd` renders years below 1000 with fewer digits, as the C library does; `FixDates.NormDateReadsBack` is stated from year 1000 on. `Dates.FormatIso`, used for the fuzzy branch of `parse_last_seen_ts`, always pads the year to four digits.
- `Canon.CanonizeKeys`, `Enrich.EnrichCommonFields`, `Backfill.BackfillAll`, `Pdf.ParsePdf`: each requires the record shape on which the code does not raise (the buckets it reads are dicts or absent). The parsers always build such records. The exception raised on other shapes is not modelled.
- `Harmonize.HarmonizeRecordFields`: requires every bucket to be a dict or absent and the `aka` and `categories` lists to hold strings. Python also gets through some other inputs, such as a list of numbers that `sorted` orders. It raises on the rest. Neither case is modelled.
- `Sanitize.SanitizeRow`, `Coerce.CoerceGuardian`, `Extraction.Build`: each requires the input shape on which the function returns. The exception raised otherwise is modelled one level up: `AgentFlow.CoerceStep`, `AgentFlow.SanitizeStep` and `AgentDoc.ProcessExtraction` turn it into the logged error.
- `Transit.TransitLines` takes the stop records that `transform_station_to_stop` produces, not arbitrary dicts.
- `Transit.StationToStop`: the coordinates must be a list of at least two numbers or booleans. Other values raise in Python, and the model reports that as a failure without the exception's type.
- AgentFlow.Normalise: does not promise that the row written validates. When the normalised row fails, the source writes `GuardianRow(**clean_row)` without validating it again, and for a sanitised row this always happens (see Findings). The normalisers have by then edited the category dicts that the copy shares with `clean_row`. The model states that, whenever the clean row's case bucket holds no `case_id`, the row is the dump of that edited clean row; it validates only when those edits left the row as it was.
- AgentFlow.Edited: when a normaliser raises partway through, the edits it made before raising are not modelled. The model applies the edits of the steps that completed. A step that fails its shape check is taken to edit nothing. Its contract does not describe the edited values themselves: `AgentFlow.SanitizerEdits` states the sanitiser's provenance edit and `AgentFlow.MappedInPlace` and `AgentFlow.AuditedInPlace` state its other edits. The harmonising and enriching edits are stated by their own members.
- AgentDoc.ProcessExtraction: a written row is promised the model's fields, the document's path and that it is the dump of a validated row as the normalisers left it, not validity.
- AgentDoc.ProcessDoc, AgentRun.RunAgent: promise each written row the model's fields and the document's path. They do not restate, per row, that it is the dump of an edited validated row; `AgentDoc.ProcessExtraction` states that for each document.

## Findings

| source | as written | input that shows it | evidently intended | confidence | as-written member | corrected member |
|---|---|---|---|---|---|---|
| llm/agent/llm_agent_simple.py:570-592, parser_pack.py:552-553 | `harmonize_record_fields` moves the top-level `case_id` into the `case` bucket, the sanitiser then drops `case`, so `GuardianRow(**row_dict)` raises for want of `case_id` and the except branch writes `GuardianRow(**clean_row)` | any validated row: it has a top-level `case_id` and no `case` bucket | the normalised row, with its `case_id`, is validated and written | not executed | AgentFlow.Normalise, AgentFlow.NoCaseIdNoRow | AgentFlow.RestoreCaseId, AgentFlow.RestoredRowBuilds |
| tests/metrics/metrics_calculator.py:92-97 | the rate divides the number of empty results by the number of records | one record and two empty results: `calculate_schema_compliance_rate([r], [[], []])` is 2.0 | a rate between 0.0 and 1.0, as the docstring says | not executed | Metrics.ComplianceAboveOne | Metrics.ComplianceOverResults, Metrics.ComplianceOverResultsAgrees |
| parser_pack.py:719-725 | the third pattern's group 1 is its label, "Date Last Seen" or "Missing Date", but `m.group(1)` is read for every pattern, so the label is parsed as the date | "Date Last Seen: 02/07/1977", which the first two patterns do not match | the date, group 2 of that pattern, is parsed | not executed | Backfill.ThirdPatternReadsLabel | Backfill.ParseLastSeenTsIntended, Backfill.ThirdPatternReadsDate, Backfill.IntendedAgreesOtherwise |
| llm/agent/postprocess.py:42-50, 164-166 | the null pass reads a missing `incident_summary` as `None` and sets it to "" before the default runs, so "No summary available" is never written | a `narrative_osint` with no `incident_summary` key | a missing summary reads "No summary available" | not executed | CoerceProps.SummaryNeverDefaulted | Coerce.SummaryIntended |

=== FILE: agent.dfy ===
/** The per-document steps of `run_agent_simple` in
    llm/agent/llm_agent_simple.py: the extraction request with its retries,
    the case number, the row the agent drafts from the extraction, the
    geocoding and summary steps, the repair pass and the final choice of the
    row to write. What the language model answers is given as a parameter:
    a reply is the parsed JSON value or the exception the call raised. */
module Agent {
  import opened Wrappers
  import opened Json
  import opened Text
  import opened Runtime
  import opened Common
  import opened Geo
  import opened Tools
  import opened Extraction

  // ------------------------------------------------------------ _repair_with_validator_feedback

  /** How many validator errors the repair prompt lists. */
  const RepairShown: nat := 10

  /** `validation_errors[:10]`: the errors the repair prompt lists. */
  function RepairErrors(errors: seq<string>): (r: seq<string>)
    ensures |r| == if |errors| <= RepairShown then |errors| else RepairShown
    ensures r <= errors
  {
    if |errors| <= RepairShown then errors else errors[..RepairShown]
  }

  /** `row.get("source_path") or source_path`: the path written into the
      repaired row. */
  function Preserved(row: Dict, sourcePath: string): Value {
    Or(Get(row, "source_path"), Str(sourcePath))
  }

  /** `_repair_with_validator_feedback(row, errors, ...)`, given the model's
      reply to the repair prompt: a dict reply, with the preserved source path
      written into it; `None` for any other reply and for an exception. */
  function Repair(row: Dict, sourcePath: string, reply: Result<Value>): (r: Option<Dict>)
    ensures r.Some? <==> reply.Ok? && reply.value.Obj?
    ensures r.Some? ==> "source_path" in r.value && r.value["source_path"] == Preserved(row, sourcePath)
    ensures r.Some? ==> forall k | k != "source_path" ::
      (k in r.value <==> k in reply.value.fields) && Get(r.value, k) == Get(reply.value.fields, k)
  {
    if reply.Ok? && reply.value.Obj? then Some(reply.value.fields["source_path" := Preserved(row, sourcePath)])
    else None
  }

  // ------------------------------------------------------------ the extraction request

  /** What attempt `i` of the extraction request gives. */
  type Replies = nat -> Result<Value>

  /** `isinstance(data, dict) and data`: a reply that ends the retries. */
  predicate Accepted(reply: Result<Value>) {
    reply.Ok? && reply.value.Obj? && reply.value.fields != map[]
  }

  /** The first attempt from `from` on, and before `max`, whose reply is accepted. */
  function FirstAccepted(replies: Replies, from: nat, max: nat): (r: Option<nat>)
    ensures r.Some? ==> from <= r.value < max && Accepted(replies(r.value))
    ensures r.Some? ==> forall j | from <= j < r.value :: !Accepted(replies(j))
    ensures r.None? ==> forall j | from <= j < max :: !Accepted(replies(j))
    decreases max - from
  {
    if from >= max then None
    else if Accepted(replies(from)) then Some(from)
    else FirstAccepted(replies, from + 1, max)
  }

  /** What the retries leave behind, stated without the loop: the first
      accepted reply; failing that, the reply of the last attempt, or `None`
      with an error recorded when that attempt raised. Earlier exceptions are
      forgotten, and with no attempt at all nothing is extracted and nothing
      recorded. */
  function Extracted(replies: Replies, max: nat): (r: (Value, bool))
    ensures r.1 ==> 0 < max && replies(max - 1).Raise? && r.0 == Null
  {
    match FirstAccepted(replies, 0, max)
    case Some(i) => (replies(i).value, false)
    case None =>
      if max == 0 then (Null, false)
      else if replies(max - 1).Raise? then (Null, true)
      else (replies(max - 1).value, false)
  }

  /** The number of attempts made: up to and including the first accepted one. */
  function Attempts(replies: Replies, max: nat): (r: nat)
    ensures r <= max
  {
    match FirstAccepted(replies, 0, max)
    case Some(i) => i + 1
    case None => max
  }

  /** The retry loop as written: each attempt's reply replaces the data, an
      accepted one ends the loop, and an exception is recorded (and the data
      cleared) only on the last attempt. `failed` says whether the error was
      recorded. */
  method ExtractWithRetries(replies: Replies, maxRetries: nat) returns (data: Value, failed: bool, attempts: nat)
    ensures (data, failed) == Extracted(replies, maxRetries)
    ensures attempts == Attempts(replies, maxRetries)
    ensures failed ==> attempts == maxRetries
  {
    data, failed, attempts := Null, false, 0;
    var retry := 0;
    while retry < maxRetries
      invariant retry <= maxRetries && attempts == retry
      invariant FirstAccepted(replies, 0, maxRetries) == FirstAccepted(replies, retry, maxRetries)
      invariant 0 < retry && replies(retry - 1).Ok? ==> data == replies(retry - 1).value
      invariant failed <==> 0 < retry == maxRetries && replies(maxRetries - 1).Raise?
      invariant failed ==> data == Null
      invariant retry == 0 ==> data == Null
    {
      attempts := attempts + 1;
      var reply := replies(retry);
      if reply.Raise? {
        if retry == maxRetries - 1 {
          failed := true;
          data := Null;
        }
      } else {
        data := reply.value;
        if Accepted(reply) {
          return;
        }
      }
      retry := retry + 1;
    }
  }

  // ------------------------------------------------------------ the case number

  /** `f"{n:06d}"`: the decimal digits of `n`, zero-padded to six places. */
  function Padded(n: nat): (r: string)
    ensures |r| >= 6
    ensures forall i | 0 <= i < |r| :: IsDigit(r[i])
  {
    var s := NatToString(n);
    Zeros(6 - |s|) + s
  }

  function Zeros(k: int): (r: string)
    ensures |r| == if k > 0 then k else 0
    ensures forall i | 0 <= i < |r| :: r[i] == '0'
    decreases k
  {
    if k <= 0 then [] else Zeros(k - 1) + ['0']
  }

  /** `f"GRD-{year}-{n:06d}"`. */
  function CaseId(year: string, n: nat): (r: string)
    ensures |r| == 5 + |year| + |Padded(n)|
  {
    "GRD-" + year + "-" + Padded(n)
  }

  /** The number a case identifier ends with, read after the year. */
  function CaseNumber(year: string, id: string): Option<nat> {
    var start := 5 + |year|;
    if |id| >= start && forall i | start <= i < |id| :: IsDigit(id[i]) then Some(DigitsValue(id[start..]))
    else None
  }

  /** Leading zeros do not change the value of a digit string. */
  lemma {:induction false} LeadingZeros(k: int, s: string)
    requires forall i | 0 <= i < |s| :: IsDigit(s[i])
    ensures forall i | 0 <= i < |Zeros(k) + s| :: IsDigit((Zeros(k) + s)[i])
    ensures DigitsValue(Zeros(k) + s) == DigitsValue(s)
  {
    var z := Zeros(k);
    assert forall i | 0 <= i < |z + s| :: IsDigit((z + s)[i]) by {
      forall i | 0 <= i < |z + s| ensures IsDigit((z + s)[i]) {
        if i < |z| { assert (z + s)[i] == '0'; } else { assert (z + s)[i] == s[i - |z|]; }
      }
    }
    if s == [] {
      assert z + s == z;
      ZerosValue(k);
    } else {
      var t := s[..|s| - 1];
      assert (z + s)[..|z + s| - 1] == z + t;
      assert (z + s)[|z + s| - 1] == s[|s| - 1];
      LeadingZeros(k, t);
    }
  }

  /** A run of zeros is worth nothing. */
  lemma {:induction false} ZerosValue(k: int)
    ensures forall i | 0 <= i < |Zeros(k)| :: IsDigit(Zeros(k)[i])
    ensures DigitsValue(Zeros(k)) == 0
    decreases k
  {
    if k > 0 {
      ZerosValue(k - 1);
      assert Zeros(k)[..|Zeros(k)| - 1] == Zeros(k - 1);
    }
  }

  /** The case identifier reads back as the number it was made from. */
  lemma CaseIdRoundTrip(year: string, n: nat)
    ensures CaseNumber(year, CaseId(year, n)) == Some(n)
  {
    var s := NatToString(n);
    var id := CaseId(year, n);
    assert id[5 + |year|..] == Padded(n);
    LeadingZeros(6 - |s|, s);
    NatToStringRoundTrip(n);
  }

  /** Different counts give different case identifiers. */
  lemma CaseIdInjective(year: string, m: nat, n: nat)
    requires m != n
    ensures CaseId(year, m) != CaseId(year, n)
  {
    CaseIdRoundTrip(year, m);
    CaseIdRoundTrip(year, n);
  }
  // ------------------------------------------------------------ the draft row

  /** Step 2c on the temporal dict: an empty or missing `last_seen_ts`
      becomes the clock reading; a set one is left alone. */
  function FillTimestamp(t: Dict, now: Timestamp): (r: Dict)
    ensures Truthy(Get(r, "last_seen_ts")) && r.Keys == t.Keys + {"last_seen_ts"}
    ensures Truthy(Get(t, "last_seen_ts")) ==> r == t
    ensures !Truthy(Get(t, "last_seen_ts")) ==> r["last_seen_ts"] == Str(now)
    ensures forall k | k in t && k != "last_seen_ts" :: r[k] == t[k]
  {
    if Truthy(Get(t, "last_seen_ts")) then t else t["last_seen_ts" := Str(now)]
  }

  /** Step 2c on the demographic dict: an empty or missing gender becomes
      "male"; a set one is left alone. */
  function FillGender(d: Dict): (r: Dict)
    ensures Truthy(Get(r, "gender")) && r.Keys == d.Keys + {"gender"}
    ensures Truthy(Get(d, "gender")) ==> r == d
    ensures !Truthy(Get(d, "gender")) ==> r["gender"] == Str("male")
    ensures forall k | k in d && k != "gender" :: r[k] == d[k]
  {
    if Truthy(Get(d, "gender")) then d else d["gender" := Str("male")]
  }

  /** Step 2c on the spatial dict: a missing or `None` coordinate becomes 0.0;
      a set one, even a falsy 0, is left alone. */
  function FillCoords(s: Dict): (r: Dict)
    ensures Get(r, "last_seen_lat") == (if Get(s, "last_seen_lat") == Null then Num(0.0) else Get(s, "last_seen_lat"))
    ensures Get(r, "last_seen_lon") == (if Get(s, "last_seen_lon") == Null then Num(0.0) else Get(s, "last_seen_lon"))
    ensures forall k | k != "last_seen_lat" && k != "last_seen_lon" :: (k in r <==> k in s) && Get(r, k) == Get(s, k)
  {
    var s1 := if Get(s, "last_seen_lat") == Null then s["last_seen_lat" := Num(0.0)] else s;
    if Get(s1, "last_seen_lon") == Null then s1["last_seen_lon" := Num(0.0)] else s1
  }

  /** `f"{city}, {state}"`. */
  function CityState(env: Env, city: Value, state: Value): string {
    Show(env, city) + ", " + Show(env, state)
  }

  /** Step 2d: an empty location is made from the city and the state, from
      the city alone, or from the state alone, whichever are set. */
  function SynthesiseLocation(env: Env, s: Dict): (r: Dict)
    ensures Truthy(Get(r, "last_seen_location")) <==>
      Truthy(Get(s, "last_seen_location")) || Truthy(Get(s, "last_seen_city")) || Truthy(Get(s, "last_seen_state"))
    ensures Truthy(Get(s, "last_seen_location")) ==> r == s
    ensures !Truthy(Get(s, "last_seen_location")) && !Truthy(Get(s, "last_seen_state")) ==>
      Get(r, "last_seen_location") == (if Truthy(Get(s, "last_seen_city")) then Get(s, "last_seen_city") else Get(s, "last_seen_location"))
    ensures forall k | k != "last_seen_location" :: (k in r <==> k in s) && Get(r, k) == Get(s, k)
  {
    var city := Get(s, "last_seen_city");
    var state := Get(s, "last_seen_state");
    if Truthy(Get(s, "last_seen_location")) then s
    else if Truthy(city) && Truthy(state) then s["last_seen_location" := Str(CityState(env, city, state))]
    else if Truthy(city) then s["last_seen_location" := city]
    else if Truthy(state) then s["last_seen_location" := state]
    else s
  }

  /** Step 2e: the places to geocode: the location (or, failing that, the
      city and state), then the items of `locations_raw`, or the value itself
      when that is a string. */
  function Queries(env: Env, s: Dict): (r: seq<Value>)
    ensures Truthy(Get(s, "last_seen_location")) ==> |r| >= 1 && r[0] == Get(s, "last_seen_location")
    ensures Truthy(Get(s, "locations_raw")) && Get(s, "locations_raw").Arr? ==>
      forall x | x in Get(s, "locations_raw").items :: x in r
    ensures Truthy(Get(s, "locations_raw")) && Get(s, "locations_raw").Str? ==> Get(s, "locations_raw") in r
  {
    var loc := Get(s, "last_seen_location");
    var city := Get(s, "last_seen_city");
    var state := Get(s, "last_seen_state");
    var first := if Truthy(loc) then [loc]
                 else if Truthy(city) && Truthy(state) then [Str(CityState(env, city, state))]
                 else [];
    var raw := Get(s, "locations_raw");
    var rest := if !Truthy(raw) then [] else if raw.Arr? then raw.items else if raw.Str? then [raw] else [];
    first + rest
  }
  /** The index of the first query on which `geocode_batch` raises: a truthy
      query that is not a string cannot be split (or, for a list or a dict,
      hashed). Falsy queries are skipped. */
  function BadQuery(qs: seq<Value>): (r: nat)
    ensures r <= |qs|
    ensures r < |qs| ==> Truthy(qs[r]) && !qs[r].Str?
    ensures forall i | 0 <= i < r :: !Truthy(qs[i]) || qs[i].Str?
  {
    if qs == [] then 0 else if Truthy(qs[0]) && !qs[0].Str? then 0 else 1 + BadQuery(qs[1..])
  }

  /** The queries as the strings `geocode_batch` sees; a falsy query becomes
      "", which the batch skips as it skips every falsy place. */
  function Places(qs: seq<Value>): (r: seq<string>)
    ensures |r| == |qs|
    ensures forall i | 0 <= i < |qs| :: r[i] == if qs[i].Str? then qs[i].s else ""
  {
    seq(|qs|, i requires 0 <= i < |qs| => if qs[i].Str? then qs[i].s else "")
  }

  /** `geocode_batch(queries, state_bias="VA")` as the agent uses it: the
      places before the first bad query are geocoded (and cached); the
      coordinates of the first result are returned when no query is bad and
      that result has both. */
  function BatchFirst(env: Env, cache: Cache, qs: seq<Value>): (r: (Option<(real, real)>, Cache))
    ensures r.0.Some? ==> BadQuery(qs) == |qs|
  {
    var n := BadQuery(qs);
    var b := GeocodeAll(env, cache, Distinct(Places(qs[..n])), "VA");
    if n == |qs| && |b.0| > 0 && b.0[0].lat.Some? && b.0[0].lon.Some?
    then (Some((b.0[0].lat.value, b.0[0].lon.value)), b.1)
    else (None, b.1)
  }

  /** When every query is a string and the first names a place, the
      coordinates the agent keeps are those geocoding that place gives. */
  lemma FirstQueryLocates(env: Env, cache: Cache, qs: seq<Value>)
    requires BadQuery(qs) == |qs| && |qs| >= 1 && qs[0].Str? && qs[0].s != ""
    ensures var g := Geocode(env, cache, qs[0].s, "VA").0;
      BatchFirst(env, cache, qs).0 == if g.lat.Some? then Some((g.lat.value, g.lon.value)) else None
  {
    var ps := Places(qs[..|qs|]);
    assert qs[..|qs|] == qs;
    DistinctHead(ps);
    GeocodeAllHead(env, cache, Distinct(ps), "VA");
  }

  /** Step 2e on the spatial dict: coordinates found by the batch replace
      `last_seen_lat` and `last_seen_lon`; an exception or a miss leaves them
      as they were. */
  function GeocodeStep(s: Dict, found: Option<(real, real)>): (r: Dict)
    ensures forall k | k != "last_seen_lat" && k != "last_seen_lon" :: (k in r <==> k in s) && Get(r, k) == Get(s, k)
    ensures found.None? ==> r == s
    ensures found.Some? ==> Get(r, "last_seen_lat") == Num(found.value.0) && Get(r, "last_seen_lon") == Num(found.value.1)
  {
    if found.Some? then s["last_seen_lat" := Num(found.value.0)]["last_seen_lon" := Num(found.value.1)] else s
  }

  /** The summary the model gives: its "summary" entry when it answers with a
      dict that has one, otherwise what the narrative already held. */
  function SummaryGiven(n: Dict, reply: Result<Value>): Value {
    if reply.Ok? && reply.value.Obj? && "summary" in reply.value.fields then reply.value.fields["summary"]
    else Get(n, "incident_summary")
  }

  /** Step 2f on the narrative: the model's summary replaces the incident
      summary, an empty one becomes "No summary available", and the spans are
      dropped. Whether the request raised is recorded by the caller. */
  function SummaryStep(n: Dict, reply: Result<Value>): (r: Dict)
    ensures Truthy(Get(r, "incident_summary")) && "incident_summary" in r
    ensures "narrative_spans" !in r
    ensures forall k | k != "incident_summary" && k != "narrative_spans" :: (k in r <==> k in n) && Get(r, k) == Get(n, k)
    ensures reply.Ok? && reply.value.Obj? && Truthy(Get(reply.value.fields, "summary")) ==>
      r["incident_summary"] == reply.value.fields["summary"]
    ensures !(reply.Ok? && reply.value.Obj? && "summary" in reply.value.fields) ==>
      r["incident_summary"] == Or(Get(n, "incident_summary"), Str(NoSummary))
  {
    var given := SummaryGiven(n, reply);
    var n1 := n["incident_summary" := if Truthy(given) then given else Str(NoSummary)];
    Del(n1, "narrative_spans")
  }
}

=== FILE: agent_doc.dfy ===
/** One document's trip through the loop of `run_agent_simple`
    (llm/agent/llm_agent_simple.py): text check, extraction with retries,
    `_sanitize_extracted`, the drafted row, geocoding, summary, coercion and
    sanitising, validation with one repair, the legacy normalisers and the
    write. The language model's replies and the outcome of the write are
    part of the document. */
module AgentDoc {
  import opened Wrappers
  import opened Json
  import opened Text
  import opened Runtime
  import opened Geo
  import opened Tools
  import opened Agent
  import opened AgentFlow
  import Extraction

  /** A document as the loop meets it: its path, the text the extractor
      returned, the model's replies to the extraction (attempt by attempt),
      summary and repair prompts, and the exception `write_output` raises,
      if any. */
  datatype Doc = Doc(path: string, text: string, extraction: Replies, summary: Result<Value>,
                     repair: Result<Value>, writeError: Option<string>)

  /** What the loop reads from outside the document: the year of the case
      ids, the clock reading used for a missing `last_seen_ts`, and
      `max_retries`. */
  datatype Settings = Settings(year: string, now: Timestamp, maxRetries: nat)

  /** What one document leaves behind: the error entries it added, the
      record written (if one was), and the geocoding cache. */
  datatype Outcome = Outcome(errors: seq<string>, row: Option<Dict>, cache: Cache)

  /** Fewer than ten characters once stripped: "No text extracted". */
  const MinText: nat := 10

  predicate TextMissing(text: string) {
    |Strip(text)| < MinText
  }

  // ------------------------------------------------------------ the drafted row

  /** The spatial dict after steps 2c and 2d: coordinates defaulted to 0.0,
      then an empty location synthesised from the city and state. */
  function DraftSpatial(env: Env, spatial: Dict): Dict {
    SynthesiseLocation(env, FillCoords(spatial))
  }

  /** `current_row` as it reaches `coerce_guardian`: the sanitised extraction
      under the document's path and case id, with the required fields
      filled, the geocoded coordinates (if any) in place, `locations_raw`
      and `narrative_spans` dropped and the summary set. */
  function Drafted(env: Env, st: Settings, path: string, caseNo: nat, c: Extraction.Cleaned,
                   found: Option<(real, real)>, summary: Result<Value>): (r: Dict)
    ensures r.Keys == GuardianFields
    ensures r["source_path"] == Str(path) && r["case_id"] == Str(CaseId(st.year, caseNo))
    ensures Truthy(Get(AsDict(r["temporal"]), "last_seen_ts"))
    ensures Truthy(Get(AsDict(r["demographic"]), "gender"))
    ensures Truthy(Get(AsDict(r["narrative_osint"]), "incident_summary"))
    ensures "locations_raw" !in AsDict(r["spatial"]) && "narrative_spans" !in AsDict(r["narrative_osint"])
    ensures r["provenance"] == c.provenance && r["audit"] == Obj(c.audit) && r["outcome"] == Obj(c.outcome)
  {
    map k | k in GuardianFields :: DraftField(env, st, path, caseNo, c, found, summary, k)
  }

  /** One field of the drafted row. */
  function DraftField(env: Env, st: Settings, path: string, caseNo: nat, c: Extraction.Cleaned,
                      found: Option<(real, real)>, summary: Result<Value>, k: string): Value
  {
    if k == "source_path" then Str(path)
    else if k == "case_id" then Str(CaseId(st.year, caseNo))
    else if k == "demographic" then Obj(FillGender(c.demographic))
    else if k == "temporal" then Obj(FillTimestamp(c.temporal, st.now))
    else if k == "spatial" then Obj(Del(GeocodeStep(DraftSpatial(env, c.spatial), found), "locations_raw"))
    else if k == "narrative_osint" then Obj(SummaryStep(c.narrative, summary))
    else if k == "outcome" then Obj(c.outcome)
    else if k == "provenance" then c.provenance
    else Obj(c.audit)
  }

  /** Step 2e: the batch geocoding of the drafted spatial dict's queries;
      no query means no call. */
  method Locate(env: Env, cache: Cache, spatial: Dict) returns (found: Option<(real, real)>, cache': Cache)
    ensures Queries(env, spatial) == [] ==> found.None? && cache' == cache
    ensures found.Some? ==> BadQuery(Queries(env, spatial)) == |Queries(env, spatial)|
  {
    var qs := Queries(env, spatial);
    if qs == [] {
      return None, cache;
    }
    var b := BatchFirst(env, cache, qs);
    found, cache' := b.0, b.1;
  }

  /** `_sanitize_extracted(data)`, or the exception it raises. */
  method SanitizeExtractedStep(env: Env, data: Dict) returns (r: Result<Extraction.Cleaned>)
  {
    r := Extraction.SanitizeExtracted(env, data);
  }

  /** Steps 2c to 2f: the drafted row, after the geocoding of its queries. */
  method Draft(env: Env, st: Settings, doc: Doc, caseNo: nat, c: Extraction.Cleaned, cache: Cache)
    returns (draft: Dict, cache': Cache)
  {
    var found;
    found, cache' := Locate(env, cache, DraftSpatial(env, c.spatial));
    draft := Drafted(env, st, doc.path, caseNo, c, found, doc.summary);
  }

  // ------------------------------------------------------------ messages

  function NoText(path: string): string { path + ": No text extracted" }

  function ExtractionFailed(path: string, maxRetries: nat, e: string): string {
    path + ": Extraction failed after " + NatToString(maxRetries) + " retries: " + e
  }

  function NotADict(path: string): string { path + ": Extracted data is not a dict" }

  function SummaryFailed(path: string, e: string): string { path + ": Summarization failed: " + e }

  function ProcessingFailed(path: string, e: string): string { path + ": Processing failed: " + e }

  function WriteFailed(path: string, e: string): string { path + ": Write failed: " + e }

  // ------------------------------------------------------------ the document

  /** What the write of step 2i receives for a document whose text is `text`:
      the record dump of a row that validated and has no `case` bucket, seen
      after the normalisers edited the category dicts it shares with their copy. */
  ghost predicate DumpOfEdited(env: Env, text: string, row: Dict) {
    exists passed: Dict :: Check(env, passed) == Ok([]) && "case" !in passed
      && RecordDump(Edited(env, passed, text)) == Ok(row)
  }

  /** The draft, coercion, sanitising, validation, normalisation and write
      of an extraction that arrived as a non-empty dict. */
  method ProcessExtraction(env: Env, st: Settings, doc: Doc, data: Dict, processed: nat, cache: Cache)
    returns (out: Outcome)
    ensures out.row.Some? ==> out.row.value.Keys == GuardianFields
    ensures out.row.Some? ==> out.row.value["source_path"] == Str(doc.path)
    ensures out.row.Some? ==> doc.writeError.None? && out.errors == (if doc.summary.Raise? then [SummaryFailed(doc.path, doc.summary.error)] else [])
    ensures out.row.None? ==> 1 <= |out.errors| <= 2
    ensures out.row.Some? ==> DumpOfEdited(env, doc.text, out.row.value)
  {
    var san := SanitizeExtractedStep(env, data);
    if san.Raise? {
      return Outcome([ProcessingFailed(doc.path, san.error)], None, cache);
    }
    var c := san.value;
    var draft, cache' := Draft(env, st, doc, processed + 1, c, cache);
    var errors := if doc.summary.Raise? then [SummaryFailed(doc.path, doc.summary.error)] else [];
    var clean := CleanRow(env, st.now, draft, doc.path);
    if clean.Raise? {
      return Outcome(errors + [ProcessingFailed(doc.path, clean.error)], None, cache');
    }
    var v := ValidateStep(env, st.now, clean.value, doc.path, doc.repair);
    if v.passed.None? {
      return Outcome(errors + v.errors, None, cache');
    }
    out := NormaliseAndWrite(env, st.now, doc, v.passed.value, errors, cache');
  }

  /** Steps 2h and 2i on a row that validated: the normalisers, then the
      write, whose failure is logged and drops the row. */
  method NormaliseAndWrite(env: Env, now: Timestamp, doc: Doc, passed: Dict, errors: seq<string>, cache: Cache)
    returns (out: Outcome)
    requires Check(env, passed) == Ok([])
    ensures out.cache == cache
    ensures out.row.Some? <==> doc.writeError.None?
    ensures out.row.Some? ==> out.errors == errors && out.row.value.Keys == GuardianFields
    ensures out.row.Some? && Get(passed, "source_path") == Str(doc.path) ==> out.row.value["source_path"] == Str(doc.path)
    ensures out.row.None? ==> out.errors == errors + [WriteFailed(doc.path, doc.writeError.value)]
    ensures out.row.Some? && "case" !in passed ==> RecordDump(Edited(env, passed, doc.text)) == Ok(out.row.value)
  {
    var row := Normalise(env, now, passed, doc.text, doc.path);
    assert "case" !in passed ==> AsDict(Get(passed, "case")) == map[];
    out := Written(errors, doc.path, doc.writeError, row, cache);
  }

  /** Step 2i: the write of `row`, whose failure is logged and drops it. */
  function Written(errors: seq<string>, path: string, writeError: Option<string>, row: Dict, cache: Cache): (out: Outcome)
    ensures out.cache == cache
    ensures out.row.Some? <==> writeError.None?
    ensures out.row.Some? ==> out.errors == errors && out.row.value == row
    ensures out.row.None? ==> out.errors == errors + [WriteFailed(path, writeError.value)]
  {
    if writeError.Some? then Outcome(errors + [WriteFailed(path, writeError.value)], None, cache)
    else Outcome(errors, Some(row), cache)
  }

  /** One pass of the loop's body. A document is dropped without an error
      entry only when the extraction came back empty. */
  method ProcessDoc(env: Env, st: Settings, doc: Doc, processed: nat, cache: Cache) returns (out: Outcome)
    ensures out.row.Some? ==> out.row.value.Keys == GuardianFields
    ensures out.row.Some? ==> out.row.value["source_path"] == Str(doc.path)
    ensures out.row.Some? ==> doc.writeError.None? && !TextMissing(doc.text)
    ensures out.row.Some? ==> |out.errors| <= 1
    ensures out.row.None? ==> |out.errors| <= 2
    ensures TextMissing(doc.text) ==> out == Outcome([NoText(doc.path)], None, cache)
    ensures !TextMissing(doc.text) && Agent.Extracted(doc.extraction, st.maxRetries).1 ==>
      out == Outcome([ExtractionFailed(doc.path, st.maxRetries, doc.extraction(st.maxRetries - 1).error)], None, cache)
    ensures out.row.None? && out.errors == [] ==>
      !TextMissing(doc.text) && !Truthy(Agent.Extracted(doc.extraction, st.maxRetries).0)
  {
    if TextMissing(doc.text) {
      return Outcome([NoText(doc.path)], None, cache);
    }
    var data, failed, attempts := ExtractWithRetries(doc.extraction, st.maxRetries);
    if failed {
      var e := doc.extraction(st.maxRetries - 1).error;
      return Outcome([ExtractionFailed(doc.path, st.maxRetries, e)], None, cache);
    }
    if !Truthy(data) {
      return Outcome([], None, cache);
    }
    if !data.Obj? {
      return Outcome([NotADict(doc.path)], None, cache);
    }
    out := ProcessExtraction(env, st, doc, data.fields, processed, cache);
  }
}

=== FILE: agent_flow.dfy ===
/** The second half of a document's trip through `run_agent_simple`
    (llm/agent/llm_agent_simple.py): the `GuardianRow` record of
    llm/agent/protocols.py, the repair pass run after `coerce_guardian` and
    `sanitize_guardian_row`, the legacy normalisers, and the choice of the
    row that is written. */
module AgentFlow {
  import opened Wrappers
  import opened Json
  import opened Text
  import opened Runtime
  import opened Tools
  import opened Agent
  import Coerce
  import Sanitize
  import Harmonize
  import Enrich
  import Canon

  // ------------------------------------------------------------ GuardianRow

  /** The fields of `GuardianRow`. */
  const GuardianFields: set<string> := {"source_path", "case_id", "demographic", "temporal", "spatial",
    "narrative_osint", "outcome", "provenance", "audit"}

  /** `GuardianRow(**row)` accepts the row: `source_path` and `case_id` are
      strings, and every category present is a dict (a `None` is rejected; a
      missing one defaults to `{}`). Other keys are ignored. */
  predicate Dumpable(row: Dict) {
    && Get(row, "source_path").Str? && Get(row, "case_id").Str?
    && DictOrAbsent(row, "demographic") && DictOrAbsent(row, "temporal") && DictOrAbsent(row, "spatial")
    && DictOrAbsent(row, "narrative_osint") && DictOrAbsent(row, "outcome")
    && DictOrAbsent(row, "provenance") && DictOrAbsent(row, "audit")
  }

  /** One field of the dumped record. */
  function DumpField(row: Dict, k: string): Value {
    if k == "source_path" || k == "case_id" then Get(row, k) else Obj(AsDict(Get(row, k)))
  }

  /** `GuardianRow(**row).model_dump()`, or the ValidationError raised on a
      row the model rejects. */
  function RecordDump(row: Dict): (r: Result<Dict>)
    ensures r.Ok? <==> Dumpable(row)
    ensures r.Ok? ==> r.value.Keys == GuardianFields
    ensures r.Ok? ==> forall k | k in r.value :: r.value[k] == DumpField(row, k)
  {
    if Dumpable(row) then Ok(map k | k in GuardianFields :: DumpField(row, k)) else Raise("ValidationError")
  }

  /** A dumped record is accepted again and dumps to itself. */
  lemma DumpRoundTrip(row: Dict)
    requires RecordDump(row).Ok?
    ensures RecordDump(RecordDump(row).value) == RecordDump(row)
  {
    var d := RecordDump(row).value;
    assert "source_path" in d && "case_id" in d && "audit" in d;
    assert Dumpable(d);
    var d2 := RecordDump(d).value;
    forall k | k in GuardianFields ensures d2[k] == d[k] {
      assert d[k] == DumpField(row, k) && d2[k] == DumpField(d, k);
    }
    assert d2 == d;
  }

  /** `validate_row(GuardianRow(**row), schema)`: the validator's messages for
      the dumped record, or the exception `GuardianRow` raises. */
  function Check(env: Env, row: Dict): (r: Result<seq<string>>)
    ensures r.Ok? <==> Dumpable(row)
  {
    match RecordDump(row)
    case Raise(e) => Raise(e)
    case Ok(d) => Ok(ValidateRow(env, d))
  }

  // ------------------------------------------------------------ coerce and sanitise

  /** How `coerce_guardian` classifies the keys the agent relies on. */
  lemma TopKeys()
    ensures Coerce.IsCategory("demographic") && Coerce.IsCategory("provenance") && !Coerce.IsAllowedTop("audit")
    ensures !Coerce.IsCategory("source_path") && Coerce.IsAllowedTop("source_path")
  {
  }

  /** `coerce_guardian(row)`: the six categories are rebuilt and every key
      outside `allowed_top` is dropped, the audit among them. It raises
      (AttributeError on `.get`) when a category is present but not a dict. */
  method CoerceStep(env: Env, now: Timestamp, rec: Dict) returns (r: Result<Dict>)
    ensures r.Ok? <==> Coerce.Coercible(rec)
    ensures r.Ok? ==> "audit" !in r.value && "demographic" in r.value && "provenance" in r.value
    ensures r.Ok? ==> Get(r.value, "source_path") == Get(rec, "source_path")
  {
    if !Coerce.Coercible(rec) {
      return Raise("AttributeError");
    }
    var co := Coerce.CoerceGuardian(env, now, rec);
    TopKeys();
    assert Coerce.Look(co, "source_path") == Coerce.Look(rec, "source_path");
    r := Ok(co);
  }

  /** `sanitize_guardian_row(raw, source_path=path)`, or the exception it
      raises outside its domain. */
  method SanitizeStep(env: Env, now: Timestamp, raw: Dict, path: string) returns (r: Result<Dict>)
    ensures r.Ok? <==> Sanitize.Sanitizable(env, raw)
    ensures r.Ok? ==> Get(r.value, "source_path") == Str(path)
    ensures r.Ok? && "case_id" in r.value ==> "case_id" in raw
    ensures r.Ok? ==> "case" !in r.value
  {
    if !Sanitize.Sanitizable(env, raw) {
      return Raise("TypeError");
    }
    assert !Sanitize.IsTopKey("case");
    r := Ok(Sanitize.SanitizeRow(env, now, raw, path));
  }

  /** Steps 2e and 2f: `coerce_guardian`, then the sanitiser with the
      document's path. */
  method CleanRow(env: Env, now: Timestamp, rec: Dict, path: string) returns (r: Result<Dict>)
    ensures r.Ok? ==> Coerce.Coercible(rec)
    ensures r.Ok? ==> Get(r.value, "source_path") == Str(path)
    ensures r.Ok? ==> "case" !in r.value
  {
    r := CoerceStep(env, now, rec);
    if r.Ok? {
      r := SanitizeStep(env, now, r.value, path);
    }
  }

  // ------------------------------------------------------------ validation and repair

  /** How many validator messages an error entry quotes. */
  const Quoted: nat := 5

  /** `"; ".join(errors[:5])`. */
  function Details(errors: seq<string>): string {
    Join("; ", if |errors| <= Quoted then errors else errors[..Quoted])
  }

  /** The entry for a row that fails validation and cannot be repaired. */
  function ValidationFailed(path: string, errors: seq<string>): string {
    path + ": Schema validation failed: " + Details(errors)
      + (if |errors| > Quoted then " (and " + NatToString(|errors| - Quoted) + " more errors)" else "")
  }

  /** What step 2g decides: the row that passed validation (the clean row,
      or its repair), the error entries recorded, and whether a repair was
      requested. */
  datatype Verdict = Verdict(passed: Option<Dict>, errors: seq<string>, repaired: bool)

  /** Step 2g: the clean row is validated; when the validator reports errors,
      one repair is requested and the repaired row is coerced, sanitised and
      validated again. An exception on the way fails the row. */
  method ValidateStep(env: Env, now: Timestamp, clean: Dict, path: string, reply: Result<Value>) returns (v: Verdict)
    ensures v.passed.Some? <==> v.errors == []
    ensures v.passed.Some? ==> Check(env, v.passed.value) == Ok([])
    ensures v.passed.None? ==> |v.errors| == 1
    ensures v.repaired <==> Check(env, clean).Ok? && Check(env, clean).value != []
    ensures !v.repaired ==> v.passed == if Check(env, clean) == Ok([]) then Some(clean) else None
    ensures (!v.repaired && Check(env, clean).Raise?)
              ==> v.errors == [path + ": Record creation/validation failed: " + Check(env, clean).error]
    ensures v.repaired && Repair(clean, path, reply).None? ==> v.errors == [ValidationFailed(path, Check(env, clean).value)]
    ensures (v.passed.Some? && (v.repaired || Get(clean, "source_path") == Str(path)))
              ==> Get(v.passed.value, "source_path") == Str(path)
    ensures v.passed.Some? && "case" !in clean ==> "case" !in v.passed.value
  {
    var c := Check(env, clean);
    if c.Raise? {
      return Verdict(None, [path + ": Record creation/validation failed: " + c.error], false);
    }
    if c.value == [] {
      return Verdict(Some(clean), [], false);
    }
    var rep := Repair(clean, path, reply);
    if rep.None? {
      return Verdict(None, [ValidationFailed(path, c.value)], true);
    }
    var rep2 := CleanRow(env, now, rep.value, path);
    if rep2.Raise? {
      return Verdict(None, [path + ": Record creation/validation failed: " + rep2.error], true);
    }
    var c2 := Check(env, rep2.value);
    if c2.Raise? {
      return Verdict(None, [path + ": Record creation failed after repair: " + c2.error], true);
    }
    if c2.value == [] {
      v := Verdict(Some(rep2.value), [], true);
    } else {
      v := Verdict(None, [path + ": Schema validation failed after repair: " + Details(c2.value)], true);
    }
  }

  // ------------------------------------------------------------ the legacy normalisers

  /** `harmonize_record_fields(rec)`, or `None` where it raises. */
  method HarmonizeStep(env: Env, rec: Dict) returns (r: Option<Dict>)
    ensures r.Some? <==> Harmonize.HShaped(rec)
    ensures r.Some? && rec != map[] ==> Harmonize.Bucketed(r.value)
    ensures r.Some? && "case_id" !in AsDict(Get(rec, "case")) ==> "case_id" !in r.value
  {
    if !Harmonize.HShaped(rec) {
      return None;
    }
    if rec != map[] && "case_id" !in AsDict(Get(rec, "case")) {
      Harmonize.CaseIdLifted(env, rec);
    }
    r := Some(Harmonize.HarmonizeRecordFields(env, rec));
  }

  /** `_enrich_common_fields(rec, text)`, or `None` where it raises. */
  method EnrichStep(env: Env, rec: Dict, text: string) returns (r: Option<Dict>)
    ensures r.Some? <==> Enrich.EnrichShaped(env, rec, text)
    ensures r.Some? ==> Canon.Shaped(r.value)
    ensures r.Some? ==> r.value.Keys <= rec.Keys + EnrichCategories
    ensures r.Some? && "case_id" !in rec ==> "case_id" !in r.value
  {
    if !Enrich.EnrichShaped(env, rec, text) {
      return None;
    }
    Enrich.EnrichTopKeys(env, rec, text);
    assert "case_id" !in EnrichCategories;
    r := Some(Enrich.EnrichCommonFields(env, rec, text));
  }

  /** `harmonize_record_fields`, then `_enrich_common_fields`; `None` when
      one of them raises. A row whose case bucket holds no `case_id` leaves
      them without a top-level `case_id`: the harmoniser moves it into the
      bucket and the enrichment writes only category dicts. */
  method LegacyNormalisers(env: Env, rd: Dict, text: string) returns (r: Option<Dict>)
    ensures r.Some? ==> Harmonize.HShaped(rd)
    ensures r.Some? && "case_id" !in AsDict(Get(rd, "case")) ==> "case_id" !in r.value
  {
    var h := HarmonizeStep(env, rd);
    if h.None? {
      return None;
    }
    r := EnrichStep(env, h.value, text);
  }

  /** `harmonize_record_fields`, `_enrich_common_fields` and the sanitiser run
      on the validated row that carries the document text as `_fulltext`;
      `None` when one of them raises. The text is dropped again. */
  method Renormalise(env: Env, now: Timestamp, rd: Dict, text: string, path: string) returns (r: Option<Dict>)
    ensures r.Some? ==> Get(r.value, "source_path") == Str(path) && "_fulltext" !in r.value
    ensures r.Some? && "case_id" !in AsDict(Get(rd, "case")) ==> "case_id" !in r.value
  {
    var e := LegacyNormalisers(env, rd, text);
    if e.None? {
      return None;
    }
    r := Resanitise(env, now, e.value, path);
  }

  /** The sanitiser re-run with the document's path, then `_fulltext` popped;
      `None` when the sanitiser raises. It brings back no `case_id` its input
      lacks. */
  method Resanitise(env: Env, now: Timestamp, e: Dict, path: string) returns (r: Option<Dict>)
    ensures r.Some? ==> Get(r.value, "source_path") == Str(path) && "_fulltext" !in r.value
    ensures r.Some? && "case_id" in r.value ==> "case_id" in e
  {
    var s := SanitizeStep(env, now, e, path);
    if s.Raise? {
      return None;
    }
    r := Some(Stripped(s.value));
  }

  /** `row_dict.pop("_fulltext", None)`. */
  function Stripped(d: Dict): (r: Dict)
    ensures "_fulltext" !in r && Get(r, "source_path") == Get(d, "source_path")
    ensures "case_id" in r ==> "case_id" in d
  {
    Del(d, "_fulltext")
  }

  // ------------------------------------------------------------ the in-place edits

  /** The row the normalisers start from: the validated row, with the document
      text as `_fulltext` when there is any. */
  function WithText(clean: Dict, text: string): (rd: Dict)
    ensures forall k | k in clean && k != "_fulltext" :: k in rd && rd[k] == clean[k]
    ensures "_fulltext" in rd <==> "_fulltext" in clean || text != ""
  {
    if text != "" then clean["_fulltext" := Str(text)] else clean
  }

  /** `row_dict = clean_row.copy()` copies only the top level, so a category
      dict of the clean row is the very dict the normalisers edit: the clean
      row sees the edited dict `x[k]` wherever both hold a dict under `k`. */
  function Carried(clean: Dict, x: Dict): (r: Dict)
    ensures r.Keys == clean.Keys
    ensures forall k | k in clean :: r[k] == (if clean[k].Obj? && k in x && x[k].Obj? then x[k] else clean[k])
  {
    map k | k in clean :: if clean[k].Obj? && k in x && x[k].Obj? then x[k] else clean[k]
  }

  /** `_map_extra_keys` edits a truthy category in place; a falsy one is
      replaced by a fresh dict, which leaves the shared one alone. */
  function MappedInPlace(env: Env, e: Dict): (m: Dict)
    requires forall k | Sanitize.IsMapped(k) :: DictOrFalsy(Get(e, k))
    ensures m.Keys == e.Keys
    ensures forall k | k in e && !(Sanitize.IsMapped(k) && Truthy(e[k])) :: m[k] == e[k]
    ensures forall k | k in e && Sanitize.IsMapped(k) && Truthy(e[k]) :: m[k] == Sanitize.MapExtraKeys(env, e)[k]
    ensures Get(m, "provenance") == Get(e, "provenance") && Get(m, "audit") == Get(e, "audit")
  {
    var mx := Sanitize.MapExtraKeys(env, e);
    assert !Sanitize.IsMapped("provenance") && !Sanitize.IsMapped("audit");
    map k | k in e :: if Sanitize.IsMapped(k) && Truthy(e[k]) then mx[k] else e[k]
  }

  /** Step 9 of the sanitiser edits a truthy audit dict in place; a falsy
      one is replaced by a fresh dict. */
  function AuditedInPlace(env: Env, m: Dict): (a: Dict)
    requires ConfidencesNumericAt(env, m)
    ensures a.Keys == m.Keys
    ensures forall k | k in m && k != "audit" :: a[k] == m[k]
    ensures Truthy(Get(m, "audit")) ==> a["audit"] == Obj(Sanitize.AuditInPlace(env, m["audit"].fields))
    ensures !Truthy(Get(m, "audit")) ==> Get(a, "audit") == Get(m, "audit")
  {
    if Truthy(Get(m, "audit")) && m["audit"].Obj? then m["audit" := Obj(Sanitize.AuditInPlace(env, m["audit"].fields))] else m
  }

  /** Every confidence of a dict-valued audit converts with `float()`, and a
      truthy audit is a dict. */
  predicate ConfidencesNumericAt(env: Env, m: Dict) {
    DictOrFalsy(Get(m, "audit")) && Sanitize.ConfidencesNumeric(env, AsDict(Get(m, "audit")))
  }

  /** The clean row after the normalisers of step 2h ran on its shallow copy:
      the edits of `harmonize_record_fields` and `_enrich_common_fields`
      (through `_canonize_keys`), those of `_map_extra_keys`, and the audit's
      step 9. A step that raises contributes none of its own edits. */
  function Edited(env: Env, clean: Dict, text: string): (r: Dict)
    ensures r.Keys == clean.Keys
    ensures forall k | k in clean :: !clean[k].Obj? ==> r[k] == clean[k]
    ensures forall k | k in clean :: clean[k].Obj? ==> r[k].Obj?
  {
    CarriedIf(clean, Normalised(env, WithText(clean, text), text))
  }

  /** The clean row seen through the shared dicts of `x`, when the
      normalisers got as far as producing one. */
  function CarriedIf(clean: Dict, x: Option<Dict>): (r: Dict)
    ensures r.Keys == clean.Keys
    ensures forall k | k in clean :: !clean[k].Obj? ==> r[k] == clean[k]
    ensures forall k | k in clean :: clean[k].Obj? ==> r[k].Obj?
  {
    if x.Some? then Carried(clean, x.value) else clean
  }

  /** The row the normalisers leave behind: the harmonised row, then the
      enriched one, then the sanitiser's in-place edits, stopping before the
      first step that raises; nothing when harmonisation itself cannot start. */
  function Normalised(env: Env, rd: Dict, text: string): Option<Dict>
  {
    if !Harmonize.HShaped(rd) then None
    else Some(Enriched(env, Harmonize.HarmonizeRecordFields(env, rd), text))
  }

  /** What enrichment and the sanitiser's in-place steps leave of the
      harmonised row. */
  function Enriched(env: Env, h: Dict, text: string): Dict
  {
    if !Enrich.EnrichShaped(env, h, text) then h
    else
      var e := Enrich.EnrichCommonFields(env, h, text);
      if !(DictOrFalsy(Get(e, "demographic")) && DictOrFalsy(Get(e, "temporal")) && DictOrFalsy(Get(e, "spatial")))
      then e
      else SanitizerEdits(env, e)
  }

  /** The sanitiser's in-place edits on the enriched row: those of
      `_map_extra_keys`, then step 8's on a truthy provenance dict and the
      audit's, each when the sanitiser gets that far. */
  function SanitizerEdits(env: Env, e: Dict): (a: Dict)
    requires DictOrFalsy(Get(e, "demographic")) && DictOrFalsy(Get(e, "temporal")) && DictOrFalsy(Get(e, "spatial"))
    ensures a.Keys == e.Keys
    ensures ThroughProvenance(env, e) && Truthy(Get(e, "provenance")) ==>
      a["provenance"] == Obj(Sanitize.CleanProvenance(e["provenance"].fields, Sanitize.Captured(env, e, map[])))
    ensures !(ThroughProvenance(env, e) && Truthy(Get(e, "provenance"))) ==> Get(a, "provenance") == Get(e, "provenance")
  {
    var m := MappedInPlace(env, e);
    if !ThroughProvenance(env, e) then m
    else
      AuditIfReached(env, e, ProvenanceInPlace(m, Sanitize.Captured(env, e, map[])))
  }

  /** Step 9's edits on `p`, when the sanitiser gets that far on `e`. */
  function AuditIfReached(env: Env, e: Dict, p: Dict): (a: Dict)
    requires Get(p, "audit") == Get(e, "audit")
    ensures a.Keys == p.Keys
    ensures forall k | k in p && k != "audit" :: a[k] == p[k]
  {
    if Sanitize.Sanitizable(env, e) then AuditReady(env, e, p); AuditedInPlace(env, p) else p
  }

  /** Steps 3 to 8 of the sanitiser return: every category it reads up to
      there is a dict or falsy, and `original_fields` can take the captured
      fields. */
  predicate ThroughProvenance(env: Env, e: Dict) {
    && DictOrFalsy(Get(e, "demographic")) && DictOrFalsy(Get(e, "temporal"))
    && DictOrFalsy(Get(e, "spatial")) && DictOrFalsy(Get(e, "narrative_osint"))
    && DictOrFalsy(Get(e, "outcome")) && DictOrFalsy(Get(e, "provenance"))
    && Sanitize.OriginalFieldsWritable(AsDict(Get(e, "provenance")), Sanitize.Captured(env, e, map[]))
  }

  /** Step 8 edits a truthy provenance dict in place; a falsy one is
      replaced by a fresh dict, which leaves the shared one alone. */
  function ProvenanceInPlace(m: Dict, captured: Dict): (p: Dict)
    requires DictOrFalsy(Get(m, "provenance"))
    requires Sanitize.OriginalFieldsWritable(AsDict(Get(m, "provenance")), captured)
    ensures p.Keys == m.Keys
    ensures forall k | k in m && k != "provenance" :: p[k] == m[k]
    ensures Truthy(Get(m, "provenance")) ==> p["provenance"] == Obj(Sanitize.CleanProvenance(m["provenance"].fields, captured))
    ensures !Truthy(Get(m, "provenance")) ==> Get(p, "provenance") == Get(m, "provenance")
  {
    if Truthy(Get(m, "provenance")) then m["provenance" := Obj(Sanitize.CleanProvenance(m["provenance"].fields, captured))] else m
  }

  /** A truthy provenance dict shared with the caller ends up equal to the
      provenance of the row the sanitiser returns. */
  lemma SharedProvenance(env: Env, now: Timestamp, e: Dict, path: string)
    requires Sanitize.Sanitizable(env, e) && Truthy(Get(e, "provenance"))
    ensures Get(SanitizerEdits(env, e), "provenance") == Sanitize.SanitizeRow(env, now, e, path)["provenance"]
  {
    var rec := Sanitize.MapExtraKeys(env, e);
    Sanitize.ProvenanceUnmapped(e, rec);
    Sanitize.CleanedProvenance(env, now, Sanitize.Captured(env, e, map[]), rec);
  }

  /** The audit `_map_extra_keys` leaves behind is the one the sanitiser
      checked. */
  lemma AuditReady(env: Env, e: Dict, m: Dict)
    requires Sanitize.Sanitizable(env, e) && Get(m, "audit") == Get(e, "audit")
    ensures ConfidencesNumericAt(env, m)
  {
  }

  /** The edits change only the contents of category dicts, so
      `GuardianRow(**clean_row)` accepts the edited row whenever it accepted
      the clean one, with the same path and case id. */
  lemma EditedDumpable(env: Env, clean: Dict, text: string)
    requires Dumpable(clean)
    ensures Dumpable(Edited(env, clean, text))
    ensures Get(Edited(env, clean, text), "source_path") == Get(clean, "source_path")
    ensures Get(Edited(env, clean, text), "case_id") == Get(clean, "case_id")
  {
  }

  /** Step 2h: the normalised row is kept only when it still validates;
      otherwise `GuardianRow(**clean_row)` is rebuilt from the clean row, whose
      category dicts the normalisers have edited in place, and that record is
      written without a second validation. The value is the dumped record. */
  method Normalise(env: Env, now: Timestamp, clean: Dict, text: string, path: string) returns (r: Dict)
    requires Check(env, clean) == Ok([])
    ensures r.Keys == GuardianFields
    ensures Get(clean, "source_path") == Str(path) ==> r["source_path"] == Str(path)
    ensures ValidateRow(env, r) == [] || RecordDump(Edited(env, clean, text)) == Ok(r)
    ensures Edited(env, clean, text) == clean ==> ValidateRow(env, r) == []
    ensures "case_id" !in AsDict(Get(clean, "case")) ==> RecordDump(Edited(env, clean, text)) == Ok(r)
  {
    var rd := WithText(clean, text);
    assert Get(rd, "case") == Get(clean, "case");
    var s := Renormalise(env, now, rd, text, path);
    if s.Some? && Check(env, s.value) == Ok([]) {
      r := RecordDump(s.value).value;
    } else {
      EditedDumpable(env, clean, text);
      r := RecordDump(Edited(env, clean, text)).value;
    }
  }
  // ------------------------------------------------------------ the case number of the normalised row

  /** Without a `case_id`, `GuardianRow(**row_dict)` raises. */
  lemma NoCaseIdNoRow(env: Env, s: Dict)
    requires "case_id" !in s
    ensures Check(env, s).Raise?
  {
  }

  /** `row_dict["case_id"] = clean_row.get("case_id")`: the case number of
      the validated row put back on the re-sanitised one. */
  function RestoreCaseId(clean: Dict, s: Dict): (r: Dict)
    ensures "case_id" in r && r["case_id"] == Get(clean, "case_id")
    ensures forall k | k != "case_id" :: (k in r <==> k in s) && Get(r, k) == Get(s, k)
  {
    s["case_id" := Get(clean, "case_id")]
  }

  /** With the case number put back, `GuardianRow(**row_dict)` accepts every
      row the sanitiser returns with a dict or no audit, so the normalised row
      reaches the second validation. */
  lemma RestoredRowBuilds(env: Env, clean: Dict, s: Dict)
    requires Dumpable(clean) && Sanitize.Sanitized(s) && DictOrAbsent(s, "audit")
    ensures Dumpable(RestoreCaseId(clean, s))
    ensures Check(env, RestoreCaseId(clean, s)).Ok?
  {
    var r := RestoreCaseId(clean, s);
    forall k | Sanitize.IsRequiredKey(k)
      ensures DictOrAbsent(r, k)
    {
      assert Sanitize.ShapedAt(s, k);
    }
    assert Sanitize.IsRequiredKey("demographic") && Sanitize.IsRequiredKey("temporal") && Sanitize.IsRequiredKey("spatial");
    assert Sanitize.IsRequiredKey("narrative_osint") && Sanitize.IsRequiredKey("outcome") && Sanitize.IsRequiredKey("provenance");
  }
}

=== FILE: agent_run.dfy ===
/** `run_agent_simple` (llm/agent/llm_agent_simple.py): every PDF of the
    input directory goes through the per-document steps in turn; the result
    is whether any record was written, how many were, and the summary
    message built from the error entries. */
module AgentRun {
  import opened Wrappers
  import opened Json
  import opened Text
  import opened Runtime
  import opened Geo
  import opened Tools
  import opened AgentFlow
  import opened AgentDoc

  /** How many error entries the message quotes when records were written,
      and when none were. */
  const QuotedOnSuccess: nat := 5
  const QuotedOnFailure: nat := 10

  /** `errors[:n]`. */
  function Take(errors: seq<string>, n: nat): (r: seq<string>)
    ensures r <= errors && |r| == if |errors| <= n then |errors| else n
  {
    if |errors| <= n then errors else errors[..n]
  }

  /** The message returned after the loop: `None` when records were written
      without an error, otherwise the count and the first few errors. */
  function RunMessage(processed: nat, errors: seq<string>): (r: Option<string>)
    ensures r.None? <==> processed > 0 && errors == []
  {
    if processed > 0 then
      if errors == [] then None
      else Some("Processed " + NatToString(processed) + " record(s) with " + NatToString(|errors|)
                + " error(s): " + Join("; ", Take(errors, QuotedOnSuccess)))
    else if errors == [] then Some("No records processed")
    else Some("No records processed. Errors: " + Join("; ", Take(errors, QuotedOnFailure)))
  }

  /** The message when the directory holds no PDF. */
  function NoPdfs(inputDir: string): string {
    "No PDF files found in " + inputDir
  }

  /** The paths of the documents. */
  function Paths(docs: seq<Doc>): (r: seq<string>)
    ensures |r| == |docs| && forall i | 0 <= i < |docs| :: r[i] == docs[i].path
  {
    seq(|docs|, i requires 0 <= i < |docs| => docs[i].path)
  }

  /** The documents' "No text extracted" entries survive the entries of the
      next document. */
  lemma NoTextKept(docs: seq<Doc>, i: nat, before: seq<string>, added: seq<string>)
    requires i < |docs|
    requires forall k | 0 <= k < i && TextMissing(docs[k].text) :: NoText(docs[k].path) in before
    requires TextMissing(docs[i].text) ==> added == [NoText(docs[i].path)]
    ensures forall k | 0 <= k <= i && TextMissing(docs[k].text) :: NoText(docs[k].path) in before + added
  {
    forall k | 0 <= k <= i && TextMissing(docs[k].text) ensures NoText(docs[k].path) in before + added {
      if k < i {
        assert NoText(docs[k].path) in before;
      } else {
        assert (before + added)[|before|] == NoText(docs[k].path);
      }
    }
  }

  /** A record written for document `i` carries one of the documents' paths. */
  lemma PathKept(docs: seq<Doc>, i: nat, written: seq<Dict>, row: Dict)
    requires i < |docs| && "source_path" in row && row["source_path"] == Str(docs[i].path)
    requires forall w: Dict | w in written :: Get(w, "source_path").Str? && Get(w, "source_path").s in Paths(docs)
    ensures forall w: Dict | w in written + [row] :: Get(w, "source_path").Str? && Get(w, "source_path").s in Paths(docs)
  {
    assert Paths(docs)[i] == docs[i].path;
  }

  /** The loop over the documents, in order. A record is written only when its row
      passed validation; it carries the document's path and has exactly the
      fields of `GuardianRow` (the fallback of step 2h is not validated again); the case number of each draft is one more than the count
      of records written before it. */
  method RunAgent(env: Env, st: Settings, inputDir: string, docs: seq<Doc>, cache: Cache)
    returns (success: bool, processed: nat, message: Option<string>, errors: seq<string>,
             written: seq<Dict>, cache': Cache)
    ensures docs == [] ==> !success && processed == 0 && message == Some(NoPdfs(inputDir)) && cache' == cache
    ensures success <==> processed > 0
    ensures processed == |written| <= |docs|
    ensures docs != [] ==> message == RunMessage(processed, errors)
    ensures !success ==> message.Some?
    ensures |errors| <= 2 * |docs|
    ensures forall w | w in written :: w.Keys == GuardianFields
    ensures forall w: Dict | w in written :: Get(w, "source_path").Str? && Get(w, "source_path").s in Paths(docs)
    ensures forall d | d in docs && TextMissing(d.text) :: NoText(d.path) in errors
  {
    if docs == [] {
      return false, 0, Some(NoPdfs(inputDir)), [], [], cache;
    }
    processed, errors, written, cache' := 0, [], [], cache;
    var i := 0;
    while i < |docs|
      invariant i <= |docs| && processed == |written| <= i
      invariant |errors| <= 2 * i
      invariant forall w | w in written :: w.Keys == GuardianFields
      invariant forall w: Dict | w in written :: Get(w, "source_path").Str? && Get(w, "source_path").s in Paths(docs)
      invariant forall k | 0 <= k < i && TextMissing(docs[k].text) :: NoText(docs[k].path) in errors
    {
      var out := ProcessDoc(env, st, docs[i], processed, cache');
      NoTextKept(docs, i, errors, out.errors);
      errors := errors + out.errors;
      cache' := out.cache;
      if out.row.Some? {
        PathKept(docs, i, written, out.row.value);
        written := written + [out.row.value];
        processed := processed + 1;
      }
      i := i + 1;
    }
    success := processed > 0;
    message := RunMessage(processed, errors);
  }
}

=== FILE: backfill.dfy ===
/** The safety pass `backfill` (parser_pack.py) and the two hardened
    extractors it relies on, `parse_last_seen_ts` and `parse_gender`. The
    regexes are oracles of `Env`; what is modelled is which match is used, how
    its text is parsed and which record slots may be written. */
module Backfill {
  import opened Wrappers
  import opened Json
  import opened Text
  import opened Dates
  import opened Runtime
  import opened Units

  // ------------------------------------------------------------ parse_last_seen_ts

  /** The date patterns are tried in this order: "Missing Since:" with a
      month-name date, "Missing Since" with the date on the next line, the
      "Date Last Seen"/"Missing Date" label, and a generic "Last seen". */
  const PatternCount: nat := 4

  /** The `strptime` formats tried on the matched text, in order. */
  const LastSeenFormats: seq<string> := ["%B %d, %Y", "%b %d, %Y", "%m/%d/%Y", "%m-%d-%Y", "%m/%d/%y", "%m-%d-%y"]

  /** The first pattern, from number `k` on, that matches `t`; `PatternCount + 1` when none does. */
  function FirstPattern(env: Env, t: string, k: nat): (i: nat)
    requires 1 <= k <= PatternCount + 1
    ensures k <= i <= PatternCount + 1
    ensures i <= PatternCount ==> env.lastSeenMatch(i, t).Some?
    ensures forall j | k <= j < i :: env.lastSeenMatch(j, t).None?
    decreases PatternCount + 1 - k
  {
    if k > PatternCount then k
    else if env.lastSeenMatch(k, t).Some? then k
    else FirstPattern(env, t, k + 1)
  }

  /** The matched text as a date: the first accepting format, rendered
      `%Y-%m-%d`, else the fuzzy parser, rendered by `isoformat`; `None` when
      both fail. */
  function ParseDateText(env: Env, s: string): (r: Option<string>)
    ensures r.Some? ==> r.value != [] && RenderedDate(r.value)
    ensures r.None? <==> FirstParse(env, s, LastSeenFormats).None? && env.fuzzyDate(s).None?
    ensures FirstParse(env, s, LastSeenFormats).None? && r.Some? ==> FullDate(r.value)
  {
    match FirstParse(env, s, LastSeenFormats)
    case Some(d) => Some(FormatYmd(d))
    case None =>
      match env.fuzzyDate(s)
      case Some(d) => FormatIsoRoundTrip(d); Some(FormatIso(d))
      case None => None
  }

  /** A text only the fuzzy parser reads, such as a two-digit day and month
      with a three-digit year, comes back with the year zero-padded. */
  lemma FuzzyYearPadded(env: Env, s: string)
    requires FirstParse(env, s, LastSeenFormats).None?
    requires env.fuzzyDate(s) == Some(CalendarDate(197, 2, 7))
    ensures ParseDateText(env, s) == Some("0197-02-07")
  {
    IsoPadsEarlyYears();
  }

  /** A date as `parse_last_seen_ts` renders it, with `%Y-%m-%d` or with `isoformat`. */
  ghost predicate RenderedDate(x: string) {
    exists d: Date :: x == FormatYmd(d) || x == FormatIso(d)
  }

  /** `parse_last_seen_ts(text)`: carriage returns removed, then group 1 of
      the first matching pattern parsed as a date. A result is a rendered
      date; there is none when no pattern matches. */
  function ParseLastSeenTs(env: Env, text: string): (r: Option<string>)
    ensures r.Some? ==> r.value != [] && RenderedDate(r.value)
    ensures NoPatternMatches(env, Without(text, '\r')) ==> r.None?
  {
    var t := Without(text, '\r');
    var i := FirstPattern(env, t, 1);
    if i > PatternCount then None else ParseDateText(env, env.lastSeenMatch(i, t).value.group1)
  }

  /** None of the date patterns matches `t`. */
  predicate NoPatternMatches(env: Env, t: string) {
    forall k | 1 <= k <= PatternCount :: env.lastSeenMatch(k, t).None?
  }

  /** An earlier pattern decides the result whenever it matches; later
      patterns are not consulted. */
  lemma EarlierPatternWins(env: Env, text: string, k: nat)
    requires 1 <= k <= PatternCount
    requires var t := Without(text, '\r');
      env.lastSeenMatch(k, t).Some? && forall j | 1 <= j < k :: env.lastSeenMatch(j, t).None?
    ensures var t := Without(text, '\r');
      ParseLastSeenTs(env, text) == ParseDateText(env, env.lastSeenMatch(k, t).value.group1)
  {
    var t := Without(text, '\r');
    var i := FirstPattern(env, t, 1);
    assert i == k;
  }

  /** The third pattern's group 1 is its label ("Date Last Seen" or "Missing
      Date") and the date is group 2. The code reads group 1 for every pattern,
      so when the third pattern is the one that matches, the result is the
      label parsed as a date and does not depend on the date at all. */
  lemma ThirdPatternReadsLabel(env: Env, text: string, caption: string, date: string, more: seq<string>)
    requires var t := Without(text, '\r');
      && env.lastSeenMatch(1, t).None? && env.lastSeenMatch(2, t).None?
      && env.lastSeenMatch(3, t) == Some(Match(caption, [date] + more))
    ensures ParseLastSeenTs(env, text) == ParseDateText(env, caption)
  {
    EarlierPatternWins(env, text, 3);
  }

  /** The capture group that holds the date: group 2 for the third pattern,
      whose group 1 is its label, and group 1 for the others. */
  function DateGroup(k: nat, m: Match): string {
    if k == 3 && |m.more| > 0 then m.more[0] else m.group1
  }

  /** `parse_last_seen_ts` reading the date group of the pattern that matched. */
  function ParseLastSeenTsIntended(env: Env, text: string): (r: Option<string>)
    ensures r.Some? ==> r.value != [] && RenderedDate(r.value)
    ensures NoPatternMatches(env, Without(text, '\r')) ==> r.None?
  {
    var t := Without(text, '\r');
    var i := FirstPattern(env, t, 1);
    if i > PatternCount then None else ParseDateText(env, DateGroup(i, env.lastSeenMatch(i, t).value))
  }

  /** Corrected, the third pattern yields its date. */
  lemma ThirdPatternReadsDate(env: Env, text: string, caption: string, date: string, more: seq<string>)
    requires var t := Without(text, '\r');
      && env.lastSeenMatch(1, t).None? && env.lastSeenMatch(2, t).None?
      && env.lastSeenMatch(3, t) == Some(Match(caption, [date] + more))
    ensures ParseLastSeenTsIntended(env, text) == ParseDateText(env, date)
  {
    var t := Without(text, '\r');
    assert FirstPattern(env, t, 1) == 3;
  }

  /** Whenever the third pattern is not the one that decides, the corrected
      parse agrees with the code's. */
  lemma IntendedAgreesOtherwise(env: Env, text: string)
    requires var t := Without(text, '\r');
      env.lastSeenMatch(1, t).Some? || env.lastSeenMatch(2, t).Some? || env.lastSeenMatch(3, t).None?
    ensures ParseLastSeenTsIntended(env, text) == ParseLastSeenTs(env, text)
  {
    var t := Without(text, '\r');
    assert FirstPattern(env, t, 1) != 3;
  }

  // ------------------------------------------------------------ parse_gender

  /** `parse_gender(text)`: the "Sex:" header group, else the gender word of
      the "Age Now" pattern, stripped, lower-cased and classified by
      `startswith`; then the standalone words "Female" and "Male". */
  function ParseGender(env: Env, text: string): (r: Option<string>)
    ensures r == None || r == Some("male") || r == Some("female")
  {
    var t := Without(text, '\r');
    var g := if env.genderHeader(t).Some? then env.genderHeader(t) else env.genderAgeNow(t);
    var w := if g.Some? then Lower(Strip(g.value)) else "";
    if g.Some? && StartsWith(w, "male") then Some("male")
    else if g.Some? && StartsWith(w, "female") then Some("female")
    else if env.femaleWord(t) then Some("female")
    else if env.maleWord(t) then Some("male")
    else None
  }

  /** The "Sex:" header wins over everything else when it captured a gender
      word in any letter case; "female" does not start with "male". */
  lemma HeaderGenderWins(env: Env, text: string, word: string)
    requires env.genderHeader(Without(text, '\r')) == Some(word)
    requires Lower(word) == "male" || Lower(word) == "female"
    ensures ParseGender(env, text) == Some(Lower(word))
  {
    StripTrimmed(word);
  }

  /** With no header or "Age Now" match, "Female" is looked for before "Male". */
  lemma FemaleWordFirst(env: Env, text: string)
    requires var t := Without(text, '\r'); env.genderHeader(t).None? && env.genderAgeNow(t).None?
    ensures var t := Without(text, '\r');
      && (env.femaleWord(t) ==> ParseGender(env, text) == Some("female"))
      && (!env.femaleWord(t) && env.maleWord(t) ==> ParseGender(env, text) == Some("male"))
      && (!env.femaleWord(t) && !env.maleWord(t) ==> ParseGender(env, text) == None)
  {
  }

  // ------------------------------------------------------------ backfill

  /** The temporal timestamp is missing or falsy. */
  predicate NeedsTs(r: Dict) {
    !Truthy(Get(AsDict(Get(r, "temporal")), "last_seen_ts"))
  }

  /** The demographic gender is missing or falsy. */
  predicate NeedsGender(r: Dict) {
    !Truthy(Get(AsDict(Get(r, "demographic")), "gender"))
  }

  /** The records `backfill` accepts without raising: the two buckets it reads
      with `.get` are dicts or absent, and the stored text is a string when it
      is needed. */
  predicate BShaped(r: Dict) {
    && DictOrAbsent(r, "temporal") && DictOrAbsent(r, "demographic")
    && ("_fulltext" in r && (NeedsTs(r) || NeedsGender(r)) ==> r["_fulltext"].Str?)
  }

  /** `r.get("_fulltext", "")` where it is read. */
  function FullText(r: Dict): string {
    if "_fulltext" in r && r["_fulltext"].Str? then r["_fulltext"].s else ""
  }

  /** `parse_last_seen_ts(t) or ""`: a rendered date, or "" when there is none. */
  function LastSeenOrEmpty(env: Env, text: string): (x: string)
    ensures x == "" <==> ParseLastSeenTs(env, text).None?
    ensures LastSeenText(x)
  {
    var ts := ParseLastSeenTs(env, text);
    if ts.Some? then ts.value else ""
  }

  /** A falsy `last_seen_ts` is replaced by the parsed date or "". */
  function BackfillTs(env: Env, r: Dict): (o: Dict)
    ensures o == r || o == r["temporal" := Get(o, "temporal")]
  {
    var temp := AsDict(Get(r, "temporal"));
    if Truthy(Get(temp, "last_seen_ts")) then r
    else r["temporal" := Obj(temp["last_seen_ts" := Str(LastSeenOrEmpty(env, FullText(r)))])]
  }

  /** A falsy gender is replaced by the parsed gender when there is one. */
  function BackfillGender(env: Env, r: Dict): (o: Dict)
    ensures o == r || o == r["demographic" := Get(o, "demographic")]
  {
    var demo := AsDict(Get(r, "demographic"));
    if Truthy(Get(demo, "gender")) then r
    else
      match ParseGender(env, FullText(r))
      case Some(g) => r["demographic" := Obj(demo["gender" := Str(g)])]
      case None => r
  }

  /** The loop body of `backfill` for one record. */
  function BackfillRecord(env: Env, r: Dict): (o: Dict)
    requires BShaped(r)
    ensures "last_seen_ts" in AsDict(Get(o, "temporal"))
  {
    SlotsDistinct();
    BackfillGender(env, BackfillTs(env, r))
  }

  /** `backfill(records)`: every record passed through the loop body, in order. */
  function BackfillAll(env: Env, rs: seq<Dict>): (os: seq<Dict>)
    requires forall i | 0 <= i < |rs| :: BShaped(rs[i])
    ensures |os| == |rs|
  {
    seq(|rs|, i requires 0 <= i < |rs| => BackfillRecord(env, rs[i]))
  }

  /** The keys the loop body reads and writes are distinct. */
  lemma SlotsDistinct()
    ensures "temporal" != "demographic" && "_fulltext" != "temporal" && "_fulltext" != "demographic"
  {
  }

  /** The timestamp step writes only `temporal.last_seen_ts`. */
  lemma TsStepFrame(env: Env, r: Dict)
    ensures var o := BackfillTs(env, r);
      && (forall j | j != "temporal" :: (j in o <==> j in r) && Get(o, j) == Get(r, j))
      && (forall j | j != "last_seen_ts" :: Get(AsDict(Get(o, "temporal")), j) == Get(AsDict(Get(r, "temporal")), j))
  {
  }

  /** The gender step writes only `demographic.gender`. */
  lemma GenderStepFrame(env: Env, r: Dict)
    ensures var o := BackfillGender(env, r);
      && (forall j | j != "demographic" :: (j in o <==> j in r) && Get(o, j) == Get(r, j))
      && (forall j | j != "gender" :: Get(AsDict(Get(o, "demographic")), j) == Get(AsDict(Get(r, "demographic")), j))
  {
  }

  /** Only `temporal` and `demographic` change, and within them only
      `last_seen_ts` and `gender`. */
  lemma BackfillTouchesOnlyTwoSlots(env: Env, r: Dict)
    requires BShaped(r)
    ensures var o := BackfillRecord(env, r);
      && (forall j | j != "temporal" && j != "demographic" :: (j in o <==> j in r) && Get(o, j) == Get(r, j))
      && (forall j | j != "last_seen_ts" ::
            Get(AsDict(Get(o, "temporal")), j) == Get(AsDict(Get(r, "temporal")), j))
      && (forall j | j != "gender" ::
            Get(AsDict(Get(o, "demographic")), j) == Get(AsDict(Get(r, "demographic")), j))
  {
    SlotsDistinct();
    TsStepFrame(env, r);
    GenderStepFrame(env, BackfillTs(env, r));
  }

  /** Afterwards every record has a `last_seen_ts`: the old one when it was
      truthy, otherwise a rendered date or "". */
  lemma BackfillLastSeen(env: Env, r: Dict)
    requires BShaped(r)
    ensures var t := Get(BackfillRecord(env, r), "temporal");
      && "last_seen_ts" in AsDict(t)
      && (!NeedsTs(r) ==> t == Get(r, "temporal"))
      && (NeedsTs(r) ==> t.Obj? && exists x :: t.fields["last_seen_ts"] == Str(x) && LastSeenText(x))
  {
    SlotsDistinct();
  }

  /** What a backfilled timestamp can be: "" or a rendered date. */
  ghost predicate LastSeenText(x: string) {
    x == "" || RenderedDate(x)
  }

  /** A gender is only ever written into a falsy slot, and only as "male" or "female". */
  lemma BackfillGenderValues(env: Env, r: Dict)
    requires BShaped(r)
    ensures var d := Get(BackfillRecord(env, r), "demographic");
      && (!NeedsGender(r) ==> d == Get(r, "demographic"))
      && (d != Get(r, "demographic") ==>
            NeedsGender(r) && d.Obj? && d.fields["gender"] in {Str("male"), Str("female")})
  {
    SlotsDistinct();
  }

  /** Once the timestamp step has run, running it on any record with the same
      temporal bucket and text does nothing. */
  lemma TsSettled(env: Env, r: Dict, z: Dict)
    requires Get(z, "temporal") == Get(BackfillTs(env, r), "temporal") && FullText(z) == FullText(r)
    ensures BackfillTs(env, z) == z
  {
    var t := AsDict(Get(r, "temporal"));
    if Truthy(Get(t, "last_seen_ts")) {
      assert AsDict(Get(z, "temporal")) == t;
    } else {
      var x := LastSeenOrEmpty(env, FullText(r));
      var t1 := t["last_seen_ts" := Str(x)];
      assert Get(z, "temporal") == Obj(t1);
      assert Get(t1, "last_seen_ts") == Str(x);
      if x == "" {
        assert LastSeenOrEmpty(env, FullText(z)) == "";
        RestoreSame(t1, "last_seen_ts", Str(""));
        RestoreSame(z, "temporal", Obj(t1));
      }
    }
  }

  /** Writing back the value a key already holds leaves the dict as it was. */
  lemma RestoreSame(d: Dict, k: string, v: Value)
    requires k in d && d[k] == v
    ensures d[k := v] == d
  {
  }

  /** Once the gender step has run, running it on any record with the same
      demographic bucket and text does nothing. */
  lemma GenderSettled(env: Env, r: Dict, z: Dict)
    requires Get(z, "demographic") == Get(BackfillGender(env, r), "demographic") && FullText(z) == FullText(r)
    ensures BackfillGender(env, z) == z
  {
  }

  /** A second pass changes nothing: a filled slot is skipped, and an empty
      one is parsed from the same text again. */
  lemma BackfillIdempotent(env: Env, r: Dict)
    requires BShaped(r)
    ensures BShaped(BackfillRecord(env, r))
    ensures BackfillRecord(env, BackfillRecord(env, r)) == BackfillRecord(env, r)
  {
    SlotsDistinct();
    var o1 := BackfillTs(env, r);
    var o := BackfillGender(env, o1);
    TsStepFrame(env, r);
    GenderStepFrame(env, o1);
    assert FullText(o) == FullText(r) && FullText(o1) == FullText(r);
    TsSettled(env, r, o);
    GenderSettled(env, o1, o);
  }

  lemma BackfillAllIdempotent(env: Env, rs: seq<Dict>)
    requires forall i | 0 <= i < |rs| :: BShaped(rs[i])
    ensures forall i | 0 <= i < |rs| :: BShaped(BackfillAll(env, rs)[i])
    ensures BackfillAll(env, BackfillAll(env, rs)) == BackfillAll(env, rs)
  {
    forall i | 0 <= i < |rs| ensures BShaped(BackfillAll(env, rs)[i]) {
      BackfillIdempotent(env, rs[i]);
    }
    forall i | 0 <= i < |rs| ensures BackfillAll(env, BackfillAll(env, rs))[i] == BackfillAll(env, rs)[i] {
      BackfillIdempotent(env, rs[i]);
    }
  }
}

=== FILE: canon.dfy ===
/** Alias-to-canonical key migration (`CANON_MAP` and `_canonize_keys`,
    parser_pack.py). Each alias is visited in the map's order; a value with text
    is copied into the canonical slot only through `setdefault`, and the alias
    key is deleted whether or not it was copied. */
module Canon {
  import opened Json
  import opened Runtime

  datatype Alias = Alias(outer: string, inner: string, cOuter: string, cInner: string)

  /** `CANON_MAP` in its insertion order. */
  const CanonMap: seq<Alias> := [
    Alias("demographic", "age", "demographic", "age_years"),
    Alias("demographic", "eyes", "demographic", "eye_color"),
    Alias("demographic", "eyes_color", "demographic", "eye_color"),
    Alias("demographic", "hair", "demographic", "hair_color"),
    Alias("demographic", "height", "demographic", "height_in"),
    Alias("demographic", "weight", "demographic", "weight_lb"),
    Alias("spatial", "lat", "spatial", "latitude"),
    Alias("spatial", "lon", "spatial", "longitude")
  ]

  predicate IsAlias(cat: string, key: string) {
    (cat == "demographic" && key in ["age", "eyes", "eyes_color", "hair", "height", "weight"])
    || (cat == "spatial" && key in ["lat", "lon"])
  }

  predicate IsTarget(cat: string, key: string) {
    (cat == "demographic" && key in ["age_years", "eye_color", "hair_color", "height_in", "weight_lb"])
    || (cat == "spatial" && key in ["latitude", "longitude"])
  }

  predicate Touched(cat: string) {
    cat == "demographic" || cat == "spatial"
  }

  /** An entry of the map: an alias and its canonical target in one category. */
  predicate GoodAlias(e: Alias) {
    e.outer == e.cOuter && Touched(e.outer) && IsAlias(e.outer, e.inner)
    && IsTarget(e.cOuter, e.cInner) && !IsAlias(e.cOuter, e.cInner)
  }

  lemma CanonMapGood()
    ensures forall e | e in CanonMap :: GoodAlias(e)
  {
    forall e | e in CanonMap
      ensures GoodAlias(e)
    {
      var i :| 0 <= i < |CanonMap| && CanonMap[i] == e;
      if i < 4 {
        DemographicEntriesGood(i);
      } else {
        LaterEntriesGood(i);
      }
    }
  }

  lemma DemographicEntriesGood(i: nat)
    requires i < 4
    ensures GoodAlias(CanonMap[i])
  {
    if i == 0 {} else if i == 1 {} else if i == 2 {} else {}
  }

  lemma LaterEntriesGood(i: nat)
    requires 4 <= i < |CanonMap|
    ensures GoodAlias(CanonMap[i])
  {
    if i == 4 {} else if i == 5 {} else if i == 6 {} else {}
  }

  /** The categories the migration reads are dicts when present. */
  predicate Shaped(rec: Dict) {
    DictOrAbsent(rec, "demographic") && DictOrAbsent(rec, "spatial")
  }

  /** `k in rec[cat]` for a category that is a dict. */
  predicate Has(rec: Dict, cat: string, k: string) {
    cat in rec && rec[cat].Obj? && k in rec[cat].fields
  }

  predicate NoAliases(rec: Dict) {
    forall e | e in CanonMap :: !Has(rec, e.outer, e.inner)
  }

  predicate AllGood(es: seq<Alias>) {
    forall e | e in es :: GoodAlias(e)
  }

  /** One iteration of the loop in `_canonize_keys`. */
  function Step(env: Env, rec: Dict, e: Alias): (r: Dict)
    requires Shaped(rec) && GoodAlias(e)
    ensures Shaped(r)
  {
    if Has(rec, e.outer, e.inner) then
      var v := rec[e.outer].fields[e.inner];
      var rec1 := if Filled(env, v) then
          rec[e.cOuter := Obj(SetDefault(rec[e.cOuter].fields, e.cInner, v))]
        else rec;
      rec1[e.outer := Obj(rec1[e.outer].fields - {e.inner})]
    else rec
  }

  function Fold(env: Env, rec: Dict, es: seq<Alias>): (r: Dict)
    requires Shaped(rec) && AllGood(es)
    ensures Shaped(r)
  {
    if es == [] then rec else Fold(env, Step(env, rec, es[0]), es[1..])
  }

  /** `_canonize_keys(rec)` for a record whose demographic and spatial entries are dicts. */
  function CanonizeKeys(env: Env, rec: Dict): (r: Dict)
    requires Shaped(rec)
    ensures Shaped(r)
  {
    CanonMapGood();
    Fold(env, rec, CanonMap)
  }

  /** The state one step leaves: the same categories, the alias gone, every
      other key as it was, and at most the canonical target added. */
  ghost predicate StepRelation(env: Env, rec: Dict, r: Dict, e: Alias) {
    && r.Keys == rec.Keys
    && (forall c | c in rec && c != e.outer :: r[c] == rec[c])
    && !Has(r, e.outer, e.inner)
    && (forall k | Has(rec, e.outer, k) && k != e.inner ::
          Has(r, e.outer, k) && (k != e.cInner ==> r[e.outer].fields[k] == rec[e.outer].fields[k]))
    && (Has(rec, e.cOuter, e.cInner) ==>
          Has(r, e.cOuter, e.cInner) && r[e.cOuter].fields[e.cInner] == rec[e.cOuter].fields[e.cInner])
    && (forall k | Has(r, e.outer, k) :: Has(rec, e.outer, k) || k == e.cInner)
    && (forall k | Has(r, e.outer, k) && !Has(rec, e.outer, k) ::
          Filled(env, r[e.outer].fields[k]))
  }

  lemma StepKeeps(env: Env, rec: Dict, e: Alias)
    requires Shaped(rec) && GoodAlias(e)
    ensures StepRelation(env, rec, Step(env, rec, e), e)
  {
    if Has(rec, e.outer, e.inner) {
      assert e.inner != e.cInner;
    }
  }

  /** A step whose alias is absent changes nothing. */
  lemma StepAbsent(env: Env, rec: Dict, e: Alias)
    requires Shaped(rec) && GoodAlias(e) && !Has(rec, e.outer, e.inner)
    ensures Step(env, rec, e) == rec
  {
  }

  /** What the whole loop keeps, for any run of well-formed entries. */
  ghost predicate FoldRelation(env: Env, rec: Dict, r: Dict, es: seq<Alias>) {
    && r.Keys == rec.Keys
    && (forall c | c in rec && !Touched(c) :: r[c] == rec[c])
    && (forall c, k | Has(rec, c, k) && !IsAlias(c, k) :: Has(r, c, k) && r[c].fields[k] == rec[c].fields[k])
    && (forall c, k | Has(r, c, k) :: Has(rec, c, k) || IsTarget(c, k))
    && (forall e | e in es :: !Has(r, e.outer, e.inner))
    && (forall c, k | Has(r, c, k) && !Has(rec, c, k) :: Filled(env, r[c].fields[k]))
  }

  lemma StepFold(env: Env, rec: Dict, s: Dict, e: Alias)
    requires GoodAlias(e) && StepRelation(env, rec, s, e)
    ensures FoldRelation(env, rec, s, [e])
  {
    forall c, k | Has(rec, c, k) && !IsAlias(c, k)
      ensures Has(s, c, k) && s[c].fields[k] == rec[c].fields[k]
    {
      if c == e.outer && k == e.cInner {
        assert Has(rec, e.cOuter, e.cInner);
      }
    }
  }

  lemma TargetsAreNotAliases(c: string, k: string)
    requires IsTarget(c, k)
    ensures !IsAlias(c, k)
  {
  }

  lemma ComposeFold(env: Env, rec: Dict, s: Dict, r: Dict, e: Alias, es: seq<Alias>)
    requires GoodAlias(e)
    requires FoldRelation(env, rec, s, [e]) && FoldRelation(env, s, r, es)
    ensures FoldRelation(env, rec, r, [e] + es)
  {
    forall x | x in [e] + es
      ensures !Has(r, x.outer, x.inner)
    {
      if x !in es {
        assert x == e && !Has(s, e.outer, e.inner);
        if IsTarget(e.outer, e.inner) {
          TargetsAreNotAliases(e.outer, e.inner);
        }
      }
    }
    forall c, k | Has(r, c, k) && !Has(rec, c, k)
      ensures Filled(env, r[c].fields[k])
    {
      if Has(s, c, k) {
        TargetsAreNotAliases(c, k);
      }
    }
    forall c, k | Has(rec, c, k) && !IsAlias(c, k)
      ensures Has(r, c, k) && r[c].fields[k] == rec[c].fields[k]
    {
    }
  }

  lemma {:induction false} FoldKeeps(env: Env, rec: Dict, es: seq<Alias>)
    requires Shaped(rec) && AllGood(es)
    ensures FoldRelation(env, rec, Fold(env, rec, es), es)
  {
    if es != [] {
      var s := Step(env, rec, es[0]);
      StepKeeps(env, rec, es[0]);
      StepFold(env, rec, s, es[0]);
      FoldKeeps(env, s, es[1..]);
      ComposeFold(env, rec, s, Fold(env, s, es[1..]), es[0], es[1..]);
      assert [es[0]] + es[1..] == es;
    }
  }

  lemma {:induction false} FoldAbsent(env: Env, rec: Dict, es: seq<Alias>)
    requires Shaped(rec) && AllGood(es)
    requires forall e | e in es :: !Has(rec, e.outer, e.inner)
    ensures Fold(env, rec, es) == rec
  {
    if es != [] {
      StepAbsent(env, rec, es[0]);
      FoldAbsent(env, rec, es[1..]);
    }
  }

  /** Every alias key is gone afterwards, every non-alias key that was present
      keeps its value (so a populated canonical key is never overwritten), no
      key appears except canonical targets, every added key holds a value with
      text, and categories other than
      demographic and spatial are untouched. */
  lemma {:induction false} CanonizeKeysContract(env: Env, rec: Dict)
    requires Shaped(rec)
    ensures var r := CanonizeKeys(env, rec);
      && NoAliases(r)
      && r.Keys == rec.Keys
      && (forall c | c in rec && !Touched(c) :: r[c] == rec[c])
      && (forall c, k | Has(rec, c, k) && !IsAlias(c, k) :: Has(r, c, k) && r[c].fields[k] == rec[c].fields[k])
      && (forall c, k | Has(r, c, k) :: Has(rec, c, k) || IsTarget(c, k))
      && (forall c, k | Has(r, c, k) && !Has(rec, c, k) :: Filled(env, r[c].fields[k]))
  {
    CanonMapGood();
    FoldKeeps(env, rec, CanonMap);
  }

  /** Each alias key named by `IsAlias` is an entry of the map. */
  lemma AliasInMap(c: string, k: string)
    requires IsAlias(c, k)
    ensures exists e | e in CanonMap :: e.outer == c && e.inner == k
  {
    var i := if k == "age" then 0 else if k == "eyes" then 1 else if k == "eyes_color" then 2
      else if k == "hair" then 3 else if k == "height" then 4 else if k == "weight" then 5
      else if k == "lat" then 6 else 7;
    assert CanonMap[i].outer == c && CanonMap[i].inner == k;
  }

  /** No alias key survives the migration. */
  lemma AliasGone(env: Env, rec: Dict, c: string, k: string)
    requires Shaped(rec) && IsAlias(c, k)
    ensures !Has(CanonizeKeys(env, rec), c, k)
  {
    CanonizeKeysContract(env, rec);
    AliasInMap(c, k);
  }

  /** A second application is a no-op. */
  lemma {:induction false} CanonizeKeysIdempotent(env: Env, rec: Dict)
    requires Shaped(rec)
    ensures CanonizeKeys(env, CanonizeKeys(env, rec)) == CanonizeKeys(env, rec)
  {
    CanonMapGood();
    CanonizeKeysContract(env, rec);
    FoldAbsent(env, CanonizeKeys(env, rec), CanonMap);
  }

  /** A step copies an alias value with text into an absent canonical slot. */
  lemma StepCopies(env: Env, rec: Dict, e: Alias)
    requires Shaped(rec) && GoodAlias(e)
    requires Has(rec, e.outer, e.inner) && !Has(rec, e.cOuter, e.cInner)
    requires var a := rec[e.outer].fields[e.inner]; Filled(env, a)
    ensures var r := Step(env, rec, e);
      Has(r, e.cOuter, e.cInner) && r[e.cOuter].fields[e.cInner] == rec[e.outer].fields[e.inner]
  {
  }

  lemma FoldTwo(env: Env, rec: Dict, es: seq<Alias>)
    requires Shaped(rec) && AllGood(es) && |es| >= 2
    ensures Fold(env, rec, es) == Fold(env, Step(env, Step(env, rec, es[0]), es[1]), es[2..])
  {
    assert es[1..][0] == es[1] && es[1..][1..] == es[2..];
  }

  /** A step leaves every key other than its alias and its target as it was. */
  lemma StepOtherKey(env: Env, rec: Dict, e: Alias, c: string, k: string)
    requires Shaped(rec) && GoodAlias(e) && Has(rec, c, k)
    requires !(c == e.outer && k == e.inner) && !(c == e.cOuter && k == e.cInner)
    ensures Has(Step(env, rec, e), c, k) && Step(env, rec, e)[c].fields[k] == rec[c].fields[k]
  {
  }

  /** A step adds no key other than its target. */
  lemma StepNoNewKey(env: Env, rec: Dict, e: Alias, c: string, k: string)
    requires Shaped(rec) && GoodAlias(e) && !Has(rec, c, k)
    requires !(c == e.cOuter && k == e.cInner)
    ensures !Has(Step(env, rec, e), c, k)
  {
  }

  /** A key that is not an alias survives the whole loop with its value. */
  lemma FoldKeepsKey(env: Env, rec: Dict, es: seq<Alias>, c: string, k: string)
    requires Shaped(rec) && AllGood(es) && Has(rec, c, k) && !IsAlias(c, k)
    ensures Has(Fold(env, rec, es), c, k) && Fold(env, rec, es)[c].fields[k] == rec[c].fields[k]
  {
    FoldKeeps(env, rec, es);
  }

  /** When the first of two entries touches neither the second's alias nor its
      target, the second copies its alias value with text into an absent
      target, and no later entry overwrites it. */
  lemma SecondEntryCopies(env: Env, rec: Dict, e0: Alias, e1: Alias, rest: seq<Alias>)
    requires Shaped(rec) && GoodAlias(e0) && GoodAlias(e1) && AllGood(rest)
    requires e0.inner != e1.inner && e0.cInner != e1.inner && e0.cInner != e1.cInner
    requires Has(rec, e1.outer, e1.inner) && !Has(rec, e1.cOuter, e1.cInner)
    requires var a := rec[e1.outer].fields[e1.inner]; Filled(env, a)
    ensures var r := Fold(env, rec, [e0, e1] + rest);
      Has(r, e1.cOuter, e1.cInner) && r[e1.cOuter].fields[e1.cInner] == rec[e1.outer].fields[e1.inner]
  {
    var es := [e0, e1] + rest;
    assert es[0] == e0 && es[1] == e1 && es[2..] == rest;
    FoldTwo(env, rec, es);
    var r1 := Step(env, rec, e0);
    StepOtherKey(env, rec, e0, e1.outer, e1.inner);
    StepNoNewKey(env, rec, e0, e1.cOuter, e1.cInner);
    StepCopies(env, r1, e1);
    TargetsAreNotAliases(e1.cOuter, e1.cInner);
    FoldKeepsKey(env, Step(env, r1, e1), rest, e1.cOuter, e1.cInner);
  }

  lemma CanonMapStart()
    ensures CanonMap[0].inner == "age" && CanonMap[0].cInner == "age_years"
    ensures CanonMap[1] == Alias("demographic", "eyes", "demographic", "eye_color")
    ensures CanonMap == [CanonMap[0], CanonMap[1]] + CanonMap[2..]
  {
  }

  /** "eyes" precedes "eyes_color" in the map, so when a record has an "eyes"
      value with text and no eye_color yet, eye_color ends up holding the
      "eyes" value, whatever "eyes_color" holds. */
  lemma {:induction false} FirstAliasWins(env: Env, rec: Dict)
    requires Shaped(rec)
    requires Has(rec, "demographic", "eyes") && !Has(rec, "demographic", "eye_color")
    requires var a := rec["demographic"].fields["eyes"]; Filled(env, a)
    ensures var r := CanonizeKeys(env, rec);
      Has(r, "demographic", "eye_color")
      && r["demographic"].fields["eye_color"] == rec["demographic"].fields["eyes"]
  {
    CanonMapStart();
    var e0, e1, rest := CanonMap[0], CanonMap[1], CanonMap[2..];
    DemographicEntriesGood(0);
    DemographicEntriesGood(1);
    CanonMapGood();
    SecondEntryCopies(env, rec, e0, e1, rest);
  }
}

=== FILE: coerce.dfy ===
/** The repair pass applied to a model's answer before the schema sanitiser
    (`coerce_guardian`, llm/agent/postprocess.py): unknown top-level keys
    dropped, required strings and coordinates defaulted, birth-year ages
    removed, numeric strings converted, sightings rebuilt, enums defaulted
    and the provenance given its two lists.

    The source edits each category in place, one key at a time; each step
    reads and writes only its own key, so each category is given here key
    by key: `XOut(.., k)` is what the pass leaves under `k` (nothing when the
    key ends up absent), composing the source's steps on that key in their
    order. `now` is the clock reading used for a missing `last_seen_ts`. */
module Coerce {
  import opened Wrappers
  import opened Json
  import opened Text
  import opened Runtime
  import opened Common

  /** `allowed_top`: the keys the pass keeps; "audit" is not among them. */
  predicate IsAllowedTop(k: string) {
    || k == "case_id" || k == "demographic" || k == "spatial" || k == "temporal"
    || k == "narrative_osint" || k == "provenance" || k == "outcome" || k == "case" || k == "source_path"
  }

  /** The six categories the pass always writes. */
  predicate IsCategory(k: string) {
    || k == "demographic" || k == "temporal" || k == "spatial"
    || k == "narrative_osint" || k == "provenance" || k == "outcome"
  }

  /** The inputs on which `coerce_guardian` returns instead of raising: the
      categories it reads with `.get` or `in` are dicts when present (a
      provenance of any other type is replaced by `{}`). */
  predicate Coercible(rec: Dict) {
    && DictOrAbsent(rec, "demographic") && DictOrAbsent(rec, "temporal") && DictOrAbsent(rec, "spatial")
    && DictOrAbsent(rec, "narrative_osint") && DictOrAbsent(rec, "outcome")
  }

  /** `d.get(k)` that tells a missing key apart from a stored `None`. */
  function Look(d: Dict, k: string): (r: Option<Value>)
    ensures r.Some? <==> k in d
    ensures r.Some? ==> r.value == d[k]
  {
    if k in d then Some(d[k]) else None
  }

  // ------------------------------------------------------------ single-key steps

  /** `if d.get(k) is None: d[k] = ""`: a missing or `None` value becomes "". */
  function Required(o: Option<Value>): (r: Option<Value>)
    ensures r.Some? && r.value != Null
    ensures o.Some? && o.value != Null ==> r == o
    ensures o.None? || o.value == Null ==> r == Some(Str(""))
  {
    if o.None? || o.value == Null then Some(Str("")) else o
  }

  /** `if d.get(k) is None: d[k] = 0.0`. */
  function ZeroIfNone(o: Option<Value>): (r: Option<Value>)
    ensures r.Some? && r.value != Null
    ensures o.Some? && o.value != Null ==> r == o
    ensures o.None? || o.value == Null ==> r == Some(Num(0.0))
  {
    if o.None? || o.value == Null then Some(Num(0.0)) else o
  }

  /** `if d.get(k) in (None, ""): d.pop(k)`. */
  function DropBlank(o: Option<Value>): (r: Option<Value>)
    ensures r.Some? ==> r == o && !NoneOrEmptyString(r.value)
    ensures o.Some? && !NoneOrEmptyString(o.value) ==> r == o
  {
    if o.Some? && NoneOrEmptyString(o.value) then None else o
  }

  /** `if k not in d: d[k] = v`: a present key, even one holding `None`, is kept. */
  function Default(o: Option<Value>, v: Value): (r: Option<Value>)
    ensures r.Some?
    ensures o.Some? ==> r == o
    ensures o.None? ==> r.value == v
  {
    if o.None? then Some(v) else o
  }

  /** `if k not in d or d[k] not in allowed: d[k] = fallback`, the enum
      check: an exact, case-sensitive comparison. */
  function OneOf(o: Option<Value>, allowed: set<string>, fallback: string): (r: Option<Value>)
    requires fallback in allowed
    ensures r.Some? && r.value.Str? && r.value.s in allowed
    ensures o.Some? && o.value.Str? && o.value.s in allowed ==> r == o
    ensures !(o.Some? && o.value.Str? && o.value.s in allowed) ==> r == Some(Str(fallback))
  {
    if o.Some? && o.value.Str? && o.value.s in allowed then o else Some(Str(fallback))
  }

  // ------------------------------------------------------------ demographic

  /** A numeric `age_years` above 1900, taken for a birth year. */
  predicate BirthYear(o: Option<Value>) {
    o.Some? && o.value.Num? && o.value.n > 1900.0
  }

  /** A list of distinctive features becomes its non-blank elements, stripped
      and joined with " | ", or is removed when none remains; a value of
      another type is left alone. */
  function Features(env: Env, o: Option<Value>): (r: Option<Value>)
    ensures r.Some? ==> !r.value.Arr?
    ensures o.Some? && o.value.Arr? ==>
              r == (if CleanStrings(env, o.value.items) == [] then None
                    else Some(Str(Join(" | ", CleanStrings(env, o.value.items)))))
    ensures !(o.Some? && o.value.Arr?) ==> r == o
  {
    if o.Some? && o.value.Arr? then
      var parts := CleanStrings(env, o.value.items);
      if parts == [] then None else Some(Str(Join(" | ", parts)))
    else o
  }

  /** `float(v)` for a string value, which is removed when that fails; values
      of other types are left alone. */
  function NumberText(env: Env, o: Option<Value>): (r: Option<Value>)
    ensures r.Some? ==> !r.value.Str?
    ensures o.Some? && o.value.Str? ==>
              r == (if env.parseFloat(o.value.s).Some? then Some(Num(env.parseFloat(o.value.s).value)) else None)
    ensures !(o.Some? && o.value.Str?) ==> r == o
  {
    if o.Some? && o.value.Str? then
      (match env.parseFloat(o.value.s)
       case Some(x) => Some(Num(x))
       case None => None)
    else o
  }

  const Genders: set<string> := {"male", "female"}

  /** The demographic keys the pass touches. */
  predicate IsDemographicStep(k: string) {
    k == "name" || k == "age_years" || k == "distinctive_features" || k == "height_in" || k == "weight_lbs" || k == "gender"
  }

  /** The two steps on `age_years`: a birth year dropped, then a text converted. */
  function Age(env: Env, o: Option<Value>): (r: Option<Value>)
    ensures r.Some? ==> !r.value.Str?
    ensures BirthYear(r) ==> o.Some? && o.value.Str?
  {
    NumberText(env, if BirthYear(o) then None else o)
  }

  /** The demographic steps of the source, each on its own key, and every
      other key left as it was. */
  ghost predicate DemographicSteps(env: Env, demo: Dict, r: Dict) {
    && Look(r, "name") == Required(Look(demo, "name"))
    && Look(r, "age_years") == Age(env, Look(demo, "age_years"))
    && Look(r, "distinctive_features") == Features(env, Look(demo, "distinctive_features"))
    && Look(r, "height_in") == NumberText(env, Look(demo, "height_in"))
    && Look(r, "weight_lbs") == NumberText(env, Look(demo, "weight_lbs"))
    && Look(r, "gender") == OneOf(Look(demo, "gender"), Genders, "male")
    && forall k | !IsDemographicStep(k) :: Look(r, k) == Look(demo, k)
  }

  /** What the demographic steps leave under `k`: the name required, a birth
      year dropped before the ages given as text are converted, the features
      joined, the two measurements converted and the gender defaulted. */
  function DemographicOut(env: Env, demo: Dict, k: string): Option<Value> {
    var o := Look(demo, k);
    if k == "name" then Required(o)
    else if k == "age_years" then Age(env, o)
    else if k == "distinctive_features" then Features(env, o)
    else if k == "height_in" || k == "weight_lbs" then NumberText(env, o)
    else if k == "gender" then OneOf(o, Genders, "male")
    else o
  }

  /** What the pass promises of the demographic category. */
  predicate CoercedDemographic(d: Dict) {
    && Get(d, "name") != Null
    && Get(d, "gender").Str? && Get(d, "gender").s in Genders
    && !Get(d, "distinctive_features").Arr?
    && !Get(d, "height_in").Str? && !Get(d, "weight_lbs").Str? && !Get(d, "age_years").Str?
  }

  /** The demographic category after the pass. */
  function CoerceDemographic(env: Env, demo: Dict): (r: Dict)
    ensures DemographicSteps(env, demo, r)
  {
    DemographicKeysDistinct();
    map k | k in demo.Keys + {"name", "gender"} && DemographicOut(env, demo, k).Some? :: DemographicOut(env, demo, k).value
  }

  /** The six demographic keys are distinct strings. */
  lemma DemographicKeysDistinct()
    ensures "age_years" != "name" && "distinctive_features" != "name" && "height_in" != "name"
    ensures "weight_lbs" != "name" && "gender" != "name"
    ensures "distinctive_features" != "age_years" && "height_in" != "age_years"
    ensures "weight_lbs" != "age_years" && "gender" != "age_years"
    ensures "height_in" != "distinctive_features" && "weight_lbs" != "distinctive_features"
    ensures "gender" != "distinctive_features" && "gender" != "height_in" && "gender" != "weight_lbs"
  {
  }

  /** The demographic category satisfies its promise. */
  lemma DemographicCoerced(env: Env, demo: Dict, r: Dict)
    requires DemographicSteps(env, demo, r)
    ensures CoercedDemographic(r)
  {
  }

  // ------------------------------------------------------------ sightings

  /** A rebuilt sighting: a non-empty `ts`, only the seven known keys, numeric
      coordinates (not range-checked) and a confidence in [0, 1]. */
  predicate CoercedSighting(m: Dict) {
    && m.Keys <= SightingKeys
    && "ts" in m && m["ts"].Str? && m["ts"].s != ""
    && ("lat" in m ==> m["lat"].Num?)
    && ("lon" in m ==> m["lon"].Num?)
    && ("confidence" in m ==> m["confidence"].Num? && 0.0 <= m["confidence"].n <= 1.0)
  }

  /** `str(v).strip()` of a truthy value, else nothing. */
  function TruthyText(env: Env, v: Value): (r: Option<string>)
    ensures r.Some? <==> Truthy(v)
  {
    if Truthy(v) then Some(Strip(Show(env, v))) else None
  }

  /** `float(v)` of a value that is not `None`; nothing when it fails. */
  function NumberOf(env: Env, v: Value): (r: Option<real>)
    ensures v == Null ==> r.None?
    ensures v.Num? ==> r == Some(v.n)
  {
    if v == Null then None else ToFloat(env, v)
  }

  /** The first truthy of the six spellings of `ts`. */
  function SightingTs(it: Dict): Value {
    Or(Get(it, "ts"), Or(Get(it, "date_iso"), Or(Get(it, "time_iso"), Or(Get(it, "date"), Or(Get(it, "datetime"), Get(it, "time"))))))
  }

  /** The first truthy of the five spellings of `note`. */
  function SightingNote(it: Dict): Value {
    Or(Get(it, "note"), Or(Get(it, "notes"), Or(Get(it, "text"), Or(Get(it, "desc"), Get(it, "description")))))
  }

  /** The seven sighting keys are distinct strings. */
  lemma SightingKeysDistinct()
    ensures "note" != "ts" && "lat" != "ts" && "lon" != "ts" && "event_type" != "ts"
    ensures "reporter_type" != "ts" && "confidence" != "ts"
    ensures "lat" != "note" && "lon" != "note" && "event_type" != "note" && "reporter_type" != "note" && "confidence" != "note"
    ensures "lon" != "lat" && "event_type" != "lat" && "reporter_type" != "lat" && "confidence" != "lat"
    ensures "event_type" != "lon" && "reporter_type" != "lon" && "confidence" != "lon"
    ensures "confidence" != "event_type" && "confidence" != "reporter_type"
  {
  }

  /** What the rebuilt sighting holds under key `k`: `lat` and `lon` are read
      with `or`, so a zero coordinate falls through to its long spelling. */
  function CoercedPart(env: Env, ts: string, it: Dict, k: string): (r: Option<Value>)
    ensures k !in SightingKeys ==> r.None?
    ensures k == "ts" ==> r == Some(Str(ts))
    ensures (k == "lat" || k == "lon") && r.Some? ==> r.value.Num?
    ensures k == "confidence" && r.Some? ==> r.value.Num? && 0.0 <= r.value.n <= 1.0
  {
    SightingKeysDistinct();
    if k == "ts" then Some(Str(ts))
    else if k == "note" then StrOpt(TruthyText(env, SightingNote(it)))
    else if k == "lat" then
      (var x := NumberOf(env, Or(Get(it, "lat"), Get(it, "latitude"))); if x.Some? then Some(Num(x.value)) else None)
    else if k == "lon" then
      (var x := NumberOf(env, Or(Get(it, "lon"), Get(it, "longitude"))); if x.Some? then Some(Num(x.value)) else None)
    else if k == "event_type" || k == "reporter_type" then
      (var v := Get(it, k); if Truthy(v) then Some(Str(Show(env, v))) else None)
    else if k == "confidence" then
      (var x := NumberOf(env, Get(it, k)); if x.Some? then Some(Num(Clamp01(x.value))) else None)
    else None
  }

  /** One item of `follow_up_sightings`, kept only when its stripped `ts` is
      not empty. */
  function CoerceSighting(env: Env, it: Dict): (r: Option<Dict>)
    ensures r.Some? ==> CoercedSighting(r.value)
    ensures r.Some? <==> Truthy(SightingTs(it)) && Strip(Show(env, SightingTs(it))) != ""
    ensures r.Some? ==> forall k :: Look(r.value, k) == CoercedPart(env, Strip(Show(env, SightingTs(it))), it, k)
  {
    var ts := TruthyText(env, SightingTs(it));
    if ts.None? || ts.value == "" then None
    else Some(map k | k in SightingKeys && CoercedPart(env, ts.value, it, k).Some? :: CoercedPart(env, ts.value, it, k).value)
  }

  /** The rebuilt list: non-dict items and items without `ts` are skipped. */
  function CoerceSightings(env: Env, items: seq<Value>): (r: seq<Value>)
    ensures |r| <= |items|
    ensures forall v | v in r :: v.Obj? && CoercedSighting(v.fields)
  {
    CoercedOnly(env, items);
    FlatMap(items, v => CoerceItem(env, v))
  }

  /** One item's contribution: its rebuilt sighting, or nothing. */
  function CoerceItem(env: Env, v: Value): seq<Value> {
    var first := if v.Obj? then CoerceSighting(env, v.fields) else None;
    if first.Some? then [Obj(first.value)] else []
  }

  /** The scan is no longer than its input and yields only rebuilt sightings. */
  lemma {:induction false} CoercedOnly(env: Env, items: seq<Value>)
    ensures |FlatMap(items, v => CoerceItem(env, v))| <= |items|
    ensures forall v | v in FlatMap(items, v => CoerceItem(env, v)) :: v.Obj? && CoercedSighting(v.fields)
  {
    if items != [] {
      CoercedOnly(env, items[1..]);
    }
  }

  /** A list of sightings rebuilt, and removed when nothing survives; a value
      of another type is left alone. */
  function Sightings(env: Env, o: Option<Value>): (r: Option<Value>)
    ensures r.Some? && r.value.Arr? ==> forall v | v in r.value.items :: v.Obj? && CoercedSighting(v.fields)
    ensures o.Some? && o.value.Arr? ==>
              r == (if CoerceSightings(env, o.value.items) == [] then None else Some(Arr(CoerceSightings(env, o.value.items))))
    ensures !(o.Some? && o.value.Arr?) ==> r == o
  {
    if o.Some? && o.value.Arr? then
      var clean := CoerceSightings(env, o.value.items);
      if clean == [] then None else Some(Arr(clean))
    else o
  }

  // ------------------------------------------------------------ temporal

  /** The temporal keys the pass touches. */
  predicate IsTemporalStep(k: string) {
    k == "follow_up_sightings" || k == "last_seen_ts" || k == "reported_missing_ts"
    || k == "first_police_action_ts" || k == "timezone"
  }

  /** The temporal steps of the source, each on its own key, and every other
      key left as it was. */
  ghost predicate TemporalSteps(env: Env, now: Timestamp, temp: Dict, r: Dict) {
    && Look(r, "follow_up_sightings") == Sightings(env, Look(temp, "follow_up_sightings"))
    && Look(r, "last_seen_ts") == Default(DropBlank(Look(temp, "last_seen_ts")), Str(now))
    && Look(r, "reported_missing_ts") == DropBlank(Look(temp, "reported_missing_ts"))
    && Look(r, "first_police_action_ts") == DropBlank(Look(temp, "first_police_action_ts"))
    && Look(r, "timezone") == Default(Look(temp, "timezone"), Str(NewYork))
    && forall k | !IsTemporalStep(k) :: Look(r, k) == Look(temp, k)
  }

  /** What the temporal steps leave under `k`: sightings rebuilt, blank
      timestamps dropped, then `timezone` and `last_seen_ts` defaulted. */
  function TemporalOut(env: Env, now: Timestamp, temp: Dict, k: string): Option<Value> {
    var o := Look(temp, k);
    if k == "follow_up_sightings" then Sightings(env, o)
    else if k == "last_seen_ts" then Default(DropBlank(o), Str(now))
    else if k == "reported_missing_ts" || k == "first_police_action_ts" then DropBlank(o)
    else if k == "timezone" then Default(o, Str(NewYork))
    else o
  }

  /** What the pass promises of the temporal category. */
  predicate CoercedTemporal(t: Dict) {
    && "timezone" in t
    && "last_seen_ts" in t && !NoneOrEmptyString(t["last_seen_ts"])
    && ("reported_missing_ts" in t ==> !NoneOrEmptyString(t["reported_missing_ts"]))
    && ("first_police_action_ts" in t ==> !NoneOrEmptyString(t["first_police_action_ts"]))
    && (Get(t, "follow_up_sightings").Arr? ==>
          forall v | v in Get(t, "follow_up_sightings").items :: v.Obj? && CoercedSighting(v.fields))
  }

  /** The temporal category after the pass. */
  function CoerceTemporal(env: Env, now: Timestamp, temp: Dict): (r: Dict)
    ensures TemporalSteps(env, now, temp, r)
  {
    TemporalKeysDistinct();
    map k | k in temp.Keys + {"timezone", "last_seen_ts"} && TemporalOut(env, now, temp, k).Some?
      :: TemporalOut(env, now, temp, k).value
  }

  /** The five temporal keys are distinct strings. */
  lemma TemporalKeysDistinct()
    ensures "last_seen_ts" != "follow_up_sightings" && "reported_missing_ts" != "follow_up_sightings"
    ensures "first_police_action_ts" != "follow_up_sightings" && "timezone" != "follow_up_sightings"
    ensures "reported_missing_ts" != "last_seen_ts" && "first_police_action_ts" != "last_seen_ts"
    ensures "timezone" != "last_seen_ts" && "first_police_action_ts" != "reported_missing_ts"
    ensures "timezone" != "reported_missing_ts" && "timezone" != "first_police_action_ts"
  {
  }

  /** The temporal category satisfies its promise. */
  lemma TemporalCoerced(env: Env, now: Timestamp, temp: Dict, r: Dict)
    requires TemporalSteps(env, now, temp, r)
    ensures CoercedTemporal(r)
  {
  }

  // ------------------------------------------------------------ the other categories

  /** What the spatial steps leave under `k`: the location required and both
      coordinates defaulted to 0.0. */
  function SpatialOut(spat: Dict, k: string): Option<Value> {
    var o := Look(spat, k);
    if k == "last_seen_location" then Required(o)
    else if k == "last_seen_lat" || k == "last_seen_lon" then ZeroIfNone(o)
    else o
  }

  /** The spatial steps of the source, each on its own key, and every other
      key left as it was. */
  ghost predicate SpatialSteps(spat: Dict, r: Dict) {
    && Look(r, "last_seen_location") == Required(Look(spat, "last_seen_location"))
    && Look(r, "last_seen_lat") == ZeroIfNone(Look(spat, "last_seen_lat"))
    && Look(r, "last_seen_lon") == ZeroIfNone(Look(spat, "last_seen_lon"))
    && forall k | k != "last_seen_location" && k != "last_seen_lat" && k != "last_seen_lon" :: Look(r, k) == Look(spat, k)
  }

  /** The spatial category after the pass. */
  function CoerceSpatial(spat: Dict): (r: Dict)
    ensures SpatialSteps(spat, r)
  {
    assert "last_seen_lat" != "last_seen_location" && "last_seen_lon" != "last_seen_location" && "last_seen_lon" != "last_seen_lat";
    map k | k in spat.Keys + {"last_seen_location", "last_seen_lat", "last_seen_lon"} && SpatialOut(spat, k).Some?
      :: SpatialOut(spat, k).value
  }

  const Statuses: set<string> := {"ongoing", "found", "not_found"}

  /** The outcome category after the pass: `case_status` kept when it is
      exactly a known status, else "ongoing". */
  function CoerceOutcome(outcome: Dict): (r: Dict)
    ensures "case_status" in r && r["case_status"].Str? && r["case_status"].s in Statuses
    ensures forall k | k != "case_status" :: Look(r, k) == Look(outcome, k)
  {
    outcome["case_status" := OneOf(Look(outcome, "case_status"), Statuses, "ongoing").value]
  }

  /** What the two summary steps leave: the summary made "" when missing or
      `None`, then defaulted to "No summary available" when missing. */
  function Summary(o: Option<Value>): Option<Value> {
    Default(Required(o), Str(NoSummary))
  }

  /** The two summary steps the other way round, as the default evidently
      intends: a missing summary becomes "No summary available" and only a
      `None` one becomes "". */
  function SummaryIntended(o: Option<Value>): (r: Option<Value>)
    ensures r.Some? && r.value != Null
    ensures o.None? ==> r == Some(Str(NoSummary))
    ensures o.Some? ==> r == Summary(o)
  {
    Required(Default(o, Str(NoSummary)))
  }

  /** The narrative category after the pass. */
  function CoerceOsint(osint: Dict): (r: Dict)
    ensures "incident_summary" in r && r["incident_summary"] != Null
    ensures forall k | k != "incident_summary" :: Look(r, k) == Look(osint, k)
  {
    osint["incident_summary" := Summary(Look(osint, "incident_summary")).value]
  }

  /** A provenance that is not a dict replaced by `{}`; `sources` and
      `original_fields` defaulted to `[]` and `{}`. */
  function CoerceProvenance(prov: Value): (r: Dict)
    ensures "sources" in r && "original_fields" in r
    ensures prov.Obj? ==> forall j | j in prov.fields :: j in r && r[j] == prov.fields[j]
    ensures forall j | j in r :: j == "sources" || j == "original_fields" || (prov.Obj? && j in prov.fields)
    ensures "sources" !in AsDict(prov) ==> r["sources"] == Arr([])
    ensures "original_fields" !in AsDict(prov) ==> r["original_fields"] == Obj(map[])
  {
    var p := if prov.Obj? then prov.fields else map[];
    SetDefault(SetDefault(p, "sources", Arr([])), "original_fields", Obj(map[]))
  }

  // ------------------------------------------------------------ coerce_guardian

  /** The whitelist of top-level keys. */
  function KeepAllowed(rec: Dict): (r: Dict)
    ensures forall k :: k in r <==> k in rec && IsAllowedTop(k)
    ensures forall k | IsAllowedTop(k) :: Look(r, k) == Look(rec, k)
  {
    map k | k in rec && IsAllowedTop(k) :: rec[k]
  }

  /** The six categories written back into the whitelisted record. */
  function Assemble(top: Dict, demo: Dict, temp: Dict, spat: Dict, osint: Dict, prov: Dict, outcome: Dict): (r: Dict)
    ensures forall k :: k in r <==> k in top || IsCategory(k)
    ensures forall k | !IsCategory(k) :: Look(r, k) == Look(top, k)
    ensures Get(r, "demographic") == Obj(demo) && Get(r, "temporal") == Obj(temp) && Get(r, "spatial") == Obj(spat)
    ensures Get(r, "narrative_osint") == Obj(osint) && Get(r, "provenance") == Obj(prov) && Get(r, "outcome") == Obj(outcome)
  {
    top["demographic" := Obj(demo)]["temporal" := Obj(temp)]["spatial" := Obj(spat)]
       ["narrative_osint" := Obj(osint)]["provenance" := Obj(prov)]["outcome" := Obj(outcome)]
  }

  /** `coerce_guardian(rec)`. */
  function CoerceGuardian(env: Env, now: Timestamp, rec: Dict): (r: Dict)
    requires Coercible(rec)
    ensures forall k :: k in r <==> IsCategory(k) || (IsAllowedTop(k) && k in rec)
    ensures forall k | !IsCategory(k) && IsAllowedTop(k) :: Look(r, k) == Look(rec, k)
    ensures Get(r, "demographic") == Obj(CoerceDemographic(env, AsDict(Get(rec, "demographic"))))
    ensures Get(r, "temporal") == Obj(CoerceTemporal(env, now, AsDict(Get(rec, "temporal"))))
    ensures Get(r, "spatial") == Obj(CoerceSpatial(AsDict(Get(rec, "spatial"))))
    ensures Get(r, "narrative_osint") == Obj(CoerceOsint(AsDict(Get(rec, "narrative_osint"))))
    ensures Get(r, "provenance") == Obj(CoerceProvenance(Get(rec, "provenance")))
    ensures Get(r, "outcome") == Obj(CoerceOutcome(AsDict(Get(rec, "outcome"))))
  {
    Assemble(KeepAllowed(rec),
             CoerceDemographic(env, AsDict(Get(rec, "demographic"))),
             CoerceTemporal(env, now, AsDict(Get(rec, "temporal"))),
             CoerceSpatial(AsDict(Get(rec, "spatial"))),
             CoerceOsint(AsDict(Get(rec, "narrative_osint"))),
             CoerceProvenance(Get(rec, "provenance")),
             CoerceOutcome(AsDict(Get(rec, "outcome"))))
  }
}

=== FILE: coerce_props.dfy ===
/** What the repair pass promises, stated over any category dict that the
    pass's steps relate to its input, and the places where running the pass
    twice does not give the same answer. */
module CoerceProps {
  import opened Wrappers
  import opened Json
  import opened Text
  import opened Runtime
  import opened Common
  import opened Coerce

  /** Two dicts that agree on every key are equal. */
  lemma LookExtensional(a: Dict, b: Dict)
    requires forall k :: Look(a, k) == Look(b, k)
    ensures a == b
  {
    assert a.Keys == b.Keys by {
      forall k ensures k in a <==> k in b { assert Look(a, k).Some? <==> Look(b, k).Some?; }
    }
    forall k | k in a ensures a[k] == b[k] { assert Look(a, k) == Look(b, k); }
  }

  // ------------------------------------------------------------ demographic

  /** The gender is kept only when it is exactly "male" or "female". */
  lemma GenderExact(env: Env, demo: Dict, r: Dict)
    requires DemographicSteps(env, demo, r)
    ensures Get(r, "gender") == if Get(demo, "gender") in [Str("male"), Str("female")] then Get(demo, "gender") else Str("male")
  {
    assert Look(r, "gender") == OneOf(Look(demo, "gender"), Genders, "male");
  }

  /** A capitalised gender is not recognised: "Female" becomes "male". */
  lemma CapitalisedGenderBecomesMale(env: Env, demo: Dict, r: Dict)
    requires DemographicSteps(env, demo, r)
    requires Get(demo, "gender") == Str("Female")
    ensures Get(r, "gender") == Str("male")
  {
    GenderExact(env, demo, r);
    assert Str("Female") != Str("male") && Str("Female") != Str("female");
  }

  /** A numeric age above 1900 is removed. */
  lemma BirthYearDropped(env: Env, demo: Dict, r: Dict)
    requires DemographicSteps(env, demo, r)
    requires Get(demo, "age_years").Num? && Get(demo, "age_years").n > 1900.0
    ensures "age_years" !in r
  {
    assert Look(r, "age_years") == Age(env, Look(demo, "age_years"));
  }

  /** The birth-year check runs before text is converted, so a year given as
      text survives as a number. */
  lemma TextYearSurvives(env: Env, demo: Dict, r: Dict, s: string)
    requires DemographicSteps(env, demo, r)
    requires Get(demo, "age_years") == Str(s) && env.parseFloat(s) == Some(1990.0)
    ensures Get(r, "age_years") == Num(1990.0)
  {
    assert Look(r, "age_years") == Age(env, Look(demo, "age_years"));
  }

  /** A second pass removes the year the first pass converted. */
  lemma TextYearDroppedOnRerun(env: Env, demo: Dict, r: Dict, r2: Dict, s: string)
    requires DemographicSteps(env, demo, r) && DemographicSteps(env, r, r2)
    requires Get(demo, "age_years") == Str(s) && env.parseFloat(s) == Some(1990.0)
    ensures "age_years" in r && "age_years" !in r2
  {
    TextYearSurvives(env, demo, r, s);
    BirthYearDropped(env, r, r2);
  }

  /** Without an age given as text, a second demographic pass changes nothing. */
  lemma DemographicRerun(env: Env, demo: Dict, r: Dict, r2: Dict)
    requires DemographicSteps(env, demo, r) && DemographicSteps(env, r, r2)
    requires !Get(demo, "age_years").Str?
    ensures r2 == r
  {
    forall k ensures Look(r2, k) == Look(r, k) {
      if !IsDemographicStep(k) {
      } else if k == "age_years" {
        assert Look(r, k) == Age(env, Look(demo, k));
      }
    }
    LookExtensional(r2, r);
  }

  // ------------------------------------------------------------ temporal

  /** `last_seen_ts` is the input's when that is not `None` or "", else the clock. */
  lemma LastSeenDefault(env: Env, now: Timestamp, temp: Dict, r: Dict)
    requires TemporalSteps(env, now, temp, r)
    ensures Get(r, "last_seen_ts") == if NoneOrEmptyString(Get(temp, "last_seen_ts")) then Str(now) else Get(temp, "last_seen_ts")
  {
    assert Look(r, "last_seen_ts") == Default(DropBlank(Look(temp, "last_seen_ts")), Str(now));
  }

  /** The time zone is defaulted only when the key is missing: a `None` time
      zone stays `None`. */
  lemma NullTimezoneKept(env: Env, now: Timestamp, temp: Dict, r: Dict)
    requires TemporalSteps(env, now, temp, r)
    ensures Get(r, "timezone") == if "timezone" in temp then temp["timezone"] else Str(NewYork)
  {
    assert Look(r, "timezone") == Default(Look(temp, "timezone"), Str(NewYork));
  }

  /** A second temporal pass changes nothing but the sightings. */
  lemma TemporalRerun(env: Env, now: Timestamp, temp: Dict, r: Dict, r2: Dict, k: string)
    requires TemporalSteps(env, now, temp, r) && TemporalSteps(env, now, r, r2)
    requires k != "follow_up_sightings"
    ensures Look(r2, k) == Look(r, k)
  {
    if k == "last_seen_ts" {
      assert Look(r, k) == Default(DropBlank(Look(temp, k)), Str(now));
    } else if k == "reported_missing_ts" || k == "first_police_action_ts" {
      assert Look(r, k) == DropBlank(Look(temp, k));
    }
  }

  // ------------------------------------------------------------ sightings

  /** The list is rebuilt item by item: rebuilding a concatenation is
      concatenating the rebuilt parts. */
  lemma CoerceSightingsAppend(env: Env, a: seq<Value>, b: seq<Value>)
    ensures CoerceSightings(env, a + b) == CoerceSightings(env, a) + CoerceSightings(env, b)
  {
    FlatMapAppend(a, b, v => CoerceItem(env, v));
  }

  /** `lat` is read as `item.get("lat") or item.get("latitude")`: a latitude
      of exactly 0.0 is falsy, so without a `latitude` spelling the rebuilt
      sighting has no `lat` at all. */
  lemma ZeroLatitudeDropped(env: Env, it: Dict)
    requires Get(it, "lat") == Num(0.0) && "latitude" !in it
    requires CoerceSighting(env, it).Some?
    ensures "lat" !in CoerceSighting(env, it).value
  {
    var ts := Strip(Show(env, SightingTs(it)));
    assert Look(CoerceSighting(env, it).value, "lat") == CoercedPart(env, ts, it, "lat");
  }

  // ------------------------------------------------------------ the other categories

  /** The location and both coordinates are present and not `None`. */
  lemma SpatialCoerced(spat: Dict, r: Dict)
    requires SpatialSteps(spat, r)
    ensures Get(r, "last_seen_location") != Null && "last_seen_location" in r
    ensures Get(r, "last_seen_lat") != Null && "last_seen_lat" in r
    ensures Get(r, "last_seen_lon") != Null && "last_seen_lon" in r
    ensures Get(spat, "last_seen_lat") == Null ==> r["last_seen_lat"] == Num(0.0)
    ensures Get(spat, "last_seen_lon") == Null ==> r["last_seen_lon"] == Num(0.0)
  {
  }

  /** A second spatial pass changes nothing. */
  lemma SpatialRerun(spat: Dict, r: Dict, r2: Dict)
    requires SpatialSteps(spat, r) && SpatialSteps(r, r2)
    ensures r2 == r
  {
    forall k ensures Look(r2, k) == Look(r, k) {
    }
    LookExtensional(r2, r);
  }

  /** The summary is "" when missing or `None` and the input's otherwise, so
      the default "No summary available" is never written. */
  lemma SummaryNeverDefaulted(osint: Dict)
    ensures Get(CoerceOsint(osint), "incident_summary")
              == if Get(osint, "incident_summary") == Null then Str("") else Get(osint, "incident_summary")
  {
  }

  /** The status is kept only when it is exactly a known one: "Found" is reset. */
  lemma CapitalisedStatusReset(outcome: Dict)
    requires Get(outcome, "case_status") == Str("Found")
    ensures CoerceOutcome(outcome)["case_status"] == Str("ongoing")
  {
    assert "Found" !in Statuses;
  }

  /** A second outcome pass changes nothing. */
  lemma OutcomeRerun(outcome: Dict)
    ensures CoerceOutcome(CoerceOutcome(outcome)) == CoerceOutcome(outcome)
  {
    var r := CoerceOutcome(outcome);
    forall k ensures Look(CoerceOutcome(r), k) == Look(r, k) {
    }
    LookExtensional(CoerceOutcome(r), r);
  }

  /** A second provenance pass changes nothing. */
  lemma ProvenanceRerun(prov: Value)
    ensures CoerceProvenance(Obj(CoerceProvenance(prov))) == CoerceProvenance(prov)
  {
  }
}

=== FILE: common.dfy ===
/** Values and conversions that the sanitiser, the repair pass and the
    agent's own clean-up share: the sighting keys, the default summary text,
    the confidence clamp and the "non-blank strings" list filter. */
module Common {
  import opened Wrappers
  import opened Json
  import opened Text
  import opened Runtime
  import opened Units

  /** The keys a sighting may carry. */
  const SightingKeys: set<string> := {"ts", "note", "lat", "lon", "event_type", "reporter_type", "confidence"}

  const NoSummary: string := "No summary available"

  /** A string or nothing, as the value to write or nothing. */
  function StrOpt(s: Option<string>): (r: Option<Value>)
    ensures r.Some? <==> s.Some?
    ensures s.Some? ==> r.value == Str(s.value)
  {
    if s.Some? then Some(Str(s.value)) else None
  }

  /** `max(0.0, min(1.0, x))`. */
  function Clamp01(x: real): (r: real)
    ensures 0.0 <= r <= 1.0
    ensures 0.0 <= x <= 1.0 ==> r == x
  {
    Max(0.0, Min(1.0, x))
  }

  /** `[str(x).strip() for x in xs if str(x).strip()]`: every element with
      text contributes its stripped text, and nothing else is kept. */
  function CleanStrings(env: Env, xs: seq<Value>): (r: seq<string>)
    ensures |r| <= |xs|
    ensures forall i | 0 <= i < |r| :: r[i] != "" && Strip(r[i]) == r[i]
    ensures forall i | 0 <= i < |xs| && Strip(Show(env, xs[i])) != "" :: Strip(Show(env, xs[i])) in r
    ensures forall s | s in r :: exists i :: 0 <= i < |xs| && s == Strip(Show(env, xs[i]))
  {
    CleanListSpec(env, xs);
    CleanList(env, xs)
  }

  /** The comprehension, element by element. */
  function CleanList(env: Env, xs: seq<Value>): seq<string> {
    if xs == [] then []
    else
      var s := Strip(Show(env, xs[0]));
      (if s == "" then [] else [s]) + CleanList(env, xs[1..])
  }

  lemma CleanListSpec(env: Env, xs: seq<Value>)
    ensures var r := CleanList(env, xs);
      && |r| <= |xs|
      && (forall i | 0 <= i < |r| :: r[i] != "" && Strip(r[i]) == r[i])
      && (forall i | 0 <= i < |xs| && Strip(Show(env, xs[i])) != "" :: Strip(Show(env, xs[i])) in r)
      && (forall s | s in r :: exists i :: 0 <= i < |xs| && s == Strip(Show(env, xs[i])))
  {
    CleanListClean(env, xs);
    CleanListKeeps(env, xs);
    CleanListFrom(env, xs);
  }

  lemma {:induction false} CleanListClean(env: Env, xs: seq<Value>)
    ensures var r := CleanList(env, xs);
      |r| <= |xs| && forall i | 0 <= i < |r| :: r[i] != "" && Strip(r[i]) == r[i]
  {
    if xs != [] {
      StripIdempotent(Show(env, xs[0]));
      CleanListClean(env, xs[1..]);
    }
  }

  lemma {:induction false} CleanListKeeps(env: Env, xs: seq<Value>)
    ensures forall i | 0 <= i < |xs| && Strip(Show(env, xs[i])) != "" :: Strip(Show(env, xs[i])) in CleanList(env, xs)
  {
    if xs != [] {
      CleanListKeeps(env, xs[1..]);
      var s := Strip(Show(env, xs[0]));
      var h := if s == "" then [] else [s];
      assert CleanList(env, xs) == h + CleanList(env, xs[1..]);
      forall i | 1 <= i < |xs| && Strip(Show(env, xs[i])) != ""
        ensures Strip(Show(env, xs[i])) in CleanList(env, xs)
      {
        assert xs[i] == xs[1..][i - 1];
      }
    }
  }

  lemma {:induction false} CleanListFrom(env: Env, xs: seq<Value>)
    ensures forall s | s in CleanList(env, xs) :: exists i :: 0 <= i < |xs| && s == Strip(Show(env, xs[i]))
  {
    if xs != [] {
      CleanListFrom(env, xs[1..]);
      var s0 := Strip(Show(env, xs[0]));
      var h := if s0 == "" then [] else [s0];
      assert CleanList(env, xs) == h + CleanList(env, xs[1..]);
      forall s | s in CleanList(env, xs[1..])
        ensures exists i :: 0 <= i < |xs| && s == Strip(Show(env, xs[i]))
      {
        var k :| 0 <= k < |xs[1..]| && s == Strip(Show(env, xs[1..][k]));
        assert xs[1..][k] == xs[k + 1];
      }
    }
  }

  /** The cleaning goes item by item: a list is cleaned as its two halves
      are, one after the other, so the kept texts keep the input's order. */
  lemma CleanStringsAppend(env: Env, xs: seq<Value>, ys: seq<Value>)
    ensures CleanStrings(env, xs + ys) == CleanStrings(env, xs) + CleanStrings(env, ys)
  {
    CleanListAppend(env, xs, ys);
  }

  lemma {:induction false} CleanListAppend(env: Env, xs: seq<Value>, ys: seq<Value>)
    ensures CleanList(env, xs + ys) == CleanList(env, xs) + CleanList(env, ys)
  {
    if xs != [] {
      var s := Strip(Show(env, xs[0]));
      var h := if s == "" then [] else [s];
      assert (xs + ys)[0] == xs[0] && (xs + ys)[1..] == xs[1..] + ys;
      assert CleanList(env, xs + ys) == h + CleanList(env, xs[1..] + ys);
      CleanListAppend(env, xs[1..], ys);
    } else {
      assert xs + ys == ys;
    }
  }

  /** `f` applied to each element in turn, the results concatenated. */
  function FlatMap<T, U>(xs: seq<T>, f: T -> seq<U>): seq<U> {
    if xs == [] then [] else f(xs[0]) + FlatMap(xs[1..], f)
  }

  /** Mapping a concatenation is concatenating the mapped halves. */
  lemma {:induction false} FlatMapAppend<T, U>(xs: seq<T>, ys: seq<T>, f: T -> seq<U>)
    ensures FlatMap(xs + ys, f) == FlatMap(xs, f) + FlatMap(ys, f)
  {
    if xs != [] {
      assert (xs + ys)[0] == xs[0] && (xs + ys)[1..] == xs[1..] + ys;
      FlatMapAppend(xs[1..], ys, f);
    } else {
      assert xs + ys == ys;
    }
  }

  /** A list of strings as JSON strings. */
  function Strs(xs: seq<string>): (r: seq<Value>)
    ensures |r| == |xs| && forall i | 0 <= i < |xs| :: r[i] == Str(xs[i])
  {
    seq(|xs|, i requires 0 <= i < |xs| => Str(xs[i]))
  }
}

=== FILE: csv.dfy ===
/** The header of the CSV export (`write_csv`, parser_pack.py): the fixed
    column order, followed by every other key that appears in a flattened row,
    in sorted order. */
module Csv {
  import opened Json
  import opened Text

  /** `base_order`. */
  const BaseOrder: seq<string> := [
    "source", "case_id", "case_status",
    "full_name", "aka", "aliases", "dob", "age_years", "gender", "hair_color", "eye_color",
    "distinctive_features", "risk_factors",
    "height_in", "height_cm", "weight_lbs", "weight_kg",
    "last_seen_location", "last_seen_city", "last_seen_state", "last_seen_country",
    "last_seen_address", "last_seen_county", "last_seen_postal_code",
    "last_seen_lat", "last_seen_lon",
    "last_seen_ts", "reported_ts", "reported_missing_ts", "first_police_action_ts",
    "incident_summary", "notes", "behavioral_patterns", "movement_cues_text", "categories"
  ]

  lemma BaseOrderSize()
    ensures |BaseOrder| == 35
    ensures BaseOrder[0] == "source" && BaseOrder[34] == "categories"
  {
  }

  /** `set().union(*[set(d.keys()) for d in flat])`. */
  function AllKeys(flat: seq<Dict>): set<string> {
    set d, k | d in flat && k in d :: k
  }

  /** `sorted(keys)`: the keys as a strictly ascending list. */
  method SortedKeys(keys: set<string>) returns (r: seq<string>)
    ensures StrictlyAscending(r)
    ensures Elems(r) == keys
  {
    r := [];
    var rest := keys;
    while rest != {}
      invariant StrictlyAscending(r)
      invariant Elems(r) + rest == keys
      decreases |rest|
    {
      var x :| x in rest;
      r := InsertUnique(x, r);
      rest := rest - {x};
    }
  }

  /** The header `write_csv` writes: `base_order` and then the other keys, sorted. */
  method FieldNames(flat: seq<Dict>) returns (names: seq<string>)
    ensures |names| >= |BaseOrder| && names[..|BaseOrder|] == BaseOrder
    ensures StrictlyAscending(names[|BaseOrder|..])
    ensures Elems(names[|BaseOrder|..]) == AllKeys(flat) - Elems(BaseOrder)
  {
    var extra := SortedKeys(AllKeys(flat) - Elems(BaseOrder));
    names := BaseOrder + extra;
    assert names[|BaseOrder|..] == extra;
  }

  // ------------------------------------------------------------ properties

  /** Every key of every row gets a column, and no column is listed twice
      among the extras or repeats a base column. */
  lemma EveryKeyHasAColumn(flat: seq<Dict>, names: seq<string>, d: Dict, k: string)
    requires |names| >= |BaseOrder| && names[..|BaseOrder|] == BaseOrder
    requires Elems(names[|BaseOrder|..]) == AllKeys(flat) - Elems(BaseOrder)
    requires d in flat && k in d
    ensures k in names
  {
    assert k in AllKeys(flat);
    if k in Elems(BaseOrder) {
      var i :| 0 <= i < |BaseOrder| && BaseOrder[i] == k;
      assert names[i] == k;
    } else {
      assert k in Elems(names[|BaseOrder|..]);
      var i :| 0 <= i < |names[|BaseOrder|..]| && names[|BaseOrder|..][i] == k;
      assert names[|BaseOrder| + i] == k;
    }
  }

  lemma HeadInElems(xs: seq<string>)
    ensures |xs| > 0 ==> xs[0] in Elems(xs)
  {
  }

  /** Rows that only hold base columns give exactly the base header. */
  lemma BaseRowsGiveBaseHeader(flat: seq<Dict>, names: seq<string>)
    requires forall d | d in flat :: d.Keys <= Elems(BaseOrder)
    requires |names| >= |BaseOrder| && names[..|BaseOrder|] == BaseOrder
    requires Elems(names[|BaseOrder|..]) == AllKeys(flat) - Elems(BaseOrder)
    ensures names == BaseOrder
  {
    assert AllKeys(flat) - Elems(BaseOrder) == {};
    var tail := names[|BaseOrder|..];
    HeadInElems(tail);
    assert names == names[..|BaseOrder|] + tail;
  }
}

=== FILE: dates.dfy ===
/** Calendar dates as Python's `datetime` holds them, and the text that
    `strftime("%Y-%m-%d")` renders for them. For years 1000 to 9999 that text is
    a `full-date` of section 5.6 of RFC 3339; `%Y` is not zero-padded below
    year 1000 on the C library the code runs on, so earlier years are rendered
    with fewer digits. */
module Dates {
  import opened Wrappers
  import opened Text

  datatype CalendarDate = CalendarDate(year: int, month: int, day: int)

  predicate IsLeap(y: int) {
    (y % 4 == 0 && y % 100 != 0) || y % 400 == 0
  }

  function DaysInMonth(y: int, m: int): int {
    if m == 2 then (if IsLeap(y) then 29 else 28)
    else if m == 4 || m == 6 || m == 9 || m == 11 then 30
    else 31
  }

  /** The dates `datetime` can represent. */
  predicate ValidDate(d: CalendarDate) {
    1 <= d.year <= 9999 && 1 <= d.month <= 12 && 1 <= d.day <= DaysInMonth(d.year, d.month)
  }

  type Date = d: CalendarDate | ValidDate(d) witness CalendarDate(1970, 1, 1)

  /** `%m` / `%d`: two digits, zero-padded. */
  function Pad2(n: nat): (r: string)
    requires n < 100
    ensures |r| == 2 && IsDigit(r[0]) && IsDigit(r[1])
  {
    [DigitChar(n / 10), DigitChar(n % 10)]
  }

  /** `%Y`: the year's decimal digits, four of them from year 1000 on. */
  function YearText(y: nat): (r: string)
    requires 1 <= y <= 9999
    ensures y >= 1000 ==> |r| == 4
  {
    FourDigitYears(y);
    NatToString(y)
  }

  lemma FourDigitYears(y: nat)
    requires y <= 9999
    ensures y >= 1000 ==> |NatToString(y)| == 4
  {
    if y >= 1000 {
      assert NatToString(y) == NatToString(y / 10) + [DigitChar(y % 10)];
      assert NatToString(y / 10) == NatToString(y / 100) + [DigitChar(y / 10 % 10)];
      assert NatToString(y / 100) == NatToString(y / 1000) + [DigitChar(y / 100 % 10)];
    }
  }

  /** `d.strftime("%Y-%m-%d")`. */
  function FormatYmd(d: Date): (r: string) {
    YearText(d.year) + "-" + Pad2(d.month) + "-" + Pad2(d.day)
  }

  /** `date.isoformat()`: like `%Y-%m-%d`, but the year is always
      zero-padded to four digits. */
  function FormatIso(d: Date): (r: string) {
    Pad4(d.year) + "-" + Pad2(d.month) + "-" + Pad2(d.day)
  }

  /** Four digits, zero-padded. */
  function Pad4(n: nat): (r: string)
    requires n < 10000
    ensures |r| == 4 && forall i | 0 <= i < 4 :: IsDigit(r[i])
  {
    Pad2(n / 100) + Pad2(n % 100)
  }

  /** Two ASCII digits at `s[i]`, `s[i+1]` and their value. */
  function TwoDigits(s: string, i: nat): Option<nat>
    requires i + 2 <= |s|
  {
    if IsDigit(s[i]) && IsDigit(s[i + 1]) then Some(DigitsValue(s[i..i + 2])) else None
  }

  /** RFC 3339 section 5.6 `full-date`: `date-fullyear "-" date-month "-" date-mday`,
      with the month in 01-12 and the day within the month's length. */
  function ParseFullDate(s: string): (r: Option<Date>)
    ensures r.Some? ==> |s| == 10 && s[4] == '-' && s[7] == '-'
  {
    if |s| != 10 || s[4] != '-' || s[7] != '-' then None
    else if !(forall i | 0 <= i < 4 :: IsDigit(s[i])) then None
    else
      var y := DigitsValue(s[..4]);
      match (TwoDigits(s, 5), TwoDigits(s, 8))
      case (Some(m), Some(dd)) =>
        var d := CalendarDate(y, m, dd);
        if ValidDate(d) then Some(d) else None
      case _ => None
  }

  predicate FullDate(s: string) {
    ParseFullDate(s).Some?
  }

  lemma Pad2Value(n: nat)
    requires n < 100
    ensures DigitsValue(Pad2(n)) == n
  {
    var p := Pad2(n);
    assert p[..1] == [DigitChar(n / 10)];
    assert p[..1][..0] == [];
    assert DigitsValue(p[..1]) == n / 10;
    assert DigitsValue(p) == DigitsValue(p[..1]) * 10 + n % 10;
  }

  lemma Pad4Value(n: nat)
    requires n < 10000
    ensures DigitsValue(Pad4(n)) == n
  {
    var p := Pad4(n);
    Pad2Value(n / 100);
    assert p[..2] == Pad2(n / 100);
    assert p[..3][..2] == p[..2];
    assert DigitsValue(p[..3]) == DigitsValue(p[..2]) * 10 + n % 100 / 10;
    assert p[..4] == p;
    assert DigitsValue(p) == DigitsValue(p[..3]) * 10 + n % 100 % 10;
  }

  /** Every date `isoformat` renders, whatever its year, is an RFC 3339
      full-date that reads back as the same date. */
  lemma {:induction false} FormatIsoRoundTrip(d: Date)
    ensures FullDate(FormatIso(d))
    ensures ParseFullDate(FormatIso(d)) == Some(d)
  {
    var s := FormatIso(d);
    assert |s| == 10;
    assert s[..4] == Pad4(d.year);
    Pad4Value(d.year);
    assert s[5..7] == Pad2(d.month);
    assert s[8..10] == Pad2(d.day);
    Pad2Value(d.month);
    Pad2Value(d.day);
  }

  /** From year 1000 on, `isoformat` and `%Y-%m-%d` render the same text. */
  lemma {:induction false} IsoAgreesFromYear1000(d: Date)
    requires d.year >= 1000
    ensures FormatIso(d) == FormatYmd(d)
  {
    var y := d.year;
    assert NatToString(y / 1000) == [DigitChar(y / 1000)];
    assert NatToString(y / 100) == NatToString(y / 1000) + [DigitChar(y / 100 % 10)];
    assert NatToString(y / 10) == NatToString(y / 100) + [DigitChar(y / 10 % 10)];
    assert NatToString(y) == NatToString(y / 10) + [DigitChar(y % 10)];
    assert Pad4(y) == [DigitChar(y / 1000), DigitChar(y / 100 % 10), DigitChar(y / 10 % 10), DigitChar(y % 10)];
  }

  /** Below year 1000 the two differ: `isoformat` pads the year with zeros,
      `%Y` does not. */
  lemma IsoPadsEarlyYears()
    ensures FormatIso(CalendarDate(197, 2, 7)) == "0197-02-07"
    ensures FormatYmd(CalendarDate(197, 2, 7)) == "197-02-07"
  {
    assert NatToString(197) == NatToString(19) + ['7'];
  }

  /** From year 1000 on, the rendered date is an RFC 3339 full-date that reads
      back as the same date. */
  lemma {:induction false} FormatYmdRoundTrip(d: Date)
    requires d.year >= 1000
    ensures FullDate(FormatYmd(d))
    ensures ParseFullDate(FormatYmd(d)) == Some(d)
  {
    var y := YearText(d.year);
    var s := FormatYmd(d);
    assert |s| == 10;
    assert s[..4] == y;
    NatToStringRoundTrip(d.year);
    assert s[5..7] == Pad2(d.month);
    assert s[8..10] == Pad2(d.day);
    Pad2Value(d.month);
    Pad2Value(d.day);
  }
}

=== FILE: detect.dfy ===
/** Source detection for a case document (`detect_source`, parser_pack.py):
    literal marker tests tried in a fixed order, first match wins. The FBI
    test's four case-insensitive regexes are one oracle of the environment. */
module Detect {
  import opened Text
  import opened Runtime

  datatype Source = NamUs | Ncmec | Fbi | Charley | Unknown

  /** The identifier `detect_source` returns and records carry in `provenance.sources`. */
  function SourceName(s: Source): string {
    match s
    case NamUs => "NamUs"
    case Ncmec => "NCMEC"
    case Fbi => "FBI"
    case Charley => "Charley"
    case Unknown => "Unknown"
  }

  /** The inverse of `SourceName` on the five identifiers. */
  function SourceOfName(name: string): (r: Wrappers.Option<Source>)
    ensures r.Some? ==> SourceName(r.value) == name
  {
    if name == "NamUs" then Wrappers.Some(NamUs)
    else if name == "NCMEC" then Wrappers.Some(Ncmec)
    else if name == "FBI" then Wrappers.Some(Fbi)
    else if name == "Charley" then Wrappers.Some(Charley)
    else if name == "Unknown" then Wrappers.Some(Unknown)
    else Wrappers.None
  }

  lemma SourceNameRoundTrip(s: Source)
    ensures SourceOfName(SourceName(s)) == Wrappers.Some(s)
  {
  }

  predicate NamUsMarker(text: string) {
    HasSubstring(text, "NamUs") || HasSubstring(text, "Case Created")
    || HasSubstring(text, "Date of Last Contact")
  }

  predicate NcmecMarker(text: string) {
    HasSubstring(text, "Have you seen this child?") || HasSubstring(text, "NCMEC")
    || HasSubstring(text, "Missing Since:") || HasSubstring(text, "Missing Since :")
  }

  predicate FbiMarker(env: Env, text: string) {
    (HasSubstring(text, "FBI") && HasSubstring(text, "www.fbi.gov")) || env.fbiMarker(text)
  }

  predicate CharleyMarker(text: string) {
    HasSubstring(text, "The Charley Project") || HasSubstring(text, "Details of Disappearance")
    || HasSubstring(text, "Missing From")
  }

  /** `detect_source(text)`: the first family whose markers occur, in the order
      NamUs, NCMEC, FBI, Charley; `Unknown` when none does. */
  function DetectSource(env: Env, text: string): (r: Source)
    ensures r == NamUs <==> NamUsMarker(text)
    ensures r == Ncmec <==> !NamUsMarker(text) && NcmecMarker(text)
    ensures r == Fbi <==> !NamUsMarker(text) && !NcmecMarker(text) && FbiMarker(env, text)
    ensures r == Charley <==> !NamUsMarker(text) && !NcmecMarker(text) && !FbiMarker(env, text) && CharleyMarker(text)
    ensures r == Unknown <==> !NamUsMarker(text) && !NcmecMarker(text) && !FbiMarker(env, text) && !CharleyMarker(text)
  {
    if NamUsMarker(text) then NamUs
    else if NcmecMarker(text) then Ncmec
    else if FbiMarker(env, text) then Fbi
    else if CharleyMarker(text) then Charley
    else Unknown
  }

  lemma ContainsInfix(a: string, m: string, b: string)
    ensures HasSubstring(a + m + b, m)
  {
    assert MatchAt(a + m + b, m, |a|) by {
      assert (a + m + b)[|a|..|a| + |m|] == m;
    }
  }

  /** A NamUs marker anywhere decides the source, whatever else the text holds. */
  lemma {:induction false} NamUsBeatsAll(env: Env, before: string, after: string)
    ensures DetectSource(env, before + "NamUs" + after) == NamUs
  {
    ContainsInfix(before, "NamUs", after);
  }

  /** An NCMEC marker beats every FBI and Charley marker when no NamUs marker occurs. */
  lemma {:induction false} NcmecBeatsFbiAndCharley(env: Env, before: string, after: string)
    requires !NamUsMarker(before + "NCMEC" + after)
    ensures DetectSource(env, before + "NCMEC" + after) == Ncmec
  {
    ContainsInfix(before, "NCMEC", after);
  }

  /** A federal-bureau poster beats every Charley marker when no earlier family matches. */
  lemma {:induction false} FbiBeatsCharley(env: Env, text: string)
    requires !NamUsMarker(text) && !NcmecMarker(text) && FbiMarker(env, text) && CharleyMarker(text)
    ensures DetectSource(env, text) == Fbi
  {
  }

  /** The empty text is `Unknown`, given that none of the FBI regexes matches the
      empty string (each needs at least one literal character). */
  lemma {:induction false} EmptyTextIsUnknown(env: Env)
    requires !env.fbiMarker("")
    ensures DetectSource(env, "") == Unknown
  {
    assert !HasSubstring("", "NamUs") && !HasSubstring("", "Case Created") && !HasSubstring("", "Date of Last Contact");
    assert !HasSubstring("", "Have you seen this child?") && !HasSubstring("", "NCMEC");
    assert !HasSubstring("", "Missing Since:") && !HasSubstring("", "Missing Since :");
    assert !HasSubstring("", "FBI");
    assert !HasSubstring("", "The Charley Project") && !HasSubstring("", "Details of Disappearance");
    assert !HasSubstring("", "Missing From");
  }
}

=== FILE: enrich.dfy ===
/** The source-agnostic enrichment pass (`_enrich_common_fields`,
    parser_pack.py). Its regex passes over the document are one oracle of the
    environment that yields the candidate writes in source order; what is
    modelled is the rule each write obeys and the alias migration that ends
    the pass. */
module Enrich {
  import opened Json
  import opened Text
  import opened Runtime
  import Canon

  /** `set_if_missing(cat, key, value)`: a value that is None or blank is
      ignored; otherwise it fills the slot only when the slot holds None or
      "" (or is absent). `setdefault(cat, {})` creates the category. */
  function SetIfMissing(env: Env, rec: Dict, cat: string, key: string, value: Value): (r: Dict)
    requires DictOrAbsent(rec, cat)
    ensures DictOrAbsent(r, cat)
  {
    if !Filled(env, value) then rec
    else
      var inner := AsDict(Get(rec, cat));
      if NoneOrEmptyString(Get(inner, key)) then rec[cat := Obj(inner[key := value])]
      else rec
  }

  /** The list-style fields (aka, aliases, distinctive_features, risk_factors,
      behavioral_patterns, movement_cues_text): written when the slot is falsy. */
  function SetIfFalsy(rec: Dict, cat: string, key: string, value: Value): (r: Dict)
    requires DictOrAbsent(rec, cat)
    ensures DictOrAbsent(r, cat)
  {
    var inner := AsDict(Get(rec, cat));
    if !Truthy(Get(inner, key)) then rec[cat := Obj(inner[key := value])]
    else rec
  }

  function Apply(env: Env, rec: Dict, f: Finding): (r: Dict)
    requires DictOrAbsent(rec, f.category)
  {
    match f
    case Scalar(c, k, v) => SetIfMissing(env, rec, c, k, v)
    case ListStyle(c, k, v) => SetIfFalsy(rec, c, k, v)
  }

  /** Every category a finding writes to is a dict or absent. */
  predicate Writable(rec: Dict, fs: seq<Finding>) {
    forall f | f in fs :: DictOrAbsent(rec, f.category)
  }

  function ApplyAll(env: Env, rec: Dict, fs: seq<Finding>): Dict
    requires Writable(rec, fs)
    decreases |fs|
  {
    if fs == [] then rec
    else
      ApplyKeepsShape(env, rec, fs[0], fs[1..]);
      ApplyAll(env, Apply(env, rec, fs[0]), fs[1..])
  }

  lemma ApplyKeepsShape(env: Env, rec: Dict, f: Finding, fs: seq<Finding>)
    requires DictOrAbsent(rec, f.category) && Writable(rec, fs)
    ensures Writable(Apply(env, rec, f), fs)
    ensures Canon.Shaped(rec) ==> Canon.Shaped(Apply(env, rec, f))
  {
  }

  /** The record shape the pass needs: demographic and spatial (read by the
      alias migration) and every category written are dicts when present. */
  predicate EnrichShaped(env: Env, rec: Dict, fullText: string) {
    Canon.Shaped(rec) && Writable(rec, env.enrichFindings(fullText))
  }

  /** `_enrich_common_fields(rec, full_text)`. */
  function EnrichCommonFields(env: Env, rec: Dict, fullText: string): (r: Dict)
    requires EnrichShaped(env, rec, fullText)
    ensures Canon.Shaped(r)
  {
    var fs := env.enrichFindings(fullText);
    ApplyAllShaped(env, rec, fs);
    Canon.CanonizeKeys(env, ApplyAll(env, rec, fs))
  }

  // What the writes may do.

  predicate HasListStyle(fs: seq<Finding>, c: string, k: string) {
    exists f | f in fs :: f.ListStyle? && f.category == c && f.key == k
  }

  /** `v` is what some finding for `c.k` carries, and a scalar finding's value
      is never None or blank. */
  ghost predicate Origin(env: Env, fs: seq<Finding>, c: string, k: string, v: Value) {
    exists f | f in fs :: f.category == c && f.key == k && f.value == v
      && (f.Scalar? ==> Filled(env, v))
  }

  ghost predicate Same(rec: Dict, r: Dict, c: string, k: string) {
    Canon.Has(rec, c, k) && Canon.Has(r, c, k) && r[c].fields[k] == rec[c].fields[k]
  }

  /** What a run of writes leaves: no category or key disappears, a category
      that changes is a dict, a truthy value is kept, and a value that changes
      comes from a finding for that key, replaces a falsy value, and replaces
      something other than None or "" only through a list-style finding. */
  ghost predicate Written(env: Env, fs: seq<Finding>, rec: Dict, r: Dict) {
    && rec.Keys <= r.Keys
    && (forall c | c in r && (c !in rec || r[c] != rec[c]) :: r[c].Obj?)
    && (forall c, k | Canon.Has(rec, c, k) :: Canon.Has(r, c, k))
    && (forall c, k | Canon.Has(rec, c, k) && Truthy(rec[c].fields[k]) :: Same(rec, r, c, k))
    && (forall c, k | Canon.Has(r, c, k) && !Same(rec, r, c, k) ::
          && Origin(env, fs, c, k, r[c].fields[k])
          && (!Canon.Has(rec, c, k) || !Truthy(rec[c].fields[k]))
          && (HasListStyle(fs, c, k) || !Canon.Has(rec, c, k) || NoneOrEmptyString(rec[c].fields[k])))
  }

  /** Writing one slot leaves every other slot as it was. */
  lemma WriteSlot(rec: Dict, cat: string, key: string, value: Value)
    requires DictOrAbsent(rec, cat)
    ensures var r := rec[cat := Obj(AsDict(Get(rec, cat))[key := value])];
      && rec.Keys <= r.Keys
      && (forall c, k | Canon.Has(rec, c, k) :: Canon.Has(r, c, k))
      && (forall c, k | Canon.Has(r, c, k) && (c, k) != (cat, key) :: Same(rec, r, c, k))
      && r[cat].fields[key] == value
  {
  }

  lemma ApplyWritten(env: Env, rec: Dict, f: Finding)
    requires DictOrAbsent(rec, f.category)
    ensures Written(env, [f], rec, Apply(env, rec, f))
  {
    var r := Apply(env, rec, f);
    if r != rec {
      WriteSlot(rec, f.category, f.key, f.value);
      assert r == rec[f.category := Obj(AsDict(Get(rec, f.category))[f.key := f.value])];
      assert f in [f];
      assert Origin(env, [f], f.category, f.key, f.value);
      assert f.ListStyle? ==> HasListStyle([f], f.category, f.key);
    } else {
      assert Written(env, [f], rec, rec);
    }
  }

  lemma ComposeWritten(env: Env, f: Finding, fs: seq<Finding>, rec: Dict, s: Dict, r: Dict)
    requires Written(env, [f], rec, s) && Written(env, fs, s, r)
    ensures Written(env, [f] + fs, rec, r)
  {
    forall c, k | Canon.Has(r, c, k) && !Same(rec, r, c, k)
      ensures Origin(env, [f] + fs, c, k, r[c].fields[k])
      ensures HasListStyle([f] + fs, c, k) || !Canon.Has(rec, c, k) || NoneOrEmptyString(rec[c].fields[k])
    {
      ComposeWrittenAt(env, f, fs, rec, s, r, c, k);
    }
  }

  /** `ComposeWritten` for one changed slot. */
  lemma ComposeWrittenAt(env: Env, f: Finding, fs: seq<Finding>, rec: Dict, s: Dict, r: Dict, c: string, k: string)
    requires Written(env, [f], rec, s) && Written(env, fs, s, r)
    requires Canon.Has(r, c, k) && !Same(rec, r, c, k)
    ensures Origin(env, [f] + fs, c, k, r[c].fields[k])
    ensures HasListStyle([f] + fs, c, k) || !Canon.Has(rec, c, k) || NoneOrEmptyString(rec[c].fields[k])
  {
    var all := [f] + fs;
    if Same(s, r, c, k) {
      var g :| g in [f] && g.category == c && g.key == k && g.value == r[c].fields[k]
        && (g.Scalar? ==> Filled(env, g.value));
      assert g in all;
      if HasListStyle([f], c, k) {
        var h :| h in [f] && h.ListStyle? && h.category == c && h.key == k;
        assert h in all;
      }
    } else {
      var g :| g in fs && g.category == c && g.key == k && g.value == r[c].fields[k]
        && (g.Scalar? ==> Filled(env, g.value));
      assert g in all;
      if HasListStyle(fs, c, k) {
        var h :| h in fs && h.ListStyle? && h.category == c && h.key == k;
        assert h in all;
      } else if Canon.Has(s, c, k) && !Same(rec, s, c, k) && HasListStyle([f], c, k) {
        var h :| h in [f] && h.ListStyle? && h.category == c && h.key == k;
        assert h in all;
      }
    }
  }

  lemma WrittenNothing(env: Env, rec: Dict)
    ensures Written(env, [], rec, rec)
  {
  }

  lemma {:induction false} ApplyAllKeeps(env: Env, rec: Dict, fs: seq<Finding>)
    requires Writable(rec, fs)
    ensures Written(env, fs, rec, ApplyAll(env, rec, fs))
    decreases |fs|
  {
    if fs == [] {
      WrittenNothing(env, rec);
    } else {
      var s := Apply(env, rec, fs[0]);
      ApplyWritten(env, rec, fs[0]);
      ApplyKeepsShape(env, rec, fs[0], fs[1..]);
      ApplyAllKeeps(env, s, fs[1..]);
      var r := ApplyAll(env, s, fs[1..]);
      assert ApplyAll(env, rec, fs) == r;
      ComposeWritten(env, fs[0], fs[1..], rec, s, r);
      assert [fs[0]] + fs[1..] == fs;
    }
  }

  lemma {:induction false} ApplyAllShaped(env: Env, rec: Dict, fs: seq<Finding>)
    requires Writable(rec, fs) && Canon.Shaped(rec)
    ensures Canon.Shaped(ApplyAll(env, rec, fs))
    decreases |fs|
  {
    if fs != [] {
      ApplyKeepsShape(env, rec, fs[0], fs[1..]);
      ApplyAllShaped(env, Apply(env, rec, fs[0]), fs[1..]);
    }
  }

  lemma {:induction false} ApplyAllTopKeys(env: Env, rec: Dict, fs: seq<Finding>)
    requires Writable(rec, fs)
    ensures ApplyAll(env, rec, fs).Keys <= rec.Keys + EnrichCategories
    decreases |fs|
  {
    if fs != [] {
      var s := Apply(env, rec, fs[0]);
      assert s.Keys <= rec.Keys + EnrichCategories;
      ApplyKeepsShape(env, rec, fs[0], fs[1..]);
      ApplyAllTopKeys(env, s, fs[1..]);
    }
  }

  /** The pass adds no top-level field: it only creates category dicts. */
  lemma EnrichTopKeys(env: Env, rec: Dict, fullText: string)
    requires EnrichShaped(env, rec, fullText)
    ensures EnrichCommonFields(env, rec, fullText).Keys <= rec.Keys + EnrichCategories
  {
    var fs := env.enrichFindings(fullText);
    EnrichParts(env, rec, fullText);
    ApplyAllTopKeys(env, rec, fs);
    Canon.CanonizeKeysContract(env, ApplyAll(env, rec, fs));
  }

  /** A slot the write run kept and the alias migration kept is kept by the pass. */
  lemma SameThrough(rec: Dict, s: Dict, r: Dict, c: string, k: string)
    requires Same(rec, s, c, k) && Same(s, r, c, k)
    ensures Same(rec, r, c, k)
  {
  }

  /** The writes, then the alias migration: the facts each part guarantees. */
  lemma EnrichParts(env: Env, rec: Dict, fullText: string)
    requires EnrichShaped(env, rec, fullText)
    ensures var fs := env.enrichFindings(fullText);
      Writable(rec, fs) && Canon.Shaped(ApplyAll(env, rec, fs))
      && Written(env, fs, rec, ApplyAll(env, rec, fs))
      && EnrichCommonFields(env, rec, fullText) == Canon.CanonizeKeys(env, ApplyAll(env, rec, fs))
  {
    var fs := env.enrichFindings(fullText);
    ApplyAllShaped(env, rec, fs);
    ApplyAllKeeps(env, rec, fs);
  }

  /** The pass never replaces a truthy value of a key the alias migration keeps. */
  lemma EnrichKeepsTruthy(env: Env, rec: Dict, fullText: string, c: string, k: string)
    requires EnrichShaped(env, rec, fullText)
    requires Canon.Has(rec, c, k) && !Canon.IsAlias(c, k) && Truthy(rec[c].fields[k])
    ensures Same(rec, EnrichCommonFields(env, rec, fullText), c, k)
  {
    EnrichParts(env, rec, fullText);
    var s := ApplyAll(env, rec, env.enrichFindings(fullText));
    Canon.CanonizeKeysContract(env, s);
    assert Same(rec, s, c, k);
    SameThrough(rec, s, Canon.CanonizeKeys(env, s), c, k);
  }

  /** A value other than None or "" is replaced only by a list-style field. */
  lemma EnrichKeepsFilled(env: Env, rec: Dict, fullText: string, c: string, k: string)
    requires EnrichShaped(env, rec, fullText)
    requires Canon.Has(rec, c, k) && !Canon.IsAlias(c, k) && !NoneOrEmptyString(rec[c].fields[k])
    requires !HasListStyle(env.enrichFindings(fullText), c, k)
    ensures Same(rec, EnrichCommonFields(env, rec, fullText), c, k)
  {
    EnrichParts(env, rec, fullText);
    var s := ApplyAll(env, rec, env.enrichFindings(fullText));
    Canon.CanonizeKeysContract(env, s);
    assert Same(rec, s, c, k);
    SameThrough(rec, s, Canon.CanonizeKeys(env, s), c, k);
  }

  /** Every value the pass adds or changes has text, unless a list-style
      finding for that key carried it. */
  lemma EnrichWritesText(env: Env, rec: Dict, fullText: string, c: string, k: string)
    requires EnrichShaped(env, rec, fullText)
    requires var r := EnrichCommonFields(env, rec, fullText);
      Canon.Has(r, c, k) && !Same(rec, r, c, k)
    ensures var r := EnrichCommonFields(env, rec, fullText);
      Filled(env, r[c].fields[k])
      || exists g | g in env.enrichFindings(fullText) :: g.ListStyle? && g.category == c && g.key == k && g.value == r[c].fields[k]
  {
    var fs := env.enrichFindings(fullText);
    EnrichParts(env, rec, fullText);
    var s := ApplyAll(env, rec, fs);
    Canon.CanonizeKeysContract(env, s);
    var r := Canon.CanonizeKeys(env, s);
    if Canon.IsAlias(c, k) {
      Canon.AliasGone(env, s, c, k);
    } else if Canon.Has(s, c, k) {
      assert Same(s, r, c, k);
      if !Same(rec, s, c, k) {
        var g :| g in fs && g.category == c && g.key == k && g.value == s[c].fields[k]
          && (g.Scalar? ==> Filled(env, g.value));

      } else {
        SameThrough(rec, s, r, c, k);
      }
    }
  }

  /** A scalar write fills an empty slot and leaves a filled one alone. */
  lemma SetIfMissingFills(env: Env, rec: Dict, cat: string, key: string, value: Value)
    requires DictOrAbsent(rec, cat) && Filled(env, value)
    ensures var r := SetIfMissing(env, rec, cat, key, value);
      && (NoneOrEmptyString(Get(AsDict(Get(rec, cat)), key)) ==> r[cat].fields[key] == value)
      && (!NoneOrEmptyString(Get(AsDict(Get(rec, cat)), key)) ==> r == rec)
  {
  }
}

=== FILE: extraction.dfy ===
/** `_sanitize_extracted` of llm/agent/llm_agent_simple.py: the first clean-up
    of the dict the language model extracted. Each category is rebuilt from a
    fixed list of fields, enumerations are enforced, and numbers are converted
    with `float()`/`int()`, whose failures become `None`. The function raises
    (an `AttributeError` or `TypeError`) when a category, a gender, a case
    status or the confidences are truthy but of the wrong type, or when a list
    it iterates over is a truthy number. */
module Extraction {
  import opened Wrappers
  import opened Json
  import opened Text
  import opened Runtime
  import opened Common

  // ------------------------------------------------------------ reading the input

  /** `x.get(k, {}) or {}` followed by `.get` on the result: the dict, `{}`
      for a falsy value, and an AttributeError for anything else. */
  function Category(x: Dict, k: string): (r: Result<Dict>)
    ensures r.Ok? <==> DictOrFalsy(Get(x, k))
    ensures r.Ok? ==> r.value == AsDict(Get(x, k))
  {
    var v := Get(x, k);
    if v.Obj? then Ok(v.fields) else if !Truthy(v) then Ok(map[]) else Raise("AttributeError")
  }

  /** `(v or "")` where the result is then used as a string: a falsy value is
      "", a string is itself, and anything else raises on `.lower()`. */
  function TextOr(v: Value, fallback: string): (r: Result<string>)
    ensures r.Ok? <==> v.Str? || !Truthy(v)
    ensures v.Str? && v.s != "" ==> r == Ok(v.s)
    ensures !Truthy(v) ==> r == Ok(fallback)
  {
    if !Truthy(v) then Ok(fallback) else if v.Str? then Ok(v.s) else Raise("AttributeError")
  }

  /** `for x in (v or [])`: a list gives its items, a string its characters,
      a dict its keys (in the order the dict holds them); a truthy number or
      `True` is not iterable. */
  function Items(env: Env, v: Value): (r: Result<seq<Value>>)
    ensures r.Ok? <==> !(Truthy(v) && (v.Num? || v.Bool?))
    ensures v.Arr? ==> r == Ok(v.items)
    ensures !Truthy(v) ==> r == Ok([])
  {
    if !Truthy(v) then Ok([])
    else match v
      case Arr(items) => Ok(items)
      case Str(s) => Ok(Chars(s))
      case Obj(f) => Ok(Strs(env.keyOrder(f)))
      case _ => Raise("TypeError")
  }

  /** The one-character strings of `s`, in order. */
  function Chars(s: string): (r: seq<Value>)
    ensures |r| == |s|
    ensures forall i | 0 <= i < |s| :: r[i] == Str([s[i]])
  {
    if s == [] then [] else [Str([s[0]])] + Chars(s[1..])
  }

  /** `[x for x in xs if isinstance(x, str)]` */
  function OnlyStrings(xs: seq<Value>): (r: seq<Value>)
    ensures forall i | 0 <= i < |r| :: r[i].Str?
    ensures forall x | x in xs && x.Str? :: x in r
    ensures forall x | x in r :: x in xs
  {
    if xs == [] then []
    else (if xs[0].Str? then [xs[0]] else []) + OnlyStrings(xs[1..])
  }

  /** `[x for x in xs if isinstance(x, str) and x.strip()]` */
  function NonBlankStrings(xs: seq<Value>): (r: seq<Value>)
    ensures forall i | 0 <= i < |r| :: r[i].Str? && !Blank(r[i].s)
    ensures forall x | x in xs && x.Str? && !Blank(x.s) :: x in r
    ensures forall x | x in r :: x in xs
  {
    if xs == [] then []
    else (if xs[0].Str? && !Blank(xs[0].s) then [xs[0]] else []) + NonBlankStrings(xs[1..])
  }

  /** A number, or `None` for a failed conversion. */
  function NumOrNull(x: Option<real>): (r: Value)
    ensures r == Null || r.Num?
  {
    if x.Some? then Num(x.value) else Null
  }

  // ------------------------------------------------------------ demographic

  const Genders: seq<string> := ["male", "female"]

  /** The age: `float()` of the input, `None` when that fails or gives a
      value of 1000 or more (taken to be a birth year). */
  function Age(env: Env, v: Value): (r: Value)
    ensures r == Null || (r.Num? && r.n < 1000.0)
    ensures v.Num? && v.n < 1000.0 ==> r == v
    ensures v.Num? && v.n >= 1000.0 ==> r == Null
  {
    var a := ToFloat(env, v);
    if a.Some? && a.value < 1000.0 then Num(a.value) else Null
  }

  /** A list of features becomes its non-blank items joined with "; " (or
      `None` when none is left); anything else is kept. */
  function Features(env: Env, v: Value): (r: Value)
    ensures !r.Arr?
    ensures !v.Arr? ==> r == v
  {
    if v.Arr? then
      var j := Join("; ", CleanStrings(env, v.items));
      if j == "" then Null else Str(j)
    else v
  }

  /** The keys the rebuilt demographic always has; `_fulltext` is added only
      when it has content. */
  const DemographicKeys: set<string> := {"name", "aliases", "age_years", "gender", "race_ethnicity",
    "height_in", "weight_lbs", "distinctive_features"}

  /** `(gender or "").lower()` when that is a known gender, else `None`. */
  function GenderField(gender: string): (r: Value)
    ensures r == Null || r == Str("male") || r == Str("female")
    ensures r != Null <==> Lower(gender) in Genders
  {
    if Lower(gender) in Genders then Str(Lower(gender)) else Null
  }

  /** The value the demographic step writes under one of its keys. */
  function DemographicField(env: Env, d: Dict, gender: string, k: string): Value {
    if k == "aliases" then Or(Get(d, "aliases"), Arr([]))
    else if k == "age_years" then Age(env, Get(d, "age_years"))
    else if k == "gender" then GenderField(gender)
    else if k == "height_in" || k == "weight_lbs" then NumOrNull(ToFloat(env, Get(d, k)))
    else if k == "distinctive_features" then Features(env, Get(d, k))
    else Get(d, k)
  }

  function DemographicFields(env: Env, d: Dict, gender: string): (r: Dict)
    ensures r.Keys == DemographicKeys
    ensures forall k | k in r :: r[k] == DemographicField(env, d, gender, k)
  {
    map k | k in DemographicKeys :: DemographicField(env, d, gender, k)
  }

  /** What the rebuilt demographic promises. */
  predicate DemographicClean(d: Dict) {
    && DemographicKeys <= d.Keys <= DemographicKeys + {"_fulltext"}
    && (Truthy(d["aliases"]) || d["aliases"] == Arr([]))
    && (d["gender"] == Null || d["gender"] == Str("male") || d["gender"] == Str("female"))
    && (d["age_years"] == Null || (d["age_years"].Num? && d["age_years"].n < 1000.0))
    && (d["height_in"] == Null || d["height_in"].Num?)
    && (d["weight_lbs"] == Null || d["weight_lbs"].Num?)
    && !d["distinctive_features"].Arr?
  }

  /** The rebuilt fields, with or without `_fulltext`, meet the promise. */
  lemma DemographicFieldsClean(env: Env, d: Dict, gender: string, r: Dict)
    requires DemographicKeys <= r.Keys <= DemographicKeys + {"_fulltext"}
    requires forall k | k in DemographicKeys :: r[k] == DemographicField(env, d, gender, k)
    ensures DemographicClean(r)
  {
    assert r["aliases"] == DemographicField(env, d, gender, "aliases");
    assert r["gender"] == DemographicField(env, d, gender, "gender");
    assert r["age_years"] == DemographicField(env, d, gender, "age_years");
    assert r["height_in"] == DemographicField(env, d, gender, "height_in");
    assert r["weight_lbs"] == DemographicField(env, d, gender, "weight_lbs");
    assert r["distinctive_features"] == DemographicField(env, d, gender, "distinctive_features");
  }

  /** The demographic step; a truthy gender that is not a string raises. */
  function CleanDemographic(env: Env, d: Dict): (r: Result<Dict>)
    ensures r.Ok? <==> TextOr(Get(d, "gender"), "").Ok?
    ensures r.Ok? ==> DemographicClean(r.value)
    ensures r.Ok? ==> ("_fulltext" in r.value <==> Filled(env, Get(d, "_fulltext")))
    ensures r.Ok? && "_fulltext" in r.value ==> r.value["_fulltext"] == Get(d, "_fulltext")
  {
    match TextOr(Get(d, "gender"), "")
    case Raise(e) => Raise(e)
    case Ok(g) =>
      var base := DemographicFields(env, d, g);
      var r := if Filled(env, Get(d, "_fulltext")) then base["_fulltext" := d["_fulltext"]] else base;
      DemographicFieldsClean(env, d, g, r);
      Ok(r)
  }

  // ------------------------------------------------------------ temporal

  const TemporalKeys: set<string> := {"timezone", "last_seen_ts", "reported_missing_ts", "first_police_action_ts",
    "elapsed_report_minutes", "elapsed_first_response_minutes", "follow_up_sightings"}

  /** `iso(s)`: a non-empty string stripped, `None` for anything else or
      for a blank string. */
  function Iso(v: Value): (r: Value)
    ensures r == Null || (r.Str? && r.s != "" && Strip(r.s) == r.s)
    ensures v.Str? && !Blank(v.s) ==> r == Str(Strip(v.s))
  {
    if !v.Str? || v.s == "" then Null
    else
      var s := Strip(v.s);
      StripIdempotent(v.s);
      if s == "" then Null else Str(s)
  }

  /** A number with no fractional part, as `int()` returns. */
  predicate Whole(x: real) {
    x.Floor as real == x
  }

  /** `int()` leaves a whole number as it is. */
  lemma TruncWhole(v: Value)
    ensures v.Num? && Whole(v.n) ==> Trunc(v.n) as real == v.n
  {
    if v.Num? && Whole(v.n) && v.n < 0.0 {
      var x := v.n;
      var n := x.Floor;
      assert -x == (-n) as real;
      assert (-x).Floor == -n;
    }
  }

  /** `int(v) if v not in (None, "") else None`, with a failed `int()` giving `None`. */
  function Minutes(env: Env, v: Value): (r: Value)
    ensures r == Null || (r.Num? && Whole(r.n))
    ensures v.Num? && Whole(v.n) ==> r == v
  {
    if v == Null || v == Str("") then Null
    else
      match ToInt(env, v)
      case None => Null
      case Some(i) =>
        assert (i as real).Floor == i;
        TruncWhole(v);
        Num(i as real)
  }

  /** The value the temporal step writes under one of its keys. */
  function TemporalField(env: Env, t: Dict, k: string): Value {
    if k == "timezone" then Or(Get(t, k), Str(NewYork))
    else if k == "elapsed_report_minutes" || k == "elapsed_first_response_minutes" then Minutes(env, Get(t, k))
    else if k == "follow_up_sightings" then Or(Get(t, k), Arr([]))
    else Iso(Get(t, k))
  }

  /** What the rebuilt temporal dict promises: a time zone, stripped
      non-empty timestamps or `None`, whole elapsed minutes or `None`, and a
      sightings value that is a non-empty value or `[]`. */
  predicate TemporalClean(t: Dict) {
    && t.Keys == TemporalKeys
    && Truthy(t["timezone"])
    && (forall k | k in t && k != "timezone" && k != "follow_up_sightings" && k != "elapsed_report_minutes"
          && k != "elapsed_first_response_minutes" :: t[k] == Null || (t[k].Str? && t[k].s != "" && Strip(t[k].s) == t[k].s))
    && (t["elapsed_report_minutes"] == Null || (t["elapsed_report_minutes"].Num? && Whole(t["elapsed_report_minutes"].n)))
    && (t["elapsed_first_response_minutes"] == Null
        || (t["elapsed_first_response_minutes"].Num? && Whole(t["elapsed_first_response_minutes"].n)))
    && (Truthy(t["follow_up_sightings"]) || t["follow_up_sightings"] == Arr([]))
  }

  /** The temporal step, which never raises. */
  function CleanTemporal(env: Env, t: Dict): (r: Dict)
    ensures TemporalClean(r)
    ensures forall k | k in r :: r[k] == TemporalField(env, t, k)
  {
    var r := map k | k in TemporalKeys :: TemporalField(env, t, k);
    assert r["timezone"] == TemporalField(env, t, "timezone");
    assert r["follow_up_sightings"] == TemporalField(env, t, "follow_up_sightings");
    assert r["elapsed_report_minutes"] == TemporalField(env, t, "elapsed_report_minutes");
    assert r["elapsed_first_response_minutes"] == TemporalField(env, t, "elapsed_first_response_minutes");
    r
  }

  // ------------------------------------------------------------ spatial

  const SpatialKeys: set<string> := {"last_seen_location", "last_seen_city", "last_seen_state",
    "last_seen_lat", "last_seen_lon", "locations_raw"}

  /** The value the spatial step writes under one of its keys, given the
      items of `locations_raw`. */
  function SpatialField(s: Dict, raw: seq<Value>, k: string): Value {
    if k == "last_seen_state" then Or(Get(s, k), Str("VA"))
    else if k == "last_seen_lat" || k == "last_seen_lon" then Null
    else if k == "locations_raw" then Arr(OnlyStrings(raw))
    else Get(s, k)
  }

  /** What the rebuilt spatial dict promises: no coordinates yet, a state,
      and a list of strings as `locations_raw`. */
  predicate SpatialClean(s: Dict) {
    && s.Keys == SpatialKeys
    && s["last_seen_lat"] == Null && s["last_seen_lon"] == Null
    && Truthy(s["last_seen_state"])
    && s["locations_raw"].Arr? && forall i | 0 <= i < |s["locations_raw"].items| :: s["locations_raw"].items[i].Str?
  }

  /** The spatial step: coordinates cleared, the state defaulted to "VA",
      and only the strings of `locations_raw` kept; a truthy number there raises. */
  function CleanSpatial(env: Env, s: Dict): (r: Result<Dict>)
    ensures r.Ok? <==> Items(env, Get(s, "locations_raw")).Ok?
    ensures r.Ok? ==> SpatialClean(r.value)
    ensures r.Ok? ==> forall k | k in r.value :: r.value[k] == SpatialField(s, Items(env, Get(s, "locations_raw")).value, k)
  {
    match Items(env, Get(s, "locations_raw"))
    case Raise(e) => Raise(e)
    case Ok(raw) =>
      var r := map k | k in SpatialKeys :: SpatialField(s, raw, k);
      assert r["last_seen_lat"] == SpatialField(s, raw, "last_seen_lat");
      assert r["last_seen_lon"] == SpatialField(s, raw, "last_seen_lon");
      assert r["last_seen_state"] == SpatialField(s, raw, "last_seen_state");
      assert r["locations_raw"] == SpatialField(s, raw, "locations_raw");
      Ok(r)
  }

  // ------------------------------------------------------------ narrative, outcome, audit

  /** What the rebuilt narrative dict promises: a summary entry and a list
      of non-blank strings as spans. */
  predicate NarrativeClean(n: Dict) {
    && n.Keys == {"incident_summary", "narrative_spans"}
    && n["narrative_spans"].Arr?
    && forall i | 0 <= i < |n["narrative_spans"].items| ::
         n["narrative_spans"].items[i].Str? && !Blank(n["narrative_spans"].items[i].s)
  }

  /** The narrative step: the summary as given and the non-blank string spans. */
  function CleanNarrative(env: Env, n: Dict): (r: Result<Dict>)
    ensures r.Ok? <==> Items(env, Get(n, "narrative_spans")).Ok?
    ensures r.Ok? ==> NarrativeClean(r.value) && r.value["incident_summary"] == Get(n, "incident_summary")
    ensures r.Ok? ==> r.value["narrative_spans"] == Arr(NonBlankStrings(Items(env, Get(n, "narrative_spans")).value))
  {
    match Items(env, Get(n, "narrative_spans"))
    case Raise(e) => Raise(e)
    case Ok(spans) => Ok(map["incident_summary" := Get(n, "incident_summary"), "narrative_spans" := Arr(NonBlankStrings(spans))])
  }

  const Statuses: seq<string> := ["ongoing", "found", "not_found"]

  /** What the rebuilt outcome promises: only a known status. */
  predicate OutcomeClean(o: Dict) {
    o.Keys == {"case_status"} && o["case_status"].Str? && o["case_status"].s in Statuses
  }

  /** The outcome step: the lower-cased status when it is a known one,
      "ongoing" otherwise; a truthy status that is not a string raises. */
  function CleanOutcome(o: Dict): (r: Result<Dict>)
    ensures r.Ok? <==> TextOr(Get(o, "case_status"), "ongoing").Ok?
    ensures r.Ok? ==> OutcomeClean(r.value)
    ensures r.Ok? && Get(o, "case_status").Str? && Lower(Get(o, "case_status").s) in Statuses
      ==> r.value["case_status"] == Str(Lower(Get(o, "case_status").s))
  {
    match TextOr(Get(o, "case_status"), "ongoing")
    case Raise(e) => Raise(e)
    case Ok(cs) => Ok(map["case_status" := Str(if Lower(cs) in Statuses then Lower(cs) else "ongoing")])
  }

  const ConfidenceKeys: set<string> := {"demographic", "temporal", "spatial", "narrative_osint"}

  /** One clamped confidence: `max(0.0, min(1.0, float(v)))`, 0.0 when
      `float()` fails or the key is missing. */
  function Confidence(env: Env, conf: Dict, k: string): (r: real)
    ensures 0.0 <= r <= 1.0
  {
    Clamp01(ToFloat(env, Get(conf, k)).GetOr(0.0))
  }

  /** What the rebuilt audit promises: the four confidences, each a number
      between 0 and 1. */
  predicate AuditClean(a: Dict) {
    && "confidences" in a && a["confidences"].Obj?
    && a["confidences"].fields.Keys == ConfidenceKeys
    && forall k | k in a["confidences"].fields :: a["confidences"].fields[k].Num?
         && 0.0 <= a["confidences"].fields[k].n <= 1.0
  }

  /** The audit step: the four confidences replace whatever `confidences`
      held; the other audit entries are kept. A truthy `confidences` that is
      not a dict raises. */
  function CleanAudit(env: Env, a: Dict): (r: Result<Dict>)
    ensures r.Ok? <==> DictOrFalsy(Get(a, "confidences"))
    ensures r.Ok? ==> r.value.Keys == a.Keys + {"confidences"}
    ensures r.Ok? ==> forall k | k in a && k != "confidences" :: r.value[k] == a[k]
    ensures r.Ok? ==> AuditClean(r.value)
    ensures r.Ok? ==> forall k | k in ConfidenceKeys ::
      r.value["confidences"].fields[k] == Num(Confidence(env, AsDict(Get(a, "confidences")), k))
  {
    var conf := Get(a, "confidences");
    if !DictOrFalsy(conf) then Raise("AttributeError")
    else Ok(a["confidences" := Obj(map k | k in ConfidenceKeys :: Num(Confidence(env, AsDict(conf), k)))])
  }

  // ------------------------------------------------------------ _sanitize_extracted

  /** The inputs on which `_sanitize_extracted` returns: every category it
      reads with `.get` is a dict or falsy, the gender and the case status are
      strings or falsy, `locations_raw` and `narrative_spans` can be iterated,
      and `confidences` is a dict or falsy. */
  predicate Extractable(env: Env, x: Dict) {
    PartsExtractable(env, Get(x, "demographic"), Get(x, "temporal"), Get(x, "spatial"),
                     Get(x, "narrative_osint"), Get(x, "outcome"), Get(x, "audit"))
  }

  /** The same condition on the six category values. */
  predicate PartsExtractable(env: Env, dem: Value, tem: Value, spa: Value, nar: Value, out: Value, aud: Value) {
    && DictOrFalsy(dem) && DictOrFalsy(tem) && DictOrFalsy(spa)
    && DictOrFalsy(nar) && DictOrFalsy(out) && DictOrFalsy(aud)
    && CleanDemographic(env, AsDict(dem)).Ok?
    && Items(env, Get(AsDict(spa), "locations_raw")).Ok?
    && Items(env, Get(AsDict(nar), "narrative_spans")).Ok?
    && TextOr(Get(AsDict(out), "case_status"), "ongoing").Ok?
    && DictOrFalsy(Get(AsDict(aud), "confidences"))
  }

  /** The `out` dict, whose seven keys are always present: one field per category. */
  datatype Cleaned = Cleaned(demographic: Dict, temporal: Dict, spatial: Dict, narrative: Dict,
                             outcome: Dict, provenance: Value, audit: Dict)
  {
    /** The dict the function returns. */
    function Fields(): Dict {
      map["demographic" := Obj(demographic), "temporal" := Obj(temporal), "spatial" := Obj(spatial),
          "narrative_osint" := Obj(narrative), "outcome" := Obj(outcome), "provenance" := provenance,
          "audit" := Obj(audit)]
    }
  }

  /** The shape of every result: each category rebuilt to its promise, and a
      provenance that is a truthy value or `{}`. */
  predicate ExtractedClean(c: Cleaned) {
    && DemographicClean(c.demographic) && TemporalClean(c.temporal) && SpatialClean(c.spatial)
    && NarrativeClean(c.narrative) && OutcomeClean(c.outcome) && AuditClean(c.audit)
    && (Truthy(c.provenance) || c.provenance == Obj(map[]))
  }

  /** The rebuilt categories of an input on which nothing raises. */
  function Build(env: Env, x: Dict): (r: Cleaned)
    requires Extractable(env, x)
    ensures ExtractedClean(r)
  {
    BuildParts(env, Get(x, "demographic"), Get(x, "temporal"), Get(x, "spatial"), Get(x, "narrative_osint"),
               Get(x, "outcome"), Get(x, "provenance"), Get(x, "audit"))
  }

  /** The same, from the seven values the function reads. */
  function BuildParts(env: Env, dem: Value, tem: Value, spa: Value, nar: Value, out: Value, prov: Value, aud: Value): (r: Cleaned)
    requires PartsExtractable(env, dem, tem, spa, nar, out, aud)
    ensures ExtractedClean(r)
  {
    Cleaned(CleanDemographic(env, AsDict(dem)).value,
            CleanTemporal(env, AsDict(tem)),
            CleanSpatial(env, AsDict(spa)).value,
            CleanNarrative(env, AsDict(nar)).value,
            CleanOutcome(AsDict(out)).value,
            Or(prov, Obj(map[])),
            CleanAudit(env, AsDict(aud)).value)
  }

  /** The exception of the first step that fails, in the order the function
      runs them: reading a category, then its typed fields. */
  function FirstError(env: Env, x: Dict): string {
    var dem := Get(x, "demographic");
    var spa := Get(x, "spatial");
    var nar := Get(x, "narrative_osint");
    if !DictOrFalsy(dem) || CleanDemographic(env, AsDict(dem)).Raise? then "AttributeError"
    else if !DictOrFalsy(Get(x, "temporal")) || !DictOrFalsy(spa) then "AttributeError"
    else if Items(env, Get(AsDict(spa), "locations_raw")).Raise? then "TypeError"
    else if !DictOrFalsy(nar) then "AttributeError"
    else if Items(env, Get(AsDict(nar), "narrative_spans")).Raise? then "TypeError"
    else "AttributeError"
  }

  /** `_sanitize_extracted(extracted)`: the rebuilt categories, or the
      exception raised on a value of the wrong type. */
  function SanitizeExtracted(env: Env, x: Dict): (r: Result<Cleaned>)
    ensures r.Ok? <==> Extractable(env, x)
    ensures r.Ok? ==> ExtractedClean(r.value)
  {
    if Extractable(env, x) then Ok(Build(env, x)) else Raise(FirstError(env, x))
  }
}

/** What `_sanitize_extracted` promises beyond the shape of its result: a
    second pass changes nothing, and the places where it differs from the
    repair pass that runs after it. */
module ExtractionProps {
  import opened Wrappers
  import opened Json
  import opened Text
  import opened Runtime
  import opened Common
  import opened Extraction

  // ------------------------------------------------------------ fixpoints

  /** Two dicts with the same keys and the same value under each are equal. */
  lemma DictExtensional(a: Dict, b: Dict)
    requires a.Keys == b.Keys
    requires forall k | k in a :: a[k] == b[k]
    ensures a == b
  {
  }

  /** The genders and statuses are already lower case. */
  lemma KnownWordsLower()
    ensures Lower("male") == "male" && Lower("female") == "female"
    ensures Lower("") == "" && Lower("") !in Genders
  {
  }

  /** A clean gender reads back as itself. */
  lemma GenderFixed(v: Value)
    requires v == Null || v == Str("male") || v == Str("female")
    ensures TextOr(v, "").Ok? && GenderField(TextOr(v, "").value) == v
  {
    KnownWordsLower();
  }

  /** Each field of a clean demographic is rebuilt as it was. */
  lemma DemographicFieldFixed(env: Env, d: Dict, gs: string, k: string)
    requires DemographicClean(d) && k in DemographicKeys
    requires TextOr(d["gender"], "") == Ok(gs)
    ensures DemographicField(env, d, gs, k) == d[k]
  {
    if k == "gender" {
      GenderFixed(d["gender"]);
    } else if k == "age_years" {
      assert Get(d, k) == d["age_years"];
    }
  }

  /** The step keeps every clean demographic whose `_fulltext`, if any, has content. */
  lemma DemographicFixpoint(env: Env, d: Dict)
    requires DemographicClean(d)
    requires "_fulltext" in d ==> Filled(env, d["_fulltext"])
    ensures CleanDemographic(env, d) == Ok(d)
  {
    GenderFixed(d["gender"]);
    var gs := TextOr(d["gender"], "").value;
    var base := DemographicFields(env, d, gs);
    forall k | k in DemographicKeys ensures base[k] == d[k] {
      DemographicFieldFixed(env, d, gs, k);
    }
    DictExtensional(CleanDemographic(env, d).value, d);
  }
  // ------------------------------------------------------------ temporal

  /** Each field of a clean temporal dict is rebuilt as it was. */
  lemma TemporalFieldFixed(env: Env, t: Dict, k: string)
    requires TemporalClean(t) && k in TemporalKeys
    ensures TemporalField(env, t, k) == t[k]
  {
    if k == "elapsed_report_minutes" || k == "elapsed_first_response_minutes" {
    } else if k != "timezone" && k != "follow_up_sightings" {
      assert t[k].Str? ==> !Blank(t[k].s);
    }
  }

  /** The temporal step keeps every clean temporal dict. */
  lemma TemporalFixpoint(env: Env, t: Dict)
    requires TemporalClean(t)
    ensures CleanTemporal(env, t) == t
  {
    forall k | k in TemporalKeys ensures TemporalField(env, t, k) == t[k] {
      TemporalFieldFixed(env, t, k);
    }
    DictExtensional(CleanTemporal(env, t), t);
  }

  // ------------------------------------------------------------ spatial

  /** Filtering a list of strings for strings keeps all of it. */
  lemma {:induction false} OnlyStringsKeepsStrings(xs: seq<Value>)
    requires forall i | 0 <= i < |xs| :: xs[i].Str?
    ensures OnlyStrings(xs) == xs
  {
    if xs != [] {
      OnlyStringsKeepsStrings(xs[1..]);
      assert [xs[0]] + xs[1..] == xs;
    }
  }

  /** The spatial step keeps every clean spatial dict. */
  lemma SpatialFixpoint(env: Env, s: Dict)
    requires SpatialClean(s)
    ensures CleanSpatial(env, s) == Ok(s)
  {
    var raw := Items(env, s["locations_raw"]).value;
    assert raw == s["locations_raw"].items;
    OnlyStringsKeepsStrings(raw);
    forall k | k in SpatialKeys ensures SpatialField(s, raw, k) == s[k] {
    }
    DictExtensional(CleanSpatial(env, s).value, s);
  }

  // ------------------------------------------------------------ narrative, outcome, audit

  /** Filtering a list of non-blank strings keeps all of it. */
  lemma {:induction false} NonBlankKeepsNonBlank(xs: seq<Value>)
    requires forall i | 0 <= i < |xs| :: xs[i].Str? && !Blank(xs[i].s)
    ensures NonBlankStrings(xs) == xs
  {
    if xs != [] {
      NonBlankKeepsNonBlank(xs[1..]);
      assert [xs[0]] + xs[1..] == xs;
    }
  }

  /** The narrative step keeps every clean narrative dict. */
  lemma NarrativeFixpoint(env: Env, n: Dict)
    requires NarrativeClean(n)
    ensures CleanNarrative(env, n) == Ok(n)
  {
    NonBlankKeepsNonBlank(n["narrative_spans"].items);
    DictExtensional(CleanNarrative(env, n).value, n);
  }

  /** The known statuses are already lower case. */
  lemma StatusesLower()
    ensures forall s | s in Statuses :: Lower(s) == s && s != ""
  {
    assert Lower("ongoing") == "ongoing" && Lower("found") == "found" && Lower("not_found") == "not_found";
  }

  /** The outcome step keeps every clean outcome. */
  lemma OutcomeFixpoint(o: Dict)
    requires OutcomeClean(o)
    ensures CleanOutcome(o) == Ok(o)
  {
    StatusesLower();
    DictExtensional(CleanOutcome(o).value, o);
  }

  /** The audit step keeps every clean audit. */
  lemma AuditFixpoint(env: Env, a: Dict)
    requires AuditClean(a)
    ensures CleanAudit(env, a) == Ok(a)
  {
    var conf := a["confidences"].fields;
    var c' := CleanAudit(env, a).value["confidences"].fields;
    forall k | k in ConfidenceKeys ensures c'[k] == conf[k] {
      assert Confidence(env, conf, k) == conf[k].n;
    }
    DictExtensional(c', conf);
    DictExtensional(CleanAudit(env, a).value, a);
  }
  // ------------------------------------------------------------ the whole function

  /** The dict a result stands for reads back as its seven parts. */
  lemma FieldsParts(c: Cleaned)
    ensures Get(c.Fields(), "demographic") == Obj(c.demographic)
    ensures Get(c.Fields(), "temporal") == Obj(c.temporal)
    ensures Get(c.Fields(), "spatial") == Obj(c.spatial)
    ensures Get(c.Fields(), "narrative_osint") == Obj(c.narrative)
    ensures Get(c.Fields(), "outcome") == Obj(c.outcome)
    ensures Get(c.Fields(), "provenance") == c.provenance
    ensures Get(c.Fields(), "audit") == Obj(c.audit)
  {
  }

  /** Nothing raises on clean categories. */
  lemma PartsExtractableClean(env: Env, dem: Dict, tem: Dict, spa: Dict, nar: Dict, out: Dict, aud: Dict)
    requires DemographicClean(dem) && SpatialClean(spa) && NarrativeClean(nar)
    requires OutcomeClean(out) && AuditClean(aud)
    ensures PartsExtractable(env, Obj(dem), Obj(tem), Obj(spa), Obj(nar), Obj(out), Obj(aud))
  {
    GenderFixed(dem["gender"]);
    StatusesLower();
  }

  /** Rebuilding clean categories gives them back. */
  lemma BuildPartsFixpoint(env: Env, dem: Dict, tem: Dict, spa: Dict, nar: Dict, out: Dict, prov: Value, aud: Dict)
    requires DemographicClean(dem) && TemporalClean(tem) && SpatialClean(spa) && NarrativeClean(nar)
    requires OutcomeClean(out) && AuditClean(aud) && (Truthy(prov) || prov == Obj(map[]))
    requires "_fulltext" in dem ==> Filled(env, dem["_fulltext"])
    ensures PartsExtractable(env, Obj(dem), Obj(tem), Obj(spa), Obj(nar), Obj(out), Obj(aud))
    ensures BuildParts(env, Obj(dem), Obj(tem), Obj(spa), Obj(nar), Obj(out), prov, Obj(aud))
            == Cleaned(dem, tem, spa, nar, out, prov, aud)
  {
    PartsExtractableClean(env, dem, tem, spa, nar, out, aud);
    DemographicFixpoint(env, dem);
    TemporalFixpoint(env, tem);
    SpatialFixpoint(env, spa);
    NarrativeFixpoint(env, nar);
    OutcomeFixpoint(out);
    AuditFixpoint(env, aud);
  }

  /** `_sanitize_extracted` returns every clean result as it is, provided
      its `_fulltext`, if any, has content. */
  lemma SanitizeExtractedFixpoint(env: Env, c: Cleaned)
    requires ExtractedClean(c)
    requires "_fulltext" in c.demographic ==> Filled(env, c.demographic["_fulltext"])
    ensures SanitizeExtracted(env, c.Fields()) == Ok(c)
  {
    FieldsParts(c);
    BuildPartsFixpoint(env, c.demographic, c.temporal, c.spatial, c.narrative, c.outcome, c.provenance, c.audit);
  }

  /** Running `_sanitize_extracted` on its own result changes nothing. */
  lemma SanitizeExtractedIdempotent(env: Env, x: Dict)
    requires SanitizeExtracted(env, x).Ok?
    ensures SanitizeExtracted(env, SanitizeExtracted(env, x).value.Fields()) == SanitizeExtracted(env, x)
  {
    SanitizeExtractedFixpoint(env, SanitizeExtracted(env, x).value);
  }
  // ------------------------------------------------------------ field by field

  /** The rebuilt demographic holds, under each of its keys, the value the
      step computes for that key. */
  lemma CleanDemographicFields(env: Env, d: Dict, k: string)
    requires CleanDemographic(env, d).Ok? && k in DemographicKeys
    ensures CleanDemographic(env, d).value[k] == DemographicField(env, d, TextOr(Get(d, "gender"), "").value, k)
  {
    assert k != "_fulltext";
  }

  /** A gender is compared after lower-casing: "Female" becomes "female". */
  lemma CapitalisedGenderLowered(env: Env, d: Dict)
    requires Get(d, "gender") == Str("Female")
    ensures CleanDemographic(env, d).Ok?
    ensures CleanDemographic(env, d).value["gender"] == Str("female")
  {
    assert Lower("Female") == "female";
    CleanDemographicFields(env, d, "gender");
  }

  /** An age of 1000 or more is taken for a birth year and cleared. */
  lemma BirthYearCleared(env: Env, d: Dict, n: real)
    requires CleanDemographic(env, d).Ok? && Get(d, "age_years") == Num(n) && n >= 1000.0
    ensures CleanDemographic(env, d).value["age_years"] == Null
  {
    CleanDemographicFields(env, d, "age_years");
  }

  /** A `None` time zone is replaced by New York, since the step uses `or`. */
  lemma NullTimezoneDefaulted(env: Env, t: Dict)
    requires Get(t, "timezone") == Null
    ensures CleanTemporal(env, t)["timezone"] == Str(NewYork)
  {
  }

  /** `locations_raw` given as one string is iterated character by
      character, so it becomes the list of its letters. */
  lemma StringLocationsSplit(env: Env, s: Dict, t: string)
    requires Get(s, "locations_raw") == Str(t) && t != ""
    ensures CleanSpatial(env, s).Ok?
    ensures CleanSpatial(env, s).value["locations_raw"] == Arr(Chars(t))
  {
    OnlyStringsKeepsStrings(Chars(t));
  }

  /** A status is compared after lower-casing: "Found" becomes "found". */
  lemma CapitalisedStatusLowered(o: Dict)
    requires Get(o, "case_status") == Str("Found")
    ensures CleanOutcome(o) == Ok(map["case_status" := Str("found")])
  {
    assert Lower("Found") == "found";
  }
}

=== FILE: fixdates.dfy ===
/** fix_dates.py: the post-processor that fills a missing
    `temporal.last_seen_ts` of records already written, from a date found in
    their narrative, provenance and outcome text. The two date regexes and
    `strptime` are environment answers. */
module FixDates {
  import opened Wrappers
  import opened Json
  import opened Text
  import opened Dates
  import opened Runtime
  import opened Units

  // ------------------------------------------------------------ norm_date

  /** The formats `norm_date` tries, in order. */
  const NormFormats: seq<string> := ["%B %d, %Y", "%b %d, %Y", "%m/%d/%Y", "%m-%d-%Y", "%m/%d/%y", "%m-%d-%y"]

  /** `norm_date(s)`: the date read with the first format `strptime` accepts,
      rendered `YYYY-MM-DD`; `None` when no format accepts the text. */
  function NormDate(env: Env, s: string): (r: Option<string>)
    ensures r.Some? ==> r.value != []
    ensures r.None? <==> forall k | 0 <= k < |NormFormats| :: env.strptime(s, NormFormats[k]).None?
    ensures r.Some? ==> exists k | 0 <= k < |NormFormats| ::
      && env.strptime(s, NormFormats[k]).Some? && r.value == FormatYmd(env.strptime(s, NormFormats[k]).value)
      && forall j | 0 <= j < k :: env.strptime(s, NormFormats[j]).None?
  {
    match FirstParse(env, s, NormFormats)
    case Some(d) => Some(FormatYmd(d))
    case None => None
  }

  /** From year 1000 on, the text `norm_date` returns is an RFC 3339
      full-date that reads back as the date `strptime` found. */
  lemma NormDateReadsBack(env: Env, s: string)
    requires FirstParse(env, s, NormFormats).Some? && FirstParse(env, s, NormFormats).value.year >= 1000
    ensures NormDate(env, s).Some? && ParseFullDate(NormDate(env, s).value) == FirstParse(env, s, NormFormats)
  {
    FormatYmdRoundTrip(FirstParse(env, s, NormFormats).value);
  }

  /** `strftime("%Y-%m-%d")` of the two documented dates. */
  lemma DocumentedDates()
    ensures FormatYmd(CalendarDate(2025, 9, 8)) == "2025-09-08"
    ensures FormatYmd(CalendarDate(1977, 2, 7)) == "1977-02-07"
  {
    assert NatToString(2025) == "2025" by {
      assert NatToString(202) == "202" by { assert NatToString(20) == "20"; }
    }
    assert NatToString(1977) == "1977" by {
      assert NatToString(197) == "197" by { assert NatToString(19) == "19"; }
    }
  }

  /** The documented example of a long month name, given what `strptime`
      answers: the first format accepts it. */
  lemma NormDateWordyExample(env: Env)
    requires env.strptime("September 8, 2025", "%B %d, %Y") == Some(CalendarDate(2025, 9, 8))
    ensures NormDate(env, "September 8, 2025") == Some("2025-09-08")
  {
    assert NormFormats[0] == "%B %d, %Y";
    assert FirstParse(env, "September 8, 2025", NormFormats) == Some(CalendarDate(2025, 9, 8));
    DocumentedDates();
  }

  /** The documented slash example: the two month-name formats refuse it and
      the third accepts it. */
  lemma NormDateSlashExample(env: Env)
    requires env.strptime("02/07/1977", "%B %d, %Y").None? && env.strptime("02/07/1977", "%b %d, %Y").None?
    requires env.strptime("02/07/1977", "%m/%d/%Y") == Some(CalendarDate(1977, 2, 7))
    ensures NormDate(env, "02/07/1977") == Some("1977-02-07")
  {
    var s := "02/07/1977";
    var fs := NormFormats;
    assert fs[0] == "%B %d, %Y" && fs[1] == "%b %d, %Y" && fs[2] == "%m/%d/%Y";
    assert fs[1..][0] == fs[1] && fs[1..][1..][0] == fs[2];
    assert FirstParse(env, s, fs[1..][1..]) == Some(CalendarDate(1977, 2, 7));
    assert FirstParse(env, s, fs[1..]) == FirstParse(env, s, fs[1..][1..]);
    assert FirstParse(env, s, fs) == FirstParse(env, s, fs[1..]);
    DocumentedDates();
  }

  // ------------------------------------------------------------ the search text

  /** `isinstance(x, (str, int, float))` (a bool is an int), and `str(x)`. */
  function ScalarText(env: Env, x: Value): (r: Option<string>)
    ensures r.Some? <==> x.Str? || x.Num? || x.Bool?
    ensures x.Str? ==> r == Some(x.s)
  {
    if x.Str? || x.Num? || x.Bool? then Some(Show(env, x)) else None
  }

  /** The texts of the scalar values under `keys`, in that order. */
  function ValueTexts(env: Env, f: Dict, keys: seq<string>): (r: seq<string>)
    ensures |r| <= |keys|
    ensures forall k | k in keys && k in f && f[k].Str? :: f[k].s in r
  {
    if keys == [] then []
    else
      var rest := ValueTexts(env, f, keys[1..]);
      assert forall k | k in keys && k != keys[0] :: k in keys[1..];
      match ScalarText(env, Get(f, keys[0]))
      case Some(t) => [t] + rest
      case None => rest
  }

  /** What one of the three fields contributes: the scalar values of a dict
      (in its insertion order), or the string itself. */
  function Texts(env: Env, v: Value): (r: seq<string>)
    ensures v.Str? ==> r == [v.s]
    ensures !v.Str? && !v.Obj? ==> r == []
  {
    match v
    case Obj(f) => ValueTexts(env, f, env.keyOrder(f))
    case Str(s) => [s]
    case _ => []
  }

  /** The fields searched, in order. */
  const SearchedFields: seq<string> := ["narrative_osint", "provenance", "outcome"]

  /** The text searched for a date: the pieces joined with `" | "`. */
  function Blob(env: Env, o: Dict): string {
    Join(" | ", Texts(env, Get(o, "narrative_osint")) + Texts(env, Get(o, "provenance"))
      + Texts(env, Get(o, "outcome")))
  }

  /** The blob reads only the three searched fields. */
  lemma BlobReadsSearchedFields(env: Env, o: Dict, o': Dict)
    requires forall k | k in SearchedFields :: Get(o, k) == Get(o', k)
    ensures Blob(env, o) == Blob(env, o')
  {
    assert SearchedFields[0] == "narrative_osint" && SearchedFields[1] == "provenance" && SearchedFields[2] == "outcome";
  }

  /** The date text the search settles on: group 2 of the wordy pattern when
      it matches anywhere, else group 2 of the slash pattern. */
  function DateText(env: Env, blob: string): (r: Option<string>)
    ensures env.dateWordy(blob).Some? ==> r == env.dateWordy(blob)
    ensures env.dateWordy(blob).None? ==> r == env.dateSlash(blob)
  {
    if env.dateWordy(blob).Some? then env.dateWordy(blob) else env.dateSlash(blob)
  }

  /** The timestamp found for a record, if any. */
  function FoundDate(env: Env, o: Dict): (r: Option<string>)
    ensures r.Some? ==> DateText(env, Blob(env, o)).Some? && r == NormDate(env, DateText(env, Blob(env, o)).value)
  {
    match DateText(env, Blob(env, o))
    case Some(t) => NormDate(env, t)
    case None => None
  }

  /** A wordy match that `norm_date` cannot read is not followed by the
      slash pattern: the record keeps no date even when a readable slash date
      is present. */
  lemma WordyFailureBlocksSlash(env: Env, o: Dict)
    requires env.dateWordy(Blob(env, o)).Some? && NormDate(env, env.dateWordy(Blob(env, o)).value).None?
    ensures FoundDate(env, o).None?
  {
  }

  // ------------------------------------------------------------ one record

  /** `o.get("temporal") or {}`: the temporal dict, or the error the later
      `.get` raises when it is a truthy non-dict. */
  function Temporal(o: Dict): (r: Result<Dict>)
    ensures r.Raise? <==> Truthy(Get(o, "temporal")) && !Get(o, "temporal").Obj?
    ensures r.Ok? && Get(o, "temporal").Obj? ==> r.value == Get(o, "temporal").fields
    ensures r.Ok? && !Get(o, "temporal").Obj? ==> r.value == map[]
  {
    var t := Or(Get(o, "temporal"), Obj(map[]));
    if t.Obj? then Ok(t.fields) else Raise("AttributeError")
  }

  /** The temporal dict after the search: a missing `last_seen_ts` is set to
      the date found, when one is. */
  function NewTemporal(env: Env, o: Dict, t: Dict): (t': Dict)
    ensures Truthy(Get(t, "last_seen_ts")) || FoundDate(env, o).None? ==> t' == t
    ensures !Truthy(Get(t, "last_seen_ts")) && FoundDate(env, o).Some? ==>
      t' == t["last_seen_ts" := Str(FoundDate(env, o).value)] && Truthy(t'["last_seen_ts"])
  {
    if Truthy(Get(t, "last_seen_ts")) then t
    else match FoundDate(env, o)
      case Some(iso) => t["last_seen_ts" := Str(iso)]
      case None => t
  }

  /** The body of `main`'s loop for one parsed record: `_fulltext` dropped,
      `temporal` made a dict, and a missing `last_seen_ts` filled from the
      search text when a date is found and normalised. */
  function FixRecord(env: Env, o: Dict): (r: Result<Dict>)
    ensures r.Ok? <==> Temporal(o).Ok?
    ensures r.Ok? ==> "_fulltext" !in r.value && "temporal" in r.value
    ensures r.Ok? ==> r.value["temporal"] == Obj(NewTemporal(env, o, Temporal(o).value))
    ensures r.Ok? ==> r.value.Keys == o.Keys - {"_fulltext"} + {"temporal"}
    ensures r.Ok? ==> forall k | k in o && k != "_fulltext" && k != "temporal" :: r.value[k] == o[k]
  {
    match Temporal(o)
    case Raise(e) => Raise(e)
    case Ok(t) => Ok(Del(o, "_fulltext")["temporal" := Obj(NewTemporal(env, o, t))])
  }

  /** A truthy `last_seen_ts` is never changed, and neither is anything else
      of the temporal dict. */
  lemma KeepsTimestamp(env: Env, o: Dict)
    requires Get(o, "temporal").Obj? && Truthy(Get(Get(o, "temporal").fields, "last_seen_ts"))
    ensures FixRecord(env, o) == Ok(Del(o, "_fulltext"))
  {
    var r := FixRecord(env, o).value;
    var d := Del(o, "_fulltext");
    assert r.Keys == d.Keys;
    forall k | k in r ensures r[k] == d[k] {
      if k == "temporal" {
        assert r[k] == o[k];
      }
    }
    assert r == d;
  }

  /** A record that is already fixed is its own fix. */
  lemma FixedIsFixpoint(env: Env, r: Dict, t: Dict)
    requires "_fulltext" !in r && "temporal" in r && r["temporal"] == Obj(t)
    requires NewTemporal(env, r, t) == t
    ensures FixRecord(env, r) == Ok(r)
  {
    assert Temporal(r) == Ok(t);
    var r2 := FixRecord(env, r).value;
    assert r2.Keys == r.Keys;
    forall k | k in r ensures r2[k] == r[k] {
    }
    assert r2 == r;
  }

  /** Running the fix on its own output changes nothing. */
  lemma FixIdempotent(env: Env, o: Dict)
    requires FixRecord(env, o).Ok?
    ensures FixRecord(env, FixRecord(env, o).value) == FixRecord(env, o)
  {
    var r := FixRecord(env, o).value;
    var t := Temporal(o).value;
    var t' := NewTemporal(env, o, t);
    forall k | k in SearchedFields ensures Get(r, k) == Get(o, k) {
      assert k != "_fulltext" && k != "temporal";
    }
    BlobReadsSearchedFields(env, o, r);
    assert FoundDate(env, r) == FoundDate(env, o);
    assert NewTemporal(env, r, t') == t';
    FixedIsFixpoint(env, r, t');
  }

  // ------------------------------------------------------------ the file

  /** One input line: the fixed record, or `None` when `json.loads` fails,
      the line is not a dict, or the body raises (the warning is printed and
      the line skipped). */
  function FixLine(env: Env, line: string): (r: Option<Dict>)
    ensures r.Some? <==>
      (env.jsonLoads(line).Some? && env.jsonLoads(line).value.Obj? && Temporal(env.jsonLoads(line).value.fields).Ok?)
    ensures r.Some? ==> "_fulltext" !in r.value && "temporal" in r.value && r.value["temporal"].Obj?
  {
    match env.jsonLoads(line)
    case Some(Obj(o)) => if FixRecord(env, o).Ok? then Some(FixRecord(env, o).value) else None
    case _ => None
  }

  /** The record of `line`, if it yields one, is among `written`. */
  predicate Kept(env: Env, line: string, written: seq<Dict>) {
    FixLine(env, line).Some? ==> FixLine(env, line).value in written
  }

  /** Appending the record of line `i` keeps the records of the lines
      before it. */
  lemma KeptStep(env: Env, lines: seq<string>, i: nat, written: seq<Dict>, added: seq<Dict>)
    requires i < |lines| && (FixLine(env, lines[i]).Some? ==> added == [FixLine(env, lines[i]).value])
    requires forall j | 0 <= j < i :: Kept(env, lines[j], written)
    ensures forall j | 0 <= j <= i :: Kept(env, lines[j], written + added)
  {
    forall j | 0 <= j <= i ensures Kept(env, lines[j], written + added) {
      if j < i && FixLine(env, lines[j]).Some? {
        assert FixLine(env, lines[j]).value in written;
      }
      if j == i && FixLine(env, lines[j]).Some? {
        assert (written + added)[|written|] == FixLine(env, lines[j]).value;
      }
    }
  }

  /** The records of the lines that fix, in line order. */
  function FixedRecords(env: Env, lines: seq<string>): seq<Dict>
  {
    if lines == [] then []
    else
      var last := FixLine(env, lines[|lines| - 1]);
      FixedRecords(env, lines[..|lines| - 1]) + (if last.Some? then [last.value] else [])
  }

  /** One more line appends that line's record, if any. */
  lemma FixedStep(env: Env, lines: seq<string>, i: nat)
    requires i < |lines|
    ensures var last := FixLine(env, lines[i]);
      FixedRecords(env, lines[..i + 1]) == FixedRecords(env, lines[..i]) + (if last.Some? then [last.value] else [])
  {
    assert lines[..i + 1][..i] == lines[..i];
  }

  /** The records `main` writes, in input order: one per line that parses as
      a dict whose body does not raise. */
  method FixLines(env: Env, lines: seq<string>) returns (written: seq<Dict>)
    ensures written == FixedRecords(env, lines)
    ensures |written| <= |lines|
    ensures forall w: Dict | w in written :: "_fulltext" !in w && "temporal" in w && w["temporal"].Obj?
    ensures (forall i | 0 <= i < |lines| :: FixLine(env, lines[i]).Some?) ==> |written| == |lines|
    ensures forall i | 0 <= i < |lines| :: Kept(env, lines[i], written)
  {
    written := [];
    var i := 0;
    while i < |lines|
      invariant i <= |lines| && |written| <= i
      invariant forall w: Dict | w in written :: "_fulltext" !in w && "temporal" in w && w["temporal"].Obj?
      invariant (forall j | 0 <= j < i :: FixLine(env, lines[j]).Some?) ==> |written| == i
      invariant forall j | 0 <= j < i :: Kept(env, lines[j], written)
      invariant written == FixedRecords(env, lines[..i])
    {
      var fixed := FixLine(env, lines[i]);
      var added := if fixed.Some? then [fixed.value] else [];
      KeptStep(env, lines, i, written, added);
      FixedStep(env, lines, i);
      written := written + added;
      i := i + 1;
    }
    assert lines[..i] == lines;
  }
}

=== FILE: geo.dfy ===
/** Geocoding with the in-process cache and the Virginia override
    (`geocode_city_state`, `is_location_in_virginia` and
    `geocode_city_state_with_va_override` of parser_pack.py). The cache is
    threaded through as a value: each call takes the cache and returns the
    updated one. The geocoder itself is the `geocoder` oracle of `Env`;
    `geocoderUp` says whether it could be constructed. */
module Geo {
  import opened Wrappers
  import opened Text
  import opened Runtime
  import opened Units

  /** A cached lookup: the `lat` and `lon` of the stored object. */
  datatype Coords = Coords(lat: Option<real>, lon: Option<real>)

  type Cache = map<string, Coords>

  /** The approximate Virginia bounding box: 36.5 to 39.5 north, 75.2 to 83.7 west. */
  predicate InVirginia(lat: real, lon: real) {
    36.5 <= lat <= 39.5 && -83.7 <= lon <= -75.2
  }

  /** A cache entry holding coordinates inside the box. */
  predicate InVirginiaEntry(c: Coords) {
    c.lat.Some? && c.lon.Some? && InVirginia(c.lat.value, c.lon.value)
  }

  /** Every entry of the cache is inside the box. */
  predicate VirginiaCache(cache: Cache) {
    forall k | k in cache :: InVirginiaEntry(cache[k])
  }

  /** Richmond, the stand-in for any lookup outside the box. */
  const RichmondLat: real := 37.5407
  const RichmondLon: real := -77.4360

  lemma RichmondInVirginia()
    ensures InVirginia(RichmondLat, RichmondLon)
  {
  }

  /** `x or ''` for an optional string. */
  function OrEmpty(x: Option<string>): string {
    if x.Some? then x.value else ""
  }

  /** `not x` for an optional string. */
  predicate Falsy(x: Option<string>) {
    x.None? || x.value == ""
  }

  /** The cache key: stripped, lower-cased city and state and the caller's extra part. */
  function CacheKey(city: Option<string>, state: Option<string>, extra: string): string {
    Lower(Strip(OrEmpty(city))) + "|" + Lower(Strip(OrEmpty(state))) + "|" + extra
  }

  /** The query sent to the geocoder: the truthy parts of city, state and "USA", joined with ", ". */
  function Query(city: Option<string>, state: Option<string>): string {
    var parts := (if Falsy(city) then [] else [city.value]) + (if Falsy(state) then [] else [state.value]) + ["USA"];
    Join(", ", parts)
  }

  /** The result of one lookup and the cache afterwards. */
  datatype Lookup = Lookup(coords: Coords, cache: Cache)

  /** `geocode_city_state(city, state, cache_key_extra, cache_only)`. */
  function GeocodeCityState(env: Env, cache: Cache, city: Option<string>, state: Option<string>,
                            extra: string, cacheOnly: bool): (r: Lookup)
    ensures forall k | k in cache :: k in r.cache && r.cache[k] == cache[k]
    ensures Falsy(city) && Falsy(state) ==> r == Lookup(Coords(None, None), cache)
    ensures !(Falsy(city) && Falsy(state)) && CacheKey(city, state, extra) in cache
      ==> r == Lookup(cache[CacheKey(city, state, extra)], cache)
  {
    var none := Lookup(Coords(None, None), cache);
    if Falsy(city) && Falsy(state) then none
    else
      var key := CacheKey(city, state, extra);
      if key in cache then Lookup(cache[key], cache)
      else if cacheOnly || !env.geocoderUp then none
      else
        match env.geocoder(Query(city, state))
        case None => none
        case Some((a, b)) =>
          var lat := ClampLat(Some(a)).value;
          var lon := ClampLon(Some(b)).value;
          var c := Coords(Some(lat), Some(lon));
          Lookup(c, if InVirginia(lat, lon) then cache[key := c] else cache)
  }

  /** The lookup with the override: the input city and state with in-box
      coordinates, Richmond for coordinates outside the box, nothing otherwise. */
  datatype Located = Located(lat: Option<real>, lon: Option<real>, city: Option<string>, state: Option<string>)

  /** `geocode_city_state_with_va_override(city, state, cache_key_extra, cache_only)`. */
  function GeocodeWithOverride(env: Env, cache: Cache, city: Option<string>, state: Option<string>,
                               extra: string, cacheOnly: bool): (r: (Located, Cache))
    ensures r.0.lat.Some? <==> r.0.lon.Some?
    ensures r.0.lat.Some? ==> InVirginia(r.0.lat.value, r.0.lon.value)
    ensures r.0.lat.Some? <==> !(Falsy(r.0.city) && Falsy(r.0.state))
    ensures forall k | k in cache && k != "richmond|virginia|" + extra :: k in r.1 && r.1[k] == cache[k]
  {
    var nothing := (Located(None, None, None, None), cache);
    if Falsy(city) && Falsy(state) then nothing
    else
      var l := GeocodeCityState(env, cache, city, state, extra, cacheOnly);
      var c := l.coords;
      if c.lat.Some? && c.lon.Some? then
        if InVirginia(c.lat.value, c.lon.value) then (Located(c.lat, c.lon, city, state), l.cache)
        else
          (Located(Some(RichmondLat), Some(RichmondLon), Some("Richmond"), Some("Virginia")),
           l.cache["richmond|virginia|" + extra := Coords(Some(RichmondLat), Some(RichmondLon))])
      else (Located(None, None, None, None), l.cache)
  }

  // ------------------------------------------------------------ properties

  /** Empty city and state give nothing and leave the cache alone. */
  lemma EmptyPlaceGivesNothing(env: Env, cache: Cache, extra: string, cacheOnly: bool)
    ensures GeocodeCityState(env, cache, None, Some(""), extra, cacheOnly) == Lookup(Coords(None, None), cache)
    ensures GeocodeWithOverride(env, cache, Some(""), None, extra, cacheOnly)
      == (Located(None, None, None, None), cache)
  {
  }

  /** A fresh lookup's coordinates are clamped into the valid ranges. */
  lemma LookupClamped(env: Env, cache: Cache, city: Option<string>, state: Option<string>, extra: string, cacheOnly: bool)
    requires CacheKey(city, state, extra) !in cache
    ensures var c := GeocodeCityState(env, cache, city, state, extra, cacheOnly).coords;
      && (c.lat.Some? <==> c.lon.Some?)
      && (c.lat.Some? ==> -90.0 <= c.lat.value <= 90.0 && -180.0 <= c.lon.value <= 180.0)
  {
  }

  /** Only in-box coordinates are ever written to the cache, and no entry is
      changed or removed: a cache of in-box entries stays one. */
  lemma CacheOnlyInVirginia(env: Env, cache: Cache, city: Option<string>, state: Option<string>,
                            extra: string, cacheOnly: bool)
    ensures var c2 := GeocodeCityState(env, cache, city, state, extra, cacheOnly).cache;
      && (forall k | k in cache :: k in c2 && c2[k] == cache[k])
      && (forall k | k in c2 && k !in cache :: k == CacheKey(city, state, extra) && InVirginiaEntry(c2[k]))
  {
  }

  /** With `cache_only` a missing key gives nothing and the geocoder is not consulted. */
  lemma CacheOnlyMiss(env: Env, cache: Cache, city: Option<string>, state: Option<string>, extra: string)
    requires CacheKey(city, state, extra) !in cache
    ensures GeocodeCityState(env, cache, city, state, extra, true) == Lookup(Coords(None, None), cache)
  {
  }

  /** A lookup that landed in the box is answered from the cache the next
      time, whatever the geocoder would say then. */
  lemma CachedReplay(env: Env, env2: Env, cache: Cache, city: Option<string>, state: Option<string>,
                     extra: string, cacheOnly: bool, cacheOnly2: bool)
    requires var c := GeocodeCityState(env, cache, city, state, extra, cacheOnly).coords;
      c.lat.Some? && c.lon.Some? && InVirginia(c.lat.value, c.lon.value)
    ensures var l := GeocodeCityState(env, cache, city, state, extra, cacheOnly);
      GeocodeCityState(env2, l.cache, city, state, extra, cacheOnly2) == l
  {
  }

  /** The override yields nothing, or in-box coordinates with the input
      place, or Richmond: any coordinates it returns are inside the box. */
  lemma OverrideOutcomes(env: Env, cache: Cache, city: Option<string>, state: Option<string>,
                         extra: string, cacheOnly: bool)
    ensures var r := GeocodeWithOverride(env, cache, city, state, extra, cacheOnly).0;
      || r == Located(None, None, None, None)
      || (r.lat.Some? && r.lon.Some? && InVirginia(r.lat.value, r.lon.value) && r.city == city && r.state == state)
      || r == Located(Some(RichmondLat), Some(RichmondLon), Some("Richmond"), Some("Virginia"))
    ensures var r := GeocodeWithOverride(env, cache, city, state, extra, cacheOnly).0;
      r.lat.Some? ==> r.lon.Some? && InVirginia(r.lat.value, r.lon.value)
  {
  }

  /** A lookup outside the box is replaced by Richmond. */
  lemma OutsideGivesRichmond(env: Env, cache: Cache, city: Option<string>, state: Option<string>,
                             extra: string, cacheOnly: bool)
    requires !(Falsy(city) && Falsy(state))
    requires var c := GeocodeCityState(env, cache, city, state, extra, cacheOnly).coords;
      c.lat.Some? && c.lon.Some? && !InVirginia(c.lat.value, c.lon.value)
    ensures GeocodeWithOverride(env, cache, city, state, extra, cacheOnly).0
      == Located(Some(RichmondLat), Some(RichmondLon), Some("Richmond"), Some("Virginia"))
  {
  }

  /** Once a place is given, the override answers as its lookup says: in-box
      coordinates with the input place and the lookup's cache; Richmond, with
      Richmond stored under its own key, for coordinates outside the box;
      nothing, with the lookup's cache, when a coordinate is missing. */
  lemma OverrideCases(env: Env, cache: Cache, city: Option<string>, state: Option<string>,
                      extra: string, cacheOnly: bool)
    requires !(Falsy(city) && Falsy(state))
    ensures var l := GeocodeCityState(env, cache, city, state, extra, cacheOnly);
      var r := GeocodeWithOverride(env, cache, city, state, extra, cacheOnly);
      && (InVirginiaEntry(l.coords) ==> r == (Located(l.coords.lat, l.coords.lon, city, state), l.cache))
      && (l.coords.lat.Some? && l.coords.lon.Some? && !InVirginiaEntry(l.coords) ==>
            r == (Located(Some(RichmondLat), Some(RichmondLon), Some("Richmond"), Some("Virginia")),
                  l.cache["richmond|virginia|" + extra := Coords(Some(RichmondLat), Some(RichmondLon))]))
      && (l.coords.lat.None? || l.coords.lon.None? ==> r == (Located(None, None, None, None), l.cache))
  {
  }

  /** Neither operation stores coordinates outside the box: when every cached
      entry lies inside it before the call, every entry does after it. */
  lemma OverrideKeepsVirginiaCache(env: Env, cache: Cache, city: Option<string>, state: Option<string>,
                                   extra: string, cacheOnly: bool)
    ensures VirginiaCache(cache) ==> VirginiaCache(GeocodeCityState(env, cache, city, state, extra, cacheOnly).cache)
    ensures VirginiaCache(cache) ==> VirginiaCache(GeocodeWithOverride(env, cache, city, state, extra, cacheOnly).1)
  {
    CacheOnlyInVirginia(env, cache, city, state, extra, cacheOnly);
    RichmondInVirginia();
  }
}

=== FILE: harmonize.dfy ===
/** `harmonize_record_fields` (parser_pack.py): renames synonymous keys to the
    names the CSV writer reads, lifts identifiers into the case bucket, parses
    the temporal `*_date` fields into `*_ts` timestamps and de-duplicates the
    list-valued fields. The Python binds the six bucket dicts (demographic,
    temporal, spatial, case, narrative, name) to local names and mutates them
    in place; here they travel as the fields of `Buckets` next to the rest of
    the record and are put back at the end. Each step states, as a datatype
    update, which buckets it may change. */
module Harmonize {
  import opened Wrappers
  import opened Json
  import opened Text
  import opened Runtime
  import opened Units

  datatype Buckets = Buckets(top: Dict, demo: Dict, temp: Dict, spat: Dict, meta: Dict, narr: Dict, name: Dict)

  /** A value the code calls `.strip()` on only when it is truthy. */
  predicate StrOrFalsy(v: Value) {
    v.Str? || !Truthy(v)
  }

  /** A list whose truthy items are strings, so that `sorted(set(...))` of them is defined. */
  predicate StringList(v: Value) {
    v.Arr? ==> forall i | 0 <= i < |v.items| :: StrOrFalsy(v.items[i])
  }

  /** What `srcs[0]` can be applied to when `srcs` is truthy. */
  predicate Indexable(v: Value) {
    v.Arr? || v.Str? || !Truthy(v)
  }

  /** `get_nested(rec, "provenance.sources")` for a provenance that is a dict or absent. */
  function Sources(top: Dict): Value {
    Get(AsDict(Get(top, "provenance")), "sources")
  }

  /** The temporal `*_date` keys and the `*_ts` keys they are parsed into, in source order. */
  const DatePairs: seq<(string, string)> := [
    ("last_seen_date", "last_seen_ts"), ("reported_date", "reported_ts"),
    ("reported_missing_date", "reported_missing_ts"), ("first_police_action_date", "first_police_action_ts")]

  /** No key of a date table is used twice: every date key differs from every
      timestamp key, and no two entries share a key. */
  predicate KeysApart(ps: seq<(string, string)>) {
    && (forall i, j | 0 <= i < |ps| && 0 <= j < |ps| :: ps[i].0 != ps[j].1)
    && (forall i, j | 0 <= i < j < |ps| :: ps[i].0 != ps[j].0 && ps[i].1 != ps[j].1)
  }

  /** Every date the date step strips is a string or falsy. */
  predicate DatesStrOrFalsy(t: Dict) {
    forall i | 0 <= i < |DatePairs| :: StrOrFalsy(Get(t, DatePairs[i].0))
  }

  /** `demo.get("gender") or normalize_gender(demo.get("sex"))` is defined. */
  predicate GenderReadable(d: Dict) {
    Truthy(Get(d, "gender")) || StrOrFalsy(Get(d, "sex"))
  }

  /** The inputs on which the function does not raise: every bucket it reads
      with `.get` is a dict or absent, the texts it strips are strings, the
      first provenance source can be indexed, and the lists it sorts hold
      strings. */
  predicate HShaped(rec: Dict) {
    && DictOrAbsent(rec, "demographic") && DictOrAbsent(rec, "temporal")
    && DictOrAbsent(rec, "spatial") && DictOrAbsent(rec, "case")
    && DictOrAbsent(rec, "narrative") && DictOrAbsent(rec, "name")
    && DictOrAbsent(rec, "outcome") && DictOrAbsent(rec, "provenance")
    && DictOrAbsent(rec, "narrative_osint")
    && GenderReadable(AsDict(Get(rec, "demographic")))
    && DatesStrOrFalsy(AsDict(Get(rec, "temporal")))
    && Indexable(Sources(rec))
    && StringList(Get(AsDict(Get(rec, "demographic")), "aka"))
    && StringList(Get(AsDict(Get(rec, "case")), "categories"))
  }

  /** What the steps after the demographic renames read. */
  predicate LateReady(b: Buckets) {
    && DictOrAbsent(b.top, "narrative_osint") && DatesStrOrFalsy(b.temp)
    && StringList(Get(b.demo, "aka")) && StringList(Get(b.meta, "categories"))
  }

  /** `HShaped` stated on the buckets. */
  predicate Ready(b: Buckets) {
    && LateReady(b) && DictOrAbsent(b.top, "outcome") && Indexable(Sources(b.top))
    && GenderReadable(b.demo)
  }

  /** The `rec.setdefault(...)` calls for the six buckets. */
  function Open(rec: Dict): (b: Buckets)
    ensures HShaped(rec) ==> Ready(b)
  {
    Buckets(rec, AsDict(Get(rec, "demographic")), AsDict(Get(rec, "temporal")),
      AsDict(Get(rec, "spatial")), AsDict(Get(rec, "case")),
      AsDict(Get(rec, "narrative")), AsDict(Get(rec, "name")))
  }

  /** All six buckets are present as dicts. */
  predicate Bucketed(r: Dict)
  {
    Get(r, "demographic").Obj? && Get(r, "temporal").Obj? && Get(r, "spatial").Obj?
    && Get(r, "case").Obj? && Get(r, "narrative").Obj? && Get(r, "name").Obj?
  }

  /** Writes the six buckets back into the record. */
  function Close(b: Buckets): (r: Dict)
    ensures Get(r, "demographic") == Obj(b.demo) && Get(r, "temporal") == Obj(b.temp)
    ensures Get(r, "spatial") == Obj(b.spat) && Get(r, "case") == Obj(b.meta)
    ensures Get(r, "narrative") == Obj(b.narr) && Get(r, "name") == Obj(b.name)
  {
    b.top["demographic" := Obj(b.demo)]["temporal" := Obj(b.temp)]["spatial" := Obj(b.spat)]
      ["case" := Obj(b.meta)]["narrative" := Obj(b.narr)]["name" := Obj(b.name)]
  }

  /** The keys whose values one step carries past another's writes are distinct. */
  lemma KeysDistinct()
    ensures "outcome" != "case_id" && "provenance" != "case_id"
    ensures "categories" !in {"case_id", "status", "source"}
    ensures "narrative_osint" !in {"case_id", "status", "source"}
    ensures "aka" !in {"sex", "gender", "weight_lb", "weight_lbs", "height_inches", "height_in", "name"}
  {
  }

  // ------------------------------------------------------------ the steps, in source order

  /** A demographic name is copied to `name.full` when that is falsy. */
  function BridgeName(b: Buckets): (r: Buckets)
    ensures r == b.(name := r.name)
  {
    if "name" in b.demo && !Truthy(Get(b.name, "full")) then b.(name := b.name["full" := b.demo["name"]])
    else b
  }

  /** `last_seen_city/state/country` to `city/state/country` and
      `reported_missing_ts` to `reported_ts`, only into absent keys. */
  function RenameAliases(b: Buckets): (r: Buckets)
    ensures r == b.(spat := r.spat, temp := r.temp)
    ensures r.temp == Rename(b.temp, "reported_missing_ts", "reported_ts")
  {
    b.(spat := Rename(Rename(Rename(b.spat, "last_seen_city", "city"), "last_seen_state", "state"),
                      "last_seen_country", "country"),
       temp := Rename(b.temp, "reported_missing_ts", "reported_ts"))
  }

  /** Moves a top-level key into the case bucket when the bucket lacks it. */
  function LiftTop(b: Buckets, k: string): (r: Buckets)
    ensures r == b.(top := r.top, meta := r.meta)
    ensures forall j | j != k :: (j in r.top <==> j in b.top) && Get(r.top, j) == Get(b.top, j)
    ensures forall j | j != k :: Get(r.meta, j) == Get(b.meta, j)
  {
    if k in b.top && k !in b.meta then b.(meta := b.meta[k := b.top[k]], top := Del(b.top, k)) else b
  }

  /** `srcs[0]` for a truthy list or string. */
  function FirstOf(v: Value): (r: Value)
    requires Truthy(v) && (v.Arr? || v.Str?)
    ensures v.Arr? ==> r in v.items
    ensures v.Str? ==> r.Str? && |r.s| == 1 && r.s[0] == v.s[0]
  {
    if v.Arr? then v.items[0] else Str(v.s[..1])
  }

  /** A truthy `outcome.case_status` fills an absent `case.status`. */
  function LiftStatus(b: Buckets): (r: Buckets)
    requires DictOrAbsent(b.top, "outcome")
    ensures r == b.(meta := r.meta) && forall j | j != "status" :: Get(r.meta, j) == Get(b.meta, j)
  {
    var cs := Get(AsDict(Get(b.top, "outcome")), "case_status");
    if "outcome" in b.top && Truthy(cs) && "status" !in b.meta then b.(meta := b.meta["status" := cs]) else b
  }

  /** The first provenance source fills an absent `case.source`. */
  function LiftSource(b: Buckets): (r: Buckets)
    requires Indexable(Sources(b.top))
    ensures r == b.(meta := r.meta) && forall j | j != "source" :: Get(r.meta, j) == Get(b.meta, j)
  {
    var srcs := Sources(b.top);
    if Truthy(srcs) && "source" !in b.meta then b.(meta := b.meta["source" := FirstOf(srcs)]) else b
  }

  /** Lifts `case_id`, `outcome.case_status` and the first provenance source
      into the case bucket. */
  function LiftCase(b: Buckets): (r: Buckets)
    requires DictOrAbsent(b.top, "outcome") && Indexable(Sources(b.top))
    ensures r == b.(top := r.top, meta := r.meta)
    ensures forall j | j != "case_id" :: (j in r.top <==> j in b.top) && Get(r.top, j) == Get(b.top, j)
    ensures forall j | j !in {"case_id", "status", "source"} :: Get(r.meta, j) == Get(b.meta, j)
  {
    KeysDistinct();
    var b1 := LiftTop(b, "case_id");
    assert Get(b1.top, "outcome") == Get(b.top, "outcome") && Sources(b1.top) == Sources(b.top);
    LiftSource(LiftStatus(b1))
  }

  /** `normalize_gender(demo.get("sex"))`: "male", "female" or `None`. */
  function SexGender(v: Value): (r: Value)
    requires StrOrFalsy(v)
    ensures r == Null || r == Str("male") || r == Str("female")
  {
    if !Truthy(v) then Null
    else if NormalizeGender(v.s).Some? then Str(NormalizeGender(v.s).value) else Null
  }

  /** `sex` is always dropped; a truthy `gender` stays, otherwise the
      normalised sex is written when it is not `None`. */
  function SexToGender(d: Dict): (r: Dict)
    requires GenderReadable(d)
    ensures "sex" !in r
    ensures forall j | j != "sex" && j != "gender" :: (j in r <==> j in d) && Get(r, j) == Get(d, j)
  {
    if "sex" in d then
      var g := Get(d, "gender");
      var val := if Truthy(g) then g else SexGender(d["sex"]);
      Del(if Truthy(val) then d["gender" := val] else d, "sex")
    else d
  }

  /** `if a in d: (d[b] = d[a] when b is absent and d[a] not in (None, "")); d.pop(a)`. */
  function MoveFilled(d: Dict, from: string, to: string): (r: Dict)
    requires from != to
    ensures from !in r
    ensures forall j | j != from && j != to :: (j in r <==> j in d) && Get(r, j) == Get(d, j)
    ensures to in d ==> to in r && r[to] == d[to]
    ensures to !in d ==> (to in r <==> from in d && !NoneOrEmptyString(d[from]))
    ensures to !in d && from in d && !NoneOrEmptyString(d[from]) ==> r[to] == d[from]
  {
    if from in d then
      Del(if to !in d && !NoneOrEmptyString(d[from]) then d[to := d[from]] else d, from)
    else d
  }

  /** The demographic synonyms, forced to their canonical names. */
  function DemoSynonyms(d: Dict): (r: Dict)
    requires GenderReadable(d)
    ensures "sex" !in r && "weight_lb" !in r && "height_inches" !in r
    ensures forall j | j !in {"sex", "gender", "weight_lb", "weight_lbs", "height_inches", "height_in"} ::
      Get(r, j) == Get(d, j)
  {
    KeysDistinct();
    MoveFilled(MoveFilled(SexToGender(d), "weight_lb", "weight_lbs"), "height_inches", "height_in")
  }

  /** A string demographic name moves, stripped, to a falsy `name.full`; a
      `name.full` of "--" becomes "". */
  function NormalizeName(b: Buckets): (r: Buckets)
    ensures r == b.(name := r.name, demo := r.demo)
    ensures forall j | j != "name" :: (j in r.demo <==> j in b.demo) && Get(r.demo, j) == Get(b.demo, j)
  {
    var b1 := if Get(b.demo, "name").Str? && !Truthy(Get(b.name, "full"))
      then b.(name := b.name["full" := Str(Strip(b.demo["name"].s))], demo := Del(b.demo, "name"))
      else b;
    if Get(b1.name, "full") == Str("--") then b1.(name := b1.name["full" := Str("")]) else b1
  }

  /** `parse_date_to_iso_utc((v or "").strip())` for a string or falsy value. */
  function ParsedDate(env: Env, v: Value): Option<string>
    requires StrOrFalsy(v)
  {
    ParseDateToIsoUtc(env, Strip(if Truthy(v) then v.s else ""))
  }

  /** One `*_date` key: removed, and its parsed timestamp written to the
      `*_ts` key when there is one. */
  function DateToTs(env: Env, t: Dict, from: string, to: string): (r: Dict)
    requires from != to && StrOrFalsy(Get(t, from))
    ensures from !in r
    ensures forall j | j != from && j != to :: Get(r, j) == Get(t, j)
  {
    if from in t then
      var rest := Del(t, from);
      var ts := ParsedDate(env, t[from]);
      if ts.Some? then rest[to := Str(ts.value)] else rest
    else t
  }

  lemma DatePairsApart()
    ensures KeysApart(DatePairs)
    ensures DatePairs[1].1 == "reported_ts" && DatePairs[2] == ("reported_missing_date", "reported_missing_ts")
  {
  }

  /** The date steps from entry `k` of the table on. */
  function DateSteps(env: Env, t: Dict, ps: seq<(string, string)>, k: nat): (r: Dict)
    requires k <= |ps| && KeysApart(ps)
    requires forall i | k <= i < |ps| :: StrOrFalsy(Get(t, ps[i].0))
    decreases |ps| - k
  {
    if k == |ps| then t
    else
      var t1 := DateToTs(env, t, ps[k].0, ps[k].1);
      assert forall i | k < i < |ps| :: Get(t1, ps[i].0) == Get(t, ps[i].0);
      DateSteps(env, t1, ps, k + 1)
  }

  /** The four `*_date` keys parsed in turn. */
  function TemporalDates(env: Env, t: Dict): (r: Dict)
    requires DatesStrOrFalsy(t)
    ensures DatesStrOrFalsy(r)
  {
    DatePairsApart();
    DateStepsDropDates(env, t, DatePairs, 0);
    DateSteps(env, t, DatePairs, 0)
  }

  /** All the function does to the temporal bucket: the `reported_missing_ts`
      alias renamed near the start, the dates parsed later. */
  function TemporalBucket(env: Env, t: Dict): (r: Dict)
    requires DatesStrOrFalsy(t)
    ensures DatesStrOrFalsy(r)
  {
    RenamePreservesDates(t);
    TemporalDates(env, Rename(t, "reported_missing_ts", "reported_ts"))
  }

  /** `a or b`. */
  function Or(a: Value, b: Value): (r: Value)
    ensures Truthy(r) <==> Truthy(a) || Truthy(b)
  {
    if Truthy(a) then a else b
  }

  /** The keys `SpatialNormalize` fills or moves. */
  const NameAliases: set<string> := {"last_seen_city", "last_seen_state", "last_seen_country"}
  const CoordKeys: set<string> := {"lat", "lon", "lng", "last_seen_lat", "last_seen_lon"}
  const SpatialMoved: set<string> := NameAliases + CoordKeys

  /** `s[alias] = s.get(alias) or s.get(key)` when that is truthy. */
  function Mirror(s: Dict, key: string, alias: string): (r: Dict)
    ensures Truthy(Get(r, alias)) <==> Truthy(Get(s, alias)) || Truthy(Get(s, key))
    ensures Truthy(Get(s, alias)) ==> Get(r, alias) == Get(s, alias)
    ensures forall k | k in s && k != alias :: k in r && r[k] == s[k]
    ensures forall k | k in r :: k in s || k == alias
  {
    var v := Or(Get(s, alias), Get(s, key));
    if Truthy(v) then s[alias := v] else s
  }

  /** City, state and country are mirrored to the `last_seen_*` keys; `lat`,
      `lon` and `lng` move to `last_seen_lat/lon` when those are absent
      (`SpatialCoordsMoved`); every other key is kept. */
  function SpatialNormalize(s: Dict): (r: Dict)
    ensures Truthy(Get(r, "last_seen_city")) <==> Truthy(Get(s, "last_seen_city")) || Truthy(Get(s, "city"))
    ensures Truthy(Get(r, "last_seen_state")) <==> Truthy(Get(s, "last_seen_state")) || Truthy(Get(s, "state"))
    ensures Truthy(Get(r, "last_seen_country")) <==> Truthy(Get(s, "last_seen_country")) || Truthy(Get(s, "country"))
    ensures forall k | k in s && k !in SpatialMoved :: k in r && r[k] == s[k]
    ensures forall k | k in r :: k in s || k in SpatialMoved
  {
    var m := MirrorNames(s);
    var r := MoveCoords(m);
    assert forall k | k in NameAliases :: k !in CoordKeys && Get(r, k) == Get(m, k);
    r
  }

  /** The coordinates end under `last_seen_lat/lon`: an existing entry wins,
      then `lat`, then `lon` before `lng`; `lat` survives only beside an
      existing `last_seen_lat`. */
  lemma SpatialCoordsMoved(s: Dict)
    ensures var r := SpatialNormalize(s);
      && ("last_seen_lat" in r <==> "last_seen_lat" in s || "lat" in s)
      && ("lat" in r <==> "lat" in s && "last_seen_lat" in s)
      && Get(r, "last_seen_lat") == (if "last_seen_lat" in s then s["last_seen_lat"] else Get(s, "lat"))
      && ("last_seen_lon" in r <==> "last_seen_lon" in s || "lon" in s || "lng" in s)
      && Get(r, "last_seen_lon") ==
           (if "last_seen_lon" in s then s["last_seen_lon"] else if "lon" in s then s["lon"] else Get(s, "lng"))
  {
    var m := MirrorNames(s);
    assert forall k | k in CoordKeys :: k !in NameAliases && (k in m <==> k in s) && Get(m, k) == Get(s, k);
  }

  /** The three name mirrors; the coordinates are left alone. */
  function MirrorNames(s: Dict): (r: Dict)
    ensures Truthy(Get(r, "last_seen_city")) <==> Truthy(Get(s, "last_seen_city")) || Truthy(Get(s, "city"))
    ensures Truthy(Get(r, "last_seen_state")) <==> Truthy(Get(s, "last_seen_state")) || Truthy(Get(s, "state"))
    ensures Truthy(Get(r, "last_seen_country")) <==> Truthy(Get(s, "last_seen_country")) || Truthy(Get(s, "country"))
    ensures forall k | k in s && k !in NameAliases :: k in r && r[k] == s[k]
    ensures forall k | k in r :: k in s || k in NameAliases
  {
    Mirror(Mirror(Mirror(s, "city", "last_seen_city"), "state", "last_seen_state"), "country", "last_seen_country")
  }

  /** The three coordinate renames; nothing else is touched. */
  function MoveCoords(s: Dict): (r: Dict)
    ensures "last_seen_lat" in r <==> "last_seen_lat" in s || "lat" in s
    ensures "lat" in r <==> "lat" in s && "last_seen_lat" in s
    ensures Get(r, "last_seen_lat") == if "last_seen_lat" in s then s["last_seen_lat"] else Get(s, "lat")
    ensures "last_seen_lon" in r <==> "last_seen_lon" in s || "lon" in s || "lng" in s
    ensures Get(r, "last_seen_lon") ==
      if "last_seen_lon" in s then s["last_seen_lon"] else if "lon" in s then s["lon"] else Get(s, "lng")
    ensures forall k | k in s && k !in CoordKeys :: k in r && r[k] == s[k]
    ensures forall k | k in r :: k in s || k in CoordKeys
  {
    Rename(Rename(Rename(s, "lat", "last_seen_lat"), "lon", "last_seen_lon"), "lng", "last_seen_lon")
  }

  /** Top-level `status`, `source` and `case_id` move into the case bucket; a
      non-empty provenance source list fills a falsy `case.source`. */
  function MetaSynonyms(b: Buckets): (r: Buckets)
    ensures r == b.(top := r.top, meta := r.meta)
    ensures forall j | j !in {"status", "source", "case_id"} ::
      (j in r.top <==> j in b.top) && Get(r.top, j) == Get(b.top, j)
    ensures forall j | j !in {"status", "source", "case_id"} :: Get(r.meta, j) == Get(b.meta, j)
  {
    var b3 := LiftTop(LiftTop(LiftTop(b, "status"), "source"), "case_id");
    var ps := Sources(b3.top);
    if ps.Arr? && ps.items != [] && !Truthy(Get(b3.meta, "source"))
    then b3.(meta := b3.meta["source" := ps.items[0]]) else b3
  }

  /** A truthy demographic name fills a falsy `name.full`. */
  function SurfaceName(b: Buckets): (r: Buckets)
    ensures r == b.(name := r.name)
  {
    if Truthy(Get(b.demo, "name")) && !Truthy(Get(b.name, "full"))
    then b.(name := b.name["full" := b.demo["name"]]) else b
  }

  /** A truthy `narrative_osint.incident_summary` fills a falsy
      `narrative.incident_summary`. The source performs this step twice. */
  function PullSummary(b: Buckets): (r: Buckets)
    requires DictOrAbsent(b.top, "narrative_osint")
    ensures r == b.(narr := r.narr)
  {
    var osint := AsDict(Get(b.top, "narrative_osint"));
    if Truthy(Get(osint, "incident_summary")) && !Truthy(Get(b.narr, "incident_summary"))
    then b.(narr := b.narr["incident_summary" := osint["incident_summary"]]) else b
  }

  /** `[str(x) for x in items if x]`. */
  function ShowTruthy(env: Env, items: seq<Value>): (r: seq<string>)
    ensures |r| <= |items|
  {
    if items == [] then []
    else (if Truthy(items[0]) then [Show(env, items[0])] else []) + ShowTruthy(env, items[1..])
  }

  /** The summary pulled from `narrative_osint`, and a list summary joined with spaces. */
  function NarrativeSummary(env: Env, b: Buckets): (r: Buckets)
    requires DictOrAbsent(b.top, "narrative_osint")
    ensures r == b.(narr := r.narr)
  {
    var b2 := PullSummary(PullSummary(b));
    var s := Get(b2.narr, "incident_summary");
    if s.Arr? then b2.(narr := b2.narr["incident_summary" := Str(Join(" ", ShowTruthy(env, s.items)))])
    else b2
  }

  /** The strings of the truthy items, in order. */
  function TruthyStrings(items: seq<Value>): (r: seq<string>)
    requires forall i | 0 <= i < |items| :: StrOrFalsy(items[i])
    ensures forall x | x in r :: x != "" && Str(x) in items
    ensures forall i | 0 <= i < |items| && Truthy(items[i]) :: items[i].Str? && items[i].s in r
  {
    if items == [] then []
    else
      var rest := TruthyStrings(items[1..]);
      assert forall i | 1 <= i < |items| :: items[i] == items[1..][i - 1];
      assert items == [items[0]] + items[1..];
      var head := if items[0].Str? && Truthy(items[0]) then [items[0].s] else [];
      assert StrOrFalsy(items[0]);
      assert forall x | x in rest :: x in head + rest;
      head + rest
  }

  function StrList(xs: seq<string>): (r: Value)
    ensures r.Arr? && |r.items| == |xs| && forall i | 0 <= i < |xs| :: r.items[i] == Str(xs[i])
  {
    Arr(seq(|xs|, i requires 0 <= i < |xs| => Str(xs[i])))
  }

  /** `sorted(set(x for x in v if x))` for a list of strings. */
  function Dedupe(v: Value): (r: Value)
    requires v.Arr? && StringList(v)
  {
    StrList(SortedSet(TruthyStrings(v.items)))
  }

  /** The de-duplication of `demographic.aka` and `case.categories`. */
  function DedupeLists(b: Buckets): (r: Buckets)
    requires StringList(Get(b.demo, "aka")) && StringList(Get(b.meta, "categories"))
    ensures r == b.(demo := r.demo, meta := r.meta)
    ensures forall j | j != "aka" :: (j in r.demo <==> j in b.demo) && Get(r.demo, j) == Get(b.demo, j)
    ensures forall j | j != "categories" :: Get(r.meta, j) == Get(b.meta, j)
    ensures var aka := Get(b.demo, "aka"); Get(r.demo, "aka") == if aka.Arr? then Dedupe(aka) else aka
    ensures var cats := Get(b.meta, "categories"); Get(r.meta, "categories") == if cats.Arr? then Dedupe(cats) else cats
  {
    DedupeCategories(DedupeAka(b))
  }

  /** `aka` de-duplicated when it is a list. */
  function DedupeAka(b: Buckets): (r: Buckets)
    requires StringList(Get(b.demo, "aka"))
    ensures r == b.(demo := r.demo)
    ensures forall j | j != "aka" :: (j in r.demo <==> j in b.demo) && Get(r.demo, j) == Get(b.demo, j)
    ensures var aka := Get(b.demo, "aka"); Get(r.demo, "aka") == if aka.Arr? then Dedupe(aka) else aka
  {
    var aka := Get(b.demo, "aka");
    if aka.Arr? then b.(demo := b.demo["aka" := Dedupe(aka)]) else b
  }

  /** `categories` de-duplicated when it is a list. */
  function DedupeCategories(b: Buckets): (r: Buckets)
    requires StringList(Get(b.meta, "categories"))
    ensures r == b.(meta := r.meta)
    ensures forall j | j != "categories" :: Get(r.meta, j) == Get(b.meta, j)
    ensures var cats := Get(b.meta, "categories"); Get(r.meta, "categories") == if cats.Arr? then Dedupe(cats) else cats
  {
    var cats := Get(b.meta, "categories");
    if cats.Arr? then b.(meta := b.meta["categories" := Dedupe(cats)]) else b
  }

  // ------------------------------------------------------------ the whole function

  /** The steps up to the demographic renames. */
  function Early(b: Buckets): (r: Buckets)
    requires Ready(b)
    ensures Ready(r)
    ensures r.demo == b.demo && r.temp == Rename(b.temp, "reported_missing_ts", "reported_ts")
  {
    var b1 := RenameAliases(BridgeName(b));
    RenamePreservesDates(b.temp);
    LiftCaseReady(b1);
    LiftCase(b1)
  }

  lemma RenamePreservesDates(t: Dict)
    requires DatesStrOrFalsy(t)
    ensures DatesStrOrFalsy(Rename(t, "reported_missing_ts", "reported_ts"))
  {
    DatePairsApart();
    var r := Rename(t, "reported_missing_ts", "reported_ts");
    forall i | 0 <= i < |DatePairs| ensures Get(r, DatePairs[i].0) == Get(t, DatePairs[i].0) {
      assert DatePairs[i].0 != DatePairs[2].1 && DatePairs[i].0 != DatePairs[1].1;
    }
  }

  lemma LiftCaseReady(b: Buckets)
    requires Ready(b)
    ensures Ready(LiftCase(b))
  {
    var r := LiftCase(b);
    KeysDistinct();
    assert Get(r.meta, "categories") == Get(b.meta, "categories");
    assert Get(r.top, "provenance") == Get(b.top, "provenance");
    assert Get(r.top, "narrative_osint") == Get(b.top, "narrative_osint");
    assert Get(r.top, "outcome") == Get(b.top, "outcome");
  }

  /** The name, date and spatial steps that follow the demographic renames. */
  function LateFields(env: Env, b: Buckets): (r: Buckets)
    requires LateReady(b)
    ensures r == b.(name := r.name, demo := r.demo, temp := TemporalDates(env, b.temp), spat := r.spat)
    ensures StringList(Get(r.demo, "aka"))
    ensures forall j | j != "name" :: (j in r.demo <==> j in b.demo) && Get(r.demo, j) == Get(b.demo, j)
  {
    var b1 := NormalizeName(b);
    KeysDistinct();
    b1.(temp := TemporalDates(env, b1.temp), spat := SpatialNormalize(b1.spat))
  }

  /** The case, name, narrative and list steps that end the function. */
  function LateRecord(env: Env, b: Buckets): (r: Buckets)
    requires DictOrAbsent(b.top, "narrative_osint")
    requires StringList(Get(b.demo, "aka")) && StringList(Get(b.meta, "categories"))
    ensures r == b.(top := r.top, meta := r.meta, name := r.name, narr := r.narr, demo := r.demo)
    ensures forall j | j != "aka" :: (j in r.demo <==> j in b.demo) && Get(r.demo, j) == Get(b.demo, j)
  {
    MetaKeepsOsint(b);
    DedupeLists(NarrativeSummary(env, SurfaceName(MetaSynonyms(b))))
  }

  lemma MetaKeepsOsint(b: Buckets)
    requires DictOrAbsent(b.top, "narrative_osint")
    requires StringList(Get(b.meta, "categories"))
    ensures var r := MetaSynonyms(b);
      DictOrAbsent(r.top, "narrative_osint") && StringList(Get(r.meta, "categories"))
  {
    var r := MetaSynonyms(b);
    KeysDistinct();
    assert Get(r.top, "narrative_osint") == Get(b.top, "narrative_osint");
    assert Get(r.meta, "categories") == Get(b.meta, "categories");
  }

  /** Every step in order, on the opened buckets. */
  function Pipeline(env: Env, b: Buckets): (r: Buckets)
    requires Ready(b)
    ensures r.temp == TemporalBucket(env, b.temp)
  {
    LateRecord(env, LateFields(env, Middle(b)))
  }

  /** The steps up to and including the demographic renames. */
  function Middle(b: Buckets): (r: Buckets)
    requires Ready(b)
    ensures LateReady(r) && r.demo == DemoSynonyms(b.demo)
    ensures r.temp == Rename(b.temp, "reported_missing_ts", "reported_ts")
  {
    var b1 := Early(b);
    var d := DemoSynonyms(b1.demo);
    KeysDistinct();
    b1.(demo := d)
  }

  /** `harmonize_record_fields(rec)`: an empty record is returned as is;
      otherwise all six buckets are dicts afterwards. */
  function HarmonizeRecordFields(env: Env, rec: Dict): (r: Dict)
    requires HShaped(rec)
    ensures rec == map[] ==> r == rec
    ensures rec != map[] ==> Bucketed(r)
  {
    if rec == map[] then rec else Close(Pipeline(env, Open(rec)))
  }

  // ------------------------------------------------------------ properties

  /** One date step: the `*_date` key is gone, and the `*_ts` key holds the
      parsed timestamp when there was a date that parsed, its old value otherwise. */
  lemma DateToTsSpec(env: Env, t: Dict, from: string, to: string)
    requires from != to && StrOrFalsy(Get(t, from))
    ensures var r := DateToTs(env, t, from, to);
      && from !in r
      && (from in t && ParsedDate(env, t[from]).Some? ==> Get(r, to) == Str(ParsedDate(env, t[from]).value))
      && (from !in t || ParsedDate(env, t[from]).None? ==> (to in r <==> to in t) && Get(r, to) == Get(t, to))
  {
  }

  /** A date step leaves every key but its own two as it was. */
  lemma DateToTsKeeps(env: Env, t: Dict, from: string, to: string, j: string)
    requires from != to && StrOrFalsy(Get(t, from)) && j != from && j != to
    ensures var r := DateToTs(env, t, from, to); (j in r <==> j in t) && Get(r, j) == Get(t, j)
  {
  }

  /** The date steps leave every key outside the table as it was. */
  lemma {:induction false} DateStepsKeep(env: Env, t: Dict, ps: seq<(string, string)>, k: nat, j: string)
    requires k <= |ps| && KeysApart(ps)
    requires forall i | k <= i < |ps| :: StrOrFalsy(Get(t, ps[i].0))
    requires forall i | k <= i < |ps| :: j != ps[i].0 && j != ps[i].1
    ensures var r := DateSteps(env, t, ps, k); (j in r <==> j in t) && Get(r, j) == Get(t, j)
    decreases |ps| - k
  {
    if k < |ps| {
      var t1 := DateToTs(env, t, ps[k].0, ps[k].1);
      DateToTsKeeps(env, t, ps[k].0, ps[k].1, j);
      assert forall i | k < i < |ps| :: Get(t1, ps[i].0) == Get(t, ps[i].0);
      DateStepsKeep(env, t1, ps, k + 1, j);
    }
  }

  /** No date key of the table survives the date steps. */
  lemma {:induction false} DateStepsDropDates(env: Env, t: Dict, ps: seq<(string, string)>, k: nat)
    requires k <= |ps| && KeysApart(ps)
    requires forall i | k <= i < |ps| :: StrOrFalsy(Get(t, ps[i].0))
    ensures forall i | k <= i < |ps| :: ps[i].0 !in DateSteps(env, t, ps, k)
    decreases |ps| - k
  {
    if k < |ps| {
      var t1 := DateToTs(env, t, ps[k].0, ps[k].1);
      assert forall i | k < i < |ps| :: Get(t1, ps[i].0) == Get(t, ps[i].0);
      DateStepsKeep(env, t1, ps, k + 1, ps[k].0);
      DateStepsDropDates(env, t1, ps, k + 1);
    }
  }

  /** Each timestamp key ends up holding its date parsed, when the date was
      there and parsed, and its old value otherwise. */
  lemma {:induction false} DateStepsTs(env: Env, t: Dict, ps: seq<(string, string)>, k: nat, i: nat)
    requires k <= i < |ps| && KeysApart(ps)
    requires forall n | k <= n < |ps| :: StrOrFalsy(Get(t, ps[n].0))
    ensures var r := DateSteps(env, t, ps, k); var from := ps[i].0;
      && (from in t && ParsedDate(env, t[from]).Some? ==> Get(r, ps[i].1) == Str(ParsedDate(env, t[from]).value))
      && (from !in t || ParsedDate(env, t[from]).None? ==>
            (ps[i].1 in r <==> ps[i].1 in t) && Get(r, ps[i].1) == Get(t, ps[i].1))
    decreases |ps| - k
  {
    var t1 := DateToTs(env, t, ps[k].0, ps[k].1);
    assert forall n | k < n < |ps| :: Get(t1, ps[n].0) == Get(t, ps[n].0);
    if k == i {
      DateToTsSpec(env, t, ps[k].0, ps[k].1);
      DateStepsKeep(env, t1, ps, k + 1, ps[i].1);
    } else {
      DateToTsKeeps(env, t, ps[k].0, ps[k].1, ps[i].0);
      DateToTsKeeps(env, t, ps[k].0, ps[k].1, ps[i].1);
      DateStepsTs(env, t1, ps, k + 1, i);
    }
  }

  /** After `harmonize_record_fields` no `*_date` key is left in the temporal bucket. */
  lemma NoDateKeysRemain(env: Env, t: Dict)
    requires DatesStrOrFalsy(t)
    ensures forall i | 0 <= i < |DatePairs| :: DatePairs[i].0 !in TemporalDates(env, t)
  {
    DatePairsApart();
    DateStepsDropDates(env, t, DatePairs, 0);
  }

  /** Each `*_ts` key holds its `*_date` parsed when that parsed, and is
      otherwise left as it was. */
  lemma TsFromDate(env: Env, t: Dict, i: nat)
    requires DatesStrOrFalsy(t) && i < |DatePairs|
    ensures var r := TemporalDates(env, t); var (from, to) := DatePairs[i];
      && (from in t && ParsedDate(env, t[from]).Some? ==> Get(r, to) == Str(ParsedDate(env, t[from]).value))
      && (from !in t || ParsedDate(env, t[from]).None? ==> (to in r <==> to in t) && Get(r, to) == Get(t, to))
  {
    DatePairsApart();
    DateStepsTs(env, t, DatePairs, 0, i);
  }

  /** The temporal bucket of the result is the input's, with the
      `reported_missing_ts` alias renamed and then the dates parsed. */
  lemma HarmonizeTemporal(env: Env, rec: Dict)
    requires HShaped(rec) && rec != map[]
    ensures Get(HarmonizeRecordFields(env, rec), "temporal")
      == Obj(TemporalBucket(env, AsDict(Get(rec, "temporal"))))
  {
  }

  /** The function is not idempotent: a `reported_missing_date` that parses
      becomes `reported_missing_ts` on the first run, and the second run's
      alias rename moves that to `reported_ts`. */
  lemma RerunMovesReportedMissing(env: Env, date: string)
    requires ParsedDate(env, Str(date)).Some?
    ensures var t0 := map["reported_missing_date" := Str(date)];
      var t1 := TemporalBucket(env, t0);
      var t2 := TemporalBucket(env, t1);
      && Get(t1, "reported_missing_ts") == Str(ParsedDate(env, Str(date)).value) && "reported_ts" !in t1
      && Get(t2, "reported_ts") == Str(ParsedDate(env, Str(date)).value) && "reported_missing_ts" !in t2
  {
    DatePairsApart();
    var t0 := map["reported_missing_date" := Str(date)];
    assert "reported_missing_ts" !in t0 && "reported_ts" !in t0 && "reported_date" !in t0;
    var t1 := TemporalBucket(env, t0);
    assert Rename(t0, "reported_missing_ts", "reported_ts") == t0;
    TsFromDate(env, t0, 2);
    TsFromDate(env, t0, 1);
    NoDateKeysRemain(env, t0);
    var m := Rename(t1, "reported_missing_ts", "reported_ts");
    assert "reported_missing_ts" !in m && Get(m, "reported_ts") == Str(ParsedDate(env, Str(date)).value);
    forall i | 0 <= i < |DatePairs| ensures DatePairs[i].0 !in m {
      assert DatePairs[i].0 !in t1;
    }
    TsFromDate(env, m, 2);
    TsFromDate(env, m, 1);
  }

  /** The demographic fill rules: a truthy gender stays, otherwise the
      normalised sex fills it when there is one; `weight_lbs` and `height_in`
      keep their value when present and otherwise take a non-empty
      `weight_lb` / `height_inches`. */
  lemma DemoSynonymsFill(d: Dict)
    requires GenderReadable(d)
    ensures var r := DemoSynonyms(d); var g := Get(d, "gender");
      && (Truthy(g) ==> Get(r, "gender") == g)
      && (!Truthy(g) && "sex" in d && SexGender(d["sex"]) != Null ==> Get(r, "gender") == SexGender(d["sex"]))
      && (!Truthy(g) && ("sex" !in d || SexGender(d["sex"]) == Null) ==> Get(r, "gender") == g)
  {
    KeysDistinct();
  }

  lemma DemoSynonymsWeightHeight(d: Dict)
    requires GenderReadable(d)
    ensures var r := DemoSynonyms(d);
      && ("weight_lbs" in d ==> Get(r, "weight_lbs") == d["weight_lbs"])
      && ("weight_lbs" !in d ==> ("weight_lbs" in r <==> "weight_lb" in d && !NoneOrEmptyString(d["weight_lb"])))
      && ("weight_lbs" !in d && "weight_lb" in d && !NoneOrEmptyString(d["weight_lb"]) ==>
            Get(r, "weight_lbs") == d["weight_lb"])
      && ("height_in" in d ==> Get(r, "height_in") == d["height_in"])
      && ("height_in" !in d ==> ("height_in" in r <==> "height_inches" in d && !NoneOrEmptyString(d["height_inches"])))
      && ("height_in" !in d && "height_inches" in d && !NoneOrEmptyString(d["height_inches"]) ==>
            Get(r, "height_in") == d["height_inches"])
  {
    KeysDistinct();
  }

  /** Renaming the demographic synonyms twice is the same as once. */
  lemma DemoSynonymsIdempotent(d: Dict)
    requires GenderReadable(d)
    ensures GenderReadable(DemoSynonyms(d)) && DemoSynonyms(DemoSynonyms(d)) == DemoSynonyms(d)
  {
  }

  /** `r` holds exactly the truthy strings of the list `v`, each once, in
      ascending order. */
  predicate DedupedFrom(r: Value, v: Value)
    requires v.Arr?
  {
    && r.Arr?
    && (forall i | 0 <= i < |r.items| :: r.items[i].Str? && r.items[i].s != "" && r.items[i] in v.items)
    && (forall i | 0 <= i < |v.items| && Truthy(v.items[i]) :: v.items[i] in r.items)
    && (forall i, j | 0 <= i < j < |r.items| :: r.items[i].Str? && r.items[j].Str? && StrLt(r.items[i].s, r.items[j].s))
  }

  /** `sorted(set(x for x in v if x))` is the list `DedupedFrom` describes. */
  lemma DedupeSpec(v: Value)
    requires v.Arr? && StringList(v)
    ensures DedupedFrom(Dedupe(v), v)
  {
    var xs := SortedSet(TruthyStrings(v.items));
    var r := Dedupe(v);
    forall i | 0 <= i < |r.items| ensures r.items[i].Str? && r.items[i].s != "" && r.items[i] in v.items {
      assert xs[i] in Elems(xs);
    }
    forall i | 0 <= i < |v.items| && Truthy(v.items[i]) ensures v.items[i] in r.items {
      assert v.items[i].s in Elems(TruthyStrings(v.items));
      var n :| 0 <= n < |xs| && xs[n] == v.items[i].s;
      assert r.items[n] == v.items[i];
    }
  }

  /** `harmonize_record_fields` leaves `demographic.aka` and
      `case.categories` de-duplicated: a list becomes exactly its truthy
      strings, each once, in ascending order; any other value is kept. */
  lemma HarmonizeLists(env: Env, rec: Dict)
    requires HShaped(rec) && rec != map[]
    ensures var r := HarmonizeRecordFields(env, rec);
      var aka := Get(AsDict(Get(rec, "demographic")), "aka");
      var out := Get(AsDict(Get(r, "demographic")), "aka");
      (aka.Arr? ==> DedupedFrom(out, aka)) && (!aka.Arr? ==> out == aka)
    ensures var r := HarmonizeRecordFields(env, rec);
      var cats := Get(AsDict(Get(rec, "case")), "categories");
      var out := Get(AsDict(Get(r, "case")), "categories");
      (cats.Arr? ==> DedupedFrom(out, cats)) && (!cats.Arr? ==> out == cats)
  {
    var b := Open(rec);
    PipelineLists(env, b);
    var aka := Get(b.demo, "aka");
    var cats := Get(b.meta, "categories");
    if aka.Arr? {
      DedupeSpec(aka);
    }
    if cats.Arr? {
      DedupeSpec(cats);
    }
  }

  /** The steps on the buckets leave `aka` and `categories` as
      `DedupeLists` makes them of the opened record's values. */
  lemma PipelineLists(env: Env, b: Buckets)
    requires Ready(b)
    ensures var aka := Get(b.demo, "aka");
      Get(Pipeline(env, b).demo, "aka") == if aka.Arr? then Dedupe(aka) else aka
    ensures var cats := Get(b.meta, "categories");
      Get(Pipeline(env, b).meta, "categories") == if cats.Arr? then Dedupe(cats) else cats
  {
    MiddleLists(b);
    LateLists(env, Middle(b));
  }

  /** The steps up to the demographic renames keep `aka` and `categories`. */
  lemma MiddleLists(b: Buckets)
    requires Ready(b)
    ensures Get(Middle(b).demo, "aka") == Get(b.demo, "aka")
    ensures Get(Middle(b).meta, "categories") == Get(b.meta, "categories")
  {
    KeysDistinct();
    var e := Early(b);
    assert e.demo == b.demo;
    assert Get(e.meta, "categories") == Get(b.meta, "categories") by {
      var b1 := RenameAliases(BridgeName(b));
      assert b1.meta == b.meta;
      LiftCaseReady(b1);
    }
  }

  /** The late steps de-duplicate `aka` and `categories` and change them in
      no other way. */
  lemma LateLists(env: Env, m: Buckets)
    requires LateReady(m)
    ensures var aka := Get(m.demo, "aka");
      Get(LateRecord(env, LateFields(env, m)).demo, "aka") == if aka.Arr? then Dedupe(aka) else aka
    ensures var cats := Get(m.meta, "categories");
      Get(LateRecord(env, LateFields(env, m)).meta, "categories") == if cats.Arr? then Dedupe(cats) else cats
  {
    KeysDistinct();
    var lf := LateFields(env, m);
    var ms := MetaSynonyms(lf);
    MetaKeepsOsint(lf);
    var ns := NarrativeSummary(env, SurfaceName(ms));
    assert ns.demo == lf.demo && Get(ns.meta, "categories") == Get(lf.meta, "categories");
  }

  /** The demographic bucket after all steps: the synonym renames, with only
      `name` and `aka` changed afterwards. */
  lemma PipelineDemo(env: Env, b: Buckets)
    requires Ready(b)
    ensures var r := Pipeline(env, b).demo; var d := DemoSynonyms(b.demo);
      forall j | j != "name" && j != "aka" :: (j in r <==> j in d) && Get(r, j) == Get(d, j)
  {
    var b1 := Middle(b);
    var b2 := LateFields(env, b1);
    assert forall j | j != "name" :: (j in b2.demo <==> j in b1.demo) && Get(b2.demo, j) == Get(b1.demo, j);
  }

  /** In the result the demographic aliases `sex`, `weight_lb` and
      `height_inches` are gone, and every other demographic key but `name`
      and `aka` is as the synonym renames left it. */
  lemma HarmonizeDemographic(env: Env, rec: Dict)
    requires HShaped(rec) && rec != map[]
    ensures var d := AsDict(Get(HarmonizeRecordFields(env, rec), "demographic"));
      var d0 := DemoSynonyms(AsDict(Get(rec, "demographic")));
      && "sex" !in d && "weight_lb" !in d && "height_inches" !in d
      && forall j | j != "name" && j != "aka" :: (j in d <==> j in d0) && Get(d, j) == Get(d0, j)
  {
    KeysDistinct();
    PipelineDemo(env, Open(rec));
  }

  /** A top-level `case_id` ends in the case bucket when that bucket had
      none, and no later step brings one back to the top level. */
  lemma {:induction false} CaseIdLifted(env: Env, rec: Dict)
    requires HShaped(rec) && rec != map[] && "case_id" !in AsDict(Get(rec, "case"))
    ensures "case_id" !in HarmonizeRecordFields(env, rec)
    ensures "case_id" in rec ==> Get(AsDict(Get(HarmonizeRecordFields(env, rec), "case")), "case_id") == rec["case_id"]
  {
    var b := Open(rec);
    EarlyLiftsCaseId(b);
    var m := Middle(b);
    assert m.top == Early(b).top && m.meta == Early(b).meta;
    LateKeepsCaseId(env, m);
    var p := Pipeline(env, b);
    assert p == LateRecord(env, LateFields(env, m));
    CloseCaseId(p);
  }

  /** Writing the buckets back adds no top-level `case_id`. */
  lemma CloseCaseId(b: Buckets)
    ensures "case_id" in Close(b) <==> "case_id" in b.top
    ensures Get(AsDict(Get(Close(b), "case")), "case_id") == Get(b.meta, "case_id")
  {
  }

  /** The early steps move `case_id` into a case bucket that lacks it. */
  lemma EarlyLiftsCaseId(b: Buckets)
    requires Ready(b) && "case_id" !in b.meta
    ensures "case_id" !in Early(b).top
    ensures "case_id" in b.top ==> Get(Early(b).meta, "case_id") == b.top["case_id"]
  {
    LiftTopSpec(RenameAliases(BridgeName(b)), "case_id");
  }

  /** The steps after the demographic renames leave a `case_id` the top
      level lacks out of it, and the case bucket's `case_id` alone. */
  lemma LateKeepsCaseId(env: Env, b: Buckets)
    requires LateReady(b) && "case_id" !in b.top
    ensures "case_id" !in LateRecord(env, LateFields(env, b)).top
    ensures Get(LateRecord(env, LateFields(env, b)).meta, "case_id") == Get(b.meta, "case_id")
  {
    var lf := LateFields(env, b);
    MetaKeepsOsint(lf);
    var ms := MetaSynonyms(lf);
    MetaKeepsCaseId(lf);
    var ns := NarrativeSummary(env, SurfaceName(ms));
    assert LateRecord(env, lf) == DedupeLists(ns);
  }

  /** With no top-level `case_id`, the meta synonyms add none and keep the
      case bucket's. */
  lemma MetaKeepsCaseId(b: Buckets)
    requires "case_id" !in b.top
    ensures "case_id" !in MetaSynonyms(b).top
    ensures Get(MetaSynonyms(b).meta, "case_id") == Get(b.meta, "case_id")
  {
    LiftTopSpec(LiftTop(LiftTop(b, "status"), "source"), "case_id");
  }

  /** `case_id`, `status` and `source` at the top level move into a case
      bucket that lacks them, and are then gone from the top level. */
  lemma LiftTopSpec(b: Buckets, k: string)
    ensures var r := LiftTop(b, k);
      && (k in b.top && k !in b.meta ==> k !in r.top && Get(r.meta, k) == b.top[k])
      && (k in b.meta ==> Get(r.meta, k) == b.meta[k] && (k in r.top <==> k in b.top))
  {
  }
}

=== FILE: json.dfy ===
/** JSON-shaped values as the Python code sees them after `json.loads` or when
    building records by hand: `None`, booleans, numbers, strings, lists and
    dicts. Dicts are finite maps; their insertion order is not part of the
    value (where the code observes it, an oracle supplies it). Python keeps
    `int` and `float` apart; here both are `Num`. */
module Json {

  datatype Value =
    | Null
    | Bool(b: bool)
    | Num(n: real)
    | Str(s: string)
    | Arr(items: seq<Value>)
    | Obj(fields: map<string, Value>)

  type Dict = map<string, Value>

  /** Python truthiness: `None`, `False`, `0`, `""`, `[]` and `{}` are false. */
  predicate Truthy(v: Value) {
    match v
    case Null => false
    case Bool(b) => b
    case Num(n) => n != 0.0
    case Str(s) => s != ""
    case Arr(a) => a != []
    case Obj(m) => m != map[]
  }

  /** `v in (None, "")` */
  predicate NoneOrEmptyString(v: Value) {
    v == Null || v == Str("")
  }

  /** `v in (None, {}, [])`, the emptiness test of the sanitizer's final filters. */
  predicate NoneOrEmptyContainer(v: Value) {
    v == Null || v == Obj(map[]) || v == Arr([])
  }

  /** `d.get(k)`: the value under `k`, or `None` when the key is absent. */
  function Get(d: Dict, k: string): (r: Value)
    ensures k !in d ==> r == Null
    ensures k in d ==> r == d[k]
  {
    if k in d then d[k] else Null
  }

  /** `d.setdefault(k, v)` as a new dict: an existing key keeps its value. */
  function SetDefault(d: Dict, k: string, v: Value): (r: Dict)
    ensures k in r && r.Keys == d.Keys + {k}
    ensures k in d ==> r == d
    ensures k !in d ==> r[k] == v
    ensures forall j | j in d :: j in r && r[j] == d[j]
  {
    if k in d then d else d[k := v]
  }

  /** The dict behind `v` when it is one, else the empty dict: the effect of
      `x.get(k, {})`-style reads on a value already known to be a dict or absent. */
  function AsDict(v: Value): (r: Dict)
    ensures v.Obj? ==> r == v.fields
    ensures !v.Obj? ==> r == map[]
  {
    if v.Obj? then v.fields else map[]
  }

  /** `v or {}` is a dict: the value is a dict or falsy. */
  predicate DictOrFalsy(v: Value) {
    v.Obj? || !Truthy(v)
  }

  /** Python's `a or b`: `a` when it is truthy, else `b`. */
  function Or(a: Value, b: Value): (r: Value)
    ensures Truthy(r) <==> Truthy(a) || Truthy(b)
  {
    if Truthy(a) then a else b
  }

  /** A category that may be read with `.get`: absent, or present as a dict. */
  predicate DictOrAbsent(d: Dict, k: string) {
    k in d ==> d[k].Obj?
  }

  /** `if a in d and b not in d: d[b] = d.pop(a)`: a rename that never
      overwrites an existing key. */
  function Rename(d: Dict, a: string, b: string): (r: Dict)
    ensures a in d && b !in d ==> a !in r && b in r && r[b] == d[a]
    ensures !(a in d && b !in d) ==> r == d
    ensures forall k | k in d && k != a && k != b :: k in r && r[k] == d[k]
    ensures forall k | k in r :: k in d || k == b
  {
    if a in d && b !in d then (d - {a})[b := d[a]] else d
  }

  /** `d.pop(k, None)` as a new dict. */
  function Del(d: Dict, k: string): (r: Dict)
    ensures k !in r && r.Keys == d.Keys - {k}
    ensures forall j | j in r :: r[j] == d[j]
  {
    d - {k}
  }

  /** `a.update(b)` as a new dict: the keys of both, values from `b` where it has them. */
  function Update(a: Dict, b: Dict): (r: Dict)
    ensures forall j :: (j in r <==> j in a || j in b) && Get(r, j) == (if j in b then b[j] else Get(a, j))
  {
    map j | j in a.Keys + b.Keys :: if j in b then b[j] else a[j]
  }
}

=== FILE: jsonextract.dfy ===
/** `LLMClient._extract_json` (llm/agent/llm_client.py): the model's reply is
    stripped, a leading code fence and its language tag are dropped, and the
    first top-level object found by counting braces is handed to
    `json.loads`. */
module JsonExtract {
  import opened Wrappers
  import opened Json
  import opened Text
  import opened Runtime

  /** The opening of a Markdown code fence. */
  const Fence: string := "```"

  // ------------------------------------------------------------ fences

  /** `s.lstrip(c)` for one character. */
  function TrimLeft(s: string, c: char): (r: string)
    ensures |r| <= |s| && r == s[|s| - |r|..]
    ensures r != [] ==> r[0] != c
    ensures forall i | 0 <= i < |s| - |r| :: s[i] == c
  {
    if s != [] && s[0] == c then TrimLeft(s[1..], c) else s
  }

  /** `s.rstrip(c)` for one character. */
  function TrimRight(s: string, c: char): (r: string)
    ensures |r| <= |s| && r == s[..|r|]
    ensures r != [] ==> r[|r| - 1] != c
    ensures forall i | |r| <= i < |s| :: s[i] == c
  {
    if s != [] && s[|s| - 1] == c then TrimRight(s[..|s| - 1], c) else s
  }

  /** `s.strip("`")`. */
  function StripTicks(s: string): (r: string)
    ensures r != [] ==> r[0] != '`' && r[|r| - 1] != '`'
  {
    TrimRight(TrimLeft(s, '`'), '`')
  }

  /** Everything after the first newline: the language tag of a fence is
      dropped. Without a newline nothing is dropped. */
  function DropTag(u: string): (r: string)
    ensures '\n' !in u ==> r == u
    ensures '\n' in u ==> exists i | 0 <= i < |u| :: u[i] == '\n' && '\n' !in u[..i] && r == u[i + 1..]
    ensures |r| <= |u| && r == u[|u| - |r|..]
  {
    if '\n' in u then u[FirstIndex(u, '\n') + 1..] else u
  }

  /** The text the brace scan reads: the stripped reply, or, when that opens a
      code fence, the reply without its backticks and without its language
      tag. */
  function Unfenced(text: string): (r: string)
    ensures !StartsWith(Strip(text), Fence) ==> r == Strip(text)
    ensures StartsWith(Strip(text), Fence) ==> r == DropTag(StripTicks(Strip(text)))
    ensures StartsWith(Strip(text), Fence) && r != [] ==> r[|r| - 1] != '`'
  {
    var t := Strip(text);
    if StartsWith(t, Fence) then DropTag(StripTicks(t)) else t
  }

  /** Stripping a run of backticks from the front leaves what follows it. */
  lemma {:induction false} TrimLeftTicks(ticks: string, x: string)
    requires forall i | 0 <= i < |ticks| :: ticks[i] == '`'
    requires x == [] || x[0] != '`'
    ensures TrimLeft(ticks + x, '`') == x
    decreases |ticks|
  {
    if ticks != [] {
      assert (ticks + x)[1..] == ticks[1..] + x;
      TrimLeftTicks(ticks[1..], x);
    } else {
      assert ticks + x == x;
    }
  }

  /** Stripping a run of backticks from the back leaves what precedes it. */
  lemma {:induction false} TrimRightTicks(x: string, ticks: string)
    requires forall i | 0 <= i < |ticks| :: ticks[i] == '`'
    requires x == [] || x[|x| - 1] != '`'
    ensures TrimRight(x + ticks, '`') == x
    decreases |ticks|
  {
    if ticks != [] {
      assert (x + ticks)[..|x + ticks| - 1] == x + ticks[..|ticks| - 1];
      TrimRightTicks(x, ticks[..|ticks| - 1]);
    } else {
      assert x + ticks == x;
    }
  }

  /** Backticks around a text that neither starts nor ends with one are
      stripped exactly. */
  lemma TicksAround(inner: string)
    requires inner != [] && inner[0] != '`' && inner[|inner| - 1] != '`'
    ensures StripTicks(Fence + inner + Fence) == inner
  {
    assert Fence + inner + Fence == Fence + (inner + Fence);
    TrimLeftTicks(Fence, inner + Fence);
    TrimRightTicks(inner, Fence);
  }

  /** The language tag ends at the first newline. */
  lemma TagDropped(tag: string, body: string)
    requires '\n' !in tag
    ensures DropTag(tag + "\n" + body) == body
  {
    var inner := tag + "\n" + body;
    assert inner[|tag|] == '\n' && inner[..|tag|] == tag;
    assert inner[|tag| + 1..] == body;
  }

  /** A reply fenced as "```tag\n" + body + "```" is read as the body, when
      the tag holds no newline and does not start with a backtick and the
      body does not end with one. */
  lemma FencedBody(tag: string, body: string)
    requires '\n' !in tag && (tag == [] || tag[0] != '`')
    requires body != [] && body[|body| - 1] != '`'
    ensures Unfenced(Fence + tag + "\n" + body + Fence) == body
  {
    var inner := tag + "\n" + body;
    var text := Fence + inner + Fence;
    assert Fence + tag + "\n" + body + Fence == text;
    assert text[0] == '`' && text[|text| - 1] == '`';
    StripTrimmed(text);
    assert text[..|Fence|] == Fence;
    assert inner[0] != '`' by {
      if tag == [] { assert inner[0] == '\n'; } else { assert inner[0] == tag[0]; }
    }
    assert inner[|inner| - 1] == body[|body| - 1];
    TicksAround(inner);
    TagDropped(tag, body);
  }

  // ------------------------------------------------------------ the brace scan

  /** What a character does to the depth. */
  function Step(c: char): int {
    if c == '{' then 1 else if c == '}' then -1 else 0
  }

  /** The depth after the first `i` characters: opening braces minus closing
      ones. It can go below zero; the scan does not stop there. */
  function Depth(t: string, i: nat): int
    requires i <= |t|
  {
    if i == 0 then 0 else Depth(t, i - 1) + Step(t[i - 1])
  }

  /** Index `i` is an opening brace met at depth 0: the scan records it as `start`. */
  predicate Opens(t: string, i: nat) {
    i < |t| && t[i] == '{' && Depth(t, i) == 0
  }

  /** Index `j` is a closing brace that brings the depth from 1 back to 0. */
  predicate Closes(t: string, j: nat) {
    j < |t| && t[j] == '}' && Depth(t, j) == 1
  }

  /** No closing brace brings the depth back to 0: there is no object. */
  predicate NoClose(t: string) {
    forall j | 0 <= j < |t| :: !Closes(t, j)
  }

  /** The object the scan finds: the first closing brace back to depth 0, and
      the last opening brace at depth 0 before it. */
  predicate IsSpan(t: string, start: nat, end: nat) {
    && start < end && Opens(t, start) && Closes(t, end)
    && (forall j | 0 <= j < end :: !Closes(t, j))
    && (forall i | start < i < end :: !Opens(t, i))
  }

  /** The loop of `_extract_json`: `end` is -1 when no object closes. */
  method Scan(t: string) returns (start: int, end: int)
    ensures end == -1 ==> NoClose(t)
    ensures end != -1 ==> 0 <= start && 0 <= end && IsSpan(t, start, end)
  {
    start, end := -1, -1;
    var depth := 0;
    var i := 0;
    while i < |t|
      invariant i <= |t| && depth == Depth(t, i)
      invariant forall j | 0 <= j < i :: !Closes(t, j)
      invariant start == -1 ==> forall k | 0 <= k < i :: !Opens(t, k)
      invariant start != -1 ==> 0 <= start < i && Opens(t, start) && forall k | start < k < i :: !Opens(t, k)
      invariant depth >= 1 ==> start != -1
    {
      var ch := t[i];
      if ch == '{' {
        if depth == 0 {
          start := i;
        }
        depth := depth + 1;
      } else if ch == '}' {
        depth := depth - 1;
        if depth == 0 {
          end := i;
          return;
        }
      }
      i := i + 1;
    }
  }

  /** The span is unique. */
  lemma SpanUnique(t: string, s1: nat, e1: nat, s2: nat, e2: nat)
    requires IsSpan(t, s1, e1) && IsSpan(t, s2, e2)
    ensures s1 == s2 && e1 == e2
  {
  }

  /** Without a closing brace there is no span. */
  lemma NoSpan(t: string)
    requires NoClose(t)
    ensures forall s: nat, e: nat :: !IsSpan(t, s, e)
  {
    forall s: nat, e: nat ensures !IsSpan(t, s, e) {
    }
  }

  /** A span found is the only one. */
  lemma OnlySpan(t: string, start: nat, end: nat)
    requires IsSpan(t, start, end)
    ensures forall s: nat, e: nat | IsSpan(t, s, e) :: s == start && e == end
  {
    forall s: nat, e: nat | IsSpan(t, s, e) ensures s == start && e == end {
      SpanUnique(t, s, e, start, end);
    }
  }

  /** Inside the span the depth never returns to 0. */
  lemma {:induction false} DepthPositive(t: string, start: nat, end: nat, k: nat)
    requires IsSpan(t, start, end) && start < k <= end
    ensures Depth(t, k) >= 1
    decreases k
  {
    if k > start + 1 {
      DepthPositive(t, start, end, k - 1);
      assert !Closes(t, k - 1);
    }
  }

  /** Depths inside a slice are the depths of the text, shifted. */
  lemma {:induction false} DepthSlice(t: string, a: nat, b: nat, k: nat)
    requires a <= b <= |t| && k <= b - a
    ensures Depth(t[a..b], k) == Depth(t, a + k) - Depth(t, a)
    decreases k
  {
    if k > 0 {
      DepthSlice(t, a, b, k - 1);
      assert t[a..b][k - 1] == t[a + k - 1];
    }
  }

  /** The slice that is parsed opens with `{`, closes with `}`, is balanced,
      and every proper prefix of it is still inside the object. */
  lemma SpanBalanced(t: string, start: nat, end: nat)
    requires IsSpan(t, start, end)
    ensures var s := t[start..end + 1];
      && s[0] == '{' && s[|s| - 1] == '}' && Depth(s, |s|) == 0
      && forall k | 0 < k < |s| :: Depth(s, k) > 0
  {
    var s := t[start..end + 1];
    DepthSlice(t, start, end + 1, |s|);
    forall k | 0 < k < |s| ensures Depth(s, k) > 0 {
      DepthSlice(t, start, end + 1, k);
      DepthPositive(t, start, end, start + k);
    }
  }

  // ------------------------------------------------------------ parsing

  /** The message of the ValueError for a reply without an object. */
  function NoObject(t: string): string {
    "No top-level JSON object found in response: " + (if |t| <= 200 then t else t[..200])
  }

  const NotAnObject: string := "Top-level JSON must be an object"

  /** `json.loads` of the slice, kept only when it is an object. */
  function ParseObject(env: Env, s: string): (r: Result<Dict>)
    ensures r.Ok? <==> env.jsonLoads(s).Some? && env.jsonLoads(s).value.Obj?
    ensures r.Ok? ==> env.jsonLoads(s) == Some(Obj(r.value))
    ensures env.jsonLoads(s).Some? && !env.jsonLoads(s).value.Obj? ==> r == Raise(NotAnObject)
  {
    match env.jsonLoads(s)
    case None => Raise("Failed to parse JSON")
    case Some(v) => if v.Obj? then Ok(v.fields) else Raise(NotAnObject)
  }

  /** `r` is what parsing the span of `t` gives, whatever the span is. */
  ghost predicate ParsesSpan(env: Env, t: string, r: Result<Dict>) {
    forall s: nat, e: nat | IsSpan(t, s, e) :: r == ParseObject(env, t[s..e + 1])
  }

  /** What the scan's answer means for the result. */
  lemma ScanResult(env: Env, t: string, start: int, end: int, r: Result<Dict>)
    requires end == -1 ==> NoClose(t)
    requires end != -1 ==> 0 <= start && 0 <= end && IsSpan(t, start, end)
    requires r == if start == -1 || end == -1 then Raise(NoObject(t)) else ParseObject(env, t[start..end + 1])
    ensures NoClose(t) ==> r == Raise(NoObject(t))
    ensures ParsesSpan(env, t, r)
  {
    if start == -1 || end == -1 {
      NoSpan(t);
    } else {
      OnlySpan(t, start, end);
      assert !NoClose(t) by {
        assert Closes(t, end);
      }
    }
  }

  /** `_extract_json(text)`: the object in the span of the unfenced reply,
      or the ValueError it raises. */
  method ExtractJson(env: Env, text: string) returns (r: Result<Dict>)
    ensures NoClose(Unfenced(text)) ==> r == Raise(NoObject(Unfenced(text)))
    ensures ParsesSpan(env, Unfenced(text), r)
  {
    var t := Unfenced(text);
    var start, end := Scan(t);
    if start == -1 || end == -1 {
      r := Raise(NoObject(t));
    } else {
      r := ParseObject(env, t[start..end + 1]);
    }
    ScanResult(env, t, start, end, r);
  }
}

=== FILE: metrics.dfy ===
/** The extraction-quality and rate metrics of
    tests/metrics/metrics_calculator.py. Python floats are modelled as exact
    reals; the field counts walk nested dicts and lists of JSON values. A
    dict's keys are visited in no particular order: the counts are sums, and
    the lemmas below show the order does not matter. */
module Metrics {
  import opened Wrappers
  import opened Json
  import opened Text

  // ------------------------------------------------------------ field counts

  /** Keys the counts pass over: internal ones (leading `_`), `source_path`
      and `audit`. */
  predicate Skipped(k: string) {
    (|k| > 0 && k[0] == '_') || k == "source_path" || k == "audit"
  }

  /** `v is not None and v != "" and v != [] and v != {}`: a zero or `False`
      counts. */
  predicate Present(v: Value) {
    v != Null && v != Str("") && v != Arr([]) && v != Obj(map[])
  }

  predicate IsContainer(v: Value) {
    v.Obj? || v.Arr?
  }

  /** `count_non_empty_fields(v)`: the present scalar leaves reached through
      dicts (past skipped keys) and lists; a scalar on its own counts 0. */
  ghost function CountNonEmpty(v: Value): nat
    decreases v, 2, 0
  {
    match v
    case Obj(f) => FieldsCount(f, f.Keys)
    case Arr(xs) => ItemsCount(xs, 0)
    case _ => 0
  }

  /** What a present value adds: its own count when it is a container, else 1. */
  ghost function Leaf(v: Value): nat
    decreases v, 3, 0
  {
    if IsContainer(v) then CountNonEmpty(v) else 1
  }

  /** What the entry under `k` adds. */
  ghost function FieldCount(f: Dict, k: string): nat
    requires k in f
    decreases Obj(f), 0, 0
  {
    if Skipped(k) || !Present(f[k]) then 0 else Leaf(f[k])
  }

  /** The entries under the keys `ks`, summed in any order. */
  ghost function FieldsCount(f: Dict, ks: set<string>): (r: nat)
    requires ks <= f.Keys
    ensures forall k | k in ks :: FieldCount(f, k) <= r
    ensures r == 0 <==> forall k | k in ks :: FieldCount(f, k) == 0
    decreases Obj(f), 1, |ks|
  {
    if ks == {} then 0
    else
      var k :| k in ks;
      FieldCount(f, k) + FieldsCount(f, ks - {k})
  }

  /** The items of a list from index `i` on. */
  ghost function ItemsCount(xs: seq<Value>, i: nat): nat
    requires i <= |xs|
    decreases Arr(xs), 1, |xs| - i
  {
    if i == |xs| then 0
    else (if Present(xs[i]) then Leaf(xs[i]) else 0) + ItemsCount(xs, i + 1)
  }

  /** The sum does not depend on which key is taken first. */
  lemma {:induction false} FieldsCountRemove(f: Dict, ks: set<string>, k: string)
    requires ks <= f.Keys && k in ks
    ensures FieldsCount(f, ks) == FieldCount(f, k) + FieldsCount(f, ks - {k})
    decreases |ks|
  {
    var j :| j in ks && FieldsCount(f, ks) == FieldCount(f, j) + FieldsCount(f, ks - {j});
    if j != k {
      FieldsCountRemove(f, ks - {j}, k);
      FieldsCountRemove(f, ks - {k}, j);
      assert ks - {j} - {k} == ks - {k} - {j};
    }
  }

  /** Two dicts whose entries add the same amounts have the same sum. */
  lemma {:induction false} FieldsCountSame(f: Dict, g: Dict, ks: set<string>)
    requires ks <= f.Keys && ks <= g.Keys
    requires forall k | k in ks :: FieldCount(f, k) == FieldCount(g, k)
    ensures FieldsCount(f, ks) == FieldsCount(g, ks)
    decreases |ks|
  {
    if ks != {} {
      var k :| k in ks;
      FieldsCountRemove(f, ks, k);
      FieldsCountRemove(g, ks, k);
      FieldsCountSame(f, g, ks - {k});
    }
  }

  /** Setting a skipped key (`_fulltext`, `audit`, `source_path`, ...) to
      anything leaves the count of a record unchanged. */
  lemma SkippedKeyIgnored(f: Dict, k: string, v: Value)
    requires Skipped(k)
    ensures CountNonEmpty(Obj(f[k := v])) == CountNonEmpty(Obj(f))
  {
    var g := f[k := v];
    FieldsCountSame(f, g, f.Keys);
    if k !in f {
      FieldsCountRemove(g, g.Keys, k);
      assert g.Keys - {k} == f.Keys;
    } else {
      assert g.Keys == f.Keys;
    }
  }

  /** A record of one present scalar field counts 1; a record of one list
      counts every present item. */
  lemma SingleField(k: string, v: Value)
    requires !Skipped(k) && Present(v)
    ensures CountNonEmpty(Obj(map[k := v])) == Leaf(v)
  {
    var f := map[k := v];
    FieldsCountRemove(f, f.Keys, k);
    assert f.Keys - {k} == {};
  }

  // ------------------------------------------------------------ matching

  /** `_values_match(a, b)`: strings equal after strip and lower-casing,
      numbers (a bool is a number) within 0.001, anything else equal. */
  predicate ValuesMatch(a: Value, b: Value) {
    if a == Null && b == Null then true
    else if a == Null || b == Null then false
    else if a.Str? && b.Str? then Lower(Strip(a.s)) == Lower(Strip(b.s))
    else if IsNumber(a) && IsNumber(b) then Abs(NumberOf(a) - NumberOf(b)) < 0.001
    else a == b
  }

  /** `isinstance(x, (int, float))`. */
  predicate IsNumber(v: Value) {
    v.Num? || v.Bool?
  }

  function NumberOf(v: Value): real
    requires IsNumber(v)
  {
    if v.Num? then v.n else if v.b then 1.0 else 0.0
  }

  function Abs(x: real): real {
    if x < 0.0 then -x else x
  }

  /** Every present scalar matches itself. */
  lemma ValuesMatchReflexive(v: Value)
    ensures ValuesMatch(v, v)
  {
  }

  /** `count_matching_fields(gen, gold)`: zero unless both are dicts. */
  ghost function CountMatching(gen: Value, gold: Value): nat
    decreases gold, 2, 0
  {
    if gen.Obj? && gold.Obj? then MatchesCount(gen.fields, gold.fields, gold.fields.Keys) else 0
  }

  /** What the golden entry under `k` adds: nothing when skipped, missing from
      the generated dict, or empty; the nested count for two dicts; 1 for two
      non-empty lists; otherwise 1 when the values match. */
  ghost function MatchCount(gen: Dict, gold: Dict, k: string): nat
    requires k in gold
    decreases Obj(gold), 0, 0
  {
    if Skipped(k) || k !in gen || !Present(gold[k]) then 0
    else if gold[k].Obj? && gen[k].Obj? then CountMatching(gen[k], gold[k])
    else if gold[k].Arr? && gen[k].Arr? then (if |gold[k].items| > 0 && |gen[k].items| > 0 then 1 else 0)
    else if ValuesMatch(gen[k], gold[k]) then 1 else 0
  }

  /** The golden entries under the keys `ks` that the generated dict matches,
      summed in any order. */
  ghost function MatchesCount(gen: Dict, gold: Dict, ks: set<string>): (r: nat)
    requires ks <= gold.Keys
    ensures forall k | k in ks :: MatchCount(gen, gold, k) <= r
    ensures r == 0 <==> forall k | k in ks :: MatchCount(gen, gold, k) == 0
    decreases Obj(gold), 1, |ks|
  {
    if ks == {} then 0
    else
      var k :| k in ks;
      MatchCount(gen, gold, k) + MatchesCount(gen, gold, ks - {k})
  }

  lemma {:induction false} MatchesCountRemove(gen: Dict, gold: Dict, ks: set<string>, k: string)
    requires ks <= gold.Keys && k in ks
    ensures MatchesCount(gen, gold, ks) == MatchCount(gen, gold, k) + MatchesCount(gen, gold, ks - {k})
    decreases |ks|
  {
    var j :| j in ks && MatchesCount(gen, gold, ks) == MatchCount(gen, gold, j) + MatchesCount(gen, gold, ks - {j});
    if j != k {
      MatchesCountRemove(gen, gold, ks - {j}, k);
      MatchesCountRemove(gen, gold, ks - {k}, j);
      assert ks - {j} - {k} == ks - {k} - {j};
    }
  }

  /** No list anywhere inside the value. */
  predicate NoLists(v: Value) {
    match v
    case Arr(_) => false
    case Obj(f) => forall k | k in f :: NoLists(f[k])
    case _ => true
  }

  /** Without lists in the golden record, no more fields match than it has. */
  lemma {:induction false} MatchBound(gen: Value, gold: Value)
    requires NoLists(gold)
    ensures CountMatching(gen, gold) <= CountNonEmpty(gold)
    decreases gold, 1
  {
    if gen.Obj? && gold.Obj? {
      MatchesBound(gen.fields, gold.fields, gold.fields.Keys);
    }
  }

  lemma {:induction false} MatchesBound(gen: Dict, gold: Dict, ks: set<string>)
    requires ks <= gold.Keys && NoLists(Obj(gold))
    ensures MatchesCount(gen, gold, ks) <= FieldsCount(gold, ks)
    decreases Obj(gold), 0, |ks|
  {
    if ks != {} {
      var k :| k in ks;
      MatchesCountRemove(gen, gold, ks, k);
      FieldsCountRemove(gold, ks, k);
      MatchesBound(gen, gold, ks - {k});
      MatchCountBound(gen, gold, k);
    }
  }

  /** One golden entry matches no more than it counts. */
  lemma {:induction false} MatchCountBound(gen: Dict, gold: Dict, k: string)
    requires k in gold && NoLists(Obj(gold))
    ensures MatchCount(gen, gold, k) <= FieldCount(gold, k)
    decreases Obj(gold), 0, 0
  {
    if !(Skipped(k) || k !in gen || !Present(gold[k])) && gold[k].Obj? && gen[k].Obj? {
      MatchBound(gen[k], gold[k]);
    }
  }

  /** A record without lists matches itself in every field it counts. */
  lemma {:induction false} SelfMatch(v: Value)
    requires NoLists(v) && v.Obj?
    ensures CountMatching(v, v) == CountNonEmpty(v)
    decreases v, 1
  {
    SelfMatches(v.fields, v.fields.Keys);
  }

  lemma {:induction false} SelfMatches(f: Dict, ks: set<string>)
    requires ks <= f.Keys && NoLists(Obj(f))
    ensures MatchesCount(f, f, ks) == FieldsCount(f, ks)
    decreases Obj(f), 0, |ks|
  {
    if ks != {} {
      var k :| k in ks;
      MatchesCountRemove(f, f, ks, k);
      FieldsCountRemove(f, ks, k);
      SelfMatches(f, ks - {k});
      if !Skipped(k) && Present(f[k]) && f[k].Obj? {
        SelfMatch(f[k]);
      }
    }
  }

  // ------------------------------------------------------------ completeness and accuracy

  /** `matched / total`, 1.0 when nothing is counted, 0.0 for an empty
      reference record: the shape of both scores. */
  ghost function Score(base: Dict, matched: nat): real {
    if base == map[] then 0.0
    else if CountNonEmpty(Obj(base)) == 0 then 1.0
    else matched as real / CountNonEmpty(Obj(base)) as real
  }

  /** `calculate_completeness(gen, gold)` (recall). */
  ghost function Completeness(gen: Dict, gold: Dict): (r: real)
    ensures gold == map[] ==> r == 0.0
    ensures gold != map[] && CountNonEmpty(Obj(gold)) == 0 ==> r == 1.0
    ensures r >= 0.0
  {
    Score(gold, CountMatching(Obj(gen), Obj(gold)))
  }

  /** `calculate_accuracy(gen, gold)` (precision). */
  ghost function Accuracy(gen: Dict, gold: Dict): (r: real)
    ensures gen == map[] ==> r == 0.0
    ensures gen != map[] && CountNonEmpty(Obj(gen)) == 0 ==> r == 1.0
    ensures r >= 0.0
  {
    Score(gen, CountMatching(Obj(gen), Obj(gold)))
  }

  /** With no list in the golden record, completeness lies in [0, 1]. */
  lemma CompletenessBounded(gen: Dict, gold: Dict)
    requires NoLists(Obj(gold))
    ensures 0.0 <= Completeness(gen, gold) <= 1.0
  {
    MatchBound(Obj(gen), Obj(gold));
    var m, t := CountMatching(Obj(gen), Obj(gold)), CountNonEmpty(Obj(gold));
    if gold != map[] && t != 0 {
      assert m as real <= t as real;
      DivAtMostOne(m as real, t as real);
    }
  }

  lemma DivAtMostOne(m: real, t: real)
    requires 0.0 <= m <= t && t > 0.0
    ensures m / t <= 1.0
  {
  }

  /** A non-empty record without lists scores 1 against itself, both ways. */
  lemma SelfScoresOne(x: Dict)
    requires x != map[] && NoLists(Obj(x))
    ensures Completeness(x, x) == 1.0 && Accuracy(x, x) == 1.0
  {
    SelfMatch(Obj(x));
    var t := CountNonEmpty(Obj(x));
    if t != 0 {
      DivSelf(t as real);
    }
  }

  lemma DivSelf(t: real)
    requires t != 0.0
    ensures t / t == 1.0
  {
  }

  /** Two non-empty lists count as one match, but the golden list counts each
      item: a record holding a two-name list scores 0.5 against itself. */
  lemma ListMatchesOnce()
    ensures var gold := map["aka" := Arr([Str("A"), Str("B")])];
      Completeness(gold, gold) == 0.5
  {
    var xs := [Str("A"), Str("B")];
    var gold := map["aka" := Arr(xs)];
    assert !Skipped("aka");
    SingleField("aka", Arr(xs));
    assert ItemsCount(xs, 2) == 0;
    assert CountNonEmpty(Arr(xs)) == 2;
    MatchesCountRemove(gold, gold, gold.Keys, "aka");
    assert gold.Keys - {"aka"} == {};
    assert CountMatching(Obj(gold), Obj(gold)) == 1;
  }

  /** A list whose items are all empty counts nothing in the golden record but
      still matches once, so completeness can exceed 1. */
  lemma CompletenessAboveOne()
    ensures var gold := map["aka" := Arr([Str("")]), "name" := Str("A")];
      Completeness(gold, gold) == 2.0
  {
    var gold := map["aka" := Arr([Str("")]), "name" := Str("A")];
    EmptyItemsGoldCounts(gold);
    EmptyItemsGoldMatches(gold);
  }

  lemma EmptyItemsGoldCounts(gold: Dict)
    requires gold == map["aka" := Arr([Str("")]), "name" := Str("A")]
    ensures CountNonEmpty(Obj(gold)) == 1
  {
    assert !Skipped("aka") && !Skipped("name") && "aka" != "name";
    FieldsCountRemove(gold, gold.Keys, "aka");
    assert gold.Keys - {"aka"} == {"name"};
    FieldsCountRemove(gold, {"name"}, "name");
    assert ItemsCount([Str("")], 1) == 0;
  }

  lemma EmptyItemsGoldMatches(gold: Dict)
    requires gold == map["aka" := Arr([Str("")]), "name" := Str("A")]
    ensures CountMatching(Obj(gold), Obj(gold)) == 2
  {
    assert !Skipped("aka") && !Skipped("name") && "aka" != "name";
    MatchesCountRemove(gold, gold, gold.Keys, "aka");
    assert gold.Keys - {"aka"} == {"name"};
    MatchesCountRemove(gold, gold, {"name"}, "name");
  }

  // ------------------------------------------------------------ F1

  function Min(a: real, b: real): real { if a <= b then a else b }
  function Max(a: real, b: real): real { if a >= b then a else b }

  /** `calculate_f1_score(p, r)`: the harmonic mean, 0.0 when both are 0. It
      lies between the two scores. */
  function F1(p: real, r: real): (f: real)
    ensures p + r == 0.0 ==> f == 0.0
    ensures p >= 0.0 && r >= 0.0 ==> Min(p, r) <= f <= Max(p, r)
  {
    if p + r == 0.0 then 0.0
    else
      assert p >= 0.0 && r >= 0.0 ==> Min(p, r) <= 2.0 * (p * r) / (p + r) <= Max(p, r) by {
        if p >= 0.0 && r >= 0.0 { HarmonicBetween(p, r); }
      }
      2.0 * (p * r) / (p + r)
  }

  lemma HarmonicBetween(p: real, r: real)
    requires p >= 0.0 && r >= 0.0 && p + r > 0.0
    ensures Min(p, r) <= 2.0 * (p * r) / (p + r) <= Max(p, r)
  {
    var s := p + r;
    var lo, hi := Min(p, r), Max(p, r);
    assert lo * hi == p * r && lo + hi == s;
    assert lo * s <= 2.0 * (p * r) by {
      assert lo * s == lo * lo + lo * hi;
      assert lo * lo <= lo * hi;
    }
    assert 2.0 * (p * r) <= hi * s by {
      assert hi * s == lo * hi + hi * hi;
      assert lo * hi <= hi * hi;
    }
    DivBetween(lo, hi, 2.0 * (p * r), s);
  }

  lemma DivBetween(lo: real, hi: real, x: real, s: real)
    requires s > 0.0 && lo * s <= x <= hi * s
    ensures lo <= x / s <= hi
  {
  }

  /** F1 is symmetric, and the F1 of two equal scores is that score. */
  lemma F1Symmetric(p: real, r: real)
    ensures F1(p, r) == F1(r, p)
    ensures p > 0.0 ==> F1(p, p) == p
  {
    assert p * r == r * p;
    if p > 0.0 {
      assert 2.0 * (p * p) == p * (p + p);
    }
  }

  // ------------------------------------------------------------ rates

  /** The number of empty error lists. */
  function Passed(results: seq<seq<string>>): (n: nat)
    ensures n <= |results|
  {
    if results == [] then 0 else (if results[0] == [] then 1 else 0) + Passed(results[1..])
  }

  /** `calculate_schema_compliance_rate(records, results)`: the number of
      empty error lists over the number of records. */
  function ComplianceRate(records: nat, results: seq<seq<string>>): (r: real)
    ensures records == 0 ==> r == 0.0
    ensures r >= 0.0
    ensures |results| <= records ==> r <= 1.0
  {
    if records == 0 then 0.0 else Passed(results) as real / records as real
  }

  /** The documented case: three records, the second with an error. */
  lemma ComplianceExample()
    ensures ComplianceRate(3, [[], ["error"], []]) == 2.0 / 3.0
  {
    var rs: seq<seq<string>> := [[], ["error"], []];
    assert rs[1..] == [["error"], []] && rs[1..][1..] == [[]];
    assert Passed(rs) == 2;
  }

  /** The rate divides by the records, not by the results: more results than
      records can push it past 1. */
  lemma ComplianceAboveOne()
    ensures ComplianceRate(1, [[], []]) == 2.0
  {
    var rs: seq<seq<string>> := [[], []];
    assert rs[1..] == [[]];
  }

  /** The rate over the validation results themselves, as the docstring's
      "between 0.0 and 1.0" intends. */
  function ComplianceOverResults(results: seq<seq<string>>): (r: real)
    ensures 0.0 <= r <= 1.0
    ensures results != [] && Passed(results) == |results| ==> r == 1.0
  {
    if results == [] then 0.0
    else
      DivAtMostOne(Passed(results) as real, |results| as real);
      Passed(results) as real / |results| as real
  }

  /** With one result per record, the corrected rate is the code's. */
  lemma ComplianceOverResultsAgrees(records: nat, results: seq<seq<string>>)
    requires |results| == records
    ensures ComplianceOverResults(results) == ComplianceRate(records, results)
  {
  }

  /** The number of positive repair counts. */
  function Repaired(counts: seq<int>): (n: nat)
    ensures n <= |counts|
    ensures n == 0 <==> forall i | 0 <= i < |counts| :: counts[i] <= 0
    ensures n == |counts| <==> forall i | 0 <= i < |counts| :: counts[i] > 0
  {
    if counts == [] then 0
    else
      var n := Repaired(counts[1..]);
      assert forall i | 1 <= i < |counts| :: counts[i] == counts[1..][i - 1];
      (if counts[0] > 0 then 1 else 0) + n
  }

  /** `calculate_repair_rate(counts)`: the share of records repaired at least
      once; 0.0 for no records, 1.0 exactly when every record was repaired. */
  function RepairRate(counts: seq<int>): (r: real)
    ensures counts == [] ==> r == 0.0
    ensures 0.0 <= r <= 1.0
    ensures counts != [] ==> (r == 1.0 <==> forall i | 0 <= i < |counts| :: counts[i] > 0)
    ensures r == 0.0 <==> forall i | 0 <= i < |counts| :: counts[i] <= 0
  {
    if counts == [] then 0.0
    else
      var n, t := Repaired(counts) as real, |counts| as real;
      RatioFacts(n, t);
      n / t
  }

  lemma RatioFacts(n: real, t: real)
    requires 0.0 <= n <= t && t > 0.0
    ensures 0.0 <= n / t <= 1.0
    ensures n / t == 1.0 <==> n == t
    ensures n / t == 0.0 <==> n == 0.0
  {
  }

  /** `calculate_geocoding_cache_hit_rate(stats)`: hits over hits plus
      misses, each 0 when absent; 0.0 when there were no lookups. */
  function CacheHitRate(stats: map<string, int>): (r: real)
    ensures var h, m := GetCount(stats, "hits"), GetCount(stats, "misses");
      && (h + m == 0 ==> r == 0.0)
      && (h >= 0 && m >= 0 && h + m > 0 ==> 0.0 <= r <= 1.0 && (r == 1.0 <==> m == 0))
  {
    var h, m := GetCount(stats, "hits"), GetCount(stats, "misses");
    if h + m == 0 then 0.0
    else
      var r := h as real / (h + m) as real;
      assert h >= 0 && m >= 0 ==> 0.0 <= r <= 1.0 && (r == 1.0 <==> m == 0) by {
        if h >= 0 && m >= 0 { RatioFacts(h as real, (h + m) as real); }
      }
      r
  }

  function GetCount(stats: map<string, int>, k: string): int {
    if k in stats then stats[k] else 0
  }

  /** A record counted by `calculate_ocr_fallback_rate`: its provenance says
      `extraction_method` "ocr", or its `_fulltext` starts with "OCR". The
      reads raise when the provenance is not a dict or the text not a
      string. */
  function UsedOcr(record: Dict): (r: Result<bool>)
    ensures r.Raise? <==> (
      || ("provenance" in record && !record["provenance"].Obj?)
      || (!("provenance" in record && Get(record["provenance"].fields, "extraction_method") == Str("ocr"))
          && "_fulltext" in record && !record["_fulltext"].Str?))
    ensures r == Ok(true) ==> "provenance" in record || "_fulltext" in record
  {
    var prov := if "provenance" in record then record["provenance"] else Obj(map[]);
    if !prov.Obj? then Raise("AttributeError")
    else if Get(prov.fields, "extraction_method") == Str("ocr") then Ok(true)
    else
      var text := if "_fulltext" in record then record["_fulltext"] else Str("");
      if !text.Str? then Raise("AttributeError") else Ok(StartsWith(text.s, "OCR"))
  }

  /** The number of OCR records, or the first error. */
  function OcrCount(records: seq<Dict>): (r: Result<nat>)
    ensures r.Ok? ==> r.value <= |records|
    ensures r.Ok? <==> forall i | 0 <= i < |records| :: UsedOcr(records[i]).Ok?
  {
    if records == [] then Ok(0)
    else
      assert forall i | 1 <= i < |records| :: records[i] == records[1..][i - 1];
      match UsedOcr(records[0])
      case Raise(e) => Raise(e)
      case Ok(b) =>
        match OcrCount(records[1..])
        case Raise(e) => Raise(e)
        case Ok(n) => Ok((if b then 1 else 0) + n)
  }

  /** `calculate_ocr_fallback_rate(records)`. */
  function OcrFallbackRate(records: seq<Dict>): (r: Result<real>)
    ensures records == [] ==> r == Ok(0.0)
    ensures r.Ok? ==> 0.0 <= r.value <= 1.0
    ensures records != [] ==> (r.Ok? <==> OcrCount(records).Ok?)
  {
    if records == [] then Ok(0.0)
    else
      match OcrCount(records)
      case Raise(e) => Raise(e)
      case Ok(n) =>
        RatioFacts(n as real, |records| as real);
        Ok(n as real / |records| as real)
  }
}

=== FILE: osm.dfy ===
/** The attribute derivations of scripts/osm_import.py that turn one
    OpenStreetMap edge into RoadSegment fields: the compass quadrant of a
    bearing, the parse of a `ref` token into a route designation, the choice
    of the primary route among several tokens, the corridor codes, the
    de-duplicated local names and the allowed travel directions. */
module Osm {
  import opened Wrappers
  import opened Json
  import opened Text
  import opened Runtime
  import opened TextClean

  // ------------------------------------------------------------ bearings

  datatype Cardinal = NB | EB | SB | WB

  function CardinalName(c: Cardinal): string {
    match c
    case NB => "NB"
    case EB => "EB"
    case SB => "SB"
    case WB => "WB"
  }

  /** `float(b) % 360.0`: Python's remainder takes the sign of the divisor,
      so the result lies in [0, 360) for negative bearings too. */
  function Mod360(b: real): (r: real)
    ensures 0.0 <= r < 360.0
  {
    b - 360.0 * ((b / 360.0).Floor as real)
  }

  /** The remainder is the unique value in [0, 360) that differs from `b` by
      whole turns. */
  lemma Mod360Unique(b: real, r: real, k: int)
    requires 0.0 <= r < 360.0 && b == r + 360.0 * k as real
    ensures Mod360(b) == r
  {
    assert b / 360.0 == r / 360.0 + k as real;
    assert (b / 360.0).Floor == k;
  }

  /** `bearing_to_cardinal(b)`: NB for [315, 360) and [0, 45), EB for
      [45, 135), SB for [135, 225), WB for [225, 315), after reduction;
      `None` for no bearing. */
  function BearingToCardinal(b: Option<real>): (r: Option<Cardinal>)
    ensures r.None? <==> b.None?
    ensures b.Some? ==> var d := Mod360(b.value);
      && (r == Some(NB) <==> d >= 315.0 || d < 45.0)
      && (r == Some(EB) <==> 45.0 <= d < 135.0)
      && (r == Some(SB) <==> 135.0 <= d < 225.0)
      && (r == Some(WB) <==> 225.0 <= d < 315.0)
  {
    if b.None? then None
    else
      var d := Mod360(b.value);
      if d >= 315.0 || d < 45.0 then Some(NB)
      else if 45.0 <= d < 135.0 then Some(EB)
      else if 135.0 <= d < 225.0 then Some(SB)
      else Some(WB)
  }

  /** Whole turns do not change the quadrant. */
  lemma CardinalPeriodic(b: real, k: int)
    ensures BearingToCardinal(Some(b + 360.0 * k as real)) == BearingToCardinal(Some(b))
  {
    var r := Mod360(b);
    var q := (b / 360.0).Floor;
    Mod360Unique(b + 360.0 * k as real, r, q + k);
  }

  /** Due west given as -90 degrees reduces to 270, which is WB; 359.5 is
      NB. */
  lemma CardinalExamples()
    ensures BearingToCardinal(Some(-90.0)) == Some(WB)
    ensures BearingToCardinal(Some(359.5)) == Some(NB)
    ensures BearingToCardinal(Some(90.0)) == Some(EB)
  {
    Mod360Unique(-90.0, 270.0, -1);
    Mod360Unique(359.5, 359.5, 0);
    Mod360Unique(90.0, 90.0, 0);
  }

  // ------------------------------------------------------------ ref tokens

  /** A parsed route designation: system, number, branch and signing. */
  datatype Route = Route(system: string, number: string, branch: string, signing: string)

  const NoRoute := Route("Unknown", "", "None", "None")

  predicate IsSystem(s: string) {
    s == "Interstate" || s == "US Highway" || s == "Primary Highway" || s == "Unknown"
  }

  /** The signing that goes with each route system. */
  function SigningOf(system: string): string {
    if system == "Interstate" then "Interstate"
    else if system == "US Highway" then "US"
    else if system == "Primary Highway" then "VA"
    else "None"
  }

  predicate AllDigits(s: string) {
    forall i | 0 <= i < |s| :: IsDigit(s[i])
  }

  /** The branch keywords in the order `BRANCH_MAP` lists them. */
  const BranchTable: seq<(string, string)> := [
    ("BUS", "Business"), ("BUSINESS", "Business"),
    ("ALT", "Alternate"), ("ALTERNATE", "Alternate"),
    ("BYP", "Bypass"), ("BYPASS", "Bypass"),
    ("TRUCK", "Truck"), ("SPUR", "Spur")
  ]

  predicate IsBranch(b: string) {
    b == "None" || exists i | 0 <= i < |BranchTable| :: BranchTable[i].1 == b
  }

  /** En and em dashes become hyphens. */
  function DashChar(c: char): char {
    if c == '–' || c == '—' then '-' else c
  }

  function Dashes(s: string): (r: string)
    ensures |r| == |s| && forall i | 0 <= i < |s| :: r[i] == DashChar(s[i])
  {
    seq(|s|, i requires 0 <= i < |s| => DashChar(s[i]))
  }

  /** `re.sub(r"\s+", " ", s)`: each run of whitespace becomes one space. */
  function Squash(s: string): (r: string)
    ensures |r| <= |s|
    ensures forall i | 0 <= i < |r| :: r[i] == ' ' || r[i] in s
    ensures s != [] && !IsSpace(s[0]) ==> r != [] && r[0] == s[0]
    ensures s != [] && !IsSpace(s[|s| - 1]) ==> r != [] && r[|r| - 1] == s[|s| - 1]
    ensures SingleSpaced(r)
  {
    CollapseChars(s);
    CollapseLast(s);
    CollapseSingleSpaced(s);
    Collapse(s)
  }

  /** The scan behind `Squash`: a whitespace run is replaced by one space and
      skipped, any other character is kept. */
  function Collapse(s: string): (r: string)
    decreases |s|
  {
    if s == [] then []
    else if IsSpace(s[0]) then
      SkipSpaceSpec(s, 0);
      " " + Collapse(s[SkipSpace(s, 0)..])
    else [s[0]] + Collapse(s[1..])
  }

  /** The collapse is no longer than its input, keeps a leading character
      that is not whitespace, and writes only spaces and input characters. */
  lemma {:induction false} CollapseChars(s: string)
    ensures |Collapse(s)| <= |s|
    ensures s != [] && !IsSpace(s[0]) ==> Collapse(s) != [] && Collapse(s)[0] == s[0]
    ensures forall i | 0 <= i < |Collapse(s)| :: Collapse(s)[i] == ' ' || Collapse(s)[i] in s
    decreases |s|
  {
    if s != [] {
      var r := Collapse(s);
      if IsSpace(s[0]) {
        SkipSpaceSpec(s, 0);
        var t := s[SkipSpace(s, 0)..];
        CollapseChars(t);
        assert forall i | 1 <= i < |r| :: r[i] == Collapse(t)[i - 1];
        assert forall c | c in t :: c in s;
      } else {
        CollapseChars(s[1..]);
        assert forall i | 1 <= i < |r| :: r[i] == Collapse(s[1..])[i - 1];
        assert forall c | c in s[1..] :: c in s;
      }
    }
  }

  /** A trailing character that is not whitespace stays last. */
  lemma {:induction false} CollapseLast(s: string)
    ensures s != [] && !IsSpace(s[|s| - 1]) ==> Collapse(s) != [] && Collapse(s)[|Collapse(s)| - 1] == s[|s| - 1]
    decreases |s|
  {
    if s != [] && !IsSpace(s[|s| - 1]) {
      if IsSpace(s[0]) {
        SkipSpaceSpec(s, 0);
        var t := s[SkipSpace(s, 0)..];
        CollapseLast(t);
        assert t[|t| - 1] == s[|s| - 1];
      } else if |s| > 1 {
        CollapseLast(s[1..]);
        assert s[1..][|s[1..]| - 1] == s[|s| - 1];
      }
    }
  }

  /** The collapse is single-spaced. */
  lemma {:induction false} CollapseSingleSpaced(s: string)
    ensures SingleSpaced(Collapse(s))
    decreases |s|
  {
    if s != [] {
      var r := Collapse(s);
      if IsSpace(s[0]) {
        SkipSpaceSpec(s, 0);
        var t := s[SkipSpace(s, 0)..];
        CollapseSingleSpaced(t);
        CollapseChars(t);
        assert forall i | 1 <= i < |r| :: r[i] == Collapse(t)[i - 1];
      } else {
        CollapseSingleSpaced(s[1..]);
        assert forall i | 1 <= i < |r| :: r[i] == Collapse(s[1..])[i - 1];
      }
    }
  }

  /** Text without whitespace is left alone. */
  lemma {:induction false} SquashNoSpace(s: string)
    requires forall i | 0 <= i < |s| :: !IsSpace(s[i])
    ensures Squash(s) == s
    decreases |s|
  {
    if s != [] {
      SquashNoSpace(s[1..]);
    }
  }

  /** Every whitespace character is a plain space followed by a character
      that is not whitespace (or by the end). */
  predicate SingleSpaced(s: string) {
    forall i | 0 <= i < |s| :: IsSpace(s[i]) ==> s[i] == ' ' && (i + 1 == |s| || !IsSpace(s[i + 1]))
  }

  /** Single-spaced text is left alone by the collapse. */
  lemma {:induction false} SquashSingleSpaced(s: string)
    requires SingleSpaced(s)
    ensures Squash(s) == s
    decreases |s|
  {
    if s != [] {
      assert SingleSpaced(s[1..]) by {
        forall i | 0 <= i < |s[1..]| && IsSpace(s[1..][i])
          ensures s[1..][i] == ' ' && (i + 1 == |s[1..]| || !IsSpace(s[1..][i + 1]))
        {
          assert s[1..][i] == s[i + 1];
          if i + 1 < |s[1..]| {
            assert s[1..][i + 1] == s[i + 2];
          }
        }
      }
      SquashSingleSpaced(s[1..]);
      if IsSpace(s[0]) {
        assert SkipSpace(s, 1) == 1;
        assert s == " " + s[1..];
      } else {
        assert s == [s[0]] + s[1..];
      }
    }
  }

  /** The token after `strip`, `upper`, the dash replacement and the
      whitespace collapse. */
  function Normalize(token: string): (r: string)
    ensures |r| <= |token|
    ensures SingleSpaced(r)
    ensures forall i | 0 <= i < |r| :: !('a' <= r[i] <= 'z') && r[i] != '–' && r[i] != '—'
    ensures r != [] ==> !IsSpace(r[0]) && !IsSpace(r[|r| - 1])
  {
    StripSpec(token);
    var t := Strip(token);
    FoldKeepsSpaces(t);
    Squash(Dashes(Upper(t)))
  }

  /** Upper-casing and the dash replacement leave every whitespace character
      where it was, and leave no lower-case letter and no long dash. */
  lemma FoldKeepsSpaces(t: string)
    ensures var d := Dashes(Upper(t));
      && |d| == |t|
      && (forall i | 0 <= i < |t| :: IsSpace(d[i]) <==> IsSpace(t[i]))
      && forall c | c in d :: !('a' <= c <= 'z') && c != '–' && c != '—'
  {
  }

  /** `\bk\b` matches at `i`: the keyword sits there with no word character
      right before or after it. */
  predicate WordAt(env: Env, t: string, k: string, i: nat) {
    && MatchAt(t, k, i)
    && (i == 0 || !WordChar(env, t[i - 1]))
    && (i + |k| == |t| || !WordChar(env, t[i + |k|]))
  }

  /** `re.search(rf"\b{k}\b", t)` from index `i` on. */
  function FindWord(env: Env, t: string, k: string, i: nat): (b: bool)
    requires k != []
    ensures b <==> exists j: nat | i <= j < |t| :: WordAt(env, t, k, j)
    decreases |t| - i
  {
    if i >= |t| then false
    else WordAt(env, t, k, i) || FindWord(env, t, k, i + 1)
  }

  /** `re.sub(rf"\b{k}\b", "", t)` from index `i` on: every match, scanned
      left to right, is cut out. */
  function RemoveWord(env: Env, t: string, k: string, i: nat): (r: string)
    requires k != [] && i <= |t|
    ensures |r| <= |t| - i
    decreases |t| - i
  {
    if i == |t| then []
    else if WordAt(env, t, k, i) then RemoveWord(env, t, k, i + |k|)
    else [t[i]] + RemoveWord(env, t, k, i + 1)
  }

  /** The first keyword of the table, from index `n` on, that occurs as a
      word: its branch name and the text with it removed and stripped. */
  function TakeBranch(env: Env, t: string, n: nat): (r: (string, string))
    requires n <= |BranchTable|
    ensures IsBranch(r.0)
    ensures r.0 == "None" ==> r.1 == t
    decreases |BranchTable| - n
  {
    if n == |BranchTable| then ("None", t)
    else
      var (k, v) := BranchTable[n];
      if FindWord(env, t, k, 0) then (v, Strip(RemoveWord(env, t, k, 0)))
      else TakeBranch(env, t, n + 1)
  }

  /** `re.match(rf"^{p}[\s\-]?(\d+)$", t)`: the digits after the prefix and
      at most one space or hyphen. */
  function MatchRoute(t: string, p: string): (r: Option<string>)
    ensures r.Some? ==> r.value != [] && AllDigits(r.value)
  {
    if !StartsWith(t, p) then None
    else
      var rest := t[|p|..];
      var d := if rest != [] && (IsSpace(rest[0]) || rest[0] == '-') then rest[1..] else rest;
      if d != [] && AllDigits(d) then Some(d) else None
  }

  /** `parse_ref_token(token)`. */
  function ParseRef(env: Env, token: string): (r: Route)
    ensures IsSystem(r.system) && r.signing == SigningOf(r.system)
    ensures IsBranch(r.branch)
    ensures AllDigits(r.number) && (r.number == [] <==> r.system == "Unknown")
  {
    var (branch, t) := TakeBranch(env, Normalize(token), 0);
    match MatchRoute(t, "I")
    case Some(n) => Route("Interstate", n, branch, "Interstate")
    case None =>
      match MatchRoute(t, "US")
      case Some(n) => Route("US Highway", n, branch, "US")
      case None =>
        match MatchRoute(t, "VA")
        case Some(n) => Route("Primary Highway", n, branch, "VA")
        case None =>
          match MatchRoute(t, "SR")
          case Some(n) => Route("Primary Highway", n, branch, "VA")
          case None => Route("Unknown", "", branch, "None")
  }

  // ------------------------------------------------------------ corridor codes

  /** The corridor prefix of each mapped route system. */
  function PrefixOf(system: string): Option<string> {
    if system == "Interstate" then Some("I")
    else if system == "US Highway" then Some("US")
    else if system == "Primary Highway" then Some("VA")
    else None
  }

  /** `build_corridor_codes(system, number, bearing)`: empty for a missing
      system or number or an unmapped system; otherwise the single code
      "PREFIX-number", with the quadrant appended when there is a bearing. */
  function CorridorCodes(system: string, number: string, bearing: Option<real>): (r: seq<string>)
    ensures r == [] <==> system == [] || number == [] || PrefixOf(system).None?
    ensures r != [] ==> |r| == 1 && StartsWith(r[0], PrefixOf(system).value + "-" + number)
    ensures r != [] ==> (bearing.None? <==> r[0] == PrefixOf(system).value + "-" + number)
  {
    if system == [] || number == [] then []
    else
      match PrefixOf(system)
      case None => []
      case Some(p) =>
        var code := p + "-" + number;
        match BearingToCardinal(bearing)
        case Some(c) =>
          assert |code + " " + CardinalName(c)| > |code|;
          [code + " " + CardinalName(c)]
        case None => [code]
  }

  /** Upper-case ASCII letters, digits and hyphens: the shape of a corridor
      code without its quadrant. */
  predicate Plain(t: string) {
    forall i | 0 <= i < |t| :: 'A' <= t[i] <= 'Z' || IsDigit(t[i]) || t[i] == '-'
  }

  predicate Letter(c: char) {
    'A' <= c <= 'Z'
  }

  /** Normalising plain text changes nothing. */
  lemma NormalizePlain(t: string)
    requires Plain(t)
    ensures Normalize(t) == t
  {
    assert forall i | 0 <= i < |t| :: !IsSpace(t[i]);
    StripPlain(t);
    assert Upper(t) == t;
    assert Dashes(t) == t;
    SquashNoSpace(t);
  }

  /** Normalising twice is normalising once. */
  lemma NormalizeIdempotent(t: string)
    ensures Normalize(Normalize(t)) == Normalize(t)
  {
    var r := Normalize(t);
    if r != [] {
      StripTrimmed(r);
    } else {
      assert SkipSpace(r, 0) == 0;
    }
    assert Upper(r) == r;
    assert Dashes(r) == r;
    SquashSingleSpaced(r);
  }

  lemma StripPlain(t: string)
    requires forall i | 0 <= i < |t| :: !IsSpace(t[i])
    ensures Strip(t) == t
  {
    if t != [] {
      StripTrimmed(t);
    }
  }

  /** A prefix of at most two letters, a hyphen and digits has no run of
      three letters, so no branch keyword occurs in it. */
  lemma NoBranchIn(env: Env, p: string, n: string, k: string)
    requires 1 <= |p| <= 2 && (forall i | 0 <= i < |p| :: Letter(p[i]))
    requires AllDigits(n) && |k| >= 3 && (forall i | 0 <= i < |k| :: Letter(k[i]))
    ensures !FindWord(env, p + "-" + n, k, 0)
  {
    var t := p + "-" + n;
    forall j: nat | j < |t|
      ensures !MatchAt(t, k, j)
    {
      if j + |k| <= |t| {
        ThreeNotLetters(p, n, j);
        var w := t[j..j + |k|];
        assert w[0] == t[j] && w[1] == t[j + 1] && w[2] == t[j + 2];
      }
    }
  }

  /** Any three neighbouring characters of such a code include a
      non-letter. */
  lemma ThreeNotLetters(p: string, n: string, j: nat)
    requires 1 <= |p| <= 2 && AllDigits(n) && j + 2 < |p| + 1 + |n|
    ensures var t := p + "-" + n; !Letter(t[j]) || !Letter(t[j + 1]) || !Letter(t[j + 2])
  {
    var t := p + "-" + n;
    if j <= |p| {
      assert t[|p|] == '-';
    } else {
      assert t[j] == n[j - |p| - 1];
    }
  }

  lemma NoBranchWord(env: Env, p: string, n: string, m: nat)
    requires 1 <= |p| <= 2 && (forall i | 0 <= i < |p| :: Letter(p[i])) && AllDigits(n)
    requires m <= |BranchTable|
    ensures TakeBranch(env, p + "-" + n, m) == ("None", p + "-" + n)
    decreases |BranchTable| - m
  {
    if m < |BranchTable| {
      var (k, v) := BranchTable[m];
      assert |k| >= 3 && forall i | 0 <= i < |k| :: Letter(k[i]);
      NoBranchIn(env, p, n, k);
      NoBranchWord(env, p, n, m + 1);
    }
  }

  /** The corridor code text of a mapped system is plain. */
  lemma CodeIsPlain(p: string, n: string)
    requires forall i | 0 <= i < |p| :: Letter(p[i])
    requires AllDigits(n)
    ensures Plain(p + "-" + n)
  {
    var t := p + "-" + n;
    forall i | 0 <= i < |t| ensures 'A' <= t[i] <= 'Z' || IsDigit(t[i]) || t[i] == '-' {
      if i < |p| { assert t[i] == p[i]; }
      else if i > |p| { assert t[i] == n[i - |p| - 1]; }
    }
  }

  /** The code matches its own prefix, and yields the number. */
  lemma MatchOwnPrefix(p: string, n: string)
    requires n != [] && AllDigits(n)
    ensures MatchRoute(p + "-" + n, p) == Some(n)
  {
    var t := p + "-" + n;
    assert t[..|p|] == p;
    assert t[|p|..] == "-" + n;
    assert ("-" + n)[1..] == n;
  }

  /** A code is normalised and holds no branch keyword. */
  lemma CodeUntouched(env: Env, p: string, n: string)
    requires 1 <= |p| <= 2 && (forall i | 0 <= i < |p| :: Letter(p[i])) && AllDigits(n)
    ensures TakeBranch(env, Normalize(p + "-" + n), 0) == ("None", p + "-" + n)
  {
    CodeIsPlain(p, n);
    NormalizePlain(p + "-" + n);
    NoBranchWord(env, p, n, 0);
  }

  /** A corridor code without a quadrant parses back to the route it was
      built from. */
  lemma CorridorCodeParses(env: Env, system: string, number: string)
    requires PrefixOf(system).Some? && number != [] && AllDigits(number)
    ensures CorridorCodes(system, number, None) == [PrefixOf(system).value + "-" + number]
    ensures ParseRef(env, CorridorCodes(system, number, None)[0]) == Route(system, number, "None", SigningOf(system))
  {
    var c := CorridorCodes(system, number, None);
    assert c != [] && c[0] == PrefixOf(system).value + "-" + number;
    if system == "Interstate" {
      InterstateCodeParses(env, number);
    } else if system == "US Highway" {
      UsCodeParses(env, number);
    } else {
      VaCodeParses(env, number);
    }
  }

  /** "I-n" reads as an Interstate. */
  lemma InterstateCodeParses(env: Env, number: string)
    requires number != [] && AllDigits(number)
    ensures ParseRef(env, "I" + "-" + number) == Route("Interstate", number, "None", "Interstate")
  {
    assert Letter('I');
    CodeUntouched(env, "I", number);
    MatchOwnPrefix("I", number);
  }

  /** "US-n" reads as a US Highway. */
  lemma UsCodeParses(env: Env, number: string)
    requires number != [] && AllDigits(number)
    ensures ParseRef(env, "US" + "-" + number) == Route("US Highway", number, "None", "US")
  {
    var t := "US" + "-" + number;
    assert Letter('U') && Letter('S');
    CodeUntouched(env, "US", number);
    MatchOwnPrefix("US", number);
    OtherPrefix(t, "I");
  }

  /** "VA-n" reads as a Primary Highway. */
  lemma VaCodeParses(env: Env, number: string)
    requires number != [] && AllDigits(number)
    ensures ParseRef(env, "VA" + "-" + number) == Route("Primary Highway", number, "None", "VA")
  {
    var t := "VA" + "-" + number;
    assert Letter('V') && Letter('A');
    CodeUntouched(env, "VA", number);
    MatchOwnPrefix("VA", number);
    OtherPrefix(t, "I");
    OtherPrefix(t, "US");
  }

  /** "SR-n" reads as a Primary Highway with VA signing. */
  lemma SrIsPrimary(env: Env, number: string)
    requires number != [] && AllDigits(number)
    ensures ParseRef(env, "SR" + "-" + number) == Route("Primary Highway", number, "None", "VA")
  {
    var t := "SR" + "-" + number;
    assert Letter('S') && Letter('R');
    CodeUntouched(env, "SR", number);
    MatchOwnPrefix("SR", number);
    OtherPrefix(t, "I");
    OtherPrefix(t, "US");
    OtherPrefix(t, "VA");
  }

  /** A token whose first letter differs from the pattern's does not match it. */
  lemma OtherPrefix(t: string, p: string)
    requires t != [] && p != [] && t[0] != p[0]
    ensures MatchRoute(t, p).None?
  {
  }

  // ------------------------------------------------------------ the primary route

  /** The preference order Interstate > US > Primary > anything else. */
  function Rank(system: string): nat {
    if system == "Interstate" then 3
    else if system == "US Highway" then 2
    else if system == "Primary Highway" then 1
    else 0
  }

  /** The loop over the tokens: a later token replaces the current choice
      only when it ranks strictly higher. */
  function Primary(tokens: seq<Route>): (r: Route)
    ensures forall j | 0 <= j < |tokens| :: Rank(tokens[j].system) <= Rank(r.system)
    ensures r == NoRoute <==> forall j | 0 <= j < |tokens| :: Rank(tokens[j].system) == 0
    ensures r != NoRoute ==>
      exists i | 0 <= i < |tokens| :: r == tokens[i] && forall j | 0 <= j < i :: Rank(tokens[j].system) < Rank(r.system)
  {
    if tokens == [] then NoRoute
    else
      var cur := Primary(tokens[..|tokens| - 1]);
      var last := tokens[|tokens| - 1];
      assert forall j | 0 <= j < |tokens| - 1 :: tokens[j] == tokens[..|tokens| - 1][j];
      if Rank(last.system) > Rank(cur.system) then last else cur
  }

  /** The primary route is the first token of the highest rank. */
  lemma PrimaryIsFirstBest(tokens: seq<Route>, i: nat)
    requires i < |tokens| && Rank(tokens[i].system) > 0
    requires forall j | 0 <= j < |tokens| :: Rank(tokens[j].system) <= Rank(tokens[i].system)
    requires forall j | 0 <= j < i :: Rank(tokens[j].system) < Rank(tokens[i].system)
    ensures Primary(tokens) == tokens[i]
  {
    var r := Primary(tokens);
    assert Rank(r.system) >= Rank(tokens[i].system) > 0;
    assert r != NoRoute;
    var k :| 0 <= k < |tokens| && r == tokens[k] && forall j | 0 <= j < k :: Rank(tokens[j].system) < Rank(r.system);
    assert Rank(tokens[k].system) <= Rank(tokens[i].system);
  }

  /** `re.split(r"[;|/,]", ref)`. */
  predicate IsRefSep(c: char) {
    c == ';' || c == '|' || c == '/' || c == ','
  }

  predicate NoSep(s: string) {
    forall i | 0 <= i < |s| :: !IsRefSep(s[i])
  }

  function RefTokens(s: string): (r: seq<string>)
    ensures |r| >= 1
    ensures forall k | 0 <= k < |r| :: NoSep(r[k])
    ensures NoSep(s) ==> r == [s]
    decreases |s|
  {
    if s == [] then [[]]
    else
      var rest := RefTokens(s[1..]);
      if IsRefSep(s[0]) then [[]] + rest
      else
        NoSepCons(s[0], rest[0]);
        assert NoSep(s) ==> NoSep(s[1..]) && s == [s[0]] + s[1..];
        [[s[0]] + rest[0]] + rest[1..]
  }

  lemma NoSepCons(c: char, s: string)
    requires !IsRefSep(c) && NoSep(s)
    ensures NoSep([c] + s)
  {
    assert forall i | 1 <= i < |s| + 1 :: ([c] + s)[i] == s[i - 1];
  }

  /** Splitting and joining back with ';' restores a ref that only uses ';'. */
  lemma {:induction false} RefTokensJoin(s: string)
    requires forall i | 0 <= i < |s| :: !IsRefSep(s[i]) || s[i] == ';'
    ensures Join(";", RefTokens(s)) == s
    decreases |s|
  {
    if s != [] {
      var rest := RefTokens(s[1..]);
      RefTokensJoin(s[1..]);
      if IsRefSep(s[0]) {
        JoinCons(";", [], rest);
        assert s == [s[0]] + s[1..];
      } else {
        var head := [s[0]] + rest[0];
        if |rest| == 1 {
          assert s == [s[0]] + s[1..];
        } else {
          JoinCons(";", rest[0], rest[1..]);
          JoinCons(";", head, rest[1..]);
          assert rest == [rest[0]] + rest[1..];
          assert s == [s[0]] + s[1..];
        }
      }
    }
  }

  function ParseAll(env: Env, tokens: seq<string>): (r: seq<Route>)
    ensures |r| == |tokens| && forall i | 0 <= i < |tokens| :: r[i] == ParseRef(env, tokens[i])
  {
    seq(|tokens|, i requires 0 <= i < |tokens| => ParseRef(env, tokens[i]))
  }

  /** The route designation of an edge: the primary route among the tokens
      of a truthy `ref` (none otherwise), and its corridor codes. */
  function Designation(env: Env, ref: Value, bearing: Option<real>): (r: (Route, seq<string>))
    ensures !Truthy(ref) ==> r.0 == NoRoute && r.1 == []
    ensures r.0 == NoRoute ==> r.1 == []
    ensures r.0 != NoRoute ==> |r.1| == 1
  {
    var route := if Truthy(ref) then Primary(ParseAll(env, RefTokens(Show(env, ref)))) else NoRoute;
    PrimaryNumbered(ParseAll(env, RefTokens(Show(env, ref))));
    (route, CorridorCodes(route.system, route.number, bearing))
  }

  /** A chosen route from parsed tokens has a ranked system and a number. */
  lemma PrimaryNumbered(tokens: seq<Route>)
    requires forall j | 0 <= j < |tokens| :: Rank(tokens[j].system) > 0 ==> tokens[j].number != []
    ensures var r := Primary(tokens); r != NoRoute ==> Rank(r.system) > 0 && r.number != []
  {
  }

  // ------------------------------------------------------------ names and directions

  predicate Distinct(xs: seq<string>) {
    forall i, j | 0 <= i < j < |xs| :: xs[i] != xs[j]
  }

  /** The index of the first occurrence of `x`. */
  function Pos(xs: seq<string>, x: string): (p: nat)
    requires x in xs
    ensures p < |xs| && xs[p] == x && x !in xs[..p]
  {
    if xs[0] == x then 0 else 1 + Pos(xs[1..], x)
  }

  /** The list comprehension with a `seen` set: the first occurrence of each
      name not already seen, in order. */
  function DedupFrom(xs: seq<string>, seen: set<string>): (r: seq<string>)
    ensures Distinct(r)
    ensures Elems(r) == Elems(xs) - seen
    decreases |xs|
  {
    if xs == [] then []
    else
      var rest := DedupFrom(xs[1..], seen + {xs[0]});
      assert Elems(xs) == {xs[0]} + Elems(xs[1..]);
      if xs[0] in seen then
        var r := DedupFrom(xs[1..], seen);
        r
      else
        assert xs[0] !in Elems(rest);
        assert Elems([xs[0]] + rest) == {xs[0]} + Elems(rest);
        [xs[0]] + rest
  }

  function Dedup(xs: seq<string>): (r: seq<string>)
    ensures Distinct(r) && Elems(r) == Elems(xs)
  {
    DedupFrom(xs, {})
  }

  /** A name of the tail other than the head sits one further on in the
      whole list. */
  lemma PosTail(xs: seq<string>, y: string)
    requires xs != [] && y in xs[1..] && y != xs[0]
    ensures y in xs && Pos(xs, y) == 1 + Pos(xs[1..], y)
  {
  }

  /** The names of `r` appear in `xs` in the order of their first
      occurrences there. */
  predicate FirstOrder(xs: seq<string>, r: seq<string>) {
    forall i, j | 0 <= i < j < |r| :: r[i] in xs && r[j] in xs && Pos(xs, r[i]) < Pos(xs, r[j])
  }

  /** The kept names appear in the order of their first occurrences. */
  lemma {:induction false} DedupOrder(xs: seq<string>, seen: set<string>)
    ensures FirstOrder(xs, DedupFrom(xs, seen))
    decreases |xs|
  {
    if xs != [] {
      var seen' := if xs[0] in seen then seen else seen + {xs[0]};
      var rest := DedupFrom(xs[1..], seen');
      DedupOrder(xs[1..], seen');
      assert FirstOrder(xs[1..], rest);
      forall i | 0 <= i < |rest|
        ensures rest[i] in xs && Pos(xs, rest[i]) == 1 + Pos(xs[1..], rest[i])
      {
        assert rest[i] in Elems(rest);
        PosTail(xs, rest[i]);
      }
      assert FirstOrder(xs, rest);
      var r := DedupFrom(xs, seen);
      if xs[0] !in seen {
        assert r == [xs[0]] + rest;
        forall i, j | 0 <= i < j < |r|
          ensures r[i] in xs && r[j] in xs && Pos(xs, r[i]) < Pos(xs, r[j])
        {
          assert r[j] == rest[j - 1];
          if i > 0 {
            assert r[i] == rest[i - 1];
          } else {
            assert Pos(xs, r[i]) == 0;
          }
        }
      } else {
        assert r == rest;
      }
    }
  }

  /** A list without repeats is kept as it is. */
  lemma {:induction false} DedupDistinct(xs: seq<string>, seen: set<string>)
    requires Distinct(xs) && Elems(xs) !! seen
    ensures DedupFrom(xs, seen) == xs
    decreases |xs|
  {
    if xs != [] {
      assert xs[0] !in seen;
      assert xs[0] !in xs[1..];
      assert Elems(xs[1..]) !! (seen + {xs[0]});
      DedupDistinct(xs[1..], seen + {xs[0]});
    }
  }

  /** The name attributes in the order they are read. */
  const NameKeys: seq<string> := ["name", "official_name", "alt_name", "loc_name", "short_name", "old_name"]

  /** The names one attribute contributes: nothing for `None`, `str` of each
      truthy item of a list, or `str` of the value itself. */
  function NamesOf(env: Env, v: Value): (r: seq<string>)
    ensures v == Null ==> r == []
    ensures !v.Arr? && v != Null ==> r == [Show(env, v)]
  {
    match v
    case Null => []
    case Arr(xs) => TruthyTexts(env, xs)
    case _ => [Show(env, v)]
  }

  function TruthyTexts(env: Env, xs: seq<Value>): (r: seq<string>)
    ensures |r| <= |xs|
    ensures forall y | y in r :: exists x | x in xs :: Truthy(x) && y == Show(env, x)
  {
    if xs == [] then []
    else (if Truthy(xs[0]) then [Show(env, xs[0])] else []) + TruthyTexts(env, xs[1..])
  }

  function CollectNames(env: Env, row: Dict, keys: seq<string>): (r: seq<string>)
    ensures forall y | y in r :: exists k | k in keys :: y in NamesOf(env, Get(row, k))
  {
    if keys == [] then []
    else NamesOf(env, Get(row, keys[0])) + CollectNames(env, row, keys[1..])
  }

  /** `localNames`: the names of the six attributes, without repeats, in
      the order first met. */
  function LocalNames(env: Env, row: Dict): (r: seq<string>)
    ensures Distinct(r)
    ensures Elems(r) == Elems(CollectNames(env, row, NameKeys))
    ensures forall y | y in r :: exists k | k in NameKeys :: y in NamesOf(env, Get(row, k))
  {
    var all := CollectNames(env, row, NameKeys);
    var r := Dedup(all);
    assert forall y | y in r :: y in Elems(r);
    r
  }

  /** `allowedDirections`: the edge's quadrant when it is one-way and has a
      bearing, otherwise nothing. */
  function AllowedDirections(oneway: Value, bearing: Option<real>): (r: seq<Cardinal>)
    ensures |r| <= 1
    ensures r != [] <==> Truthy(oneway) && bearing.Some?
  {
    if Truthy(oneway) && bearing.Some? then [BearingToCardinal(bearing).value] else []
  }

  /** On a one-way mapped route the allowed direction is the quadrant the
      corridor code ends with. */
  lemma DirectionMatchesCorridor(env: Env, ref: Value, oneway: Value, bearing: Option<real>)
    requires Truthy(oneway) && bearing.Some?
    requires Designation(env, ref, bearing).0 != NoRoute
    ensures var (route, codes) := Designation(env, ref, bearing);
      var dirs := AllowedDirections(oneway, bearing);
      codes == [PrefixOf(route.system).value + "-" + route.number + " " + CardinalName(dirs[0])]
  {
  }

  /** "I BUS 95" is already normalised. */
  lemma SpacedTokenNormal()
    ensures Normalize("I BUS 95") == "I BUS 95"
  {
    var t := "I BUS 95";
    StripTrimmed(t);
    assert Upper(t) == t;
    assert Dashes(t) == t;
    assert SingleSpaced(t) by {
      forall i | 0 <= i < |t| && IsSpace(t[i]) ensures t[i] == ' ' && (i + 1 == |t| || !IsSpace(t[i + 1])) {
        assert i == 1 || i == 5;
      }
    }
    SquashSingleSpaced(t);
  }

  /** Removing "BUS" from "I BUS 95" leaves "I  95". */
  lemma SpacedTokenBranch(env: Env)
    ensures TakeBranch(env, "I BUS 95", 0) == ("Business", "I  95")
  {
    var t := "I BUS 95";
    assert WordAt(env, t, "BUS", 2);
    assert FindWord(env, t, "BUS", 1);
    assert !WordAt(env, t, "BUS", 0) && !WordAt(env, t, "BUS", 1);
    assert RemoveWord(env, t, "BUS", 5) == " 95";
    assert RemoveWord(env, t, "BUS", 0) == "I  95";
    StripTrimmed("I  95");
  }

  /** A branch keyword between the system and the number leaves two spaces
      behind once removed, so the number no longer matches: "I BUS 95" is an
      unknown route with a Business branch. */
  lemma BranchInsideLosesRoute(env: Env)
    ensures ParseRef(env, "I BUS 95") == Route("Unknown", "", "Business", "None")
  {
    SpacedTokenNormal();
    SpacedTokenBranch(env);
    DoubleSpaceNoRoute();
  }

  lemma DoubleSpaceNoRoute()
    ensures var cut := "I  95";
      MatchRoute(cut, "I") == None && MatchRoute(cut, "US") == None
      && MatchRoute(cut, "VA") == None && MatchRoute(cut, "SR") == None
  {
    var cut := "I  95";
    assert cut[1..] == "  95";
    assert cut[1..][1..] == " 95";
    assert cut[..2] == "I ";
  }
}

=== FILE: parsers.dfy ===
/** The per-source record skeletons of parser_pack.py (`parse_namus`,
    `parse_ncmec`, `parse_charley`, `parse_fbi`) and the dispatch at the start
    of `parse_pdf`. What a parser's regexes find is the `extract` oracle; the
    model states what every parser puts around those findings: all categories
    present, the case open, the New York timezone, and the coordinate
    placeholders. */
module Parsers {
  import opened Wrappers
  import opened Json
  import opened Runtime
  import opened Detect
  import opened Units

  /** The identifier a parser writes into `provenance.sources`. */
  function Label(parser: Source): string {
    match parser
    case NamUs => "NamUs"
    case Ncmec => "NCMEC"
    case Fbi => "FBI"
    case _ => "CharleyProject"
  }

  /** What a parser has collected when it returns, category by category. */
  datatype Parsed = Parsed(caseId: string, demographic: Dict, spatial: Dict, temporal: Dict,
                           narrative: Dict, provenance: Dict, name: Option<Dict>)

  /** The record a parser returns: the six categories of its skeleton, always
      present, with the case open, and `name` only when a name was read. */
  function Assemble(p: Parsed): (r: Dict)
    ensures Get(r, "case_id") == Str(p.caseId)
    ensures Get(r, "demographic") == Obj(p.demographic) && Get(r, "spatial") == Obj(p.spatial)
    ensures Get(r, "temporal") == Obj(p.temporal) && Get(r, "narrative_osint") == Obj(p.narrative)
    ensures Get(r, "provenance") == Obj(p.provenance)
    ensures Get(r, "outcome") == Obj(map["case_status" := Str("ongoing")])
    ensures "name" in r <==> p.name.Some?
    ensures p.name.Some? ==> r["name"] == Obj(p.name.value)
    ensures "_fulltext" !in r
  {
    SkeletonKeys();
    var rec := Update(Subjects(p), Outcomes(p));
    if p.name.Some? then rec["name" := Obj(p.name.value)] else rec
  }

  /** The first four entries of the skeleton literal. */
  function Subjects(p: Parsed): (r: Dict)
    ensures Get(r, "case_id") == Str(p.caseId)
    ensures Get(r, "demographic") == Obj(p.demographic) && Get(r, "spatial") == Obj(p.spatial)
    ensures Get(r, "temporal") == Obj(p.temporal)
    ensures "name" !in r && "_fulltext" !in r
  {
    SkeletonKeys();
    map["case_id" := Str(p.caseId), "demographic" := Obj(p.demographic),
        "spatial" := Obj(p.spatial), "temporal" := Obj(p.temporal)]
  }

  /** The last three entries of the skeleton literal. */
  function Outcomes(p: Parsed): (r: Dict)
    ensures Get(r, "narrative_osint") == Obj(p.narrative) && Get(r, "provenance") == Obj(p.provenance)
    ensures Get(r, "outcome") == Obj(map["case_status" := Str("ongoing")])
    ensures forall k | k in r :: k in {"outcome", "narrative_osint", "provenance"}
  {
    SkeletonKeys();
    map["outcome" := Obj(map["case_status" := Str("ongoing")]),
        "narrative_osint" := Obj(p.narrative), "provenance" := Obj(p.provenance)]
  }

  /** The NCMEC age-based estimate: with a truthy age and gender and neither
      `height_in` nor `weight_lbs` present, the table's truthy values are
      written, each with its `*_estimate` flag. The parser only ever stores a
      float age and a string gender; other kinds skip the estimate. */
  function EstimateByAge(demo: Dict): (r: Dict)
  {
    var age := Get(demo, "age_years");
    var gender := Get(demo, "gender");
    if age.Num? && age.n != 0.0 && gender.Str? && gender.s != ""
       && "height_in" !in demo && "weight_lbs" !in demo then
      var (h, w) := EstimateHeightWeight(age.n, gender.s);
      var d1 := if h.Some? && h.value != 0.0 then demo["height_in" := Num(h.value)]["height_estimate" := Bool(true)] else demo;
      if w.Some? && w.value != 0.0 then d1["weight_lbs" := Num(w.value)]["weight_estimate" := Bool(true)] else d1
    else demo
  }

  /** The placeholders at the end of a parser: the map coordinates when a NamUs
      document has them, `0.0` for both otherwise. */
  function Coordinates(env: Env, parser: Source, text: string): (r: (real, real))
    ensures -90.0 <= r.0 <= 90.0 && -180.0 <= r.1 <= 180.0
  {
    var c := if parser == NamUs then ExtractCoords(env, text) else (None, None);
    if c.0.Some? && c.1.Some? then (c.0.value, c.1.value) else (0.0, 0.0)
  }

  /** The skeleton's provenance with the case number and agency details the parser read. */
  function Provenance(tag: string, ex: Extracted): (r: Dict)
    ensures Get(r, "sources") == Arr([Str(tag)]) && Get(r, "original_fields") == Obj(map[])
    ensures "source_path" !in r
  {
    SkeletonKeys();
    var prov := map["sources" := Arr([Str(tag)]), "original_fields" := Obj(map[])];
    var prov1 := if ex.caseNumber.Some? then prov["case_number" := Str(ex.caseNumber.value)] else prov;
    var prov2 := if ex.agency.Some? then prov1["agency" := Str(ex.agency.value)] else prov1;
    if ex.agencyPhone.Some? then prov2["agency_phone" := Str(ex.agencyPhone.value)] else prov2
  }

  /** What one parser collects: the extracted fields written over the skeleton's
      buckets, the NCMEC estimate, and the coordinates last. */
  function Collect(env: Env, parser: Source, text: string, caseId: string): (p: Parsed)
    requires parser != Unknown
    ensures p.caseId == caseId
    ensures p.provenance == Provenance(Label(parser), env.extract(SourceName(parser), text))
    ensures var c := Coordinates(env, parser, text);
      Get(p.spatial, "last_seen_lat") == Num(c.0) && Get(p.spatial, "last_seen_lon") == Num(c.1)
    ensures "timezone" in p.temporal && "incident_summary" in p.narrative
    ensures "timezone" !in env.extract(SourceName(parser), text).temporal ==>
      Get(p.temporal, "timezone") == Str(NewYork)
  {
    var ex := env.extract(SourceName(parser), text);
    var c := Coordinates(env, parser, text);
    Parsed(caseId, Demographic(parser, ex.demographic), Placed(ex.spatial, c.0, c.1),
           Timezoned(ex.temporal), Summarised(ex.narrative),
           Provenance(Label(parser), ex), ex.name)
  }

  /** The NCMEC parser's estimate; the other parsers keep what they read. */
  function Demographic(parser: Source, demo: Dict): Dict {
    if parser == Ncmec then EstimateByAge(demo) else demo
  }

  /** The spatial bucket with its coordinates written last. */
  function Placed(spatial: Dict, lat: real, lon: real): (r: Dict)
    ensures Get(r, "last_seen_lat") == Num(lat) && Get(r, "last_seen_lon") == Num(lon)
  {
    assert "last_seen_lat" != "last_seen_lon";
    spatial["last_seen_lat" := Num(lat)]["last_seen_lon" := Num(lon)]
  }

  /** The skeleton's temporal bucket under the parser's writes. */
  function Timezoned(temporal: Dict): (r: Dict)
    ensures "timezone" in r
    ensures "timezone" !in temporal ==> Get(r, "timezone") == Str(NewYork)
    ensures forall k | k in temporal :: k in r && r[k] == temporal[k]
  {
    Update(map["timezone" := Str(NewYork)], temporal)
  }

  /** The skeleton's narrative bucket under the parser's writes. */
  function Summarised(narrative: Dict): (r: Dict)
    ensures "incident_summary" in r
    ensures "incident_summary" !in narrative ==> Get(r, "incident_summary") == Str("")
    ensures forall k | k in narrative :: k in r && r[k] == narrative[k]
  {
    Update(map["incident_summary" := Str("")], narrative)
  }

  /** One per-source parser. Every parser yields the skeleton's shape: all
      six categories, the case open, a timezone (New York unless the parser
      found one), a summary slot, numeric coordinates, its own source label
      and no original fields. */
  function Parse(env: Env, parser: Source, text: string, caseId: string): (r: Dict)
    requires parser != Unknown
    ensures Skeletal(r, caseId)
    ensures Get(AsDict(Get(r, "provenance")), "sources") == Arr([Str(Label(parser))])
    ensures "timezone" !in env.extract(SourceName(parser), text).temporal ==>
      Get(AsDict(Get(r, "temporal")), "timezone") == Str(NewYork)
  {
    AssembledSkeletal(Collect(env, parser, text, caseId));
    Assemble(Collect(env, parser, text, caseId))
  }

  /** The first half of `parse_pdf`: detect the source, run its parser (the
      Charley parser for an unknown source, relabelled "Unknown"), record the
      path and keep the text for the backfill pass. */
  function Dispatch(env: Env, text: string, caseId: string, path: string): (r: Dict)
    ensures Skeletal(r, caseId)
    ensures Get(AsDict(Get(r, "provenance")), "source_path") == Str(path)
    ensures Get(r, "_fulltext") == Str(text)
    ensures var source := DetectSource(env, text);
      Get(AsDict(Get(r, "provenance")), "sources") == Arr([Str(if source == Unknown then "Unknown" else Label(source))])
  {
    DispatchAs(env, DetectSource(env, text), text, caseId, path)
  }

  /** The dispatch once the source is known: the record is skeletal, carries
      the path and the text, and its source label names the source (the
      Charley parser's own label for a Charley document, "Unknown" when
      nothing matched). */
  function DispatchAs(env: Env, source: Source, text: string, caseId: string, path: string): (r: Dict)
    ensures Skeletal(r, caseId)
    ensures Get(AsDict(Get(r, "provenance")), "source_path") == Str(path)
    ensures Get(r, "_fulltext") == Str(text)
    ensures Get(AsDict(Get(r, "provenance")), "sources") == Arr([Str(if source == Unknown then "Unknown" else Label(source))])
  {
    var parser := if source == Unknown then Charley else source;
    StampSkeletal(Parse(env, parser, text, caseId), source == Unknown, path, text, caseId);
    Stamp(Parse(env, parser, text, caseId), source == Unknown, path, text)
  }

  /** `rec.setdefault("provenance", {}).update({"source_path": path})`, the
      "Unknown" relabelling, and `rec["_fulltext"] = text`. */
  function Stamp(rec: Dict, unknown: bool, path: string, text: string): (r: Dict)
    ensures forall k | k != "provenance" && k != "_fulltext" :: (k in r <==> k in rec) && Get(r, k) == Get(rec, k)
    ensures Get(r, "_fulltext") == Str(text)
    ensures var prov := AsDict(Get(r, "provenance")); var before := AsDict(Get(rec, "provenance"));
      && Get(r, "provenance").Obj?
      && Get(prov, "source_path") == Str(path)
      && Get(prov, "sources") == (if unknown then Arr([Str("Unknown")]) else Get(before, "sources"))
      && forall k | k != "source_path" && k != "sources" :: Get(prov, k) == Get(before, k)
  {
    assert "provenance" != "_fulltext" && "source_path" != "sources";
    var p0 := if "provenance" in rec then rec["provenance"] else Obj(map[]);
    var prov := AsDict(p0)["source_path" := Str(path)];
    var prov2 := if unknown then prov["sources" := Arr([Str("Unknown")])] else prov;
    rec["provenance" := Obj(prov2)]["_fulltext" := Str(text)]
  }

  /** What every parser's record looks like, whatever the regexes found. */
  predicate Skeletal(r: Dict, caseId: string) {
    && Get(r, "case_id") == Str(caseId)
    && Get(r, "demographic").Obj? && Get(r, "spatial").Obj? && Get(r, "temporal").Obj?
    && Get(r, "outcome") == Obj(map["case_status" := Str("ongoing")])
    && Get(r, "narrative_osint").Obj? && Get(r, "provenance").Obj?
    && Get(AsDict(Get(r, "spatial")), "last_seen_lat").Num?
    && Get(AsDict(Get(r, "spatial")), "last_seen_lon").Num?
    && "incident_summary" in AsDict(Get(r, "narrative_osint"))
    && "timezone" in AsDict(Get(r, "temporal"))
    && Get(AsDict(Get(r, "provenance")), "original_fields") == Obj(map[])
  }

  // ------------------------------------------------------------ properties

  lemma SkeletonKeys()
    ensures "case_id" != "demographic" && "demographic" != "spatial" && "spatial" != "temporal"
    ensures "temporal" != "outcome" && "outcome" != "narrative_osint" && "narrative_osint" != "provenance"
    ensures "name" !in {"case_id", "demographic", "spatial", "temporal", "outcome", "narrative_osint", "provenance"}
    ensures "sources" != "original_fields" && "case_number" != "original_fields"
    ensures "agency" != "original_fields" && "agency_phone" != "original_fields"
    ensures "case_number" != "sources" && "agency" != "sources" && "agency_phone" != "sources"
    ensures "_fulltext" !in {"case_id", "demographic", "spatial", "temporal", "outcome", "narrative_osint", "provenance"}
  {
  }

  /** What `Collect` guarantees about the buckets it fills. */
  predicate Filled(p: Parsed) {
    && Get(p.spatial, "last_seen_lat").Num? && Get(p.spatial, "last_seen_lon").Num?
    && "timezone" in p.temporal && "incident_summary" in p.narrative
    && Get(p.provenance, "original_fields") == Obj(map[])
  }

  lemma AssembledSkeletal(p: Parsed)
    requires Filled(p)
    ensures Skeletal(Assemble(p), p.caseId)
  {
  }

  /** Stamping keeps the skeleton and every other top-level entry. */
  lemma StampSkeletal(rec: Dict, unknown: bool, path: string, text: string, caseId: string)
    requires Skeletal(rec, caseId)
    ensures Skeletal(Stamp(rec, unknown, path, text), caseId)
  {
    SkeletonKeys();
    var r := Stamp(rec, unknown, path, text);
    assert "original_fields" != "source_path" && "original_fields" != "sources";
    assert Get(AsDict(Get(r, "provenance")), "original_fields") == Get(AsDict(Get(rec, "provenance")), "original_fields");
  }

  /** Only a NamUs document can carry coordinates; every other source gets the
      `0.0` placeholders, and so does a NamUs document without a map link. */
  lemma PlaceholderCoordinates(env: Env, parser: Source, text: string, caseId: string)
    requires parser != Unknown
    ensures var s := AsDict(Get(Parse(env, parser, text, caseId), "spatial"));
      var c := ExtractCoords(env, text);
      if parser == NamUs && c.0.Some? then
        Get(s, "last_seen_lat") == Num(c.0.value) && Get(s, "last_seen_lon") == Num(c.1.value)
      else
        Get(s, "last_seen_lat") == Num(0.0) && Get(s, "last_seen_lon") == Num(0.0)
  {
  }

  /** The NCMEC estimate never replaces a measurement: it writes nothing when
      either measurement is present, and otherwise writes the table values for
      a child's age. */
  lemma EstimateByAgeSpec(demo: Dict)
    ensures "height_in" in demo || "weight_lbs" in demo ==> EstimateByAge(demo) == demo
    ensures var age := Get(demo, "age_years"); var g := Get(demo, "gender");
      && "height_in" !in demo && "weight_lbs" !in demo
      && age.Num? && (g == Str("male") || g == Str("female")) && 2 <= Trunc(age.n) <= 18
      ==> && Get(EstimateByAge(demo), "height_in") == Num(HeightTable(g.s, Trunc(age.n)).value)
          && Get(EstimateByAge(demo), "weight_lbs") == Num(WeightTable(g.s, Trunc(age.n)).value)
          && Get(EstimateByAge(demo), "height_estimate") == Bool(true)
          && Get(EstimateByAge(demo), "weight_estimate") == Bool(true)
  {
    var age := Get(demo, "age_years");
    var g := Get(demo, "gender");
    if && "height_in" !in demo && "weight_lbs" !in demo
       && age.Num? && (g == Str("male") || g == Str("female")) && 2 <= Trunc(age.n) <= 18 {
      assert age.n != 0.0;
      var e := EstimateHeightWeight(age.n, g.s);
    }
  }
}

=== FILE: pdf.dfy ===
/** The second half of `parse_pdf` (parser_pack.py): after the dispatch, the
    enrichment and the key harmonisation, the record gets a `last_seen_ts`
    (the parsed date or "") and a `gender` (the existing truthy one, else the
    parsed one, else `None`), and, when asked, the geocoding hook replaces
    missing or zero coordinates with an in-region lookup. */
module Pdf {
  import opened Wrappers
  import opened Json
  import opened Text
  import opened Runtime
  import opened Units
  import opened Parsers
  import Enrich
  import Harmonize
  import Backfill
  import Geo

  /** `rec[k] = rec.get(k) or {}`. */
  function Bucket(rec: Dict, k: string): (r: Dict)
    requires DictOrFalsy(Get(rec, k))
    ensures Get(rec, k).Obj? ==> r == Get(rec, k).fields
    ensures !Get(rec, k).Obj? ==> r == map[]
  {
    AsDict(Get(rec, k))
  }

  /** `rec["temporal"] = rec.get("temporal") or {}` and a falsy
      `last_seen_ts` replaced by the parsed date or "". */
  function FillTs(rec: Dict, parsed: string): (r: Dict)
    requires DictOrFalsy(Get(rec, "temporal"))
    ensures forall k | k != "temporal" :: (k in r <==> k in rec) && Get(r, k) == Get(rec, k)
    ensures Get(r, "temporal").Obj?
    ensures var t := AsDict(Get(rec, "temporal")); var t2 := AsDict(Get(r, "temporal"));
      && (forall k | k != "last_seen_ts" :: (k in t2 <==> k in t) && Get(t2, k) == Get(t, k))
      && Get(t2, "last_seen_ts") == (if Truthy(Get(t, "last_seen_ts")) then Get(t, "last_seen_ts")
                                     else Str(parsed))
  {
    var t := Bucket(rec, "temporal");
    var t2 := if Truthy(Get(t, "last_seen_ts")) then t else t["last_seen_ts" := Str(parsed)];
    rec["temporal" := Obj(t2)]
  }

  /** `rec["demographic"] = rec.get("demographic") or {}` and a falsy gender
      replaced by the parsed one, which may be `None`. */
  function FillGender(rec: Dict, parsed: Option<string>): (r: Dict)
    requires DictOrFalsy(Get(rec, "demographic"))
    ensures forall k | k != "demographic" :: (k in r <==> k in rec) && Get(r, k) == Get(rec, k)
    ensures Get(r, "demographic").Obj?
    ensures var d := AsDict(Get(rec, "demographic")); var d2 := AsDict(Get(r, "demographic"));
      && (forall k | k != "gender" :: (k in d2 <==> k in d) && Get(d2, k) == Get(d, k))
      && "gender" in d2
      && Get(d2, "gender") == (if Truthy(Get(d, "gender")) then Get(d, "gender")
                               else if parsed.Some? then Str(parsed.value) else Null)
  {
    var d := Bucket(rec, "demographic");
    var g := Get(d, "gender");
    var g2 := if Truthy(g) then g else if parsed.Some? then Str(parsed.value) else Null;
    rec["demographic" := Obj(d["gender" := g2])]
  }

  /** The timestamp is truthy or a string, and the gender is truthy or `None`. */
  predicate Finalized(r: Dict) {
    var ts := Get(AsDict(Get(r, "temporal")), "last_seen_ts");
    var g := Get(AsDict(Get(r, "demographic")), "gender");
    Get(r, "temporal").Obj? && Get(r, "demographic").Obj? && (Truthy(ts) || ts.Str?) && (g == Null || Truthy(g))
  }

  /** Both fills, given what the text parses to. */
  function FillBoth(rec: Dict, ts: string, g: Option<string>): (r: Dict)
    requires DictOrFalsy(Get(rec, "temporal")) && DictOrFalsy(Get(rec, "demographic"))
    requires g.Some? ==> g.value != ""
    ensures Finalized(r)
    ensures forall k | k != "temporal" && k != "demographic" :: (k in r <==> k in rec) && Get(r, k) == Get(rec, k)
  {
    var r1 := FillTs(rec, ts);
    assert "demographic" != "temporal";
    FillGender(r1, g)
  }

  /** The two normalisations `parse_pdf` applies before validation. */
  function Finalize(env: Env, rec: Dict, text: string): (r: Dict)
    requires DictOrFalsy(Get(rec, "temporal")) && DictOrFalsy(Get(rec, "demographic"))
    ensures Finalized(r)
    ensures forall k | k != "temporal" && k != "demographic" :: (k in r <==> k in rec) && Get(r, k) == Get(rec, k)
  {
    FillBoth(rec, Backfill.LastSeenOrEmpty(env, text), Backfill.ParseGender(env, text))
  }

  // ------------------------------------------------------------ geocoding hook

  /** `lat == 0.0` in Python: a zero number or `False`. */
  predicate ZeroLike(v: Value) {
    v == Num(0.0) || v == Bool(false)
  }

  /** A value the geocoder functions accept: a string, or falsy (read as "no value"). */
  predicate PlaceText(v: Value) {
    v.Str? || !Truthy(v)
  }

  function AsPlace(v: Value): (r: Option<string>)
    requires PlaceText(v)
    ensures r.Some? ==> v == Str(r.value)
  {
    if v.Str? && v.s != "" then Some(v.s) else None
  }

  /** What the hook reads without raising: a dict or absent `spatial` whose city and state are texts. */
  predicate HookReady(rec: Dict) {
    && DictOrAbsent(rec, "spatial")
    && PlaceText(Get(AsDict(Get(rec, "spatial")), "last_seen_city"))
    && PlaceText(Get(AsDict(Get(rec, "spatial")), "last_seen_state"))
  }

  /** The hook runs when either coordinate is missing or both are zero. */
  predicate NeedsGeo(s: Dict) {
    Get(s, "last_seen_lat") == Null || Get(s, "last_seen_lon") == Null
    || (ZeroLike(Get(s, "last_seen_lat")) && ZeroLike(Get(s, "last_seen_lon")))
  }

  /** The second attempt's city and state, from the free-text location. */
  function FromLocation(loc: Value, city: Option<string>, state: Option<string>): (r: (Option<string>, Option<string>))
  {
    var parts := if loc.Str? then Split(loc.s, ',') else [];
    (if |parts| > 0 then Some(Strip(parts[0])) else city,
     if |parts| > 1 then Some(Strip(parts[1])) else state)
  }

  /** The lookup the hook makes: city and state first, then the free-text
      location when the first lookup gave nothing. */
  function HookLookup(env: Env, cache: Geo.Cache, s: Dict, cacheOnly: bool): (r: (Geo.Located, Geo.Cache))
    requires PlaceText(Get(s, "last_seen_city")) && PlaceText(Get(s, "last_seen_state"))
    ensures r.0.lat.Some? ==> r.0.lon.Some? && Geo.InVirginia(r.0.lat.value, r.0.lon.value)
    ensures Geo.VirginiaCache(cache) ==> Geo.VirginiaCache(r.1)
  {
    var city := AsPlace(Get(s, "last_seen_city"));
    var state := AsPlace(Get(s, "last_seen_state"));
    Geo.OverrideOutcomes(env, cache, city, state, "city_state", cacheOnly);
    Geo.OverrideKeepsVirginiaCache(env, cache, city, state, "city_state", cacheOnly);
    var (first, cache1) := Geo.GeocodeWithOverride(env, cache, city, state, "city_state", cacheOnly);
    var loc := Get(s, "last_seen_location");
    if (first.lat.Some? && first.lon.Some?) || !Truthy(loc) then (first, cache1)
    else
      var (c2, s2) := FromLocation(loc, city, state);
      Geo.OverrideOutcomes(env, cache1, c2, s2, "from_location", cacheOnly);
      Geo.OverrideKeepsVirginiaCache(env, cache1, c2, s2, "from_location", cacheOnly);
      Geo.GeocodeWithOverride(env, cache1, c2, s2, "from_location", cacheOnly)
  }

  /** The spatial bucket after a lookup: coordinates written when both came
      back, city and state too when both are truthy. */
  function Placed(s: Dict, l: Geo.Located): (r: Dict)
    ensures forall k | k !in {"last_seen_lat", "last_seen_lon", "last_seen_city", "last_seen_state"} ::
      (k in r <==> k in s) && Get(r, k) == Get(s, k)
    ensures l.lat.Some? && l.lon.Some? ==>
      Get(r, "last_seen_lat") == Num(l.lat.value) && Get(r, "last_seen_lon") == Num(l.lon.value)
    ensures !(l.lat.Some? && l.lon.Some?) ==> r == s
  {
    if l.lat.Some? && l.lon.Some? then
      var s1 := s["last_seen_lat" := Num(l.lat.value)]["last_seen_lon" := Num(l.lon.value)];
      if l.city.Some? && l.city.value != "" && l.state.Some? && l.state.value != "" then
        s1["last_seen_city" := Str(l.city.value)]["last_seen_state" := Str(l.state.value)]
      else s1
    else s
  }

  /** The `GEO_HOOK` block of `parse_pdf`. */
  function GeoHook(env: Env, cache: Geo.Cache, rec: Dict, doGeocode: bool, cacheOnly: bool): (r: (Dict, Geo.Cache))
    requires HookReady(rec)
    ensures forall k | k != "spatial" :: (k in r.0 <==> k in rec) && Get(r.0, k) == Get(rec, k)
    ensures Geo.VirginiaCache(cache) ==> Geo.VirginiaCache(r.1)
  {
    var s := AsDict(Get(rec, "spatial"));
    if !doGeocode || !NeedsGeo(s) then (rec, cache)
    else
      var found := HookLookup(env, cache, s, cacheOnly);
      (Stored(rec, s, found.0), found.1)
  }

  /** The record with the looked-up place written into its spatial bucket
      `s`, when both coordinates were found. */
  function Stored(rec: Dict, s: Dict, l: Geo.Located): (r: Dict)
    ensures forall k | k != "spatial" :: (k in r <==> k in rec) && Get(r, k) == Get(rec, k)
  {
    if l.lat.Some? && l.lon.Some? then rec["spatial" := Obj(Placed(s, l))] else rec
  }

  // ------------------------------------------------------------ the whole of parse_pdf

  /** `parse_pdf` after the dispatch and up to the geocoding hook: enrichment,
      harmonisation and the two fills. */
  function Prepare(env: Env, d: Dict, text: string): (r: Dict)
    requires Enrich.EnrichShaped(env, d, text)
    requires Harmonize.HShaped(Enrich.EnrichCommonFields(env, d, text))
    ensures Finalized(r)
  {
    var e := Enrich.EnrichCommonFields(env, d, text);
    var h := Harmonize.HarmonizeRecordFields(env, e);
    assert h != map[] ==> Harmonize.Bucketed(h);
    Finalize(env, h, text)
  }

  /** The dispatched records on which `parse_pdf` does not raise: the
      enrichment and harmonisation passes accept them, and the city and state
      the hook reads are texts. */
  predicate PdfReady(env: Env, d: Dict, text: string) {
    && Enrich.EnrichShaped(env, d, text)
    && Harmonize.HShaped(Enrich.EnrichCommonFields(env, d, text))
    && HookReady(Prepare(env, d, text))
  }

  /** `parse_pdf(pdf_path, case_id, do_geocode, cache_only)` on the extracted,
      normalised text, with the geocode cache threaded through. */
  function ParsePdf(env: Env, cache: Geo.Cache, text: string, caseId: string, path: string,
                    doGeocode: bool, cacheOnly: bool): (r: (Dict, Geo.Cache))
    requires PdfReady(env, Dispatch(env, text, caseId, path), text)
    ensures Finalized(r.0)
    ensures Geo.VirginiaCache(cache) ==> Geo.VirginiaCache(r.1)
  {
    ParseDispatched(env, cache, Dispatch(env, text, caseId, path), text, doGeocode, cacheOnly)
  }

  /** `parse_pdf` from the dispatched record on. */
  function ParseDispatched(env: Env, cache: Geo.Cache, d: Dict, text: string,
                           doGeocode: bool, cacheOnly: bool): (r: (Dict, Geo.Cache))
    requires PdfReady(env, d, text)
    ensures Finalized(r.0)
    ensures Geo.VirginiaCache(cache) ==> Geo.VirginiaCache(r.1)
  {
    var f := Prepare(env, d, text);
    var r := GeoHook(env, cache, f, doGeocode, cacheOnly);
    HookKeepsFinalized(f, r.0);
    r
  }

  // ------------------------------------------------------------ properties

  lemma HookKeepsFinalized(rec: Dict, r: Dict)
    requires Finalized(rec)
    requires forall k | k != "spatial" :: (k in r <==> k in rec) && Get(r, k) == Get(rec, k)
    ensures Finalized(r)
  {
    assert "spatial" != "temporal" && "spatial" != "demographic";
    assert Get(r, "temporal") == Get(rec, "temporal") && Get(r, "demographic") == Get(rec, "demographic");
  }

  /** A record whose timestamp is already filled is a fixed point of `FillTs`. */
  lemma FillTsFixed(x: Dict, parsed: string)
    requires Get(x, "temporal").Obj?
    requires var ts := Get(AsDict(Get(x, "temporal")), "last_seen_ts"); Truthy(ts) || ts == Str(parsed)
    ensures FillTs(x, parsed) == x
  {
    var y := FillTs(x, parsed);
    assert Get(y, "temporal") == Get(x, "temporal") by {
      var t := AsDict(Get(x, "temporal"));
      var t2 := AsDict(Get(y, "temporal"));
      assert forall k :: (k in t2 <==> k in t) && Get(t2, k) == Get(t, k);
      assert t2 == t;
    }
    assert forall k :: (k in y <==> k in x) && Get(y, k) == Get(x, k);
  }

  /** A record whose gender is already filled is a fixed point of `FillGender`. */
  lemma FillGenderFixed(x: Dict, parsed: Option<string>)
    requires Get(x, "demographic").Obj?
    requires var g := Get(AsDict(Get(x, "demographic")), "gender");
      Truthy(g) || g == (if parsed.Some? then Str(parsed.value) else Null)
    requires "gender" in AsDict(Get(x, "demographic"))
    ensures FillGender(x, parsed) == x
  {
    var y := FillGender(x, parsed);
    assert Get(y, "demographic") == Get(x, "demographic") by {
      var d := AsDict(Get(x, "demographic"));
      var d2 := AsDict(Get(y, "demographic"));
      assert forall k :: (k in d2 <==> k in d) && Get(d2, k) == Get(d, k);
      assert d2 == d;
    }
    assert forall k :: (k in y <==> k in x) && Get(y, k) == Get(x, k);
  }

  /** Filling twice with the same parses is filling once. */
  lemma FillBothIdempotent(rec: Dict, ts: string, g: Option<string>)
    requires DictOrFalsy(Get(rec, "temporal")) && DictOrFalsy(Get(rec, "demographic"))
    requires g.Some? ==> g.value != ""
    ensures var r := FillBoth(rec, ts, g);
      DictOrFalsy(Get(r, "temporal")) && DictOrFalsy(Get(r, "demographic")) && FillBoth(r, ts, g) == r
  {
    var r1 := FillTs(rec, ts);
    var r := FillGender(r1, g);
    assert "demographic" != "temporal";
    assert Get(r, "temporal") == Get(r1, "temporal");
    FillTsFixed(r, ts);
    FillGenderFixed(r, g);
  }

  /** A second `Finalize` changes nothing: the slots it fills are either
      truthy afterwards or refilled with the same parse. */
  lemma FinalizeIdempotent(env: Env, rec: Dict, text: string)
    requires DictOrFalsy(Get(rec, "temporal")) && DictOrFalsy(Get(rec, "demographic"))
    ensures var r := Finalize(env, rec, text);
      DictOrFalsy(Get(r, "temporal")) && DictOrFalsy(Get(r, "demographic")) && Finalize(env, r, text) == r
  {
    FillBothIdempotent(rec, Backfill.LastSeenOrEmpty(env, text), Backfill.ParseGender(env, text));
  }

  /** Without `do_geocode`, or with usable coordinates, the hook changes nothing. */
  lemma GeoHookSkips(env: Env, cache: Geo.Cache, rec: Dict, doGeocode: bool, cacheOnly: bool)
    requires HookReady(rec)
    requires !doGeocode || !NeedsGeo(AsDict(Get(rec, "spatial")))
    ensures GeoHook(env, cache, rec, doGeocode, cacheOnly) == (rec, cache)
  {
  }

  /** Coordinates the hook writes always lie in the Virginia box, and only the
      four location entries of `spatial` can change. */
  lemma GeoHookInVirginia(env: Env, cache: Geo.Cache, rec: Dict, doGeocode: bool, cacheOnly: bool)
    requires HookReady(rec)
    ensures var r := GeoHook(env, cache, rec, doGeocode, cacheOnly).0;
      var s := AsDict(Get(rec, "spatial")); var s2 := AsDict(Get(r, "spatial"));
      && (r == rec || (
           && Get(s2, "last_seen_lat").Num? && Get(s2, "last_seen_lon").Num?
           && Geo.InVirginia(Get(s2, "last_seen_lat").n, Get(s2, "last_seen_lon").n)))
      && forall k | k !in {"last_seen_lat", "last_seen_lon", "last_seen_city", "last_seen_state"} ::
           Get(s2, k) == Get(s, k)
  {
    var s := AsDict(Get(rec, "spatial"));
    if doGeocode && NeedsGeo(s) {
      var (l, cache2) := HookLookup(env, cache, s, cacheOnly);
      if l.lat.Some? && l.lon.Some? {
        assert GeoHook(env, cache, rec, doGeocode, cacheOnly).0 == rec["spatial" := Obj(Placed(s, l))];
      }
    }
  }
}

=== FILE: runtime.dfy ===
/** The parts of the Python runtime and its libraries that the pipeline calls but
    that are not modelled here: regular-expression searches, `strptime` and
    `dateutil` parsing, `float()`/`int()` on strings, `str()` of numbers and
    containers, dict iteration order, `json.loads`, NFKC normalisation, `hash()`,
    the clock, the geocoder and the JSON Schema validator. Each is a field of
    `Env`; every operation that needs one takes the environment as a parameter,
    so that what the code does with their answers is stated for all answers. */
module Runtime {
  import opened Wrappers
  import opened Json
  import opened Text
  import opened Dates

  /** The text `datetime.now(timezone.utc).strftime("%Y-%m-%dT%H:%M:%SZ")` yields: never empty. */
  type Timestamp = s: string | |s| > 0 witness "1970-01-01T00:00:00Z"

  /** The default timezone of every record. */
  const NewYork: string := "America/New_York"

  /** One successful regex match: its first capture group and any further groups. */
  datatype Match = Match(group1: string, more: seq<string>)

  /** One candidate write found by `_enrich_common_fields`' regex passes, in
      source order: a scalar for `set_if_missing`, or a list-style field that is
      written only when the slot is currently falsy. */
  datatype Finding =
    | Scalar(category: EnrichCategory, key: string, value: Value)
    | ListStyle(category: EnrichCategory, key: string, value: Value)

  /** The category dicts the enrichment pass writes into
      (parser_pack.py:229-428): it never writes a top-level field. */
  type EnrichCategory = c: string | c in EnrichCategories witness "demographic"

  const EnrichCategories: set<string> := {"demographic", "spatial", "temporal", "provenance"}

  /** What a per-source parser's regexes extracted from a document, before the
      parser adds its placeholders. Provenance extractions are limited to the
      three keys the parsers write. */
  datatype Extracted = Extracted(
    demographic: Dict,
    spatial: Dict,
    temporal: Dict,
    narrative: Dict,
    name: Option<Dict>,
    caseNumber: Option<string>,
    agency: Option<string>,
    agencyPhone: Option<string>)

  /** An element of a JSON Schema error path. */
  datatype PathElem = Key(key: string) | Index(index: int)

  datatype SchemaError = SchemaError(path: seq<PathElem>, message: string)

  /** The validator's answer: its errors in iteration order, or an exception message. */
  datatype Validation = Errors(errors: seq<SchemaError>) | Crash(message: string)

  datatype Env = Env(
    // Python builtins
    parseFloat: string -> Option<real>,
    parseInt: string -> Option<int>,
    numText: real -> string,
    reprText: Value -> string,
    keyOrder: Dict -> seq<string>,
    nowUtc: Timestamp,
    hashOf: string -> int,
    // dates: strptime(text, format) and dateutil's fuzzy parse
    strptime: (string, string) -> Option<Date>,
    fuzzyDate: string -> Option<Date>,
    // regex searches of parser_pack.py
    fbiMarker: string -> bool,
    lastSeenMatch: (nat, string) -> Option<Match>,
    genderHeader: string -> Option<string>,
    genderAgeNow: string -> Option<string>,
    femaleWord: string -> bool,
    maleWord: string -> bool,
    feetInches: string -> seq<(nat, nat)>,
    inchesOnly: string -> Option<nat>,
    poundRange: string -> Option<(nat, nat)>,
    poundSingle: string -> Option<nat>,
    coordMatch: string -> Option<(real, real)>,
    enrichFindings: string -> seq<Finding>,
    extract: (string, string) -> Extracted,
    // regex searches of fix_dates.py: group 2 of DATE_WORDY / DATE_SLASH
    dateWordy: string -> Option<string>,
    dateSlash: string -> Option<string>,
    // text cleaning
    nfkc: string -> string,
    removePageNumbers: string -> string,
    isWordChar: char -> bool,
    // services
    jsonLoads: string -> Option<Value>,
    geocoderUp: bool,
    geocoder: string -> Option<(real, real)>,
    validator: Dict -> Validation)

  /** `int(x)` for a float: truncation toward zero. */
  function Trunc(x: real): (r: int)
    ensures x >= 0.0 ==> r as real <= x < r as real + 1.0
    ensures x < 0.0 ==> r as real - 1.0 < x <= r as real
  {
    if x >= 0.0 then x.Floor else -((-x).Floor)
  }

  /** `float(v)`, with `None` standing for the ValueError/TypeError it raises. */
  function ToFloat(env: Env, v: Value): (r: Option<real>)
    ensures v.Num? ==> r == Some(v.n)
    ensures v.Null? || v.Arr? || v.Obj? ==> r == None
  {
    match v
    case Null => None
    case Bool(b) => Some(if b then 1.0 else 0.0)
    case Num(n) => Some(n)
    case Str(s) => env.parseFloat(s)
    case _ => None
  }

  /** `int(v)`, with `None` standing for the ValueError/TypeError it raises. */
  function ToInt(env: Env, v: Value): (r: Option<int>)
    ensures v.Num? ==> r == Some(Trunc(v.n))
    ensures v.Null? || v.Arr? || v.Obj? ==> r == None
  {
    match v
    case Null => None
    case Bool(b) => Some(if b then 1 else 0)
    case Num(n) => Some(Trunc(n))
    case Str(s) => env.parseInt(s)
    case _ => None
  }

  /** `str(v)`. */
  function Show(env: Env, v: Value): (r: string)
    ensures v.Str? ==> r == v.s
    ensures v.Null? ==> r == "None"
  {
    match v
    case Null => "None"
    case Bool(b) => if b then "True" else "False"
    case Num(n) => env.numText(n)
    case Str(s) => s
    case _ => env.reprText(v)
  }

  /** `str(v).strip() != ""`: the "has content" test used throughout. */
  predicate HasText(env: Env, v: Value) {
    !Blank(Show(env, v))
  }

  /** `v is not None and str(v).strip() != ""`: a value worth keeping. */
  predicate Filled(env: Env, v: Value) {
    v != Null && HasText(env, v)
  }
}

=== FILE: sanitize.dfy ===
/** The schema sanitiser of the LLM path (llm/agent/schema_sanitize.py).
    `_map_extra_keys` moves common extra keys of a model's answer onto schema
    keys; `sanitize_guardian_row` then rebuilds every category from its
    whitelist, drops out-of-range numbers, fills the fields the schema
    requires, records some dropped input fields under provenance and keeps only
    the allowed, non-empty top-level keys.

    Each category is rebuilt field by field: `DemographicField(env, d, k)` is
    what the sanitiser writes under `k` (nothing, or a value), and the category
    is the map of the whitelisted keys that received a value. */
module Sanitize {
  import opened Wrappers
  import opened Json
  import opened Text
  import opened Runtime
  import opened Units
  import opened Common

  /** The top-level keys a sanitised row may carry. */
  predicate IsTopKey(k: string) {
    k == "source_path" || k == "case_id" || k == "audit" || IsRequiredKey(k)
  }

  /** The six categories the sanitiser always writes. */
  predicate IsRequiredKey(k: string) {
    || k == "demographic" || k == "temporal" || k == "spatial"
    || k == "narrative_osint" || k == "outcome" || k == "provenance"
  }

  const AllowedDemographic: set<string> := {"name", "aliases", "age_years", "gender", "race_ethnicity",
    "height_in", "weight_lbs", "distinctive_features", "risk_factors", "abductor_associate_info", "_fulltext"}

  const AllowedTemporal: set<string> := {"timezone", "last_seen_ts", "reported_missing_ts",
    "first_police_action_ts", "elapsed_report_minutes", "elapsed_first_response_minutes", "follow_up_sightings"}

  const AllowedSpatial: set<string> := {"last_seen_location", "last_seen_address", "last_seen_city",
    "last_seen_county", "last_seen_state", "last_seen_postal_code", "last_seen_lat", "last_seen_lon",
    "nearby_roads", "nearby_transit_hubs", "nearby_pois"}

  const AllowedOsint: set<string> := {"incident_summary", "behavioral_patterns", "movement_cues_text",
    "temporal_markers", "witness_accounts", "news", "social_media", "persons_of_interest"}

  const AllowedOutcome: set<string> := {"case_status", "recovery_ts", "recovery_location", "recovery_state",
    "recovery_lat", "recovery_lon", "recovery_time_hours", "recovery_distance_mi", "recovery_condition"}

  // ------------------------------------------------------------ conversions

  /** `_s(v)`: the stripped text of `v`; nothing for `None` and for blank text. */
  function SafeStr(env: Env, v: Value): (r: Option<string>)
    ensures r.Some? ==> r.value != "" && Strip(r.value) == r.value
    ensures r.None? <==> !Filled(env, v)
  {
    if v == Null then None
    else
      var s := Strip(Show(env, v));
      StripIdempotent(Show(env, v));
      if s == "" then None else Some(s)
  }

  /** `[x for x in xs if _s(x)]`: the elements with text, unchanged and in order. */
  function KeepFilled(env: Env, xs: seq<Value>): (r: seq<Value>)
    ensures forall i | 0 <= i < |r| :: Filled(env, r[i]) && r[i] in xs
    ensures forall i | 0 <= i < |xs| :: Filled(env, xs[i]) ==> xs[i] in r
  {
    if xs == [] then []
    else (if Filled(env, xs[0]) then [xs[0]] else []) + KeepFilled(env, xs[1..])
  }

  /** `_join_list_str(items)`: the non-blank elements of a list joined with
      " | ", or a stripped string; nothing when that is empty or for other values. */
  function JoinListStr(env: Env, v: Value): (r: Option<string>)
    ensures r.Some? ==> r.value != ""
    ensures v.Str? ==> r == (if Strip(v.s) == "" then None else Some(Strip(v.s)))
    ensures !v.Str? && !v.Arr? ==> r == None
    ensures v.Arr? ==> (r.Some? <==> CleanStrings(env, v.items) != [])
    ensures v.Arr? && r.Some? ==> r.value == Join(" | ", CleanStrings(env, v.items))
  {
    match v
    case Arr(xs) =>
      var parts := CleanStrings(env, xs);
      if parts == [] then None else Some(Join(" | ", parts))
    case Str(s) => if Strip(s) == "" then None else Some(Strip(s))
    case _ => None
  }

  /** A list field kept as its cleaned strings, and only when some remain. */
  function ListField(env: Env, v: Value): (r: Option<Value>)
    ensures r.Some? <==> v.Arr? && CleanStrings(env, v.items) != []
    ensures r.Some? ==> r.value == Arr(Strs(CleanStrings(env, v.items)))
  {
    if v.Arr? && CleanStrings(env, v.items) != [] then Some(Arr(Strs(CleanStrings(env, v.items)))) else None
  }

  /** A number kept only inside `[lo, hi]`: out-of-range values are dropped, not clamped. */
  function InRange(x: Option<real>, lo: real, hi: real): (r: Option<Value>)
    ensures r.Some? <==> x.Some? && lo <= x.value <= hi
    ensures r.Some? ==> r.value == Num(x.value)
  {
    if x.Some? && lo <= x.value <= hi then Some(Num(x.value)) else None
  }

  /** A latitude and longitude kept together, and only when both are in range. */
  function PairInRange(lat: Option<real>, lon: Option<real>): (r: Option<(real, real)>)
    ensures r.Some? <==> lat.Some? && lon.Some? && -90.0 <= lat.value <= 90.0 && -180.0 <= lon.value <= 180.0
    ensures r.Some? ==> r.value == (lat.value, lon.value)
  {
    if lat.Some? && lon.Some? && -90.0 <= lat.value <= 90.0 && -180.0 <= lon.value <= 180.0
    then Some((lat.value, lon.value)) else None
  }

  predicate IsSex(s: string) {
    s == "male" || s == "female"
  }

  predicate IsStatus(s: string) {
    s == "ongoing" || s == "found" || s == "not_found"
  }

  // ------------------------------------------------------------ _map_extra_keys

  /** `v = d.pop(alias, None)`, then `d[target] = v` when `v` is usable and
      `target` is absent: the alias always goes, an existing target is never
      overwritten. `v` is what the caller made of the alias's value. */
  function Move(d: Dict, alias: string, target: string, v: Option<Value>): (r: Dict)
    requires alias != target
    ensures alias !in r
    ensures target in d ==> target in r && r[target] == d[target]
    ensures target !in d ==> (target in r <==> v.Some?) && (v.Some? ==> r[target] == v.value)
  {
    var d1 := Del(d, alias);
    if v.Some? && target !in d1 then d1[target := v.value] else d1
  }

  /** `Move` touches only the alias and the target. */
  lemma MoveKeepsOthers(d: Dict, alias: string, target: string, v: Option<Value>, k: string)
    requires alias != target && k != alias && k != target
    ensures var r := Move(d, alias, target, v); (k in r <==> k in d) && Get(r, k) == Get(d, k)
  {
  }

  /** The demographic part of `_map_extra_keys`: a full-word `sex` (any case)
      overrides `gender`; `weight_lb` moves to an absent `weight_lbs`. */
  function MapDemographic(env: Env, demo: Dict): (r: Dict)
    ensures "sex" !in r && "weight_lb" !in r
  {
    var sex := SafeStr(env, Get(demo, "sex"));
    var d1 := Del(demo, "sex");
    var d2 := if sex.Some? && IsSex(Lower(sex.value)) then d1["gender" := Str(Lower(sex.value))] else d1;
    var wl := Get(d2, "weight_lb");
    var v := if wl != Null then Some(wl) else None;
    MoveKeepsOthers(d2, "weight_lb", "weight_lbs", v, "sex");
    Move(d2, "weight_lb", "weight_lbs", v)
  }

  /** The temporal part: `reported_ts` and `last_seen_date` move to absent
      targets; a list of sightings is rebuilt from its common spellings. */
  function MapTemporal(env: Env, temp: Dict): (r: Dict)
    ensures "reported_ts" !in r && "last_seen_date" !in r
  {
    var t1 := Move(temp, "reported_ts", "reported_missing_ts", StrOpt(SafeStr(env, Get(temp, "reported_ts"))));
    var t2 := Move(t1, "last_seen_date", "last_seen_ts", StrOpt(SafeStr(env, Get(t1, "last_seen_date"))));
    var fus := Get(t2, "follow_up_sightings");
    if fus.Arr? then t2["follow_up_sightings" := Arr(Sightings(env, fus.items, true))] else t2
  }

  /** The spatial part: `city` and `state` move to absent `last_seen_*` keys. */
  function MapSpatial(env: Env, spat: Dict): (r: Dict)
    ensures "city" !in r && "state" !in r
  {
    var s1 := Move(spat, "city", "last_seen_city", StrOpt(SafeStr(env, Get(spat, "city"))));
    Move(s1, "state", "last_seen_state", StrOpt(SafeStr(env, Get(s1, "state"))))
  }

  /** The categories `_map_extra_keys` rewrites. */
  predicate IsMapped(k: string) {
    k == "demographic" || k == "temporal" || k == "spatial"
  }

  /** Every key but the three mapped categories is as it was. */
  ghost predicate KeepsUnmapped(before: Dict, after: Dict) {
    forall k | !IsMapped(k) :: (k in after <==> k in before) && Get(after, k) == Get(before, k)
  }

  /** `_map_extra_keys(rec)`: the three categories replaced by their mapped
      versions (an absent or falsy category is mapped as `{}`), every other
      key untouched. A truthy category that is not a dict makes `pop` raise. */
  function MapExtraKeys(env: Env, rec: Dict): (r: Dict)
    requires forall k | IsMapped(k) :: DictOrFalsy(Get(rec, k))
    ensures KeepsUnmapped(rec, r)
    ensures forall k | IsMapped(k) :: k in r && r[k].Obj?
  {
    SetMapped(rec, MapDemographic(env, AsDict(Get(rec, "demographic"))),
              MapTemporal(env, AsDict(Get(rec, "temporal"))), MapSpatial(env, AsDict(Get(rec, "spatial"))))
  }

  /** `rec["demographic"], rec["temporal"], rec["spatial"] = demo, temp, spat`. */
  function SetMapped(rec: Dict, demo: Dict, temp: Dict, spat: Dict): (r: Dict)
    ensures KeepsUnmapped(rec, r)
    ensures forall k | IsMapped(k) :: k in r && r[k].Obj?
  {
    rec["demographic" := Obj(demo)]["temporal" := Obj(temp)]["spatial" := Obj(spat)]
  }

  // ------------------------------------------------------------ sightings

  /** A well-formed sighting: a non-empty `ts`, only the seven known keys,
      coordinates in range and a confidence in [0, 1]. */
  predicate GoodSighting(m: Dict) {
    && m.Keys <= SightingKeys
    && "ts" in m && m["ts"].Str? && m["ts"].s != ""
    && ("lat" in m ==> m["lat"].Num? && -90.0 <= m["lat"].n <= 90.0)
    && ("lon" in m ==> m["lon"].Num? && -180.0 <= m["lon"].n <= 180.0)
    && ("confidence" in m ==> m["confidence"].Num? && 0.0 <= m["confidence"].n <= 1.0)
  }

  /** One sighting rebuilt from its parts, kept only when it has a `ts`. */
  function SightingItem(ts: Option<string>, note: Option<string>, lat: Option<real>, lon: Option<real>,
                        eventType: Option<string>, reporterType: Option<string>, confidence: Option<real>)
    : (r: Option<Dict>)
    requires ts.Some? ==> ts.value != ""
    ensures r.Some? <==> ts.Some?
    ensures r.Some? ==> GoodSighting(r.value) && r.value["ts"] == Str(ts.value)
  {
    if ts.None? then None
    else Some(map k | k in SightingKeys && SightingPart(ts.value, note, lat, lon, eventType, reporterType, confidence, k).Some?
                :: SightingPart(ts.value, note, lat, lon, eventType, reporterType, confidence, k).value)
  }

  /** What `SightingItem` writes under key `k`. */
  function SightingPart(ts: string, note: Option<string>, lat: Option<real>, lon: Option<real>,
                        eventType: Option<string>, reporterType: Option<string>, confidence: Option<real>, k: string)
    : Option<Value>
  {
    if k == "ts" then Some(Str(ts))
    else if k == "note" then StrOpt(note)
    else if k == "lat" then InRange(lat, -90.0, 90.0)
    else if k == "lon" then InRange(lon, -180.0, 180.0)
    else if k == "event_type" then StrOpt(eventType)
    else if k == "reporter_type" then StrOpt(reporterType)
    else if k == "confidence" then (if confidence.Some? then Some(Num(Clamp01(confidence.value))) else None)
    else None
  }

  /** A sighting as the first pass reads it (`withAliases`: the common
      spellings `date_iso`, `notes`, `latitude`, ... are accepted) or as the
      second pass does (only the schema's own keys). */
  function Sighting(env: Env, it: Dict, withAliases: bool): (r: Option<Dict>)
    ensures r.Some? ==> GoodSighting(r.value)
    ensures !withAliases ==> (r.Some? <==> Filled(env, Get(it, "ts")))
    ensures Truthy(Get(it, "ts")) && Filled(env, Get(it, "ts")) ==> r.Some?
  {
    var ts := if withAliases
      then Or(Get(it, "ts"), Or(Get(it, "date_iso"), Or(Get(it, "date"), Get(it, "datetime"))))
      else Get(it, "ts");
    var note := if withAliases
      then Or(Get(it, "note"), Or(Get(it, "notes"), Or(Get(it, "text"), Or(Get(it, "desc"), Get(it, "description")))))
      else Get(it, "note");
    var lat := if withAliases then Or(Get(it, "lat"), Get(it, "latitude")) else Get(it, "lat");
    var lon := if withAliases then Or(Get(it, "lon"), Get(it, "longitude")) else Get(it, "lon");
    SightingItem(SafeStr(env, ts), SafeStr(env, note), ToFloat(env, lat), ToFloat(env, lon),
                 SafeStr(env, Get(it, "event_type")), SafeStr(env, Get(it, "reporter_type")),
                 ToFloat(env, Get(it, "confidence")))
  }

  /** The rebuilt list: non-dict items and items without `ts` are skipped. */
  function Sightings(env: Env, items: seq<Value>, withAliases: bool): (r: seq<Value>)
    ensures |r| <= |items|
    ensures forall v | v in r :: v.Obj? && GoodSighting(v.fields)
    ensures forall i | 0 <= i < |items| && items[i].Obj? && Sighting(env, items[i].fields, withAliases).Some? ::
      Obj(Sighting(env, items[i].fields, withAliases).value) in r
    ensures forall v | v in r :: v.Obj? && exists i :: 0 <= i < |items| && items[i].Obj? && Sighting(env, items[i].fields, withAliases) == Some(v.fields)
  {
    SightingListSound(env, items, withAliases);
    SightingListKeeps(env, items, withAliases);
    SightingListFrom(env, items, withAliases);
    SightingList(env, items, withAliases)
  }

  /** The scan behind `Sightings`, item by item. */
  function SightingList(env: Env, items: seq<Value>, withAliases: bool): seq<Value>
  {
    FlatMap(items, v => Rebuild(env, v, withAliases))
  }

  /** One item's contribution: its rebuilt sighting, or nothing. */
  function Rebuild(env: Env, v: Value, withAliases: bool): seq<Value>
  {
    var first := if v.Obj? then Sighting(env, v.fields, withAliases) else None;
    if first.Some? then [Obj(first.value)] else []
  }

  /** The scan is no longer than its input and yields only good sightings. */
  lemma {:induction false} SightingListSound(env: Env, items: seq<Value>, withAliases: bool)
    ensures |SightingList(env, items, withAliases)| <= |items|
    ensures forall v | v in SightingList(env, items, withAliases) :: v.Obj? && GoodSighting(v.fields)
  {
    if items != [] {
      SightingListSound(env, items[1..], withAliases);
    }
  }

  /** Every item that rebuilds is in the scan. */
  lemma {:induction false} SightingListKeeps(env: Env, items: seq<Value>, withAliases: bool)
    ensures forall i | 0 <= i < |items| && items[i].Obj? && Sighting(env, items[i].fields, withAliases).Some? ::
      Obj(Sighting(env, items[i].fields, withAliases).value) in SightingList(env, items, withAliases)
  {
    if items != [] {
      var rest := items[1..];
      SightingListKeeps(env, rest, withAliases);
      assert forall i | 1 <= i < |items| :: items[i] == rest[i - 1];
    }
  }

  /** Every entry of the scan is some item rebuilt. */
  lemma {:induction false} SightingListFrom(env: Env, items: seq<Value>, withAliases: bool)
    ensures forall v | v in SightingList(env, items, withAliases) ::
      v.Obj? && exists i :: 0 <= i < |items| && items[i].Obj? && Sighting(env, items[i].fields, withAliases) == Some(v.fields)
  {
    if items != [] {
      var rest := items[1..];
      var head := Rebuild(env, items[0], withAliases);
      assert SightingList(env, items, withAliases) == head + SightingList(env, rest, withAliases);
      SightingListFrom(env, rest, withAliases);
      forall v | v in SightingList(env, items, withAliases)
        ensures v.Obj? && exists i :: 0 <= i < |items| && items[i].Obj? && Sighting(env, items[i].fields, withAliases) == Some(v.fields)
      {
        if v in head {
          assert items[0].Obj? && Sighting(env, items[0].fields, withAliases) == Some(v.fields);
        } else {
          assert v in SightingList(env, rest, withAliases);
          var i :| 0 <= i < |rest| && rest[i].Obj? && Sighting(env, rest[i].fields, withAliases) == Some(v.fields);
          assert items[i + 1] == rest[i];
        }
      }
    }
  }

  /** Scanning a concatenation is concatenating the scans. */
  lemma SightingListAppend(env: Env, xs: seq<Value>, ys: seq<Value>, withAliases: bool)
    ensures SightingList(env, xs + ys, withAliases) == SightingList(env, xs, withAliases) + SightingList(env, ys, withAliases)
  {
    FlatMapAppend(xs, ys, v => Rebuild(env, v, withAliases));
  }

  // ------------------------------------------------------------ categories

  /** What step 3 writes under demographic key `k`. */
  function DemographicField(env: Env, d: Dict, k: string): Option<Value> {
    if k == "name" || k == "race_ethnicity" || k == "_fulltext" then StrOpt(SafeStr(env, Get(d, k)))
    else if k == "aliases" then
      (var a := Get(d, k); if a.Arr? then Some(Arr(KeepFilled(env, a.items))) else None)
    else if k == "gender" then Some(Str(Gender(SafeStr(env, Get(d, k)))))
    else if k == "age_years" then InRange(ToFloat(env, Get(d, k)), 0.0, 120.0)
    else if k == "height_in" then InRange(ToFloat(env, Get(d, k)), 10.0, 96.0)
    else if k == "weight_lbs" then InRange(ToFloat(env, Get(d, k)), 5.0, 600.0)
    else if k == "distinctive_features" then StrOpt(JoinListStr(env, Get(d, k)))
    else if k == "risk_factors" then ListField(env, Get(d, k))
    else if k == "abductor_associate_info" then
      (var a := Get(d, k); if a.Obj? then Some(a) else None)
    else None
  }

  /** A full-word gender, lower-cased; anything else becomes "male". */
  function Gender(g: Option<string>): (r: string)
    ensures IsSex(r)
    ensures g.Some? && IsSex(Lower(g.value)) ==> r == Lower(g.value)
  {
    if g.Some? && IsSex(Lower(g.value)) then Lower(g.value) else "male"
  }

  /** Step 3: the demographic category rebuilt from its whitelist. */
  function CleanDemographic(env: Env, d: Dict): (r: Dict)
    ensures CategoryShaped("demographic", r) && r != map[]
    ensures r.Keys <= AllowedDemographic
    ensures "gender" in r && r["gender"].Str? && IsSex(r["gender"].s)
  {
    map k | k in AllowedDemographic && DemographicField(env, d, k).Some? :: DemographicField(env, d, k).value
  }

  /** What step 4 writes under temporal key `k`; `now` is the clock reading
      used when no `last_seen_ts` survives. */
  function TemporalField(env: Env, now: Timestamp, t: Dict, k: string): Option<Value> {
    if k == "timezone" then Some(Str(SafeStr(env, Get(t, k)).GetOr(NewYork)))
    else if k == "last_seen_ts" then Some(Str(SafeStr(env, Get(t, k)).GetOr(now)))
    else if k == "reported_missing_ts" || k == "first_police_action_ts" then StrOpt(SafeStr(env, Get(t, k)))
    else if k == "elapsed_report_minutes" || k == "elapsed_first_response_minutes" then
      (var i := ToInt(env, Get(t, k)); if i.Some? && i.value >= 0 then Some(Num(i.value as real)) else None)
    else if k == "follow_up_sightings" then
      (var f := Get(t, k);
       if f.Arr? && Sightings(env, f.items, false) != [] then Some(Arr(Sightings(env, f.items, false))) else None)
    else None
  }

  /** Step 4: the temporal category rebuilt from its whitelist. */
  function CleanTemporal(env: Env, now: Timestamp, t: Dict): (r: Dict)
    ensures CategoryShaped("temporal", r) && r != map[]
    ensures r.Keys <= AllowedTemporal
    ensures "timezone" in r && r["timezone"].Str? && r["timezone"].s != ""
    ensures "last_seen_ts" in r && r["last_seen_ts"].Str? && r["last_seen_ts"].s != ""
  {
    map k | k in AllowedTemporal && TemporalField(env, now, t, k).Some? :: TemporalField(env, now, t, k).value
  }

  /** `last_seen_lat`/`last_seen_lon`: copied when both parse and are in range, else both 0.0. */
  function SeenCoords(env: Env, s: Dict): (r: (real, real))
    ensures -90.0 <= r.0 <= 90.0 && -180.0 <= r.1 <= 180.0
  {
    PairInRange(ToFloat(env, Get(s, "last_seen_lat")), ToFloat(env, Get(s, "last_seen_lon"))).GetOr((0.0, 0.0))
  }

  /** What step 5 writes under spatial key `k`. */
  function SpatialField(env: Env, s: Dict, k: string): Option<Value> {
    if k == "last_seen_location" || k == "last_seen_address" || k == "last_seen_city"
       || k == "last_seen_county" || k == "last_seen_state" || k == "last_seen_postal_code"
    then StrOpt(SafeStr(env, Get(s, k)))
    else if k == "last_seen_lat" then Some(Num(SeenCoords(env, s).0))
    else if k == "last_seen_lon" then Some(Num(SeenCoords(env, s).1))
    else if k == "nearby_roads" || k == "nearby_transit_hubs" || k == "nearby_pois" then ListField(env, Get(s, k))
    else None
  }

  /** Step 5: the spatial category rebuilt from its whitelist. */
  function CleanSpatial(env: Env, s: Dict): (r: Dict)
    ensures CategoryShaped("spatial", r) && r != map[]
    ensures r.Keys <= AllowedSpatial
    ensures "last_seen_lat" in r && r["last_seen_lat"].Num? && -90.0 <= r["last_seen_lat"].n <= 90.0
    ensures "last_seen_lon" in r && r["last_seen_lon"].Num? && -180.0 <= r["last_seen_lon"].n <= 180.0
  {
    map k | k in AllowedSpatial && SpatialField(env, s, k).Some? :: SpatialField(env, s, k).value
  }

  /** What step 6 writes under narrative key `k`. */
  function OsintField(env: Env, n: Dict, k: string): Option<Value> {
    if k == "incident_summary" then Some(Str(SafeStr(env, Get(n, k)).GetOr(NoSummary)))
    else if k == "behavioral_patterns" || k == "temporal_markers" then ListField(env, Get(n, k))
    else if k == "movement_cues_text" then StrOpt(SafeStr(env, Get(n, k)))
    else if k == "witness_accounts" || k == "news" || k == "social_media" || k == "persons_of_interest" then
      (var a := Get(n, k); if a.Arr? then Some(a) else None)
    else None
  }

  /** Step 6: the narrative category rebuilt from its whitelist. */
  function CleanOsint(env: Env, n: Dict): (r: Dict)
    ensures CategoryShaped("narrative_osint", r) && r != map[]
    ensures r.Keys <= AllowedOsint
    ensures "incident_summary" in r && r["incident_summary"].Str? && r["incident_summary"].s != ""
  {
    map k | k in AllowedOsint && OsintField(env, n, k).Some? :: OsintField(env, n, k).value
  }

  /** `case_status`: the stripped input when its lower-case form is a known
      status (the input's own case is kept), else "ongoing". */
  function CaseStatus(cs: Option<string>): (r: string)
    ensures IsStatus(Lower(r))
    ensures cs.Some? && IsStatus(Lower(cs.value)) ==> r == cs.value
    ensures !(cs.Some? && IsStatus(Lower(cs.value))) ==> r == "ongoing"
  {
    var c := cs.GetOr("ongoing");
    if IsStatus(Lower(c)) then c else "ongoing"
  }

  /** A non-negative number, else nothing. */
  function NonNegative(x: Option<real>): (r: Option<Value>)
    ensures r.Some? <==> x.Some? && x.value >= 0.0
    ensures r.Some? ==> r.value == Num(x.value)
  {
    if x.Some? && x.value >= 0.0 then Some(Num(x.value)) else None
  }

  /** The recovery coordinates: kept together when both parse and are in range. */
  function RecoveryCoords(env: Env, o: Dict): Option<(real, real)> {
    PairInRange(ToFloat(env, Get(o, "recovery_lat")), ToFloat(env, Get(o, "recovery_lon")))
  }

  /** What step 7 writes under outcome key `k`. */
  function OutcomeField(env: Env, o: Dict, k: string): Option<Value> {
    if k == "case_status" then Some(Str(CaseStatus(SafeStr(env, Get(o, k)))))
    else if k == "recovery_ts" || k == "recovery_location" || k == "recovery_state" || k == "recovery_condition"
    then StrOpt(SafeStr(env, Get(o, k)))
    else if k == "recovery_lat" then
      (var p := RecoveryCoords(env, o); if p.Some? then Some(Num(p.value.0)) else None)
    else if k == "recovery_lon" then
      (var p := RecoveryCoords(env, o); if p.Some? then Some(Num(p.value.1)) else None)
    else if k == "recovery_time_hours" || k == "recovery_distance_mi" then NonNegative(ToFloat(env, Get(o, k)))
    else None
  }

  /** Step 7: the outcome category rebuilt from its whitelist. */
  function CleanOutcome(env: Env, o: Dict): (r: Dict)
    ensures CategoryShaped("outcome", r) && r != map[]
    ensures r.Keys <= AllowedOutcome
    ensures "case_status" in r && r["case_status"].Str? && IsStatus(Lower(r["case_status"].s))
    ensures ("recovery_lat" in r <==> "recovery_lon" in r)
  {
    map k | k in AllowedOutcome && OutcomeField(env, o, k).Some? :: OutcomeField(env, o, k).value
  }

  // ------------------------------------------------------------ provenance and audit

  /** One capture loop of step 8: `orig["<category>.<key>"] = src[key]` for
      each listed key present in `src`, in order. */
  function CaptureFrom(orig: Dict, category: string, src: Dict, keys: seq<string>): Dict
    decreases |keys|
  {
    if keys == [] then orig
    else
      var k := keys[0];
      CaptureFrom(if k in src then orig[category + "." + k := src[k]] else orig, category, src, keys[1..])
  }

  /** The category a capture loop reads: `raw.get(category) or {}`. Because
      `rec = dict(raw)` copies only the top level, a non-empty category of the
      caller is the very dict `_map_extra_keys` popped keys from, so the loop
      sees it after the mapping. */
  function CallerView(raw: Dict, category: string, mapped: Dict): (r: Dict)
    ensures r.Keys <= mapped.Keys
  {
    if Truthy(Get(raw, category)) then mapped else map[]
  }

  /** All three capture loops of step 8, as written, starting from `orig`. */
  function Captured(env: Env, raw: Dict, orig: Dict): Dict {
    var demo := CallerView(raw, "demographic", MapDemographic(env, AsDict(Get(raw, "demographic"))));
    var spat := CallerView(raw, "spatial", MapSpatial(env, AsDict(Get(raw, "spatial"))));
    var temp := CallerView(raw, "temporal", MapTemporal(env, AsDict(Get(raw, "temporal"))));
    var o1 := CaptureFrom(orig, "demographic", demo, ["hair_color", "eye_color", "sex", "weight_lb"]);
    var o2 := CaptureFrom(o1, "spatial", spat, ["city", "state"]);
    CaptureFrom(o2, "temporal", temp, ["reported_ts", "last_seen_date"])
  }

  /** `orig[...] = ...` needs a dict: the input's `original_fields` is a dict
      or falsy, or nothing is captured. */
  predicate OriginalFieldsWritable(prov: Dict, captured: Dict) {
    var o0 := Get(prov, "original_fields");
    !Truthy(o0) || o0.Obj? || captured == map[]
  }

  /** Step 8: the captured input fields (`captured`, what the loops write into
      an empty dict) merged into `original_fields`, and `sources` defaulted to `[]`. */
  function CleanProvenance(prov: Dict, captured: Dict): (r: Dict)
    requires OriginalFieldsWritable(prov, captured)
    ensures CategoryShaped("provenance", r) && r != map[]
    ensures Get(r, "sources") == if "sources" in prov then prov["sources"] else Arr([])
    ensures forall k | k != "original_fields" && k != "sources" :: (k in r <==> k in prov) && Get(r, k) == Get(prov, k)
    ensures var o0 := Get(prov, "original_fields");
      && (!Truthy(o0) && captured != map[] ==> Get(r, "original_fields") == Obj(captured))
      && (Truthy(o0) && o0.Obj? ==> Get(r, "original_fields") == Obj(Update(o0.fields, captured)))
      && ((Truthy(o0) && !o0.Obj?) || (captured == map[] && !Truthy(o0)) ==> Get(r, "original_fields") == o0)
  {
    var o0 := Get(prov, "original_fields");
    var orig := if !Truthy(o0) then Obj(captured)
                else if o0.Obj? then Obj(Update(o0.fields, captured))
                else o0;
    var p1 := if Truthy(orig) then prov["original_fields" := orig] else prov;
    if "sources" in p1 then p1 else p1["sources" := Arr([])]
  }

  /** `float(v)` succeeds on every confidence of a dict-valued `confidences`. */
  predicate ConfidencesNumeric(env: Env, a: Dict) {
    var c := Get(a, "confidences");
    c.Obj? ==> forall k | k in c.fields :: ToFloat(env, c.fields[k]).Some?
  }

  /** Step 9 on the audit dict, which the sanitiser edits in place: each
      confidence clamped into [0, 1], blank evidence lines dropped. */
  function AuditInPlace(env: Env, a: Dict): (r: Dict)
    requires ConfidencesNumeric(env, a)
    ensures forall k | k != "confidences" && k != "evidence" :: (k in r <==> k in a) && Get(r, k) == Get(a, k)
    ensures var c := Get(r, "confidences");
      c.Obj? ==> forall k | k in c.fields :: c.fields[k].Num? && 0.0 <= c.fields[k].n <= 1.0
  {
    var c := Or(Get(a, "confidences"), Obj(map[]));
    var a1 := if c.Obj?
      then a["confidences" := Obj(map k | k in c.fields :: Num(Clamp01(ToFloat(env, c.fields[k]).value)))]
      else a;
    var ev := Get(a1, "evidence");
    if ev.Obj?
    then a1["evidence" := Obj(map k | k in ev.fields && ev.fields[k].Str? && !Blank(ev.fields[k].s) :: ev.fields[k])]
    else a1
  }

  /** `v not in (None, "", [], {})`. */
  predicate Substantial(v: Value) {
    !NoneOrEmptyString(v) && !NoneOrEmptyContainer(v)
  }

  /** Every key but "audit" is as it was. */
  ghost predicate OnlyAuditChanged(before: Dict, after: Dict) {
    forall k | k != "audit" :: (k in after <==> k in before) && Get(after, k) == Get(before, k)
  }

  /** Step 9 on the record: the cleaned audit without empty entries when
      anything is left; otherwise the record keeps the input's (edited) audit. */
  function AuditStep(env: Env, rec: Dict): (r: Dict)
    requires DictOrFalsy(Get(rec, "audit")) && ConfidencesNumeric(env, AsDict(Get(rec, "audit")))
    ensures OnlyAuditChanged(rec, r)
    ensures var a := AuditInPlace(env, AsDict(Get(rec, "audit"))); var out := Get(r, "audit");
      && (Truthy(Get(rec, "audit")) || (exists k | k in a :: Substantial(a[k])) ==> out.Obj?)
      && (out.Obj? ==> forall k | k in out.fields :: k in a && out.fields[k] == a[k])
      && (out.Obj? ==> forall k | k in a && Substantial(a[k]) :: k in out.fields)
      && (out.Obj? && (exists k | k in out.fields :: !Substantial(out.fields[k])) ==> out.fields == a)
      && (!Truthy(Get(rec, "audit")) && (forall k | k in a :: !Substantial(a[k])) ==> out == Get(rec, "audit"))
  {
    var a0 := Get(rec, "audit");
    var out := KeptAudit(a0, AuditInPlace(env, AsDict(a0)));
    if out == a0 then rec else rec["audit" := out]
  }

  /** The audit value step 9 leaves, given the input's value `a0` and its
      cleaned entries `a`: the substantial entries when there are any, else
      all of `a` when `a0` was truthy, else `a0` itself. */
  function KeptAudit(a0: Value, a: Dict): (out: Value)
    ensures Truthy(a0) || (exists k | k in a :: Substantial(a[k])) ==> out.Obj?
    ensures out.Obj? ==> forall k | k in out.fields :: k in a && out.fields[k] == a[k]
    ensures out.Obj? ==> forall k | k in a && Substantial(a[k]) :: k in out.fields
    ensures out.Obj? && (exists k | k in out.fields :: !Substantial(out.fields[k])) ==> out.fields == a
    ensures !Truthy(a0) && (forall k | k in a :: !Substantial(a[k])) ==> out == a0
  {
    var kept := map k | k in a && Substantial(a[k]) :: a[k];
    if kept != map[] then Obj(kept)
    else if Truthy(a0) then Obj(a)
    else
      assert forall k | k in a :: !Substantial(a[k]) by {
        forall k | k in a && Substantial(a[k]) ensures k in kept { }
      }
      a0
  }

  // ------------------------------------------------------------ sanitize_guardian_row

  /** The inputs on which `sanitize_guardian_row` returns instead of raising:
      every category is a dict or falsy, `original_fields` can take the
      captured fields, and every confidence converts with `float()`. */
  predicate Sanitizable(env: Env, raw: Dict) {
    && DictOrFalsy(Get(raw, "demographic")) && DictOrFalsy(Get(raw, "temporal"))
    && DictOrFalsy(Get(raw, "spatial")) && DictOrFalsy(Get(raw, "narrative_osint"))
    && DictOrFalsy(Get(raw, "outcome")) && DictOrFalsy(Get(raw, "provenance"))
    && DictOrFalsy(Get(raw, "audit"))
    && OriginalFieldsWritable(AsDict(Get(raw, "provenance")), Captured(env, raw, map[]))
    && ConfidencesNumeric(env, AsDict(Get(raw, "audit")))
  }


  /** The shape of every sanitised row: only allowed top-level keys, none of
      them `None`, `{}` or `[]`; the source path; the six required categories
      as dicts of whitelisted keys with the fields the schema requires. */
  ghost predicate Sanitized(r: Dict) {
    && (forall k | k in r :: IsTopKey(k))
    && (forall k | k in r :: !NoneOrEmptyContainer(r[k]))
    && "source_path" in r && r["source_path"].Str?
    && (forall k | IsRequiredKey(k) :: ShapedAt(r, k))
  }

  /** Category `k` of `r` is a dict of the shape the schema requires. */
  predicate ShapedAt(r: Dict, k: string) {
    k in r && r[k].Obj? && CategoryShaped(k, r[k].fields)
  }

  /** What the schema requires of each rebuilt category. */
  predicate CategoryShaped(k: string, d: Dict) {
    if k == "demographic" then DemographicShaped(d)
    else if k == "temporal" then TemporalShaped(d)
    else if k == "spatial" then SpatialShaped(d)
    else if k == "narrative_osint" then OsintShaped(d)
    else if k == "outcome" then OutcomeShaped(d)
    else "sources" in d
  }

  predicate DemographicShaped(d: Dict) {
    d.Keys <= AllowedDemographic && "gender" in d && d["gender"].Str? && IsSex(d["gender"].s)
  }

  predicate TemporalShaped(t: Dict) {
    && t.Keys <= AllowedTemporal
    && "timezone" in t && t["timezone"].Str? && t["timezone"].s != ""
    && "last_seen_ts" in t && t["last_seen_ts"].Str? && t["last_seen_ts"].s != ""
  }

  predicate SpatialShaped(s: Dict) {
    && s.Keys <= AllowedSpatial
    && "last_seen_lat" in s && s["last_seen_lat"].Num? && -90.0 <= s["last_seen_lat"].n <= 90.0
    && "last_seen_lon" in s && s["last_seen_lon"].Num? && -180.0 <= s["last_seen_lon"].n <= 180.0
  }

  predicate OsintShaped(n: Dict) {
    n.Keys <= AllowedOsint && "incident_summary" in n && n["incident_summary"].Str? && n["incident_summary"].s != ""
  }

  predicate OutcomeShaped(o: Dict) {
    && o.Keys <= AllowedOutcome
    && "case_status" in o && o["case_status"].Str? && IsStatus(Lower(o["case_status"].s))
    && ("recovery_lat" in o <==> "recovery_lon" in o)
  }

  /** Steps 3 to 8 for category `k` of the whitelisted record. */
  function CleanCategory(env: Env, now: Timestamp, captured: Dict, k: string, d: Dict): (r: Dict)
    requires IsRequiredKey(k)
    requires k == "provenance" ==> OriginalFieldsWritable(d, captured)
    ensures CategoryShaped(k, r) && r != map[]
  {
    if k == "demographic" then CleanDemographic(env, d)
    else if k == "temporal" then CleanTemporal(env, now, d)
    else if k == "spatial" then CleanSpatial(env, d)
    else if k == "narrative_osint" then CleanOsint(env, d)
    else if k == "outcome" then CleanOutcome(env, d)
    else CleanProvenance(d, captured)
  }

  /** Step 2: the keys outside the whitelist or holding None dropped. */
  function Whitelist(rec: Dict): (kept: Dict)
    ensures forall k | k in kept :: IsTopKey(k) && kept[k] != Null
    ensures forall k | IsTopKey(k) :: Get(kept, k) == Get(rec, k)
  {
    map k | k in rec && IsTopKey(k) && rec[k] != Null :: rec[k]
  }

  /** Every required category rebuilt, non-empty and of the required shape. */
  ghost predicate CategoriesRebuilt(cats: Dict) {
    && (forall k | k in cats :: IsRequiredKey(k))
    && (forall k | IsRequiredKey(k) :: ShapedAt(cats, k) && cats[k].fields != map[])
  }

  /** Steps 3 to 8: every required category rebuilt from what the record
      holds under it (the whitelist of step 2 keeps each of them as it is). */
  function CleanedCategories(env: Env, now: Timestamp, captured: Dict, kept: Dict): (cats: Dict)
    requires OriginalFieldsWritable(AsDict(Get(kept, "provenance")), captured)
    ensures CategoriesRebuilt(cats)
  {
    map k | k in {"demographic", "temporal", "spatial", "narrative_osint", "outcome", "provenance"}
      :: Obj(CleanCategory(env, now, captured, k, AsDict(Get(kept, k))))
  }

  /** The last step: whitelisted keys whose value is not None, `{}` or `[]`. */
  function DropEmpty(d: Dict): (r: Dict)
    ensures forall k | k in r :: IsTopKey(k) && k in d && r[k] == d[k] && !NoneOrEmptyContainer(r[k])
    ensures forall k | k in d && IsTopKey(k) && !NoneOrEmptyContainer(d[k]) :: k in r
  {
    map k | k in d && IsTopKey(k) && !NoneOrEmptyContainer(d[k]) :: d[k]
  }

  /** Step 10: `case_id` copied from the input when it has one. */
  function WithCaseId(d: Dict, raw: Dict): (r: Dict)
    ensures "case_id" in raw ==> "case_id" in r && r["case_id"] == raw["case_id"]
    ensures forall k | k != "case_id" :: (k in r <==> k in d) && Get(r, k) == Get(d, k)
  {
    if "case_id" in raw then d["case_id" := raw["case_id"]] else d
  }

  /** `sanitize_guardian_row(raw, source_path)`; `now` is the clock reading
      used for a missing `last_seen_ts`. The source path is set after the
      mapping rather than before it, which gives the same record because the
      mapping touches only the three categories. */
  function SanitizeRow(env: Env, now: Timestamp, raw: Dict, sourcePath: string): (r: Dict)
    requires Sanitizable(env, raw)
    ensures Sanitized(r)
    ensures r["source_path"] == Str(sourcePath)
    ensures forall k | IsRequiredKey(k) :: k in r && r[k] == Rebuilt(env, now, raw)[k]
    ensures "case_id" in r ==> "case_id" in raw
    ensures "case_id" in raw && !NoneOrEmptyContainer(raw["case_id"]) ==> Get(r, "case_id") == raw["case_id"]
  {
    Assembled(env, raw, sourcePath, MapExtraKeys(env, raw), Rebuilt(env, now, raw))
  }

  /** Steps 3 to 8 on the mapped record, with the fields captured from the
      caller's categories. */
  function Rebuilt(env: Env, now: Timestamp, raw: Dict): (cats: Dict)
    requires Sanitizable(env, raw)
    ensures CategoriesRebuilt(cats)
  {
    var rec := MapExtraKeys(env, raw);
    ProvenanceUnmapped(raw, rec);
    CleanedCategories(env, now, Captured(env, raw, map[]), rec)
  }

  /** The rebuilt provenance is step 8 applied to the record's provenance. */
  lemma CleanedProvenance(env: Env, now: Timestamp, captured: Dict, kept: Dict)
    requires OriginalFieldsWritable(AsDict(Get(kept, "provenance")), captured)
    ensures CleanedCategories(env, now, captured, kept)["provenance"] == Obj(CleanProvenance(AsDict(Get(kept, "provenance")), captured))
  {
  }

  lemma ProvenanceUnmapped(raw: Dict, rec: Dict)
    requires KeepsUnmapped(raw, rec)
    ensures Get(rec, "provenance") == Get(raw, "provenance")
  {
  }

  /** Steps 2, 9, 10 and the final filter around the rebuilt categories
      `cats`, on the mapped record `rec`. */
  function Assembled(env: Env, raw: Dict, sourcePath: string, rec: Dict, cats: Dict): (r: Dict)
    requires KeepsUnmapped(raw, rec) && CategoriesRebuilt(cats)
    requires DictOrFalsy(Get(raw, "audit")) && ConfidencesNumeric(env, AsDict(Get(raw, "audit")))
    ensures Sanitized(r)
    ensures r["source_path"] == Str(sourcePath)
    ensures forall k | IsRequiredKey(k) :: k in r && r[k] == cats[k]
    ensures "case_id" in r ==> "case_id" in raw
    ensures "case_id" in raw && !NoneOrEmptyContainer(raw["case_id"]) ==> Get(r, "case_id") == raw["case_id"]
  {
    var kept := Whitelist(rec["source_path" := Str(sourcePath)]);
    KeysThreaded(raw, sourcePath, rec, kept);
    var merged := Update(kept, cats);
    AuditThreaded(raw, kept, cats);
    var audited := AuditStep(env, merged);
    var r := DropEmpty(WithCaseId(audited, raw));
    AssembledIsSanitized(sourcePath, kept, cats, audited, raw, r);
    AssembledCaseId(raw, rec, kept, cats, audited, r);
    forall k | IsRequiredKey(k) ensures k in r && r[k] == cats[k] {
      AssembledCategory(kept, cats, audited, raw, r, k);
    }
    r
  }

  /** The source path, the provenance and the audit pass the mapping and the
      whitelist unchanged. */
  lemma KeysThreaded(raw: Dict, sourcePath: string, rec: Dict, kept: Dict)
    requires KeepsUnmapped(raw, rec)
    requires kept == Whitelist(rec["source_path" := Str(sourcePath)])
    ensures Get(kept, "source_path") == Str(sourcePath)
    ensures Get(kept, "provenance") == Get(raw, "provenance")
    ensures Get(kept, "audit") == Get(raw, "audit")
  {
  }

  /** The rebuilt categories do not include the audit. */
  lemma AuditThreaded(raw: Dict, kept: Dict, cats: Dict)
    requires Get(kept, "audit") == Get(raw, "audit")
    requires CategoriesRebuilt(cats)
    ensures Get(Update(kept, cats), "audit") == Get(raw, "audit")
  {
  }

  /** The steps after the rebuild leave a rebuilt category where it is. */
  lemma AssembledCategory(kept: Dict, cats: Dict, audited: Dict, raw: Dict, r: Dict, k: string)
    requires CategoriesRebuilt(cats) && IsRequiredKey(k)
    requires OnlyAuditChanged(Update(kept, cats), audited)
    requires r == DropEmpty(WithCaseId(audited, raw))
    ensures k in r && r[k] == cats[k]
  {
    assert Get(audited, k) == cats[k];
  }

  /** The final filter keeps the source path and the rebuilt categories. */
  lemma AssembledIsSanitized(sourcePath: string, kept: Dict, cats: Dict, audited: Dict, raw: Dict, r: Dict)
    requires Get(kept, "source_path") == Str(sourcePath)
    requires CategoriesRebuilt(cats)
    requires OnlyAuditChanged(Update(kept, cats), audited)
    requires r == DropEmpty(WithCaseId(audited, raw))
    ensures Sanitized(r)
    ensures r["source_path"] == Str(sourcePath)
  {
    forall k | IsRequiredKey(k)
      ensures ShapedAt(r, k)
    {
      assert Get(audited, k) == cats[k];
    }
  }
  /** Step 10 is the only way to a `case_id`: the whitelist keeps the input's
      own, the rebuilt categories and the audit step add none, and step 10
      copies the input's. */
  lemma AssembledCaseId(raw: Dict, rec: Dict, kept: Dict, cats: Dict, audited: Dict, r: Dict)
    requires KeepsUnmapped(raw, rec) && CategoriesRebuilt(cats)
    requires forall k | k in kept :: k in rec || k == "source_path"
    requires OnlyAuditChanged(Update(kept, cats), audited)
    requires r == DropEmpty(WithCaseId(audited, raw))
    ensures "case_id" in r ==> "case_id" in raw
    ensures "case_id" in raw && !NoneOrEmptyContainer(raw["case_id"]) ==> Get(r, "case_id") == raw["case_id"]
  {
    assert !IsMapped("case_id") && !IsRequiredKey("case_id");
    assert "case_id" in audited ==> "case_id" in kept;
  }
}

=== FILE: sanitize_props.dfy ===
/** Properties of the schema sanitiser (llm/agent/schema_sanitize.py): what
    the key mapping moves, which values each category keeps, where each
    category of the sanitised row comes from, that a list or a text stored
    once reads back the same, and the places where running the sanitiser on
    its own output changes it. */
module SanitizeProps {
  import opened Wrappers
  import opened Json
  import opened Text
  import opened Runtime
  import opened Common
  import opened Sanitize

  /** What a rebuilt category holds under a key that received `o`. */
  function Stored(o: Option<Value>): Value {
    if o.Some? then o.value else Null
  }

  // ------------------------------------------------------------ conversions

  /** `_s` of a value `_s` produced gives the same text back. */
  lemma SafeStrStable(env: Env, v: Value)
    ensures var s := SafeStr(env, v); s.Some? ==> SafeStr(env, Str(s.value)) == s
  {
  }

  /** `_s` read back from what `StrOpt(_s(v))` stored is that value again. */
  lemma StoredTextStable(env: Env, o: Option<string>)
    requires o.Some? ==> o.value != "" && Strip(o.value) == o.value
    ensures StrOpt(SafeStr(env, Stored(StrOpt(o)))) == StrOpt(o)
  {
  }

  /** Strings that are already clean come out of the list cleaning unchanged. */
  lemma {:induction false} CleanStringsOfClean(env: Env, ys: seq<string>)
    requires forall i | 0 <= i < |ys| :: ys[i] != "" && Strip(ys[i]) == ys[i]
    ensures CleanStrings(env, Strs(ys)) == ys
  {
    if ys != [] {
      var xs := Strs(ys);
      assert xs[1..] == Strs(ys[1..]);
      assert Show(env, xs[0]) == ys[0];
      CleanStringsOfClean(env, ys[1..]);
      assert CleanStrings(env, xs) == [ys[0]] + CleanStrings(env, xs[1..]);
    }
  }

  /** Cleaning a list of strings twice is cleaning it once. */
  lemma CleanStringsIdempotent(env: Env, xs: seq<Value>)
    ensures CleanStrings(env, Strs(CleanStrings(env, xs))) == CleanStrings(env, xs)
  {
    CleanStringsOfClean(env, CleanStrings(env, xs));
  }

  /** Filtering out the elements without text twice is filtering once. */
  lemma {:induction false} KeepFilledIdempotent(env: Env, xs: seq<Value>)
    ensures KeepFilled(env, KeepFilled(env, xs)) == KeepFilled(env, xs)
  {
    if xs != [] {
      var head := if Filled(env, xs[0]) then [xs[0]] else [];
      var rest := KeepFilled(env, xs[1..]);
      KeepFilledIdempotent(env, xs[1..]);
      KeepFilledAppend(env, head, rest);
    }
  }

  lemma {:induction false} KeepFilledAppend(env: Env, a: seq<Value>, b: seq<Value>)
    ensures KeepFilled(env, a + b) == KeepFilled(env, a) + KeepFilled(env, b)
  {
    if a != [] {
      assert (a + b)[1..] == a[1..] + b;
      KeepFilledAppend(env, a[1..], b);
    } else {
      assert a + b == b;
    }
  }

  /** A list field stored once is read back as the same list. */
  lemma ListFieldStable(env: Env, v: Value)
    ensures ListField(env, Stored(ListField(env, v))) == ListField(env, v)
  {
    if ListField(env, v).Some? {
      CleanStringsIdempotent(env, v.items);
    }
  }

  // ------------------------------------------------------------ _map_extra_keys

  /** A full-word `sex`, in any case, overrides `gender`; any other `sex` is
      dropped and `gender` stays as it was. */
  lemma SexOverridesGender(env: Env, demo: Dict)
    ensures var sex := SafeStr(env, Get(demo, "sex"));
      var g := Get(MapDemographic(env, demo), "gender");
      && (sex.Some? && IsSex(Lower(sex.value)) ==> g == Str(Lower(sex.value)))
      && (!(sex.Some? && IsSex(Lower(sex.value))) ==> g == Get(demo, "gender"))
  {
    var sex := SafeStr(env, Get(demo, "sex"));
    var d1 := Del(demo, "sex");
    var d2 := if sex.Some? && IsSex(Lower(sex.value)) then d1["gender" := Str(Lower(sex.value))] else d1;
    var wl := Get(d2, "weight_lb");
    MoveKeepsOthers(d2, "weight_lb", "weight_lbs", if wl != Null then Some(wl) else None, "gender");
  }

  /** `weight_lb` fills an absent `weight_lbs`; an existing one wins. */
  lemma WeightAliasMoved(env: Env, demo: Dict)
    ensures Get(MapDemographic(env, demo), "weight_lbs")
      == if "weight_lbs" in demo then demo["weight_lbs"] else Get(demo, "weight_lb")
  {
    var sex := SafeStr(env, Get(demo, "sex"));
    var d1 := Del(demo, "sex");
    var d2 := if sex.Some? && IsSex(Lower(sex.value)) then d1["gender" := Str(Lower(sex.value))] else d1;
    assert ("weight_lbs" in d2 <==> "weight_lbs" in demo) && Get(d2, "weight_lbs") == Get(demo, "weight_lbs");
    assert Get(d2, "weight_lb") == Get(demo, "weight_lb");
  }

  /** The temporal aliases fill absent targets with their text. */
  lemma TemporalAliasesMoved(env: Env, temp: Dict)
    ensures var r := MapTemporal(env, temp);
      var rts := SafeStr(env, Get(temp, "reported_ts"));
      && ("reported_missing_ts" !in temp && rts.Some? ==> Get(r, "reported_missing_ts") == Str(rts.value))
      && ("reported_missing_ts" in temp ==> Get(r, "reported_missing_ts") == temp["reported_missing_ts"])
    ensures var r := MapTemporal(env, temp);
      var lsd := SafeStr(env, Get(temp, "last_seen_date"));
      && ("last_seen_ts" !in temp && lsd.Some? ==> Get(r, "last_seen_ts") == Str(lsd.value))
      && ("last_seen_ts" in temp ==> Get(r, "last_seen_ts") == temp["last_seen_ts"])
  {
    ReportedMoved(env, temp);
    LastSeenMoved(env, temp);
  }

  /** The first move of `MapTemporal`, seen through the rest of it. */
  lemma ReportedMoved(env: Env, temp: Dict)
    ensures var r := MapTemporal(env, temp);
      var rts := SafeStr(env, Get(temp, "reported_ts"));
      && ("reported_missing_ts" !in temp && rts.Some? ==> Get(r, "reported_missing_ts") == Str(rts.value))
      && ("reported_missing_ts" in temp ==> Get(r, "reported_missing_ts") == temp["reported_missing_ts"])
  {
    var t1 := Move(temp, "reported_ts", "reported_missing_ts", StrOpt(SafeStr(env, Get(temp, "reported_ts"))));
    MoveKeepsOthers(t1, "last_seen_date", "last_seen_ts", StrOpt(SafeStr(env, Get(t1, "last_seen_date"))),
                    "reported_missing_ts");
  }

  /** The second move of `MapTemporal`, which the first leaves its keys for. */
  lemma LastSeenMoved(env: Env, temp: Dict)
    ensures var r := MapTemporal(env, temp);
      var lsd := SafeStr(env, Get(temp, "last_seen_date"));
      && ("last_seen_ts" !in temp && lsd.Some? ==> Get(r, "last_seen_ts") == Str(lsd.value))
      && ("last_seen_ts" in temp ==> Get(r, "last_seen_ts") == temp["last_seen_ts"])
  {
    var rts := StrOpt(SafeStr(env, Get(temp, "reported_ts")));
    var t1 := Move(temp, "reported_ts", "reported_missing_ts", rts);
    MoveKeepsOthers(temp, "reported_ts", "reported_missing_ts", rts, "last_seen_date");
    MoveKeepsOthers(temp, "reported_ts", "reported_missing_ts", rts, "last_seen_ts");
    var t2 := Move(t1, "last_seen_date", "last_seen_ts", StrOpt(SafeStr(env, Get(t1, "last_seen_date"))));
    assert Get(MapTemporal(env, temp), "last_seen_ts") == Get(t2, "last_seen_ts");
  }

  /** `city` and `state` fill absent `last_seen_city` and `last_seen_state`. */
  lemma SpatialAliasesMoved(env: Env, spat: Dict)
    ensures var r := MapSpatial(env, spat);
      var city := SafeStr(env, Get(spat, "city"));
      && ("last_seen_city" !in spat && city.Some? ==> Get(r, "last_seen_city") == Str(city.value))
      && ("last_seen_city" in spat ==> Get(r, "last_seen_city") == spat["last_seen_city"])
    ensures var r := MapSpatial(env, spat);
      var state := SafeStr(env, Get(spat, "state"));
      && ("last_seen_state" !in spat && state.Some? ==> Get(r, "last_seen_state") == Str(state.value))
      && ("last_seen_state" in spat ==> Get(r, "last_seen_state") == spat["last_seen_state"])
  {
    var city := StrOpt(SafeStr(env, Get(spat, "city")));
    var s1 := Move(spat, "city", "last_seen_city", city);
    MoveKeepsOthers(s1, "state", "last_seen_state", StrOpt(SafeStr(env, Get(s1, "state"))), "last_seen_city");
    MoveKeepsOthers(spat, "city", "last_seen_city", city, "state");
    MoveKeepsOthers(spat, "city", "last_seen_city", city, "last_seen_state");
  }

  /** The sightings are rebuilt item by item: a list is rebuilt as its two
      halves are, one after the other, so the kept sightings keep the
      input's order. */
  lemma SightingsAppend(env: Env, xs: seq<Value>, ys: seq<Value>, withAliases: bool)
    ensures Sightings(env, xs + ys, withAliases) == Sightings(env, xs, withAliases) + Sightings(env, ys, withAliases)
  {
    SightingListAppend(env, xs, ys, withAliases);
  }

  // ------------------------------------------------------------ the sanitised row

  /** Each of the six required categories of the sanitised row is the
      category rebuilt from what the key mapping left under that key, with the
      fields captured from the caller's categories. */
  lemma SanitizedCategory(env: Env, now: Timestamp, raw: Dict, sourcePath: string, k: string)
    requires Sanitizable(env, raw) && IsRequiredKey(k)
    ensures Get(MapExtraKeys(env, raw), "provenance") == Get(raw, "provenance")
    ensures var d := AsDict(Get(MapExtraKeys(env, raw), k));
      k in SanitizeRow(env, now, raw, sourcePath)
      && SanitizeRow(env, now, raw, sourcePath)[k] == Obj(CleanCategory(env, now, Captured(env, raw, map[]), k, d))
  {
    RebuiltCategory(env, now, raw, k);
  }

  /** What the rebuild of steps 3 to 8 holds under a required key. */
  lemma RebuiltCategory(env: Env, now: Timestamp, raw: Dict, k: string)
    requires Sanitizable(env, raw) && IsRequiredKey(k)
    ensures Get(MapExtraKeys(env, raw), "provenance") == Get(raw, "provenance")
    ensures k in Rebuilt(env, now, raw)
      && Rebuilt(env, now, raw)[k] == Obj(CleanCategory(env, now, Captured(env, raw, map[]), k, AsDict(Get(MapExtraKeys(env, raw), k))))
  {
    ProvenanceUnmapped(raw, MapExtraKeys(env, raw));
  }

  // ------------------------------------------------------------ provenance capture

  /** A capture loop over keys none of which is in the source writes nothing. */
  lemma {:induction false} CaptureNothing(orig: Dict, category: string, src: Dict, keys: seq<string>)
    requires forall i | 0 <= i < |keys| :: keys[i] !in src
    ensures CaptureFrom(orig, category, src, keys) == orig
    decreases |keys|
  {
    if keys != [] {
      CaptureNothing(orig, category, src, keys[1..]);
    }
  }

  /** Of the eight input fields step 8 looks for, only `hair_color` and
      `eye_color` can ever be recorded: the mapping has already removed
      `sex`, `weight_lb`, `city`, `state`, `reported_ts` and `last_seen_date`
      from the dicts the loops read. */
  lemma CapturedOnlyColours(env: Env, raw: Dict, orig: Dict)
    ensures Captured(env, raw, orig)
      == CaptureFrom(orig, "demographic",
                     CallerView(raw, "demographic", MapDemographic(env, AsDict(Get(raw, "demographic")))),
                     ["hair_color", "eye_color"])
  {
    var demo := CallerView(raw, "demographic", MapDemographic(env, AsDict(Get(raw, "demographic"))));
    var spat := CallerView(raw, "spatial", MapSpatial(env, AsDict(Get(raw, "spatial"))));
    var temp := CallerView(raw, "temporal", MapTemporal(env, AsDict(Get(raw, "temporal"))));
    CapturesAfterMapping(orig, demo, spat, temp);
  }

  /** The three capture loops over dicts the mapping has already rewritten. */
  lemma CapturesAfterMapping(orig: Dict, demo: Dict, spat: Dict, temp: Dict)
    requires "sex" !in demo && "weight_lb" !in demo
    requires "city" !in spat && "state" !in spat
    requires "reported_ts" !in temp && "last_seen_date" !in temp
    ensures var o1 := CaptureFrom(orig, "demographic", demo, ["hair_color", "eye_color", "sex", "weight_lb"]);
      var o2 := CaptureFrom(o1, "spatial", spat, ["city", "state"]);
      CaptureFrom(o2, "temporal", temp, ["reported_ts", "last_seen_date"])
        == CaptureFrom(orig, "demographic", demo, ["hair_color", "eye_color"])
  {
    var colours := CaptureFrom(orig, "demographic", demo, ["hair_color", "eye_color"]);
    CaptureSplit(orig, "demographic", demo, ["hair_color", "eye_color"], ["sex", "weight_lb"]);
    assert ["hair_color", "eye_color"] + ["sex", "weight_lb"] == ["hair_color", "eye_color", "sex", "weight_lb"];
    CaptureNothing(colours, "demographic", demo, ["sex", "weight_lb"]);
    CaptureNothing(colours, "spatial", spat, ["city", "state"]);
    CaptureNothing(colours, "temporal", temp, ["reported_ts", "last_seen_date"]);
  }

  /** A capture loop over `a + b` is the loop over `a` followed by the loop over `b`. */
  lemma {:induction false} CaptureSplit(orig: Dict, category: string, src: Dict, a: seq<string>, b: seq<string>)
    ensures CaptureFrom(orig, category, src, a + b)
      == CaptureFrom(CaptureFrom(orig, category, src, a), category, src, b)
    decreases |a|
  {
    if a != [] {
      assert (a + b)[1..] == a[1..] + b;
      var k := a[0];
      CaptureSplit(if k in src then orig[category + "." + k := src[k]] else orig, category, src, a[1..], b);
    } else {
      assert a + b == b;
    }
  }

  // ------------------------------------------------------------ categories

  /** Only the full words count as a gender: "F" or "M" in the input become "male". */
  lemma AbbreviatedGenderBecomesMale(env: Env)
    ensures Gender(SafeStr(env, Str("F"))) == "male"
    ensures Gender(SafeStr(env, Str("Female"))) == "female"
  {
    StripTrimmed("F");
    StripTrimmed("Female");
    assert Lower("F") == "f";
    assert Lower("Female") == "female";
  }

  /** What each rebuilt category holds under a whitelisted key is exactly
      what its field function wrote there. */
  lemma DemographicStored(env: Env, d: Dict, k: string)
    requires k in AllowedDemographic
    ensures Get(CleanDemographic(env, d), k) == Stored(DemographicField(env, d, k))
    ensures k in CleanDemographic(env, d) <==> DemographicField(env, d, k).Some?
  {
  }

  lemma TemporalStored(env: Env, now: Timestamp, t: Dict, k: string)
    requires k in AllowedTemporal
    ensures Get(CleanTemporal(env, now, t), k) == Stored(TemporalField(env, now, t, k))
    ensures k in CleanTemporal(env, now, t) <==> TemporalField(env, now, t, k).Some?
  {
  }

  lemma SpatialStored(env: Env, s: Dict, k: string)
    requires k in AllowedSpatial
    ensures Get(CleanSpatial(env, s), k) == Stored(SpatialField(env, s, k))
    ensures k in CleanSpatial(env, s) <==> SpatialField(env, s, k).Some?
  {
  }

  lemma OsintStored(env: Env, n: Dict, k: string)
    requires k in AllowedOsint
    ensures Get(CleanOsint(env, n), k) == Stored(OsintField(env, n, k))
    ensures k in CleanOsint(env, n) <==> OsintField(env, n, k).Some?
  {
  }

  lemma OutcomeStored(env: Env, o: Dict, k: string)
    requires k in AllowedOutcome
    ensures Get(CleanOutcome(env, o), k) == Stored(OutcomeField(env, o, k))
    ensures k in CleanOutcome(env, o) <==> OutcomeField(env, o, k).Some?
  {
  }

  /** Age, height and weight are kept exactly when they parse and lie in
      their ranges (0 to 120 years, 10 to 96 inches, 5 to 600 pounds), and
      then unchanged: an out-of-range value is dropped, not clamped. */
  lemma DemographicRange(env: Env, d: Dict, k: string, lo: real, hi: real)
    requires || (k == "age_years" && lo == 0.0 && hi == 120.0)
             || (k == "height_in" && lo == 10.0 && hi == 96.0)
             || (k == "weight_lbs" && lo == 5.0 && hi == 600.0)
    ensures var x := ToFloat(env, Get(d, k));
      Get(CleanDemographic(env, d), k) == if x.Some? && lo <= x.value <= hi then Num(x.value) else Null
  {
    DemographicStored(env, d, k);
  }

  /** The sightings list is written only when some sighting survives, and
      `last_seen_ts` falls back to the clock reading only when the input has none. */
  lemma TemporalDefaults(env: Env, now: Timestamp, t: Dict)
    ensures var r := CleanTemporal(env, now, t); var f := Get(t, "follow_up_sightings");
      && ("follow_up_sightings" in r <==> f.Arr? && Sightings(env, f.items, false) != [])
      && ("follow_up_sightings" in r ==> r["follow_up_sightings"] == Arr(Sightings(env, f.items, false)))
    ensures var r := CleanTemporal(env, now, t); var ls := SafeStr(env, Get(t, "last_seen_ts"));
      r["last_seen_ts"] == Str(if ls.Some? then ls.value else now)
  {
    TemporalStored(env, now, t, "follow_up_sightings");
    TemporalStored(env, now, t, "last_seen_ts");
  }

  /** The timezone defaults to America/New_York; the elapsed minutes are
      kept only as whole numbers that are not negative. */
  lemma TemporalTimezoneAndElapsed(env: Env, now: Timestamp, t: Dict, k: string)
    requires k == "elapsed_report_minutes" || k == "elapsed_first_response_minutes"
    ensures var tz := SafeStr(env, Get(t, "timezone"));
      Get(CleanTemporal(env, now, t), "timezone") == Str(if tz.Some? then tz.value else NewYork)
    ensures var i := ToInt(env, Get(t, k));
      Get(CleanTemporal(env, now, t), k) == if i.Some? && i.value >= 0 then Num(i.value as real) else Null
  {
    TemporalStored(env, now, t, "timezone");
    TemporalStored(env, now, t, k);
  }

  /** The incident summary defaults to "No summary available". */
  lemma SummaryDefault(env: Env, n: Dict)
    ensures var s := SafeStr(env, Get(n, "incident_summary"));
      Get(CleanOsint(env, n), "incident_summary") == Str(if s.Some? then s.value else NoSummary)
  {
    OsintStored(env, n, "incident_summary");
  }

  /** The last-seen coordinates are copied together when both parse and lie
      in range; otherwise both are 0.0. */
  lemma SeenCoordsBothOrZero(env: Env, s: Dict)
    ensures var r := CleanSpatial(env, s);
      var p := PairInRange(ToFloat(env, Get(s, "last_seen_lat")), ToFloat(env, Get(s, "last_seen_lon")));
      && (p.Some? ==> r["last_seen_lat"] == Num(p.value.0) && r["last_seen_lon"] == Num(p.value.1))
      && (p.None? ==> r["last_seen_lat"] == Num(0.0) && r["last_seen_lon"] == Num(0.0))
  {
    SpatialStored(env, s, "last_seen_lat");
    SpatialStored(env, s, "last_seen_lon");
  }

  /** The recovery coordinates are copied together when both parse and lie
      in range; otherwise neither is written. */
  lemma RecoveryBothOrNeither(env: Env, o: Dict)
    ensures var r := CleanOutcome(env, o); var p := RecoveryCoords(env, o);
      && ("recovery_lat" in r <==> p.Some?)
      && (p.Some? ==> r["recovery_lat"] == Num(p.value.0) && r["recovery_lon"] == Num(p.value.1))
  {
    OutcomeStored(env, o, "recovery_lat");
    OutcomeStored(env, o, "recovery_lon");
  }

  /** A known status keeps its own spelling; anything else becomes "ongoing". */
  lemma StatusSpellingKept(env: Env, o: Dict)
    ensures var r := CleanOutcome(env, o); var cs := SafeStr(env, Get(o, "case_status"));
      r["case_status"] == Str(if cs.Some? && IsStatus(Lower(cs.value)) then cs.value else "ongoing")
  {
    OutcomeStored(env, o, "case_status");
  }

  // ------------------------------------------------------------ running twice

  /** A rebuilt sighting keeps its latitude exactly when one parsed and lies in range. */
  lemma SightingLatitude(ts: Option<string>, note: Option<string>, lat: Option<real>, lon: Option<real>,
                         eventType: Option<string>, reporterType: Option<string>, confidence: Option<real>)
    requires ts.Some? ==> ts.value != ""
    ensures var r := SightingItem(ts, note, lat, lon, eventType, reporterType, confidence);
      r.Some? ==> Get(r.value, "lat") == if lat.Some? && -90.0 <= lat.value <= 90.0 then Num(lat.value) else Null
  {
  }

  /** A sighting whose latitude is 0.0 keeps it when the schema pass rebuilds
      it but loses it when the mapping pass does: `lat or latitude` treats 0.0
      as missing. Sanitising a sanitised row therefore drops such latitudes. */
  lemma ZeroLatitudeLostOnRerun(env: Env, it: Dict)
    requires Get(it, "ts").Str? && !Blank(Get(it, "ts").s)
    requires Get(it, "lat") == Num(0.0) && "latitude" !in it
    ensures var once := Sighting(env, it, false); once.Some? && Get(once.value, "lat") == Num(0.0)
    ensures var again := Sighting(env, it, true); again.Some? && Get(again.value, "lat") == Null
  {
    var ts := Get(it, "ts");
    assert Or(ts, Or(Get(it, "date_iso"), Or(Get(it, "date"), Get(it, "datetime")))) == ts;
    assert Or(Get(it, "lat"), Get(it, "latitude")) == Null;
    var note := Or(Get(it, "note"), Or(Get(it, "notes"), Or(Get(it, "text"), Or(Get(it, "desc"), Get(it, "description")))));
    SightingLatitude(SafeStr(env, ts), SafeStr(env, Get(it, "note")), Some(0.0), ToFloat(env, Get(it, "lon")),
                     SafeStr(env, Get(it, "event_type")), SafeStr(env, Get(it, "reporter_type")),
                     ToFloat(env, Get(it, "confidence")));
    SightingLatitude(SafeStr(env, ts), SafeStr(env, note), None,
                     ToFloat(env, Or(Get(it, "lon"), Get(it, "longitude"))),
                     SafeStr(env, Get(it, "event_type")), SafeStr(env, Get(it, "reporter_type")),
                     ToFloat(env, Get(it, "confidence")));
  }
}

=== FILE: text.dfy ===
/** Python string operations the pipeline relies on, over `string` (a sequence
    of Unicode scalar values): `str.isspace`, `strip`, ASCII case mapping,
    prefix and substring tests, `join`, `split` on one character, code-point
    ordering with `sorted(set(...))`, and decimal rendering of naturals. */
module Text {

  /** `c.isspace()`: the characters Python treats as whitespace. */
  predicate IsSpace(c: char) {
    c == ' ' || ('\t' <= c <= '\r') || ('\U{1C}' <= c <= '\U{1F}')
    || c == '\U{85}' || c == '\U{A0}' || c == '\U{1680}'
    || ('\U{2000}' <= c <= '\U{200A}') || c == '\U{2028}' || c == '\U{2029}'
    || c == '\U{202F}' || c == '\U{205F}' || c == '\U{3000}'
  }

  predicate IsDigit(c: char) {
    '0' <= c <= '9'
  }

  predicate AllSpace(s: string) {
    forall i | 0 <= i < |s| :: IsSpace(s[i])
  }

  /** The index of the first character at or after `k` that is not whitespace, or `|s|`. */
  function SkipSpace(s: string, k: nat): (i: nat)
    requires k <= |s|
    ensures k <= i <= |s|
    decreases |s| - k
  {
    if k < |s| && IsSpace(s[k]) then SkipSpace(s, k + 1) else k
  }

  /** The index just past the last character before `k` that is not whitespace, or 0. */
  function SkipSpaceBack(s: string, k: nat): (i: nat)
    requires k <= |s|
    ensures i <= k
    decreases k
  {
    if k > 0 && IsSpace(s[k - 1]) then SkipSpaceBack(s, k - 1) else k
  }

  lemma {:induction false} SkipSpaceSpec(s: string, k: nat)
    requires k <= |s|
    ensures var i := SkipSpace(s, k);
      (i < |s| ==> !IsSpace(s[i])) && forall j | k <= j < i :: IsSpace(s[j])
    decreases |s| - k
  {
    if k < |s| && IsSpace(s[k]) {
      SkipSpaceSpec(s, k + 1);
    }
  }

  lemma {:induction false} SkipSpaceBackSpec(s: string, k: nat)
    requires k <= |s|
    ensures var i := SkipSpaceBack(s, k);
      (i > 0 ==> !IsSpace(s[i - 1])) && forall j | i <= j < k :: IsSpace(s[j])
    decreases k
  {
    if k > 0 && IsSpace(s[k - 1]) {
      SkipSpaceBackSpec(s, k - 1);
    }
  }

  /** `s.lstrip()`. */
  function LStrip(s: string): (r: string) {
    s[SkipSpace(s, 0)..]
  }

  /** `s.rstrip()`. */
  function RStrip(s: string): (r: string) {
    s[..SkipSpaceBack(s, |s|)]
  }

  /** `s.strip()`: `StripSpec` states what it keeps and what it cuts off. */
  function Strip(s: string): (r: string) {
    RStrip(LStrip(s))
  }

  /** Where `Strip(s)` starts inside `s`. */
  function StripStart(s: string): (i: nat)
    ensures i <= |s|
  {
    SkipSpace(s, 0)
  }

  /** `Strip(s)` is the slice of `s` left after cutting whitespace from both
      ends: what is cut is all whitespace, what is kept neither starts nor ends
      with whitespace, and it is empty exactly for an all-whitespace string. */
  lemma StripSpec(s: string)
    ensures var r := Strip(s); var i := StripStart(s);
      && i + |r| <= |s| && r == s[i..i + |r|]
      && AllSpace(s[..i]) && AllSpace(s[i + |r|..])
      && (r != [] ==> !IsSpace(r[0]) && !IsSpace(r[|r| - 1]))
      && (r == [] <==> AllSpace(s))
  {
    var i := SkipSpace(s, 0);
    var l := s[i..];
    var e := SkipSpaceBack(l, |l|);
    SkipSpaceSpec(s, 0);
    SkipSpaceBackSpec(l, |l|);
    assert Strip(s) == l[..e] == s[i..i + e];
    assert s[i + e..] == l[e..];
    if e == 0 {
      AllSpaceJoin(s, i);
    }
    if i < |s| {
      assert !IsSpace(s[i]);
    }
  }

  lemma AllSpaceJoin(s: string, i: nat)
    requires i <= |s| && AllSpace(s[..i]) && AllSpace(s[i..])
    ensures AllSpace(s)
  {
    forall k | 0 <= k < |s|
      ensures IsSpace(s[k])
    {
      if k < i {
        assert s[k] == s[..i][k];
      } else {
        assert s[k] == s[i..][k - i];
      }
    }
  }

  /** A string that neither starts nor ends with whitespace is its own strip. */
  lemma StripTrimmed(s: string)
    requires s != [] && !IsSpace(s[0]) && !IsSpace(s[|s| - 1])
    ensures Strip(s) == s
  {
    assert SkipSpace(s, 0) == 0;
    assert LStrip(s) == s;
    assert SkipSpaceBack(s, |s|) == |s|;
  }

  /** Stripping twice is stripping once. */
  lemma StripIdempotent(s: string)
    ensures Strip(Strip(s)) == Strip(s)
  {
    StripSpec(s);
    if Strip(s) != [] {
      StripTrimmed(Strip(s));
    } else {
      assert SkipSpace([], 0) == 0;
    }
  }

  /** `str(x).strip() == ""` for a string `x`. */
  predicate Blank(s: string) {
    Strip(s) == []
  }

  function LowerChar(c: char): char {
    if 'A' <= c <= 'Z' then (c as int + 32) as char else c
  }

  function UpperChar(c: char): char {
    if 'a' <= c <= 'z' then (c as int - 32) as char else c
  }

  /** `s.lower()` on the ASCII letters. */
  function Lower(s: string): (r: string)
    ensures |r| == |s|
    ensures forall i | 0 <= i < |s| :: r[i] == LowerChar(s[i])
  {
    seq(|s|, i requires 0 <= i < |s| => LowerChar(s[i]))
  }

  /** Lower-casing twice is lower-casing once. */
  lemma LowerIdempotent(s: string)
    ensures Lower(Lower(s)) == Lower(s)
  {
    assert forall i | 0 <= i < |s| :: LowerChar(LowerChar(s[i])) == LowerChar(s[i]);
  }

  /** `s.upper()` on the ASCII letters. */
  function Upper(s: string): (r: string)
    ensures |r| == |s|
    ensures forall i | 0 <= i < |s| :: r[i] == UpperChar(s[i])
  {
    seq(|s|, i requires 0 <= i < |s| => UpperChar(s[i]))
  }

  predicate StartsWith(s: string, p: string) {
    |p| <= |s| && s[..|p|] == p
  }

  /** `needle in hay` for strings. */
  predicate Contains(hay: string, needle: string) {
    exists i: nat | i <= |hay| :: MatchAt(hay, needle, i)
  }

  /** `needle` occurs in `hay` starting at index `i`. */
  predicate MatchAt(hay: string, needle: string, i: nat) {
    i + |needle| <= |hay| && hay[i..i + |needle|] == needle
  }

  /** A decision procedure for `Contains`, scanning start positions left to right. */
  function ContainsFrom(hay: string, needle: string, i: nat): (b: bool)
    ensures b <==> exists j: nat | i <= j <= |hay| :: MatchAt(hay, needle, j)
    decreases |hay| + 1 - i
  {
    if i + |needle| > |hay| then false
    else if MatchAt(hay, needle, i) then true
    else ContainsFrom(hay, needle, i + 1)
  }

  function HasSubstring(hay: string, needle: string): (b: bool)
    ensures b <==> Contains(hay, needle)
  {
    ContainsFrom(hay, needle, 0)
  }

  /** `sep.join(parts)`. */
  function Join(sep: string, parts: seq<string>): (r: string)
    ensures parts == [] ==> r == []
    ensures |parts| == 1 ==> r == parts[0]
  {
    if parts == [] then []
    else if |parts| == 1 then parts[0]
    else parts[0] + sep + Join(sep, parts[1..])
  }

  /** `s.split(c)` for a one-character separator: the pieces between occurrences of `c`. */
  function Split(s: string, c: char): (r: seq<string>)
    ensures |r| >= 1
    ensures forall k | 0 <= k < |r| :: c !in r[k]
    ensures c !in s ==> r == [s]
  {
    if c !in s then [s]
    else
      var i := FirstIndex(s, c);
      [s[..i]] + Split(s[i + 1..], c)
  }

  function FirstIndex(s: string, c: char): (i: nat)
    requires c in s
    ensures i < |s| && s[i] == c && c !in s[..i]
  {
    if s[0] == c then 0 else 1 + FirstIndex(s[1..], c)
  }

  lemma {:induction false} SplitJoin(s: string, c: char)
    ensures Join([c], Split(s, c)) == s
    decreases |s|
  {
    if c in s {
      var i := FirstIndex(s, c);
      var rest := Split(s[i + 1..], c);
      assert Split(s, c) == [s[..i]] + rest;
      JoinCons([c], s[..i], rest);
      SplitJoin(s[i + 1..], c);
      SliceAround(s, i);
    }
  }

  lemma SliceAround(s: string, i: nat)
    requires i < |s|
    ensures s[..i] + [s[i]] + s[i + 1..] == s
  {
    assert s == s[..i] + s[i..];
  }

  lemma JoinCons(sep: string, a: string, rest: seq<string>)
    requires rest != []
    ensures Join(sep, [a] + rest) == a + sep + Join(sep, rest)
  {
    assert ([a] + rest)[1..] == rest;
  }

  /** Python's `<` on strings: code-point lexicographic order. */
  predicate StrLt(a: string, b: string) {
    if a == [] then b != []
    else if b == [] then false
    else a[0] < b[0] || (a[0] == b[0] && StrLt(a[1..], b[1..]))
  }

  lemma StrLtIrreflexive(a: string)
    ensures !StrLt(a, a)
  {
  }

  lemma StrLtTransitive(a: string, b: string, c: string)
    requires StrLt(a, b) && StrLt(b, c)
    ensures StrLt(a, c)
  {
    if a != [] && b != [] && c != [] && a[0] == b[0] && b[0] == c[0] {
      StrLtTransitive(a[1..], b[1..], c[1..]);
    }
  }

  lemma StrLtTotal(a: string, b: string)
    ensures a == b || StrLt(a, b) || StrLt(b, a)
  {
    if a != [] && b != [] && a[0] == b[0] {
      StrLtTotal(a[1..], b[1..]);
      if a[1..] == b[1..] {
        assert a == [a[0]] + a[1..] && b == [b[0]] + b[1..];
      }
    }
  }

  lemma StrLtAsymmetric(a: string, b: string)
    requires StrLt(a, b)
    ensures !StrLt(b, a)
  {
    if StrLt(b, a) {
      StrLtTransitive(a, b, a);
      StrLtIrreflexive(a);
    }
  }

  predicate StrictlyAscending(xs: seq<string>) {
    forall i, j | 0 <= i < j < |xs| :: StrLt(xs[i], xs[j])
  }

  function Elems(xs: seq<string>): set<string> {
    set x | x in xs
  }

  /** Inserts `x` into a strictly ascending list unless it is already there. */
  function InsertUnique(x: string, xs: seq<string>): (r: seq<string>)
    requires StrictlyAscending(xs)
    ensures StrictlyAscending(r)
    ensures Elems(r) == Elems(xs) + {x}
  {
    if xs == [] then [x]
    else if x == xs[0] then xs
    else if StrLt(x, xs[0]) then
      assert forall j | 0 < j < |xs| :: StrLt(x, xs[j]) by {
        forall j | 0 < j < |xs| { StrLtTransitive(x, xs[0], xs[j]); }
      }
      [x] + xs
    else
      StrLtTotal(x, xs[0]);
      var t := InsertUnique(x, xs[1..]);
      assert Elems(xs) == {xs[0]} + Elems(xs[1..]);
      forall y | y in t
        ensures StrLt(xs[0], y)
      {
        if y != x {
          assert y in Elems(t);
          assert y in Elems(xs[1..]);
          var j :| 0 <= j < |xs[1..]| && xs[1..][j] == y;
          assert xs[j + 1] == y;
        }
      }
      assert Elems([xs[0]] + t) == {xs[0]} + Elems(t);
      [xs[0]] + t
  }

  /** `sorted(set(xs))` for a list of strings. */
  function SortedSet(xs: seq<string>): (r: seq<string>)
    ensures StrictlyAscending(r)
    ensures Elems(r) == Elems(xs)
  {
    if xs == [] then []
    else
      var r := InsertUnique(xs[|xs| - 1], SortedSet(xs[..|xs| - 1]));
      assert Elems(xs) == Elems(xs[..|xs| - 1]) + {xs[|xs| - 1]};
      r
  }

  /** A strictly ascending list is determined by its elements. */
  lemma {:induction false} AscendingUnique(a: seq<string>, b: seq<string>)
    requires StrictlyAscending(a) && StrictlyAscending(b) && Elems(a) == Elems(b)
    ensures a == b
  {
    if a != [] { assert a[0] in Elems(a); }
    if b != [] { assert b[0] in Elems(b); }
    if a != [] && b != [] {
      assert a[0] in Elems(b) && b[0] in Elems(a);
      if a[0] != b[0] {
        var i :| 0 <= i < |b| && b[i] == a[0];
        var j :| 0 <= j < |a| && a[j] == b[0];
        StrLtAsymmetric(a[0], a[j]);
      }
      assert Elems(a[1..]) == Elems(a) - {a[0]} by {
        forall y | y in a[1..] ensures y != a[0] { StrLtIrreflexive(a[0]); }
      }
      assert Elems(b[1..]) == Elems(b) - {b[0]} by {
        forall y | y in b[1..] ensures y != b[0] { StrLtIrreflexive(b[0]); }
      }
      AscendingUnique(a[1..], b[1..]);
      assert a == [a[0]] + a[1..] && b == [b[0]] + b[1..];
    }
  }

  function DigitChar(d: nat): char
    requires d < 10
  {
    ('0' as int + d) as char
  }

  /** `str(n)` for a natural number. */
  function NatToString(n: nat): (r: string)
    ensures |r| >= 1 && forall i | 0 <= i < |r| :: IsDigit(r[i])
    ensures n < 10 ==> r == [DigitChar(n)]
  {
    if n < 10 then [DigitChar(n)] else NatToString(n / 10) + [DigitChar(n % 10)]
  }

  /** `int(s)` for a string of ASCII digits. */
  function DigitsValue(s: string): (n: nat)
    requires forall i | 0 <= i < |s| :: IsDigit(s[i])
  {
    if s == [] then 0
    else
      assert IsDigit(s[|s| - 1]);
      DigitsValue(s[..|s| - 1]) * 10 + (s[|s| - 1] as int - '0' as int)
  }

  lemma {:induction false} NatToStringRoundTrip(n: nat)
    ensures DigitsValue(NatToString(n)) == n
  {
    if n >= 10 {
      NatToStringRoundTrip(n / 10);
      var s := NatToString(n);
      assert s[..|s| - 1] == NatToString(n / 10);
    }
  }

  /** `s.replace(c, "")` for a single character `c`: the other characters, in order. */
  function Without(s: string, c: char): (r: string)
    ensures c !in r && |r| <= |s|
    ensures forall x | x in r :: x in s
  {
    if s == [] then [] else (if s[0] == c then [] else [s[0]]) + Without(s[1..], c)
  }

  /** Removing a character that does not occur changes nothing. */
  lemma {:induction false} WithoutAbsent(s: string, c: char)
    requires c !in s
    ensures Without(s, c) == s
  {
    if s != [] {
      WithoutAbsent(s[1..], c);
    }
  }
}

=== FILE: textclean.dfy ===
/** `clean_pdf_text` and its helpers (llm/agent/text_clean.py): the text the
    PDF tool hands to the language model. NFKC normalisation and the "Page N
    of M" regex are environment answers; everything else is modelled. */
module TextClean {
  import opened Wrappers
  import opened Text
  import opened Runtime

  // ------------------------------------------------------------ ligatures and dashes

  /** The keys of `LIGATURES`: five ligatures and six dash characters. */
  predicate IsLigature(c: char) {
    || c == '\U{FB00}' || c == '\U{FB01}' || c == '\U{FB02}' || c == '\U{FB03}' || c == '\U{FB04}'
    || c == '\U{2010}' || c == '\U{2011}' || c == '\U{2012}' || c == '\U{2013}' || c == '\U{2014}'
    || c == '\U{2212}'
  }

  /** The ASCII text `LIGATURES` maps a key to. */
  function LigatureText(c: char): (r: string)
    requires IsLigature(c)
    ensures 1 <= |r| <= 3 && forall i | 0 <= i < |r| :: !IsLigature(r[i])
  {
    if c == '\U{FB00}' then "ff"
    else if c == '\U{FB01}' then "fi"
    else if c == '\U{FB02}' then "fl"
    else if c == '\U{FB03}' then "ffi"
    else if c == '\U{FB04}' then "ffl"
    else "-"
  }

  predicate NoLigature(s: string) {
    forall i | 0 <= i < |s| :: !IsLigature(s[i])
  }

  /** `_replace_ligatures(s)`: every key of `LIGATURES` replaced by its ASCII
      text; nothing else changes. */
  function ReplaceLigatures(s: string): (r: string)
    ensures NoLigature(r)
    ensures NoLigature(s) ==> r == s
    ensures |r| >= |s|
    decreases |s|
  {
    if s == [] then []
    else
      var tail := ReplaceLigatures(s[1..]);
      NoLigatureJoin(Expand(s[0]), tail);
      Expand(s[0]) + tail
  }

  /** One character of the input, replaced when it is a key of `LIGATURES`. */
  function Expand(c: char): (r: string)
    ensures NoLigature(r) && 1 <= |r|
    ensures !IsLigature(c) ==> r == [c]
  {
    if IsLigature(c) then LigatureText(c) else [c]
  }

  lemma NoLigatureJoin(a: string, b: string)
    requires NoLigature(a) && NoLigature(b)
    ensures NoLigature(a + b)
  {
    assert forall i | 0 <= i < |a + b| :: (a + b)[i] == if i < |a| then a[i] else b[i - |a|];
  }

  /** The replacement works character by character: it commutes with
      concatenation. */
  lemma {:induction false} LigaturesSplit(a: string, b: string)
    ensures ReplaceLigatures(a + b) == ReplaceLigatures(a) + ReplaceLigatures(b)
    decreases |a|
  {
    if a == [] {
      assert a + b == b;
    } else {
      var ab := a + b;
      assert ab[0] == a[0] && ab[1..] == a[1..] + b;
      LigaturesSplit(a[1..], b);
      calc {
        ReplaceLigatures(ab);
        Expand(a[0]) + ReplaceLigatures(a[1..] + b);
        Expand(a[0]) + (ReplaceLigatures(a[1..]) + ReplaceLigatures(b));
        (Expand(a[0]) + ReplaceLigatures(a[1..])) + ReplaceLigatures(b);
      }
    }
  }

  /** Replacing twice is replacing once. */
  lemma LigaturesIdempotent(s: string)
    ensures ReplaceLigatures(ReplaceLigatures(s)) == ReplaceLigatures(s)
  {
  }

  // ------------------------------------------------------------ dehyphenation

  /** `\w` of a `str` pattern: the ASCII letters, digits and `_`, and beyond
      ASCII the Unicode alphanumerics (an environment answer); never a
      whitespace character. */
  predicate WordChar(env: Env, c: char) {
    if c as int < 128 then ('a' <= c <= 'z') || ('A' <= c <= 'Z') || ('0' <= c <= '9') || c == '_'
    else env.isWordChar(c) && !IsSpace(c)
  }

  /** `(\w)-\s*\n\s*(\w)` matches at `i`: a word character, a hyphen, a run of
      whitespace holding a newline, and a word character right after the run.
      Since `\w` never matches whitespace, the two `\s*` between them cover
      exactly the whole run. */
  predicate BreakAt(env: Env, s: string, i: nat) {
    && i + 2 <= |s| && WordChar(env, s[i]) && s[i + 1] == '-'
    && var j := SkipSpace(s, i + 2);
       j < |s| && WordChar(env, s[j]) && '\n' in s[i + 2..j]
  }

  /** `_dehyphenate(s)`: `re.sub` scans left to right; at a match the two word
      characters are kept, the hyphen and the whitespace between them are
      removed, and the scan resumes after the second word character. */
  function Dehyphenate(env: Env, s: string): (r: string)
    ensures |r| <= |s|
    decreases |s|
  {
    if s == [] then []
    else if BreakAt(env, s, 0) then
      var j := SkipSpace(s, 2);
      [s[0], s[j]] + Dehyphenate(env, s[j + 1..])
    else [s[0]] + Dehyphenate(env, s[1..])
  }

  /** Text without a hyphen is left alone. */
  lemma {:induction false} NoHyphenUnchanged(env: Env, s: string)
    requires '-' !in s
    ensures Dehyphenate(env, s) == s
    decreases |s|
  {
    if s != [] {
      assert s[1..] == s[1..];
      assert '-' !in s[1..] by {
        forall i | 0 <= i < |s[1..]| ensures s[1..][i] != '-' { assert s[1..][i] == s[i + 1]; }
      }
      if |s| >= 2 {
        assert s[1] != '-';
      }
      NoHyphenUnchanged(env, s[1..]);
    }
  }

  /** A word split by a hyphen at a line break is joined: the text before it
      (which holds no hyphen) is kept, then the first letter after the break,
      and the scan resumes right after that letter. */
  lemma {:induction false} JoinsSplitWord(env: Env, u: string, ws: string, v: string)
    requires u != [] && '-' !in u && WordChar(env, u[|u| - 1])
    requires AllSpace(ws) && '\n' in ws
    requires v != [] && WordChar(env, v[0])
    ensures Dehyphenate(env, u + "-" + ws + v) == u + [v[0]] + Dehyphenate(env, v[1..])
    decreases |u|
  {
    var rest := "-" + ws + v;
    var tail := [v[0]] + Dehyphenate(env, v[1..]);
    assert u + "-" + ws + v == u + rest;
    assert u + [v[0]] + Dehyphenate(env, v[1..]) == u + tail;
    if |u| == 1 {
      JoinsAtStart(env, u[0], ws, v);
      assert u == [u[0]];
    } else {
      var w := u[1..];
      assert w != [] && '-' !in w && WordChar(env, w[|w| - 1]) by {
        assert w[|w| - 1] == u[|u| - 1];
      }
      assert u[1] != '-' by {
        assert u[1] in u;
      }
      JoinsSplitWord(env, w, ws, v);
      assert Dehyphenate(env, w + rest) == w + tail by {
        assert w + "-" + ws + v == w + rest;
        assert w + [v[0]] + Dehyphenate(env, v[1..]) == w + tail;
      }
      KeepsHead(env, u, rest, tail);
    }
  }

  /** A character before a second non-hyphen is kept, and the text after it
      is handled on its own. */
  lemma KeepsHead(env: Env, u: string, rest: string, tail: string)
    requires |u| >= 2 && u[1] != '-'
    requires Dehyphenate(env, u[1..] + rest) == u[1..] + tail
    ensures Dehyphenate(env, u + rest) == u + tail
  {
    var s := u + rest;
    assert s[0] == u[0] && s[1] == u[1];
    DehyphenateSkip(env, s);
    assert s[1..] == u[1..] + rest;
    assert [u[0]] + (u[1..] + tail) == u + tail;
  }

  /** Where no match starts, the first character is kept as it is. */
  lemma DehyphenateSkip(env: Env, s: string)
    requires |s| >= 2 && s[1] != '-'
    ensures Dehyphenate(env, s) == [s[0]] + Dehyphenate(env, s[1..])
  {
    assert !BreakAt(env, s, 0);
  }

  /** The break right at the start of the text is a match. */
  lemma JoinsAtStart(env: Env, c: char, ws: string, v: string)
    requires WordChar(env, c)
    requires AllSpace(ws) && '\n' in ws
    requires v != [] && WordChar(env, v[0])
    ensures Dehyphenate(env, [c] + ("-" + ws + v)) == [c] + ([v[0]] + Dehyphenate(env, v[1..]))
  {
    BreakParts(c, ws, v);
    JoinsAtIndex(env, [c] + ("-" + ws + v), |ws| + 2);
  }

  /** Where the pieces of a broken word sit in the joined text. */
  lemma BreakParts(c: char, ws: string, v: string)
    requires v != []
    ensures var s := [c] + ("-" + ws + v);
      && s[0] == c && s[1] == '-' && s[|ws| + 2] == v[0]
      && s[2..|ws| + 2] == ws && s[|ws| + 3..] == v[1..]
  {
  }

  /** A word character, a hyphen, a whitespace run holding a newline up to
      index `j`, and a word character at `j`: the two word characters are
      kept and the scan resumes after the second. */
  lemma JoinsAtIndex(env: Env, s: string, j: nat)
    requires 2 <= j < |s| && WordChar(env, s[0]) && s[1] == '-'
    requires AllSpace(s[2..j]) && '\n' in s[2..j] && WordChar(env, s[j])
    ensures Dehyphenate(env, s) == [s[0]] + ([s[j]] + Dehyphenate(env, s[j + 1..]))
  {
    BreakAtIndex(env, s, j);
    DehyphenateMatch(env, s);
  }

  /** A word character, a hyphen, a whitespace run holding a newline up to
      index `j`, and a word character at `j` form a match. */
  lemma BreakAtIndex(env: Env, s: string, j: nat)
    requires 2 <= j < |s| && WordChar(env, s[0]) && s[1] == '-'
    requires AllSpace(s[2..j]) && '\n' in s[2..j] && WordChar(env, s[j])
    ensures BreakAt(env, s, 0) && SkipSpace(s, 2) == j
  {
    WordCharNotSpace(env, s[j]);
    SkipSpaceExact(s, 2, j);
  }

  /** `\w` never matches whitespace. */
  lemma WordCharNotSpace(env: Env, c: char)
    requires WordChar(env, c)
    ensures !IsSpace(c)
  {
  }

  /** At a match the two word characters are kept and the scan resumes after
      the second. */
  lemma DehyphenateMatch(env: Env, s: string)
    requires BreakAt(env, s, 0)
    ensures Dehyphenate(env, s) == [s[0], s[SkipSpace(s, 2)]] + Dehyphenate(env, s[SkipSpace(s, 2) + 1..])
  {
  }

  /** The whitespace run starting at `k` ends at `j` when the characters in
      between are whitespace and the one at `j` is not. */
  lemma {:induction false} SkipSpaceExact(s: string, k: nat, j: nat)
    requires k <= j < |s| && AllSpace(s[k..j]) && !IsSpace(s[j])
    ensures SkipSpace(s, k) == j
    decreases j - k
  {
    if k < j {
      assert IsSpace(s[k..j][0]);
      assert s[k + 1..j] == s[k..j][1..];
      SkipSpaceExact(s, k + 1, j);
    }
  }

  /** The scan does not rejoin a line break whose first letter belongs to the
      previous match: of two breaks in a row only the first is joined. */
  lemma ChainedBreakKept(env: Env)
    ensures Dehyphenate(env, "a-\nb-\nc") == "ab-\nc"
  {
    var s := "a-\nb-\nc";
    assert s[2..3] == "\n";
    JoinsAtIndex(env, s, 3);
    assert s[4..] == "-\nc";
    DehyphenateSkip(env, "-\nc");
    assert "-\nc"[1..] == "\nc";
    NoHyphenUnchanged(env, "\nc");
  }

  /** A word broken at the end of a line is joined: `in-\nto` becomes
      `into`. */
  lemma SplitWordExample(env: Env)
    ensures Dehyphenate(env, "in-\nto") == "into"
  {
    var s := "in-\nto";
    DehyphenateSkip(env, s);
    var t := s[1..];
    assert t == "n-\nto" && t[2..3] == "\n";
    JoinsAtIndex(env, t, 3);
    assert t[4..] == "o";
    NoHyphenUnchanged(env, "o");
  }

  // ------------------------------------------------------------ whitespace

  /** A character of the class `[ \t]`. */
  predicate IsBlank(c: char) {
    c == ' ' || c == '\t'
  }

  /** Two spaces start at `i`. */
  predicate DoubleSpaceAt(s: string, i: nat)
    requires i + 1 < |s|
  {
    s[i] == ' ' && s[i + 1] == ' '
  }

  predicate NoDoubleSpace(s: string) {
    forall i: nat | i + 1 < |s| :: !DoubleSpaceAt(s, i)
  }

  /** Three newlines start at `i`. */
  predicate TripleNewlineAt(s: string, i: nat)
    requires i + 2 < |s|
  {
    s[i] == '\n' && s[i + 1] == '\n' && s[i + 2] == '\n'
  }

  predicate NoTripleNewline(s: string) {
    forall i: nat | i + 2 < |s| :: !TripleNewlineAt(s, i)
  }

  /** The characters of `s` that are not in `[ \t]`, in order. */
  function NonBlank(s: string): (r: string)
    decreases |s|
  {
    if s == [] then [] else NonBlank(s[..|s| - 1]) + (if IsBlank(s[|s| - 1]) then [] else [s[|s| - 1]])
  }

  /** The characters of `s` other than newlines, in order. */
  function NonNewline(s: string): (r: string)
    decreases |s|
  {
    if s == [] then [] else NonNewline(s[..|s| - 1]) + (if s[|s| - 1] == '\n' then [] else [s[|s| - 1]])
  }

  /** Appending a character keeps a string free of double spaces unless both
      the appended character and the last one are spaces. */
  lemma SnocNoDoubleSpace(p: string, c: char)
    requires NoDoubleSpace(p) && (p != [] && c == ' ' ==> p[|p| - 1] != ' ')
    ensures NoDoubleSpace(p + [c])
  {
    var q := p + [c];
    forall i: nat | i + 1 < |q| ensures !DoubleSpaceAt(q, i) {
      if i + 1 < |p| {
        assert DoubleSpaceAt(q, i) == DoubleSpaceAt(p, i);
      }
    }
  }

  /** Appending a character keeps a string free of triple newlines unless the
      appended character and the last two are newlines. */
  lemma SnocNoTripleNewline(p: string, c: char)
    requires NoTripleNewline(p) && (|p| >= 2 && c == '\n' ==> !(p[|p| - 2] == '\n' && p[|p| - 1] == '\n'))
    ensures NoTripleNewline(p + [c])
  {
    var q := p + [c];
    forall i: nat | i + 2 < |q| ensures !TripleNewlineAt(q, i) {
      if i + 2 < |p| {
        assert TripleNewlineAt(q, i) == TripleNewlineAt(p, i);
      }
    }
  }

  /** `re.sub(r"[ \t]+", " ", s)`: a blank is written as one space when the
      character before it is not blank, and dropped when it is. */
  function Squeeze(s: string): (r: string)
    ensures '\t' !in r && NoDoubleSpace(r)
    ensures s != [] ==> r != [] && (r[|r| - 1] == ' ' <==> IsBlank(s[|s| - 1]))
    ensures s != [] && !IsBlank(s[|s| - 1]) ==> r[|r| - 1] == s[|s| - 1]
    decreases |s|
  {
    if s == [] then []
    else
      var n := |s| - 1;
      var p := Squeeze(s[..n]);
      if !IsBlank(s[n]) then
        SnocNoDoubleSpace(p, s[n]);
        p + [s[n]]
      else if n > 0 && IsBlank(s[n - 1]) then
        p
      else
        SnocNoDoubleSpace(p, ' ');
        p + [' ']
  }

  /** Squeezing changes only blanks: the other characters stay, in order. */
  lemma {:induction false} SqueezeKeepsText(s: string)
    ensures NonBlank(Squeeze(s)) == NonBlank(s)
    decreases |s|
  {
    if s != [] {
      var n := |s| - 1;
      var p := Squeeze(s[..n]);
      SqueezeKeepsText(s[..n]);
      if !IsBlank(s[n]) {
        assert (p + [s[n]])[..|p|] == p;
      } else if !(n > 0 && IsBlank(s[n - 1])) {
        assert (p + [' '])[..|p|] == p;
      }
    }
  }

  /** A string with no tab and no two spaces in a row is its own squeeze. */
  lemma {:induction false} SqueezeFixed(s: string)
    requires '\t' !in s && NoDoubleSpace(s)
    ensures Squeeze(s) == s
    decreases |s|
  {
    if s != [] {
      var n := |s| - 1;
      SliceKeeps(s, 0, n);
      SqueezeFixed(s[..n]);
      assert s == s[..n] + [s[n]];
      if n > 0 {
        assert !DoubleSpaceAt(s, n - 1);
      }
    }
  }

  /** `re.sub(r"\n{3,}", "\n\n", s)`: a newline is dropped when the two
      characters before it are newlines, so every run of three or more
      becomes two. */
  function Cap(s: string): (r: string)
    ensures |r| <= |s| && NoTripleNewline(r)
    ensures s != [] ==> r != [] && r[|r| - 1] == s[|s| - 1]
    ensures |s| >= 2 ==> |r| >= 2 && r[|r| - 2] == s[|s| - 2]
    decreases |s|
  {
    if s == [] then []
    else
      var n := |s| - 1;
      var p := Cap(s[..n]);
      assert n >= 2 ==> s[..n][n - 1] == s[n - 1] && s[..n][n - 2] == s[n - 2];
      if s[n] == '\n' && n >= 2 && s[n - 1] == '\n' && s[n - 2] == '\n' then
        p
      else
        SnocNoTripleNewline(p, s[n]);
        p + [s[n]]
  }

  /** Capping removes only newlines: the other characters stay, in order. */
  lemma {:induction false} CapKeepsText(s: string)
    ensures NonNewline(Cap(s)) == NonNewline(s)
    decreases |s|
  {
    if s != [] {
      var n := |s| - 1;
      CapKeepsText(s[..n]);
      assert s[..n] + [s[n]] == s;
      NonNewlineSnoc(s[..n], s[n]);
      if !(s[n] == '\n' && n >= 2 && s[n - 1] == '\n' && s[n - 2] == '\n') {
        NonNewlineSnoc(Cap(s[..n]), s[n]);
      }
    }
  }

  /** Appending a character appends it to the non-newline characters unless
      it is a newline. */
  lemma NonNewlineSnoc(p: string, c: char)
    ensures NonNewline(p + [c]) == NonNewline(p) + (if c == '\n' then [] else [c])
  {
    assert (p + [c])[..|p|] == p;
  }

  /** Capping brings in neither a tab nor a double space. */
  lemma {:induction false} CapKeepsBlanks(s: string)
    requires '\t' !in s && NoDoubleSpace(s)
    ensures '\t' !in Cap(s) && NoDoubleSpace(Cap(s))
    decreases |s|
  {
    if s != [] {
      var n := |s| - 1;
      var p := Cap(s[..n]);
      SliceKeeps(s, 0, n);
      CapKeepsBlanks(s[..n]);
      if !(s[n] == '\n' && n >= 2 && s[n - 1] == '\n' && s[n - 2] == '\n') {
        if n > 0 {
          assert s[..n][n - 1] == s[n - 1];
          assert !DoubleSpaceAt(s, n - 1);
        }
        SnocNoDoubleSpace(p, s[n]);
      }
    }
  }

  /** A string without three newlines in a row is its own cap. */
  lemma {:induction false} CapFixed(s: string)
    requires NoTripleNewline(s)
    ensures Cap(s) == s
    decreases |s|
  {
    if s != [] {
      var n := |s| - 1;
      SliceKeeps(s, 0, n);
      CapFixed(s[..n]);
      assert s == s[..n] + [s[n]];
      if n >= 2 {
        assert !TripleNewlineAt(s, n - 2);
      }
    }
  }

  /** What `_collapse_ws` leaves: no tab, no two spaces and no three newlines
      in a row, and no whitespace at either end. */
  predicate Collapsed(s: string) {
    && '\t' !in s && NoDoubleSpace(s) && NoTripleNewline(s)
    && (s != [] ==> !IsSpace(s[0]) && !IsSpace(s[|s| - 1]))
  }

  /** A slice keeps the absence of tabs, double spaces and triple newlines. */
  lemma SliceKeeps(s: string, i: nat, j: nat)
    requires i <= j <= |s|
    ensures '\t' !in s ==> '\t' !in s[i..j]
    ensures NoDoubleSpace(s) ==> NoDoubleSpace(s[i..j])
    ensures NoTripleNewline(s) ==> NoTripleNewline(s[i..j])
  {
    var t := s[i..j];
    if NoDoubleSpace(s) {
      forall k: nat | k + 1 < |t| ensures !DoubleSpaceAt(t, k) {
        assert DoubleSpaceAt(t, k) == DoubleSpaceAt(s, i + k);
      }
    }
    if NoTripleNewline(s) {
      forall k: nat | k + 2 < |t| ensures !TripleNewlineAt(t, k) {
        assert TripleNewlineAt(t, k) == TripleNewlineAt(s, i + k);
      }
    }
  }

  /** `_collapse_ws(s)`. */
  function CollapseWs(s: string): (r: string)
    ensures Collapsed(r)
    ensures Collapsed(s) ==> r == s
  {
    CollapseFacts(s);
    Strip(Cap(Squeeze(s)))
  }

  lemma CollapseFacts(s: string)
    ensures Collapsed(Strip(Cap(Squeeze(s))))
    ensures Collapsed(s) ==> Strip(Cap(Squeeze(s))) == s
  {
    var c := Cap(Squeeze(s));
    CapKeepsBlanks(Squeeze(s));
    StripKeeps(c);
    if Collapsed(s) {
      CollapsedFixed(s);
    }
  }

  /** Stripping a string without tabs, double spaces or triple newlines
      leaves a collapsed string. */
  lemma StripKeeps(c: string)
    requires '\t' !in c && NoDoubleSpace(c) && NoTripleNewline(c)
    ensures Collapsed(Strip(c))
  {
    StripSpec(c);
    SliceKeeps(c, StripStart(c), StripStart(c) + |Strip(c)|);
  }

  lemma CollapsedFixed(s: string)
    requires Collapsed(s)
    ensures Strip(Cap(Squeeze(s))) == s
  {
    SqueezeFixed(s);
    CapFixed(s);
    if s == [] {
      assert SkipSpace(s, 0) == 0;
    } else {
      StripTrimmed(s);
    }
  }

  /** The collapsed strings are exactly the strings `_collapse_ws` leaves
      alone; collapsing twice is collapsing once. */
  lemma CollapseFixedPoints(s: string)
    ensures CollapseWs(s) == s <==> Collapsed(s)
    ensures CollapseWs(CollapseWs(s)) == CollapseWs(s)
  {
  }

  // ------------------------------------------------------------ lines

  /** The line boundaries of `str.splitlines`. */
  predicate IsLineBreak(c: char) {
    c == '\n' || c == '\r' || c == '\U{0B}' || c == '\U{0C}' || ('\U{1C}' <= c <= '\U{1E}')
    || c == '\U{85}' || c == '\U{2028}' || c == '\U{2029}'
  }

  /** The index of the first line boundary at or after `k`, or `|s|`. */
  function BreakIndex(s: string, k: nat): (i: nat)
    requires k <= |s|
    ensures k <= i <= |s| && (i < |s| ==> IsLineBreak(s[i]))
    ensures forall j | k <= j < i :: !IsLineBreak(s[j])
    decreases |s| - k
  {
    if k == |s| || IsLineBreak(s[k]) then k else BreakIndex(s, k + 1)
  }

  predicate OneLine(line: string) {
    forall i | 0 <= i < |line| :: !IsLineBreak(line[i])
  }

  /** `s.splitlines()`: the pieces between boundaries (`\r\n` counts as one),
      with no empty piece after a final boundary. */
  function SplitLines(s: string): (r: seq<string>)
    ensures r == [] <==> s == []
    ensures forall k | 0 <= k < |r| :: OneLine(r[k])
    decreases |s|
  {
    if s == [] then []
    else
      var i := BreakIndex(s, 0);
      if i == |s| then [s]
      else
        var w := if s[i] == '\r' && i + 1 < |s| && s[i + 1] == '\n' then 2 else 1;
        [s[..i]] + SplitLines(s[i + w..])
  }

  /** Text whose only line boundaries are `\n` and which does not end with one
      is split and joined back unchanged. */
  lemma {:induction false} SplitLinesJoin(s: string)
    requires forall i | 0 <= i < |s| :: IsLineBreak(s[i]) ==> s[i] == '\n'
    requires s != [] ==> s[|s| - 1] != '\n'
    ensures Join("\n", SplitLines(s)) == s
    decreases |s|
  {
    if s != [] {
      var i := BreakIndex(s, 0);
      if i < |s| {
        var rest := s[i + 1..];
        assert s[i] == '\n' && rest != [];
        assert forall k | 0 <= k < |rest| :: rest[k] == s[i + 1 + k];
        SplitLinesJoin(rest);
        var tail := SplitLines(rest);
        assert SplitLines(s) == [s[..i]] + tail;
        JoinCons("\n", s[..i], tail);
        SliceAround(s, i);
      }
    }
  }

  // ------------------------------------------------------------ headers and footers

  /** How much of a stripped line is compared. */
  const Clip: nat := 120

  function Clipped(s: string): (r: string)
    ensures |r| <= Clip && r <= s
  {
    if |s| <= Clip then s else s[..Clip]
  }

  /** `[ln.strip() for ln in lines if ln.strip()]`. */
  function NonBlankLines(lines: seq<string>): (r: seq<string>)
    ensures forall k | 0 <= k < |r| :: r[k] != []
    ensures |r| <= |lines|
  {
    if lines == [] then []
    else (if Strip(lines[0]) != [] then [Strip(lines[0])] else []) + NonBlankLines(lines[1..])
  }

  /** The first (`top`) or last non-blank line of a page, stripped and
      clipped; `None` for a page without one. */
  function Edge(page: string, top: bool): (r: Option<string>)
    ensures r.Some? ==> r.value != []
  {
    var ls := NonBlankLines(SplitLines(page));
    if ls == [] then None
    else if top then Some(Clipped(ls[0]))
    else
      assert ls[|ls| - 1] != [];
      Some(Clipped(ls[|ls| - 1]))
  }

  /** How many pages have `t` as their first (or last) non-blank line. */
  function Count(pages: seq<string>, t: string, top: bool): (n: nat)
    ensures n <= |pages|
  {
    if pages == [] then 0
    else (if Edge(pages[0], top) == Some(t) then 1 else 0) + Count(pages[1..], t, top)
  }

  /** `t` is in `top_common` (or `bottom_common`): its count over the number
      of pages exceeds 0.6, stated over the integers. */
  predicate Common(pages: seq<string>, t: string, top: bool) {
    5 * Count(pages, t, top) > 3 * |pages|
  }

  /** No blank line is ever common: blank pages count towards the total but
      never towards a line. */
  lemma {:induction false} BlankNeverCounted(pages: seq<string>, top: bool)
    ensures Count(pages, [], top) == 0
    decreases |pages|
  {
    if pages != [] {
      BlankNeverCounted(pages[1..], top);
    }
  }

  /** The raw first line of a page goes when its stripped, clipped text is
      common at the top. */
  predicate DropsHeader(pages: seq<string>, lines: seq<string>) {
    lines != [] && Common(pages, Clipped(Strip(lines[0])), true)
  }

  /** The lines of one page once the header and footer are removed: the raw
      first line goes when it is a common header, then the raw last line of
      what is left when it is a common footer. */
  function Trimmed(pages: seq<string>, lines: seq<string>): (r: seq<string>)
    ensures var d := if DropsHeader(pages, lines) then 1 else 0;
      d + |r| <= |lines| <= d + |r| + 1 && r == lines[d..d + |r|]
  {
    if lines == [] then []
    else
      var a := if DropsHeader(pages, lines) then lines[1..] else lines;
      if a != [] && Common(pages, Clipped(Strip(a[|a| - 1])), false) then a[..|a| - 1] else a
  }

  /** A page after `_strip_common_headers_footers`' second loop. */
  function CleanPage(pages: seq<string>, page: string): string {
    Join("\n", Trimmed(pages, SplitLines(page)))
  }

  /** Every page lacks a non-blank line. */
  predicate AllBlank(pages: seq<string>) {
    forall i | 0 <= i < |pages| :: Edge(pages[i], true).None?
  }

  /** `_strip_common_headers_footers(pages)`: one cleaned page per page,
      joined by blank lines; no page is touched when none holds text. */
  function StripHeadersFooters(pages: seq<string>): (r: string)
    ensures pages == [] ==> r == []
    ensures AllBlank(pages) ==> r == Join("\n\n", pages)
    ensures !AllBlank(pages) ==> exists cleaned: seq<string> ::
      && |cleaned| == |pages| && r == Join("\n\n", cleaned)
      && forall i | 0 <= i < |pages| :: cleaned[i] == CleanPage(pages, pages[i])
  {
    if pages == [] then []
    else if AllBlank(pages) then Join("\n\n", pages)
    else Join("\n\n", seq(|pages|, i requires 0 <= i < |pages| => CleanPage(pages, pages[i])))
  }

  /** A line that opens every page (stripped and clipped) is removed from
      every page, together with at most the page's last line. */
  lemma RepeatedHeaderDropped(pages: seq<string>, t: string)
    requires pages != [] && t != []
    requires forall i | 0 <= i < |pages| ::
      SplitLines(pages[i]) != [] && Clipped(Strip(SplitLines(pages[i])[0])) == t
    ensures forall i | 0 <= i < |pages| :: var ls := SplitLines(pages[i]);
      Trimmed(pages, ls) <= ls[1..]
  {
    AllOpenWith(pages, t);
    assert Common(pages, t, true);
  }

  /** Counting pages that all open with `t`. */
  lemma {:induction false} AllOpenWith(pages: seq<string>, t: string)
    requires t != []
    requires forall i | 0 <= i < |pages| ::
      SplitLines(pages[i]) != [] && Clipped(Strip(SplitLines(pages[i])[0])) == t
    ensures Count(pages, t, true) == |pages|
    decreases |pages|
  {
    if pages != [] {
      var ls := SplitLines(pages[0]);
      assert Clipped(Strip(ls[0])) == t;
      assert Strip(ls[0]) != [];
      assert NonBlankLines(ls)[0] == Strip(ls[0]);
      assert Edge(pages[0], true) == Some(t);
      AllOpenWith(pages[1..], t);
    }
  }

  /** A page whose first raw line is blank keeps its header: the first
      non-blank line decides what is common, but only the raw first line is
      ever removed. */
  lemma BlankFirstLineKeepsHeader(pages: seq<string>, page: string)
    requires SplitLines(page) != [] && Strip(SplitLines(page)[0]) == []
    ensures Trimmed(pages, SplitLines(page)) <= SplitLines(page)
  {
    BlankNeverCounted(pages, true);
  }

  // ------------------------------------------------------------ the whole cleaning

  /** `clean_pdf_text(raw_text, pages_text)`: with page texts, the cleaned
      page texts replace the normalised raw text (several pages go through
      header and footer stripping, a single one is taken as it is); then
      dehyphenation, page-number removal and whitespace collapse. An empty
      page list stands for `None` as well as `[]`. */
  function CleanPdfText(env: Env, raw: string, pages: seq<string>): (r: string)
    ensures Collapsed(r)
  {
    var s := ReplaceLigatures(env.nfkc(raw));
    var s := if |pages| > 1 then StripHeadersFooters(pages) else if |pages| == 1 then pages[0] else s;
    CollapseWs(env.removePageNumbers(Dehyphenate(env, s)))
  }

  /** Once page texts are given the raw text plays no part, and neither NFKC
      nor the ligature table is applied to what is kept. */
  lemma PagesOverrideRaw(env: Env, raw1: string, raw2: string, pages: seq<string>)
    requires pages != []
    ensures CleanPdfText(env, raw1, pages) == CleanPdfText(env, raw2, pages)
    ensures |pages| == 1 ==>
      CleanPdfText(env, raw1, pages) == CollapseWs(env.removePageNumbers(Dehyphenate(env, pages[0])))
  {
  }
}

=== FILE: tools.dfy ===
/** The deterministic tools the agent calls (llm/agent/tools.py): `geocode`,
    `geocode_batch` and `validate_row`. The geocoding cache is threaded as a
    value, as in the Geo module; the JSON-schema validator is the `validator`
    oracle of `Env`. */
module Tools {
  import opened Wrappers
  import opened Json
  import opened Text
  import opened Runtime
  import opened Geo

  // ------------------------------------------------------------ geocode

  /** `GeocodeReturn`: the query, the coordinates, a confidence and the provider. */
  datatype GeocodeReturn = GeocodeReturn(raw: string, lat: Option<real>, lon: Option<real>,
                                         confidence: real, provider: string)

  const Provider: string := "nominatim"

  /** The confidence given to a lookup that found both coordinates. */
  const Found: real := 0.9

  /** The stripped comma-separated parts of a query. */
  function Parts(query: string): (r: seq<string>)
    ensures |r| >= 1
  {
    var pieces := Split(query, ',');
    seq(|pieces|, i requires 0 <= i < |pieces| => Strip(pieces[i]))
  }

  /** The place a query names: the first part as the city, and the second
      part as the state when there is one, the bias otherwise. */
  function QueryPlace(query: string, stateBias: string): (r: (string, string)) {
    var parts := Parts(query);
    (parts[0], if |parts| > 1 then parts[1] else stateBias)
  }

  /** `geocode(query, state_bias)`: a lookup of the query's city and state,
      cached under the whole query, and the cache afterwards. */
  function Geocode(env: Env, cache: Cache, query: string, stateBias: string): (r: (GeocodeReturn, Cache))
    ensures r.0.raw == query && r.0.provider == Provider
    ensures r.0.lat.Some? <==> r.0.lon.Some?
    ensures r.0.confidence == (if r.0.lat.Some? then Found else 0.0)
    ensures forall k | k in cache :: k in r.1 && r.1[k] == cache[k]
  {
    var (city, state) := QueryPlace(query, stateBias);
    var l := GeocodeCityState(env, cache, Some(city), Some(state), query, false);
    if l.coords.lat.Some? && l.coords.lon.Some?
    then (GeocodeReturn(query, l.coords.lat, l.coords.lon, Found, Provider), l.cache)
    else (GeocodeReturn(query, None, None, 0.0, Provider), l.cache)
  }

  /** A query without a comma names its stripped self as the city and the
      bias as the state. */
  lemma PlainQueryUsesBias(query: string, stateBias: string)
    requires ',' !in query
    ensures QueryPlace(query, stateBias) == (Strip(query), stateBias)
  {
  }

  /** The first comma of `a + "," + b` is the one after `a`. */
  lemma {:induction false} FirstIndexAfter(a: string, b: string)
    requires ',' !in a
    ensures ',' in a + [','] + b
    ensures FirstIndex(a + [','] + b, ',') == |a|
  {
    var s := a + [','] + b;
    assert s[|a|] == ',';
    if a != [] {
      assert s[1..] == a[1..] + [','] + b;
      FirstIndexAfter(a[1..], b);
    }
  }

  /** "City, State": the stripped text before the first comma is the city and
      the stripped text up to the next comma is the state; the bias is unused. */
  lemma CommaQueryNamesState(a: string, b: string, stateBias: string)
    requires ',' !in a
    ensures QueryPlace(a + [','] + b, stateBias) == (Strip(a), Strip(Split(b, ',')[0]))
  {
    var s := a + [','] + b;
    FirstIndexAfter(a, b);
    assert s[..|a|] == a && s[|a| + 1..] == b;
    assert Split(s, ',') == [a] + Split(b, ',');
  }

  /** A query whose lookup is already cached is answered from the cache and
      leaves the cache alone. */
  lemma CachedQuery(env: Env, cache: Cache, query: string, stateBias: string)
    requires QueryPlace(query, stateBias) != ("", "")
    requires var (city, state) := QueryPlace(query, stateBias); CacheKey(Some(city), Some(state), query) in cache
    ensures var (city, state) := QueryPlace(query, stateBias);
      var c := cache[CacheKey(Some(city), Some(state), query)];
      && Geocode(env, cache, query, stateBias).1 == cache
      && (c.lat.Some? && c.lon.Some? ==>
            Geocode(env, cache, query, stateBias).0 == GeocodeReturn(query, c.lat, c.lon, Found, Provider))
  {
    var (city, state) := QueryPlace(query, stateBias);
    assert !(Falsy(Some(city)) && Falsy(Some(state)));
  }

  // ------------------------------------------------------------ geocode_batch

  /** The non-empty places of a list, each at its first occurrence. */
  function Distinct(places: seq<string>): (r: seq<string>)
    decreases |places|
  {
    if places == [] then []
    else
      var init := places[..|places| - 1];
      var p := places[|places| - 1];
      if p == "" || p in init then Distinct(init) else Distinct(init) + [p]
  }

  /** The distinct places: no repeats, no empty place, and exactly the
      non-empty places of the input. */
  lemma {:induction false} DistinctSpec(places: seq<string>)
    ensures forall i, j | 0 <= i < j < |Distinct(places)| :: Distinct(places)[i] != Distinct(places)[j]
    ensures forall p :: p in Distinct(places) <==> p in places && p != ""
    decreases |places|
  {
    if places != [] {
      var init := places[..|places| - 1];
      DistinctSpec(init);
      assert places == init + [places[|places| - 1]];
    }
  }

  /** Geocoding a list of queries one after another, threading the cache. */
  function GeocodeAll(env: Env, cache: Cache, queries: seq<string>, stateBias: string): (r: (seq<GeocodeReturn>, Cache))
    ensures |r.0| == |queries|
    ensures forall i | 0 <= i < |queries| :: r.0[i].raw == queries[i]
    decreases |queries|
  {
    if queries == [] then ([], cache)
    else
      var n := |queries| - 1;
      var init := GeocodeAll(env, cache, queries[..n], stateBias);
      var last := Geocode(env, init.1, queries[n], stateBias);
      var out := init.0 + [last.0];
      assert forall i | 0 <= i < n :: out[i] == init.0[i] && queries[..n][i] == queries[i];
      (out, last.1)
  }

  /** The first distinct place is the first place, when that is not empty. */
  lemma {:induction false} DistinctHead(places: seq<string>)
    requires |places| >= 1 && places[0] != ""
    ensures |Distinct(places)| >= 1 && Distinct(places)[0] == places[0]
    decreases |places|
  {
    var init := places[..|places| - 1];
    if |places| > 1 {
      DistinctHead(init);
    } else {
      assert init == [];
    }
  }

  /** The first result of a run of lookups is the lookup of the first query
      against the cache the run starts with. */
  lemma {:induction false} GeocodeAllHead(env: Env, cache: Cache, queries: seq<string>, stateBias: string)
    requires |queries| >= 1
    ensures GeocodeAll(env, cache, queries, stateBias).0[0] == Geocode(env, cache, queries[0], stateBias).0
    decreases |queries|
  {
    var n := |queries| - 1;
    if n > 0 {
      GeocodeAllHead(env, cache, queries[..n], stateBias);
    } else {
      assert queries[..n] == [];
    }
  }

  /** `geocode_batch(places, state_bias)`: one lookup per distinct non-empty
      place, in the order of first occurrence. */
  method GeocodeBatch(env: Env, cache: Cache, places: seq<string>, stateBias: string)
    returns (out: seq<GeocodeReturn>, cache': Cache)
    ensures (out, cache') == GeocodeAll(env, cache, Distinct(places), stateBias)
    ensures |out| == |Distinct(places)|
    ensures forall i | 0 <= i < |out| :: out[i].raw == Distinct(places)[i]
  {
    out, cache' := [], cache;
    var seen: set<string> := {};
    var i := 0;
    while i < |places|
      invariant 0 <= i <= |places|
      invariant forall p :: p in seen <==> p in places[..i] && p != ""
      invariant (out, cache') == GeocodeAll(env, cache, Distinct(places[..i]), stateBias)
    {
      var p := places[i];
      assert places[..i + 1][..i] == places[..i];
      if p != "" && p !in seen {
        seen := seen + {p};
        var g := Geocode(env, cache', p, stateBias);
        out, cache' := out + [g.0], g.1;
      }
      i := i + 1;
    }
    assert places[..i] == places;
  }

  // ------------------------------------------------------------ validate_row

  /** The outcome of Python's `<` between two path elements or two paths:
      `Incomparable` is the TypeError raised between a key and an index. */
  datatype Order = Less | Same | Greater | Incomparable

  function ElemOrder(a: PathElem, b: PathElem): Order {
    match (a, b)
    case (Key(x), Key(y)) => if x == y then Same else if StrLt(x, y) then Less else Greater
    case (Index(x), Index(y)) => if x == y then Same else if x < y then Less else Greater
    case _ => Incomparable
  }

  /** Paths compare as deques: the first differing elements decide, and a
      proper prefix comes first. */
  function PathOrder(p: seq<PathElem>, q: seq<PathElem>): Order {
    if p == [] && q == [] then Same
    else if p == [] then Less
    else if q == [] then Greater
    else
      var e := ElemOrder(p[0], q[0]);
      if e == Same then PathOrder(p[1..], q[1..]) else e
  }

  lemma ElemOrderFlip(a: PathElem, b: PathElem)
    ensures ElemOrder(a, b) == Greater <==> ElemOrder(b, a) == Less
  {
    match (a, b)
    case (Key(x), Key(y)) =>
      if x != y {
        StrLtTotal(x, y);
        if StrLt(x, y) { StrLtAsymmetric(x, y); }
      }
    case (Index(x), Index(y)) =>
    case _ =>
  }

  lemma {:induction false} PathOrderFlip(p: seq<PathElem>, q: seq<PathElem>)
    ensures PathOrder(p, q) == Greater ==> PathOrder(q, p) == Less
    decreases |p|
  {
    if p != [] && q != [] {
      ElemOrderFlip(p[0], q[0]);
      ElemOrderFlip(q[0], p[0]);
      if ElemOrder(p[0], q[0]) == Same {
        PathOrderFlip(p[1..], q[1..]);
      }
    }
  }

  /** `Same` on elements is equality. */
  lemma ElemOrderSame(a: PathElem, b: PathElem)
    ensures ElemOrder(a, b) == Same <==> a == b
  {
  }

  /** Every two paths can be compared without a TypeError. */
  predicate Comparable(es: seq<SchemaError>) {
    forall i, j | 0 <= i < |es| && 0 <= j < |es| :: PathOrder(es[i].path, es[j].path) != Incomparable
  }

  /** No error's path is greater than the next one's. */
  predicate SortedByPath(es: seq<SchemaError>) {
    forall i | 0 <= i < |es| - 1 :: PathOrder(es[i].path, es[i + 1].path) != Greater
  }

  /** Puts `e` before the first error whose path is greater. */
  function Insert(e: SchemaError, sorted: seq<SchemaError>): (r: seq<SchemaError>)
    requires SortedByPath(sorted)
    ensures SortedByPath(r)
    ensures multiset(r) == multiset(sorted) + multiset{e}
    ensures r != [] && (r[0] == e || (sorted != [] && r[0] == sorted[0]))
  {
    if sorted == [] then [e]
    else if PathOrder(sorted[0].path, e.path) == Greater then
      PathOrderFlip(sorted[0].path, e.path);
      [e] + sorted
    else
      var rest := Insert(e, sorted[1..]);
      assert sorted == [sorted[0]] + sorted[1..];
      [sorted[0]] + rest
  }

  /** The errors ordered by path, keeping the validator's order among equal paths. */
  function SortByPath(es: seq<SchemaError>): (r: seq<SchemaError>)
    ensures SortedByPath(r)
    ensures multiset(r) == multiset(es)
    decreases |es|
  {
    if es == [] then []
    else
      var init := es[..|es| - 1];
      assert es == init + [es[|es| - 1]];
      Insert(es[|es| - 1], SortByPath(init))
  }

  /** `repr()` of a path element: a quoted key or a decimal index. */
  function ShowElem(e: PathElem): string {
    match e
    case Key(k) => "'" + k + "'"
    case Index(i) => if i >= 0 then NatToString(i) else "-" + NatToString(-i)
  }

  /** `str(list(path))`, with `['root']` for the empty path. */
  function ShowPath(path: seq<PathElem>): (r: string)
    ensures path == [] ==> r == "['root']"
  {
    var shown := seq(|path|, i requires 0 <= i < |path| => ShowElem(path[i]));
    if path == [] then "['root']" else "[" + Join(", ", shown) + "]"
  }

  function Format(e: SchemaError): string {
    ShowPath(e.path) + ": " + e.message
  }

  const ValidationPrefix: string := "Validation error: "

  /** The message of the TypeError a sort raises on a key against an index. */
  const SortTypeError: string := "'<' not supported between instances of 'str' and 'int'"

  /** What the validator is shown: the dumped row without `source_path` and `audit`. */
  function Shown(row: Dict): (r: Dict)
    ensures "source_path" !in r && "audit" !in r
    ensures forall k | k != "source_path" && k != "audit" :: (k in r <==> k in row) && Get(r, k) == Get(row, k)
  {
    row - {"source_path", "audit"}
  }

  /** `validate_row(row, schema_path)` on the dumped row: the errors in path
      order, each as "{path}: {message}", or a single "Validation error: …"
      entry when validating or sorting raises. */
  function ValidateRow(env: Env, row: Dict): (r: seq<string>)
    ensures env.validator(Shown(row)).Crash? ==> r == [ValidationPrefix + env.validator(Shown(row)).message]
    ensures env.validator(Shown(row)).Errors? && Comparable(env.validator(Shown(row)).errors) ==>
      var es := env.validator(Shown(row)).errors;
      exists sorted: seq<SchemaError> ::
        && SortedByPath(sorted) && multiset(sorted) == multiset(es)
        && r == seq(|sorted|, i requires 0 <= i < |sorted| => Format(sorted[i]))
    ensures env.validator(Shown(row)).Errors? && !Comparable(env.validator(Shown(row)).errors) ==>
      r == [ValidationPrefix + SortTypeError]
    ensures r == [] <==> env.validator(Shown(row)) == Errors([])
  {
    match env.validator(Shown(row))
    case Crash(m) => [ValidationPrefix + m]
    case Errors(es) =>
      if !Comparable(es) then [ValidationPrefix + SortTypeError]
      else
        var sorted := SortByPath(es);
        assert |sorted| == |es| by { assert |multiset(sorted)| == |multiset(es)|; }
        seq(|sorted|, i requires 0 <= i < |sorted| => Format(sorted[i]))
  }

  /** The row's source path and audit never affect the verdict. */
  lemma ValidationIgnoresPathAndAudit(env: Env, row: Dict, path: Value, audit: Value)
    ensures ValidateRow(env, row["source_path" := path]["audit" := audit]) == ValidateRow(env, row)
  {
    assert Shown(row["source_path" := path]["audit" := audit]) == Shown(row);
  }
}

=== FILE: transit.dfy ===
/** scripts/transform_transit_data.py: turning scraped transit stations into
    schema-shaped stops (a coordinate region, its RL tag, the stop type, the
    facility and accessibility flags) and grouping stops by operator and
    network into transit lines. */
module Transit {
  import opened Wrappers
  import opened Json
  import opened Runtime
  import Transport

  // ------------------------------------------------------------ regions

  /** One threshold rule of `assign_region`: a strict bound on the latitude
      and one on the longitude, each from above or from below. */
  datatype Rule = Rule(latAbove: bool, lat: real, lonAbove: bool, lon: real, region: string)

  predicate Holds(rule: Rule, lat: real, lon: real) {
    (if rule.latAbove then lat > rule.lat else lat < rule.lat) &&
    (if rule.lonAbove then lon > rule.lon else lon < rule.lon)
  }

  /** The six rules in the order they are tried. */
  const Rules: seq<Rule> := [
    Rule(true, 38.5, false, -77.0, "Northern Virginia"),
    Rule(true, 37.5, false, -77.5, "Central Virginia"),
    Rule(true, 36.5, false, -76.0, "Tidewater"),
    Rule(false, 37.0, false, -80.0, "Southwest"),
    Rule(true, 38.0, true, -79.0, "Valley"),
    Rule(false, 37.5, true, -78.0, "Southside")
  ]

  /** The label of the first rule of `rules` that holds, else "Unknown". */
  function FirstRule(rules: seq<Rule>, lat: real, lon: real): string {
    if rules == [] then "Unknown"
    else if Holds(rules[0], lat, lon) then rules[0].region
    else FirstRule(rules[1..], lat, lon)
  }

  /** The labels `assign_region` can give. */
  predicate Label(s: string) {
    s == "Northern Virginia" || s == "Central Virginia" || s == "Tidewater" ||
    s == "Southwest" || s == "Valley" || s == "Southside" || s == "Unknown"
  }

  /** `assign_region(lat, lon)`. */
  function AssignRegion(lat: real, lon: real): (r: string)
    ensures Label(r)
    ensures r != "Western Virginia" && r != "Northern Neck"
  {
    if lat > 38.5 && lon < -77.0 then "Northern Virginia"
    else if lat > 37.5 && lon < -77.5 then "Central Virginia"
    else if lat > 36.5 && lon < -76.0 then "Tidewater"
    else if lat < 37.0 && lon < -80.0 then "Southwest"
    else if lat > 38.0 && lon > -79.0 then "Valley"
    else if lat < 37.5 && lon > -78.0 then "Southside"
    else "Unknown"
  }

  /** The chain of conditions is the rule table read first match first. */
  lemma AssignRegionByRules(lat: real, lon: real)
    ensures AssignRegion(lat, lon) == FirstRule(Rules, lat, lon)
  {
    if Holds(Rules[0], lat, lon) {
      FirstRuleAt(Rules, lat, lon, 0);
    } else if Holds(Rules[1], lat, lon) {
      FirstRuleAt(Rules, lat, lon, 1);
    } else if Holds(Rules[2], lat, lon) {
      FirstRuleAt(Rules, lat, lon, 2);
    } else if Holds(Rules[3], lat, lon) {
      FirstRuleAt(Rules, lat, lon, 3);
    } else if Holds(Rules[4], lat, lon) {
      FirstRuleAt(Rules, lat, lon, 4);
    } else if Holds(Rules[5], lat, lon) {
      FirstRuleAt(Rules, lat, lon, 5);
    } else {
      NoRuleUnknown(Rules, lat, lon);
    }
  }

  lemma {:induction false} FirstRuleAt(rules: seq<Rule>, lat: real, lon: real, i: nat)
    requires i < |rules| && Holds(rules[i], lat, lon)
    requires forall j | 0 <= j < i :: !Holds(rules[j], lat, lon)
    ensures FirstRule(rules, lat, lon) == rules[i].region
  {
    if i > 0 {
      assert !Holds(rules[0], lat, lon);
      FirstRuleAt(rules[1..], lat, lon, i - 1);
    }
  }

  /** The first rule that holds decides, whatever later rules say. */
  lemma FirstRuleWins(lat: real, lon: real, i: nat)
    requires i < |Rules| && Holds(Rules[i], lat, lon)
    requires forall j | 0 <= j < i :: !Holds(Rules[j], lat, lon)
    ensures AssignRegion(lat, lon) == Rules[i].region
  {
    AssignRegionByRules(lat, lon);
    FirstRuleAt(Rules, lat, lon, i);
  }

  /** "Unknown" exactly when no rule holds. */
  lemma UnknownIffNoRule(lat: real, lon: real)
    ensures AssignRegion(lat, lon) == "Unknown" <==> forall i | 0 <= i < |Rules| :: !Holds(Rules[i], lat, lon)
  {
    AssignRegionByRules(lat, lon);
    NoRuleUnknown(Rules, lat, lon);
  }

  lemma {:induction false} NoRuleUnknown(rules: seq<Rule>, lat: real, lon: real)
    requires forall i | 0 <= i < |rules| :: rules[i].region != "Unknown"
    ensures FirstRule(rules, lat, lon) == "Unknown" <==> forall i | 0 <= i < |rules| :: !Holds(rules[i], lat, lon)
  {
    if rules != [] {
      NoRuleUnknown(rules[1..], lat, lon);
      assert forall i | 1 <= i < |rules| :: rules[i] == rules[1..][i - 1];
    }
  }

  /** A station without geometry sits at the default (0, 0), which the
      last rule places in Southside. */
  lemma DefaultCoordinatesSouthside()
    ensures AssignRegion(0.0, 0.0) == "Southside"
  {
  }

  /** The Tidewater rule bounds the longitude from the east only, so a point
      in the southwestern mountains (Roanoke, 37.27 N 79.94 W) is labelled
      Tidewater. */
  lemma RoanokeIsTidewater()
    ensures AssignRegion(37.27, -79.94) == "Tidewater"
  {
  }

  /** The region names the RL map knows. */
  const TaggedRegions: set<string> := {"Northern Virginia", "Central Virginia", "Tidewater", "Southwest",
                                       "Valley", "Western Virginia", "Northern Neck", "Southside"}

  /** `assign_region_tag_rl(region)`: the fixed map, "Unknown" by default. */
  function RegionTagRL(region: string): (r: string)
    ensures r in {"NoVA", "Piedmont", "Tidewater", "Appalachia", "Shenandoah", "Unknown"}
    ensures r == "Unknown" <==> region !in TaggedRegions
    ensures r == "Tidewater" <==> region == "Tidewater" || region == "Northern Neck"
  {
    if region == "Northern Virginia" then "NoVA"
    else if region == "Central Virginia" then "Piedmont"
    else if region == "Tidewater" then "Tidewater"
    else if region == "Southwest" then "Appalachia"
    else if region == "Valley" then "Shenandoah"
    else if region == "Western Virginia" then "Shenandoah"
    else if region == "Northern Neck" then "Tidewater"
    else if region == "Southside" then "Piedmont"
    else "Unknown"
  }

  /** The transit map and the road extractor's map agree on every name but
      "Western Virginia", which is Shenandoah here and Piedmont there. */
  lemma TagMapsDiffer(region: string)
    ensures region != "Western Virginia" ==> RegionTagRL(region) == Transport.RegionTag(region)
    ensures RegionTagRL("Western Virginia") == "Shenandoah"
    ensures Transport.RegionTag("Western Virginia") == "Piedmont"
  {
  }

  /** A coordinate region has an RL tag unless it is "Unknown". */
  lemma AssignedRegionTagged(lat: real, lon: real)
    ensures RegionTagRL(AssignRegion(lat, lon)) == "Unknown" <==> AssignRegion(lat, lon) == "Unknown"
  {
  }

  // ------------------------------------------------------------ stations to stops

  /** Schema name and OSM tag of each facility flag, in output order. */
  const FacilityTags: seq<(string, string)> := [
    ("shelter", "shelter"), ("bench", "bench"), ("lighting", "lighting"),
    ("ticketMachine", "ticket_machine"), ("waitingRoom", "waiting_room"),
    ("restroom", "toilets"), ("parking", "parking"), ("bikeRack", "bicycle_parking"),
    ("wifi", "wifi")
  ]

  /** Schema name and OSM tag of each accessibility flag; the audio flag
      reads the tactile paving tag. */
  const AccessTags: seq<(string, string)> := [
    ("wheelchairAccessible", "wheelchair"), ("audioAnnouncements", "tactile_paving"),
    ("visualAnnouncements", "visual_announcements"), ("elevatorAccess", "elevator"),
    ("tactilePaving", "tactile_paving"), ("rampAccess", "ramp")
  ]

  /** `tags.get(tag) == "yes"` for each entry of a flag table. */
  function Flags(tags: Dict, table: seq<(string, string)>): (r: seq<(string, bool)>)
    ensures |r| == |table|
    ensures forall i | 0 <= i < |table| :: r[i].0 == table[i].0
    ensures forall i | 0 <= i < |table| :: r[i].1 <==> table[i].1 in tags && tags[table[i].1] == Str("yes")
  {
    seq(|table|, i requires 0 <= i < |table| => (table[i].0, Get(tags, table[i].1) == Str("yes")))
  }

  /** The audio announcement flag always equals the tactile paving flag. */
  lemma AudioMirrorsTactile(tags: Dict)
    ensures Flags(tags, AccessTags)[1].0 == "audioAnnouncements"
    ensures Flags(tags, AccessTags)[4].0 == "tactilePaving"
    ensures Flags(tags, AccessTags)[1].1 == Flags(tags, AccessTags)[4].1
  {
  }

  /** A stop record as `transform_station_to_stop` builds it; the constant
      schema fields (empty platforms, provenance, null FIPS codes) are left
      out. */
  datatype Stop = Stop(
    id: Value, name: Value, stopType: Value, operator: Value, network: Value,
    coordinates: Value, facilities: seq<(string, bool)>, accessibility: seq<(string, bool)>,
    region: string, regionTag: string, lines: seq<Value>, tags: Dict)

  /** A coordinate read for comparison: numbers and booleans compare with
      floats, anything else raises TypeError. */
  function Coordinate(v: Value): (r: Result<real>)
    ensures r.Ok? <==> v.Num? || v.Bool?
    ensures v.Num? ==> r == Ok(v.n)
  {
    match v
    case Num(n) => Ok(n)
    case Bool(b) => Ok(if b then 1.0 else 0.0)
    case _ => Raise("TypeError")
  }

  /** `station.get("geometry", {}).get("coordinates", [0, 0])`. */
  function Coords(station: Dict): (r: Result<Value>)
    ensures "geometry" !in station ==> r == Ok(Arr([Num(0.0), Num(0.0)]))
    ensures r.Raise? <==> "geometry" in station && !station["geometry"].Obj?
  {
    var g := if "geometry" in station then station["geometry"] else Obj(map[]);
    if !g.Obj? then Raise("AttributeError")
    else if "coordinates" in g.fields then Ok(g.fields["coordinates"])
    else Ok(Arr([Num(0.0), Num(0.0)]))
  }

  /** `station.get("tags", {})`, which later `.get` calls need to be a dict. */
  function Tags(station: Dict): (r: Result<Dict>)
    ensures "tags" !in station ==> r == Ok(map[])
    ensures r.Ok? <==> "tags" !in station || station["tags"].Obj?
  {
    if "tags" !in station then Ok(map[])
    else if station["tags"].Obj? then Ok(station["tags"].fields)
    else Raise("AttributeError")
  }

  /** The station's name, replaced by the tag name when it is missing or
      literally "Unnamed" and the tag name is truthy. */
  function StopName(station: Dict, tags: Dict): (r: Value)
    ensures "name" in station && station["name"] != Str("Unnamed") ==> r == station["name"]
    ensures ("name" !in station || station["name"] == Str("Unnamed")) ==>
      r == (if "name" in tags && Truthy(tags["name"]) then tags["name"] else Str("Unnamed"))
  {
    var name := if "name" in station then station["name"] else Str("Unnamed");
    if name == Str("Unnamed") && Truthy(Get(tags, "name")) then tags["name"] else name
  }

  /** The stop type: a railway station, then a railway halt, then a
      platform; otherwise the station's own type, "bus_stop" by default. */
  function StopType(station: Dict, tags: Dict): (r: Value)
    ensures Get(tags, "railway") == Str("station") ==> r == Str("station")
    ensures Get(tags, "railway") == Str("halt") ==> r == Str("halt")
    ensures !(Get(tags, "railway") in {Str("station"), Str("halt")}) && Get(tags, "public_transport") == Str("platform") ==>
      r == Str("platform")
    ensures !(Get(tags, "railway") in {Str("station"), Str("halt")}) && Get(tags, "public_transport") != Str("platform") ==>
      r == (if "type" in station then station["type"] else Str("bus_stop"))
  {
    if Get(tags, "railway") == Str("station") then Str("station")
    else if Get(tags, "railway") == Str("halt") then Str("halt")
    else if Get(tags, "public_transport") == Str("platform") then Str("platform")
    else if "type" in station then station["type"] else Str("bus_stop")
  }

  /** The coordinates can be read: a list of at least two numbers. */
  predicate Placeable(coords: Value) {
    coords.Arr? && |coords.items| >= 2 && Coordinate(coords.items[0]).Ok? && Coordinate(coords.items[1]).Ok?
  }

  /** `lat, lon = coords[1], coords[0]`: the list holds longitude first. */
  function Latitude(coords: Value): real
    requires Placeable(coords)
  {
    Coordinate(coords.items[1]).value
  }

  function Longitude(coords: Value): real
    requires Placeable(coords)
  {
    Coordinate(coords.items[0]).value
  }

  /** `transform_station_to_stop(station)`; `freshId` stands for the uuid
      drawn when the station has no id. The geometry must be a dict holding
      a list of at least two numbers, and the tags a dict. */
  function StationToStop(station: Dict, freshId: string): (r: Result<Stop>)
    ensures r.Ok? <==> Coords(station).Ok? && Placeable(Coords(station).value) && Tags(station).Ok?
    ensures r.Ok? ==> Label(r.value.region) && r.value.lines == []
  {
    match Coords(station)
    case Raise(e) => Raise(e)
    case Ok(coords) =>
      if !coords.Arr? || |coords.items| < 2 then Raise("IndexError")
      else
        match Coordinate(coords.items[1])
        case Raise(e) => Raise(e)
        case Ok(lat) =>
          match Coordinate(coords.items[0])
          case Raise(e) => Raise(e)
          case Ok(lon) =>
            match Tags(station)
            case Raise(e) => Raise(e)
            case Ok(tags) =>
              var region := AssignRegion(lat, lon);
              Ok(Stop(
                if "id" in station then station["id"] else Str(freshId),
                StopName(station, tags), StopType(station, tags),
                Get(station, "operator"), Get(station, "network"), coords,
                Flags(tags, FacilityTags), Flags(tags, AccessTags),
                region, RegionTagRL(region), [], tags))
  }

  /** A transformed stop: its region comes from the second coordinate as
      latitude and the first as longitude, its tag from its region, its id
      from the station or the fresh uuid, operator and network as given. */
  lemma StopFields(station: Dict, freshId: string)
    requires StationToStop(station, freshId).Ok?
    ensures var s := StationToStop(station, freshId).value;
      Placeable(s.coordinates) && s.coordinates == Coords(station).value &&
      s.region == AssignRegion(Latitude(s.coordinates), Longitude(s.coordinates)) &&
      s.regionTag == RegionTagRL(s.region) &&
      s.id == (if "id" in station then station["id"] else Str(freshId)) &&
      s.operator == Get(station, "operator") && s.network == Get(station, "network") &&
      s.tags == Tags(station).value
  {
  }

  /** A transformed stop's name, type and flags. */
  lemma StopDescription(station: Dict, freshId: string)
    requires StationToStop(station, freshId).Ok?
    ensures var s := StationToStop(station, freshId).value;
      s.name == StopName(station, s.tags) && s.stopType == StopType(station, s.tags) &&
      s.facilities == Flags(s.tags, FacilityTags) && s.accessibility == Flags(s.tags, AccessTags)
  {
  }

  /** A station without geometry or tags is a Southside bus stop with every
      flag off. */
  lemma BareStation(freshId: string)
    ensures StationToStop(map[], freshId).Ok?
    ensures StationToStop(map[], freshId).value.region == "Southside"
    ensures StationToStop(map[], freshId).value.stopType == Str("bus_stop")
    ensures StationToStop(map[], freshId).value.name == Str("Unnamed")
    ensures forall i | 0 <= i < |FacilityTags| :: !StationToStop(map[], freshId).value.facilities[i].1
  {
    DefaultCoordinatesSouthside();
  }

  /** All results when every one is a value, else the first failure. */
  function AllOk<T>(rs: seq<Result<T>>): (r: Result<seq<T>>)
    ensures r.Ok? <==> forall i | 0 <= i < |rs| :: rs[i].Ok?
    ensures r.Ok? ==> (|r.value| == |rs| && forall i | 0 <= i < |rs| :: r.value[i] == rs[i].value)
    ensures r.Raise? ==> exists i | 0 <= i < |rs| :: rs[i] == Raise(r.error)
  {
    if rs == [] then Ok([])
    else
      match rs[0]
      case Raise(e) => Raise(e)
      case Ok(x) =>
        match AllOk(rs[1..])
        case Raise(e) =>
          assert forall i | 1 <= i < |rs| :: rs[i] == rs[1..][i - 1];
          Raise(e)
        case Ok(rest) => Ok([x] + rest)
  }

  /** `[transform_station_to_stop(s) for s in stations]`, the first failure
      propagating; `uuid(i)` is the id drawn for station `i`. */
  function TransformStations(stations: seq<Dict>, uuid: nat -> string): (r: Result<seq<Stop>>)
    ensures r.Ok? <==> forall i | 0 <= i < |stations| :: StationToStop(stations[i], uuid(i)).Ok?
    ensures r.Ok? ==> (|r.value| == |stations| &&
      forall i | 0 <= i < |stations| :: r.value[i] == StationToStop(stations[i], uuid(i)).value)
  {
    var results := seq(|stations|, i requires 0 <= i < |stations| => StationToStop(stations[i], uuid(i)));
    assert forall i | 0 <= i < |stations| :: results[i] == StationToStop(stations[i], uuid(i));
    AllOk(results)
  }

  /** Every transformed stop lies in a coordinate region and has no line
      entries. */
  lemma StopsLabelled(stations: seq<Dict>, uuid: nat -> string)
    requires TransformStations(stations, uuid).Ok?
    ensures forall s | s in TransformStations(stations, uuid).value :: Label(s.region) && s.lines == []
  {
    var stops := TransformStations(stations, uuid).value;
    forall s | s in stops ensures Label(s.region) && s.lines == [] {
      var i :| 0 <= i < |stops| && stops[i] == s;
      assert StationToStop(stations[i], uuid(i)).Ok?;
    }
  }

  // ------------------------------------------------------------ lines

  /** `v or "Unknown"`. */
  function OrUnknown(v: Value): (r: Value)
    ensures Truthy(r)
    ensures Truthy(v) ==> r == v
  {
    if Truthy(v) then v else Str("Unknown")
  }

  /** The grouping key `f"{operator}_{network}"`. */
  function Key(env: Env, s: Stop): string {
    Show(env, OrUnknown(s.operator)) + "_" + Show(env, OrUnknown(s.network))
  }

  /** What the grouping loop reads from one stop: its key, its operator and
      network with "Unknown" for falsy ones, and its line entries. */
  datatype Entry = Entry(key: string, operator: Value, network: Value, lines: seq<Value>)

  function Entries(env: Env, stops: seq<Stop>): (r: seq<Entry>)
    ensures |r| == |stops|
  {
    seq(|stops|, i requires 0 <= i < |stops| =>
      Entry(Key(env, stops[i]), OrUnknown(stops[i].operator), OrUnknown(stops[i].network), stops[i].lines))
  }

  /** One operator/network group: the operator and network of the stop that
      opened it and the line entries collected so far. */
  datatype Group = Group(key: string, operator: Value, network: Value, entries: seq<Value>)

  /** The line entries with key `k`, in stop order: the reference for what
      a group collects. */
  function Collected(es: seq<Entry>, k: string): seq<Value> {
    if es == [] then []
    else Collected(es[..|es| - 1], k) + (if es[|es| - 1].key == k then es[|es| - 1].lines else [])
  }

  function KeysOf(groups: seq<Group>): set<string> {
    set i | 0 <= i < |groups| :: groups[i].key
  }

  function EntryKeys(es: seq<Entry>): set<string> {
    set i | 0 <= i < |es| :: es[i].key
  }

  /** The group carries the operator and network of the first entry with
      its key. */
  predicate OpenedBy(es: seq<Entry>, g: Group) {
    exists j | 0 <= j < |es| :: es[j].key == g.key && es[j].operator == g.operator && es[j].network == g.network &&
      forall m | 0 <= m < j :: es[m].key != g.key
  }

  predicate DistinctKeys(groups: seq<Group>) {
    forall i, j | 0 <= i < j < |groups| :: groups[i].key != groups[j].key
  }

  /** The position of the group with key `k`, if any. */
  function Find(groups: seq<Group>, k: string): (r: Option<nat>)
    ensures r.Some? ==> r.value < |groups| && groups[r.value].key == k
    ensures r.None? ==> k !in KeysOf(groups)
  {
    if groups == [] then None
    else if groups[|groups| - 1].key == k then Some(|groups| - 1)
    else
      var r := Find(groups[..|groups| - 1], k);
      assert KeysOf(groups) == KeysOf(groups[..|groups| - 1]) + {groups[|groups| - 1].key};
      r
  }

  /** The dict of groups after the loop over the entries: an entry opens a
      group for a new key and extends the entries of an existing one. */
  function Grouped(es: seq<Entry>): (g: seq<Group>)
    ensures DistinctKeys(g)
    ensures KeysOf(g) == EntryKeys(es)
    ensures forall i | 0 <= i < |g| :: g[i].entries == Collected(es, g[i].key)
  {
    if es == [] then []
    else
      var init := es[..|es| - 1];
      var e := es[|es| - 1];
      var before := Grouped(init);
      assert EntryKeys(es) == EntryKeys(init) + {e.key} by {
        assert forall i | 0 <= i < |init| :: init[i] == es[i];
      }
      match Find(before, e.key)
      case Some(i) =>
        var g := before[i := before[i].(entries := before[i].entries + e.lines)];
        assert KeysOf(g) == KeysOf(before) by {
          assert forall j | 0 <= j < |g| :: g[j].key == before[j].key;
        }
        g
      case None =>
        var g := before + [Group(e.key, e.operator, e.network, e.lines)];
        assert KeysOf(g) == KeysOf(before) + {e.key} by {
          assert g[|before|].key == e.key;
          assert forall j | 0 <= j < |before| :: g[j] == before[j];
        }
        CollectedNew(init, e.key);
        g
  }

  /** Each group keeps the operator and network of the first entry with its
      key: later stops only extend its entries. */
  lemma {:induction false} GroupedOpened(es: seq<Entry>)
    ensures forall i | 0 <= i < |Grouped(es)| :: OpenedBy(es, Grouped(es)[i])
  {
    if es != [] {
      var init := es[..|es| - 1];
      var e := es[|es| - 1];
      assert es == init + [e];
      var before := Grouped(init);
      GroupedOpened(init);
      OpenedExtends(init, e, before);
      var g := Grouped(es);
      match Find(before, e.key)
      case Some(i) =>
        assert g == before[i := before[i].(entries := before[i].entries + e.lines)];
        assert forall j | 0 <= j < |g| :: g[j].key == before[j].key && g[j].operator == before[j].operator && g[j].network == before[j].network;
      case None =>
        assert g == before + [Group(e.key, e.operator, e.network, e.lines)];
        assert forall j | 0 <= j < |before| :: g[j] == before[j];
        NewKeyOpened(init, e);
    }
  }

  /** An entry whose key is new opens its group. */
  lemma NewKeyOpened(init: seq<Entry>, e: Entry)
    requires e.key !in EntryKeys(init)
    ensures OpenedBy(init + [e], Group(e.key, e.operator, e.network, e.lines))
  {
    var es := init + [e];
    assert es[|init|] == e;
    forall m | 0 <= m < |init| ensures es[m].key != e.key {
      assert es[m] == init[m];
      assert init[m].key in EntryKeys(init);
    }
  }

  /** A group opened before the last entry stays opened by the same entry. */
  lemma OpenedExtends(init: seq<Entry>, e: Entry, groups: seq<Group>)
    requires forall i | 0 <= i < |groups| :: OpenedBy(init, groups[i])
    ensures forall i | 0 <= i < |groups| :: OpenedBy(init + [e], groups[i])
  {
    forall i | 0 <= i < |groups| ensures OpenedBy(init + [e], groups[i]) {
      var j :| 0 <= j < |init| && init[j].key == groups[i].key && init[j].operator == groups[i].operator &&
        init[j].network == groups[i].network && forall m | 0 <= m < j :: init[m].key != groups[i].key;
      assert (init + [e])[j] == init[j];
      assert forall m | 0 <= m < j :: (init + [e])[m] == init[m];
    }
  }

  /** A key none of the entries has collects nothing. */
  lemma {:induction false} CollectedNew(es: seq<Entry>, k: string)
    requires k !in EntryKeys(es)
    ensures Collected(es, k) == []
  {
    if es != [] {
      var init := es[..|es| - 1];
      assert EntryKeys(init) <= EntryKeys(es) by {
        assert forall i | 0 <= i < |init| :: init[i] == es[i];
      }
      assert es[|es| - 1].key in EntryKeys(es);
      CollectedNew(init, k);
    }
  }

  /** Distinct keys: as many groups as keys. */
  lemma {:induction false} DistinctCount(groups: seq<Group>)
    requires DistinctKeys(groups)
    ensures |KeysOf(groups)| == |groups|
  {
    if groups != [] {
      var init := groups[..|groups| - 1];
      var last := groups[|groups| - 1];
      assert KeysOf(groups) == KeysOf(init) + {last.key} by {
        assert forall i | 0 <= i < |init| :: init[i] == groups[i];
      }
      assert last.key !in KeysOf(init);
      DistinctCount(init);
    }
  }

  /** A transit line record; the constant fields (type "bus", null route
      number and colour, an empty geometry, region "Unknown") are left out. */
  datatype Line = Line(name: string, operator: Value, network: Value, stops: seq<Value>)

  /** `[stop["id"] for stop in entries]`: each entry must be a dict with an
      "id". */
  function Ids(entries: seq<Value>): (r: Result<seq<Value>>)
    ensures r.Ok? <==> forall i | 0 <= i < |entries| :: entries[i].Obj? && "id" in entries[i].fields
    ensures r.Ok? ==> (|r.value| == |entries| && forall i | 0 <= i < |entries| :: r.value[i] == entries[i].fields["id"])
  {
    if entries == [] then Ok([])
    else if !entries[0].Obj? || "id" !in entries[0].fields then Raise(if entries[0].Obj? then "KeyError" else "TypeError")
    else
      match Ids(entries[1..])
      case Raise(e) => Raise(e)
      case Ok(rest) =>
        assert forall i | 1 <= i < |entries| :: entries[i] == entries[1..][i - 1];
        Ok([entries[0].fields["id"]] + rest)
  }

  /** The groups with more than one entry, in order. */
  function Multi(groups: seq<Group>): (r: seq<Group>)
    ensures forall g | g in r :: g in groups && |g.entries| > 1
    ensures forall g | g in groups && |g.entries| > 1 :: g in r
  {
    if groups == [] then []
    else (if |groups[0].entries| > 1 then [groups[0]] else []) + Multi(groups[1..])
  }

  lemma {:induction false} MultiNone(groups: seq<Group>)
    requires forall i | 0 <= i < |groups| :: |groups[i].entries| <= 1
    ensures Multi(groups) == []
  {
    if groups != [] {
      MultiNone(groups[1..]);
    }
  }

  /** One line per group of `groups`, named "operator network". */
  function LinesOf(env: Env, groups: seq<Group>): (r: Result<seq<Line>>)
    ensures r.Ok? <==> forall i | 0 <= i < |groups| :: Ids(groups[i].entries).Ok?
    ensures r.Ok? ==> (|r.value| == |groups| && forall i | 0 <= i < |groups| ::
      r.value[i].operator == groups[i].operator && r.value[i].network == groups[i].network &&
      r.value[i].name == Show(env, groups[i].operator) + " " + Show(env, groups[i].network) &&
      Ids(groups[i].entries) == Ok(r.value[i].stops))
  {
    if groups == [] then Ok([])
    else
      match Ids(groups[0].entries)
      case Raise(e) => Raise(e)
      case Ok(ids) =>
        match LinesOf(env, groups[1..])
        case Raise(e) =>
          assert forall i | 1 <= i < |groups| :: groups[i] == groups[1..][i - 1];
          Raise(e)
        case Ok(rest) =>
          assert forall i | 1 <= i < |groups| :: groups[i] == groups[1..][i - 1];
          var g := groups[0];
          Ok([Line(Show(env, g.operator) + " " + Show(env, g.network), g.operator, g.network, ids)] + rest)
  }

  /** `create_transit_line_from_stops(stops)`: None for no stops, else a
      line for each operator/network group that collected more than one
      entry. */
  function TransitLines(env: Env, stops: seq<Stop>): (r: Result<Option<seq<Line>>>)
    ensures stops == [] <==> r == Ok(None)
    ensures stops != [] && r.Ok? ==> r.value.Some? && |r.value.value| == |Multi(Grouped(Entries(env, stops)))|
  {
    if stops == [] then Ok(None)
    else
      match LinesOf(env, Multi(Grouped(Entries(env, stops))))
      case Raise(e) => Raise(e)
      case Ok(lines) => Ok(Some(lines))
  }

  /** A group is turned into a line exactly when its key occurs among the
      entries and the entries with that key hold more than one line entry. */
  lemma MultiForKey(es: seq<Entry>, k: string)
    ensures (exists i | 0 <= i < |Multi(Grouped(es))| :: Multi(Grouped(es))[i].key == k) <==>
      k in EntryKeys(es) && |Collected(es, k)| > 1
  {
    var g := Grouped(es);
    MultiHasKey(g, k);
    if k in EntryKeys(es) {
      assert k in KeysOf(g);
      var j :| 0 <= j < |g| && g[j].key == k;
      assert g[j].entries == Collected(es, k);
    }
  }

  /** A key has a group among the multi-entry groups exactly when a group
      with that key holds more than one entry. */
  lemma MultiHasKey(g: seq<Group>, k: string)
    ensures (exists i | 0 <= i < |Multi(g)| :: Multi(g)[i].key == k) <==>
      exists j | 0 <= j < |g| :: g[j].key == k && |g[j].entries| > 1
  {
    if exists j | 0 <= j < |g| :: g[j].key == k && |g[j].entries| > 1 {
      var j :| 0 <= j < |g| && g[j].key == k && |g[j].entries| > 1;
      MultiKeyFrom(g, k, j);
    }
    if exists i | 0 <= i < |Multi(g)| :: Multi(g)[i].key == k {
      var i :| 0 <= i < |Multi(g)| && Multi(g)[i].key == k;
      MultiKeyTo(g, k, i);
    }
  }

  /** A multi-entry group with the key makes the key appear among them. */
  lemma MultiKeyFrom(g: seq<Group>, k: string, j: nat)
    requires j < |g| && g[j].key == k && |g[j].entries| > 1
    ensures exists i | 0 <= i < |Multi(g)| :: Multi(g)[i].key == k
  {
    var m := Multi(g);
    assert g[j] in g;
    var i :| 0 <= i < |m| && m[i] == g[j];
    assert m[i].key == k;
  }

  /** A key among the multi-entry groups comes from a group with more than
      one entry. */
  lemma MultiKeyTo(g: seq<Group>, k: string, i: nat)
    requires i < |Multi(g)| && Multi(g)[i].key == k
    ensures exists j | 0 <= j < |g| :: g[j].key == k && |g[j].entries| > 1
  {
    var m := Multi(g);
    assert m[i] in m;
    var j :| 0 <= j < |g| && g[j] == m[i];
    assert g[j].key == k && |g[j].entries| > 1;
  }

  /** Stops fresh from `transform_station_to_stop` carry no line entries,
      so a non-empty list of them yields no lines. */
  lemma FreshStopsNoLines(env: Env, stops: seq<Stop>)
    requires stops != [] && forall s | s in stops :: s.lines == []
    ensures TransitLines(env, stops) == Ok(Some([]))
  {
    var es := Entries(env, stops);
    assert forall i | 0 <= i < |es| :: es[i].lines == stops[i].lines;
    var g := Grouped(es);
    forall i | 0 <= i < |g| ensures |g[i].entries| <= 1 {
      NoEntries(es, g[i].key);
    }
    MultiNone(g);
  }

  lemma {:induction false} NoEntries(es: seq<Entry>, k: string)
    requires forall i | 0 <= i < |es| :: es[i].lines == []
    ensures Collected(es, k) == []
  {
    if es != [] {
      NoEntries(es[..|es| - 1], k);
    }
  }

  /** The key glues operator and network with "_", so the operator "A_B" on
      network "C" and the operator "A" on network "B_C" share one group. */
  lemma KeysCollide(env: Env, s: Stop, t: Stop)
    requires s.operator == Str("A_B") && s.network == Str("C")
    requires t.operator == Str("A") && t.network == Str("B_C")
    ensures Key(env, s) == Key(env, t) == "A_B_C"
    ensures |Grouped(Entries(env, [s, t]))| == 1
  {
    var es := Entries(env, [s, t]);
    assert es[0].key == "A_B_C" && es[1].key == "A_B_C";
    var g := Grouped(es);
    assert EntryKeys(es) == {"A_B_C"};
    DistinctCount(g);
  }

  // ------------------------------------------------------------ dataset metadata

  /** The counts and sets of the dataset's metadata block; Python's
      `list(set(...))` order is not modelled. */
  datatype Metadata = Metadata(totalStops: nat, totalLines: nat, regions: set<string>, operators: set<Value>, networks: set<Value>)

  /** `set()` hashes its members: a list or a dict makes it raise TypeError. */
  predicate Hashable(v: Value) {
    !v.Arr? && !v.Obj?
  }

  /** The metadata of `transform_transit_data` for the transformed stops and
      the result of the line step, or the TypeError `set()` raises on a
      truthy operator or network that is a list or a dict. */
  function DatasetMetadata(stops: seq<Stop>, lines: Option<seq<Line>>): (r: Result<Metadata>)
    ensures r.Ok? <==> forall s | s in stops ::
      (Truthy(s.operator) ==> Hashable(s.operator)) && (Truthy(s.network) ==> Hashable(s.network))
    ensures r.Ok? ==> r.value.totalStops == |stops|
    ensures r.Ok? ==> r.value.totalLines == (if lines.Some? then |lines.value| else 0)
    ensures r.Ok? ==> forall x :: x in r.value.regions <==> exists s | s in stops :: s.region == x
    ensures r.Ok? ==> forall v :: v in r.value.operators <==> Truthy(v) && exists s | s in stops :: s.operator == v
    ensures r.Ok? ==> forall v :: v in r.value.networks <==> Truthy(v) && exists s | s in stops :: s.network == v
  {
    if exists s | s in stops :: (Truthy(s.operator) && !Hashable(s.operator)) || (Truthy(s.network) && !Hashable(s.network))
    then Raise("TypeError")
    else Ok(Metadata(
      |stops|,
      if lines.Some? then |lines.value| else 0,
      set s | s in stops :: s.region,
      set s | s in stops && Truthy(s.operator) :: s.operator,
      set s | s in stops && Truthy(s.network) :: s.network))
  }

  /** The regions listed in the metadata of transformed stations are
      coordinate-rule labels. */
  lemma MetadataRegionsLabelled(stations: seq<Dict>, uuid: nat -> string)
    requires TransformStations(stations, uuid).Ok?
    ensures var m := DatasetMetadata(TransformStations(stations, uuid).value, None);
      m.Ok? ==> forall r | r in m.value.regions :: Label(r)
  {
    StopsLabelled(stations, uuid);
  }
}

=== FILE: transport.dfy ===
/** The regional assignment and road-segment construction of
    va_transport_extractor.py. The route and street names found in the
    Virginia state map PDFs arrive per category; they are spread over the
    eight regions by the regions' known route networks and city names, and
    every regional item becomes one RoadSegment. The text extraction itself
    (regular expressions over PDF text) is outside the model: the per-PDF
    findings are inputs. */
module Transport {
  import opened Wrappers
  import opened Json
  import opened Text
  import opened Runtime
  import Osm

  // ------------------------------------------------------------ categories and regions

  datatype Category =
    | Interstates | UsRoutes | StateRoutes | PrimaryHighways | SecondaryHighways
    | NamedStreets | NamedHighways | TransitMentions

  /** The categories in the order the output lists them. */
  const AllCategories: seq<Category> := [
    Interstates, UsRoutes, StateRoutes, PrimaryHighways, SecondaryHighways,
    NamedStreets, NamedHighways, TransitMentions
  ]

  /** The categories a region's route network lists. */
  predicate NetworkCategory(c: Category) {
    c == Interstates || c == UsRoutes || c == StateRoutes
  }

  predicate NamedCategory(c: Category) {
    c == NamedStreets || c == NamedHighways
  }

  /** The categories turned into road segments: all but transit. */
  const SegmentCategories: seq<Category> := [
    Interstates, UsRoutes, StateRoutes, PrimaryHighways, SecondaryHighways,
    NamedStreets, NamedHighways
  ]

  datatype Region =
    | NorthernVirginia | CentralVirginia | Tidewater | Southwest | Valley
    | WesternVirginia | NorthernNeck | Southside

  /** `VA_REGIONS` in its declaration order. */
  const AllRegions: seq<Region> := [
    NorthernVirginia, CentralVirginia, Tidewater, Southwest, Valley,
    WesternVirginia, NorthernNeck, Southside
  ]

  lemma AllRegionsListed(r: Region)
    ensures r in AllRegions
  {
  }

  function RegionName(r: Region): string {
    match r
    case NorthernVirginia => "Northern Virginia"
    case CentralVirginia => "Central Virginia"
    case Tidewater => "Tidewater"
    case Southwest => "Southwest"
    case Valley => "Valley"
    case WesternVirginia => "Western Virginia"
    case NorthernNeck => "Northern Neck"
    case Southside => "Southside"
  }

  /** The route network of each region. */
  function Network(r: Region, c: Category): set<string>
    requires NetworkCategory(c)
  {
    match r
    case NorthernVirginia =>
      if c == Interstates then {"I-66", "I-495", "I-395", "I-95", "I-81", "I-270"}
      else if c == UsRoutes then {"US-1", "US-29", "US-50", "US-15", "US-17", "US-211"}
      else {"VA-7", "VA-28", "VA-123", "VA-267", "VA-286", "VA-620"}
    case CentralVirginia =>
      if c == Interstates then {"I-64", "I-95", "I-195", "I-295", "I-288"}
      else if c == UsRoutes then {"US-33", "US-60", "US-250", "US-301", "US-360", "US-522"}
      else {"VA-288", "VA-150", "VA-10", "VA-33", "VA-76"}
    case Tidewater =>
      if c == Interstates then {"I-64", "I-264", "I-464", "I-564", "I-664"}
      else if c == UsRoutes then {"US-13", "US-17", "US-58", "US-60", "US-258", "US-460"}
      else {"VA-168", "VA-164", "VA-199", "VA-44", "VA-134"}
    case Southwest =>
      if c == Interstates then {"I-81", "I-77", "I-581"}
      else if c == UsRoutes then {"US-11", "US-19", "US-23", "US-58", "US-460", "US-421", "US-52", "US-220"}
      else {"VA-100", "VA-114", "VA-116", "VA-140", "VA-177"}
    case Valley =>
      if c == Interstates then {"I-81", "I-66"}
      else if c == UsRoutes then {"US-11", "US-33", "US-50", "US-220", "US-250", "US-340", "US-522"}
      else {"VA-7", "VA-55", "VA-42", "VA-259", "VA-263"}
    case WesternVirginia =>
      if c == Interstates then {"I-64", "I-81"}
      else if c == UsRoutes then {"US-15", "US-29", "US-33", "US-60", "US-250", "US-340", "US-360", "US-460"}
      else {"VA-20", "VA-22", "VA-24", "VA-26", "VA-53", "VA-151"}
    case NorthernNeck =>
      if c == Interstates then {}
      else if c == UsRoutes then {"US-17", "US-301", "US-360"}
      else {"VA-3", "VA-200", "VA-218", "VA-222"}
    case Southside =>
      if c == Interstates then {"I-85", "I-95"}
      else if c == UsRoutes then {"US-1", "US-15", "US-29", "US-58", "US-360", "US-460"}
      else {"VA-40", "VA-46", "VA-49", "VA-85", "VA-122"}
  }

  /** The city names that place a named road in each region. */
  function Cities(r: Region): seq<string> {
    match r
    case NorthernVirginia =>
      ["Arlington", "Alexandria", "Fairfax", "Herndon", "Reston", "Tysons", "McLean", "Manassas", "Leesburg", "Ashburn", "Potomac"]
    case CentralVirginia =>
      ["Richmond", "Henrico", "Chesterfield", "Short Pump", "Midlothian", "Mechanicsville", "Ashland"]
    case Tidewater =>
      ["Virginia Beach", "Norfolk", "Portsmouth", "Chesapeake", "Hampton", "Newport News", "Suffolk", "Williamsburg", "Poquoson", "Yorktown"]
    case Southwest =>
      ["Roanoke", "Salem", "Blacksburg", "Christiansburg", "Abingdon", "Bristol", "Wise", "Norton", "Pulaski", "Wytheville"]
    case Valley =>
      ["Winchester", "Front Royal", "Harrisonburg", "Staunton", "Waynesboro", "Lexington", "Luray", "Woodstock"]
    case WesternVirginia =>
      ["Charlottesville", "Lynchburg", "Danville", "Martinsville", "Farmville", "Bedford", "Amherst"]
    case NorthernNeck =>
      ["Fredericksburg", "Stafford", "Spotsylvania", "King George", "Westmoreland", "Northumberland", "Lancaster", "Richmond County"]
    case Southside =>
      ["Petersburg", "Colonial Heights", "Hopewell", "Emporia", "South Hill", "Lawrenceville", "Boydton", "Chase City"]
  }

  // ------------------------------------------------------------ sorting

  /** `a <= b` on strings. */
  predicate StrLe(a: string, b: string) {
    !StrLt(b, a)
  }

  lemma StrLeTransitive(a: string, b: string, c: string)
    requires StrLe(a, b) && StrLe(b, c)
    ensures StrLe(a, c)
  {
    StrLtTotal(a, b);
    StrLtTotal(b, c);
    if StrLt(c, a) {
      if a == b {
      } else if b == c {
      } else {
        StrLtTransitive(a, b, c);
        StrLtAsymmetric(a, c);
      }
    }
  }

  predicate Sorted(xs: seq<string>) {
    forall i, j | 0 <= i < j < |xs| :: StrLe(xs[i], xs[j])
  }

  function Insert(x: string, xs: seq<string>): (r: seq<string>)
    ensures multiset(r) == multiset(xs) + multiset{x} && |r| == |xs| + 1
  {
    if xs == [] then [x]
    else if StrLe(x, xs[0]) then [x] + xs
    else
      assert xs == [xs[0]] + xs[1..];
      [xs[0]] + Insert(x, xs[1..])
  }

  /** Inserting into a sorted list keeps it sorted. */
  lemma {:induction false} InsertSorted(x: string, xs: seq<string>)
    requires Sorted(xs)
    ensures Sorted(Insert(x, xs))
  {
    if xs != [] {
      if StrLe(x, xs[0]) {
        forall j | 0 < j < |xs| ensures StrLe(x, xs[j]) {
          StrLeTransitive(x, xs[0], xs[j]);
        }
      } else {
        StrLtAsymmetric(xs[0], x);
        var t := Insert(x, xs[1..]);
        InsertSorted(x, xs[1..]);
        forall j | 0 <= j < |t| ensures StrLe(xs[0], t[j]) {
          assert t[j] in multiset(t);
          if t[j] != x {
            assert t[j] in multiset(xs[1..]);
            var k :| 0 <= k < |xs[1..]| && xs[1..][k] == t[j];
            assert xs[k + 1] == t[j];
          }
        }
      }
    }
  }

  /** `sorted(xs)`: the same items, in ascending order. */
  function Sort(xs: seq<string>): (r: seq<string>)
    ensures Sorted(r) && multiset(r) == multiset(xs) && |r| == |xs|
  {
    if xs == [] then []
    else
      assert xs == xs[..|xs| - 1] + [xs[|xs| - 1]];
      var rest := Sort(xs[..|xs| - 1]);
      InsertSorted(xs[|xs| - 1], rest);
      Insert(xs[|xs| - 1], rest)
  }

  // ------------------------------------------------------------ the extraction output

  /** The findings of one PDF: a set of names per category. */
  type Findings = map<Category, set<string>>

  /** A category's items, `[]` when the category is absent
      (`data.get(category, [])`). */
  function Items(data: map<Category, seq<string>>, c: Category): seq<string> {
    if c in data then data[c] else []
  }

  function Found(f: Findings, c: Category): set<string> {
    if c in f then f[c] else {}
  }

  function Union(pdfs: seq<Findings>, c: Category): (r: set<string>)
    ensures forall x :: x in r <==> exists i | 0 <= i < |pdfs| :: x in Found(pdfs[i], c)
  {
    if pdfs == [] then {}
    else
      var rest := Union(pdfs[1..], c);
      assert forall i | 1 <= i < |pdfs| :: pdfs[i] == pdfs[1..][i - 1];
      Found(pdfs[0], c) + rest
  }

  /** `extract_from_folder`: every category present, each the sorted union of
      the PDFs' findings. */
  ghost function ExtractFromFolder(pdfs: seq<Findings>): (r: map<Category, seq<string>>)
    ensures forall c :: c in r
    ensures forall c :: StrictlyAscending(r[c])
    ensures forall c, x :: x in r[c] <==> exists i | 0 <= i < |pdfs| :: x in Found(pdfs[i], c)
  {
    var r := map c: Category | c in AllCategories :: SortedUnion(pdfs, c);
    assert forall c: Category :: c in AllCategories by {
      forall c: Category ensures c in AllCategories { CategoryListed(c); }
    }
    r
  }

  ghost function SortedUnion(pdfs: seq<Findings>, c: Category): (r: seq<string>)
    ensures StrictlyAscending(r)
    ensures forall x :: x in r <==> x in Union(pdfs, c)
  {
    var u := Union(pdfs, c);
    var r := SortedSet(SetToSeq(u));
    assert forall x :: x in r <==> x in Elems(r);
    r
  }

  /** Some listing of a finite set's elements. */
  ghost function SetToSeq(s: set<string>): (r: seq<string>)
    ensures Elems(r) == s
    decreases |s|
  {
    if s == {} then []
    else
      var x :| x in s;
      var rest := SetToSeq(s - {x});
      assert Elems([x] + rest) == {x} + Elems(rest);
      [x] + rest
  }

  // ------------------------------------------------------------ regional assignment

  /** The items that satisfy a membership test, in order. */
  function FilterIn(xs: seq<string>, s: set<string>): (r: seq<string>)
    ensures |r| <= |xs|
    ensures forall x :: x in r <==> x in xs && x in s
  {
    if xs == [] then []
    else (if xs[0] in s then [xs[0]] else []) + FilterIn(xs[1..], s)
  }

  /** One of the cities, lower-cased, occurs in the lower-cased item. */
  predicate CityMatch(cities: seq<string>, item: string) {
    if cities == [] then false
    else HasSubstring(Lower(item), Lower(cities[0])) || CityMatch(cities[1..], item)
  }

  /** The scan finds a city exactly when one of them occurs in the item,
      ignoring ASCII case. */
  lemma {:induction false} CityMatchSpec(cities: seq<string>, item: string)
    ensures CityMatch(cities, item) <==> exists i | 0 <= i < |cities| :: Contains(Lower(item), Lower(cities[i]))
  {
    if cities != [] {
      CityMatchSpec(cities[1..], item);
      assert forall i | 1 <= i < |cities| :: cities[i] == cities[1..][i - 1];
    }
  }

  /** The item names one of the region's cities. */
  predicate NamesCity(r: Region, item: string) {
    CityMatch(Cities(r), item)
  }

  /** The index of the first region of `rs`, from `i` on, whose city the
      item names. */
  function FirstCityRegion(rs: seq<Region>, item: string, i: nat): (k: Option<nat>)
    requires i <= |rs|
    ensures k.Some? ==> (i <= k.value < |rs| && NamesCity(rs[k.value], item)
      && forall j | i <= j < k.value :: !NamesCity(rs[j], item))
    ensures k.None? ==> forall j | i <= j < |rs| :: !NamesCity(rs[j], item)
  {
    FirstWhere(rs, r => NamesCity(r, item), i)
  }

  /** The index of the first element of `xs`, from `i` on, that satisfies `p`. */
  function FirstWhere<T>(xs: seq<T>, p: T -> bool, i: nat): (k: Option<nat>)
    requires i <= |xs|
    ensures k.Some? ==> (i <= k.value < |xs| && p(xs[k.value])
      && forall j | i <= j < k.value :: !p(xs[j]))
    ensures k.None? ==> forall j | i <= j < |xs| :: !p(xs[j])
    decreases |xs| - i
  {
    if i == |xs| then None
    else if p(xs[i]) then Some(i)
    else FirstWhere(xs, p, i + 1)
  }

  function Abs(x: int): nat {
    if x < 0 then -x else x
  }

  /** The region a named road goes to: the first region, in declaration
      order, with a city named in it, or else the region at
      `abs(hash(item)) % 8`. Python's string hash changes between runs, so it
      is a parameter. */
  function Home(hash: string -> int, item: string): Region {
    match FirstCityRegion(AllRegions, item, 0)
    case Some(k) => AllRegions[k]
    case None => AllRegions[Abs(hash(item)) % |AllRegions|]
  }

  /** A named road goes to the first region, in declaration order, whose
      city it names. */
  lemma HomeIsFirstCity(hash: string -> int, item: string, i: nat)
    requires i < |AllRegions| && NamesCity(AllRegions[i], item)
    requires forall j | 0 <= j < i :: !NamesCity(AllRegions[j], item)
    ensures Home(hash, item) == AllRegions[i]
  {
    var k := FirstCityRegion(AllRegions, item, 0);
    assert k.Some? && k.value <= i;
  }

  /** A road naming no city goes to the region its hash selects. */
  lemma HomeHashed(hash: string -> int, item: string)
    requires forall j | 0 <= j < |AllRegions| :: !NamesCity(AllRegions[j], item)
    ensures Home(hash, item) == AllRegions[Abs(hash(item)) % |AllRegions|]
  {
  }

  /** The items whose home is `r`, in order. */
  function HomedIn(hash: string -> int, xs: seq<string>, r: Region): (out: seq<string>)
    ensures |out| <= |xs|
    ensures forall x :: x in out <==> x in xs && Home(hash, x) == r
  {
    if xs == [] then []
    else (if Home(hash, xs[0]) == r then [xs[0]] else []) + HomedIn(hash, xs[1..], r)
  }

  /** A region's list of one category before sorting. */
  function Unsorted(hash: string -> int, data: map<Category, seq<string>>, r: Region, c: Category): seq<string> {
    if NetworkCategory(c) then FilterIn(Items(data, c), Network(r, c))
    else if NamedCategory(c) then HomedIn(hash, Items(data, c), r)
    else []
  }

  type Lists = map<Category, seq<string>>

  /** `assign_to_regions(data)`: every region gets every category, sorted.
      Network categories hold exactly the items in the region's network,
      named roads go to their home region, and the other categories stay
      empty. */
  function AssignToRegions(hash: string -> int, data: map<Category, seq<string>>): (out: map<Region, Lists>)
    ensures forall r :: r in out && forall c :: c in out[r]
    ensures forall r, c :: Sorted(out[r][c])
    ensures forall r, c :: multiset(out[r][c]) == multiset(Unsorted(hash, data, r, c))
  {
    assert (forall r: Region :: r in AllRegions) && (forall c: Category :: c in AllCategories) by {
      forall r: Region ensures r in AllRegions { AllRegionsListed(r); }
      forall c: Category ensures c in AllCategories { CategoryListed(c); }
    }
    map r | r in AllRegions :: map c | c in AllCategories :: Sort(Unsorted(hash, data, r, c))
  }

  lemma CategoryIndex(c: Category) returns (i: nat)
    ensures i < |AllCategories| && AllCategories[i] == c
  {
    match c
    case Interstates => i := 0;
    case UsRoutes => i := 1;
    case StateRoutes => i := 2;
    case PrimaryHighways => i := 3;
    case SecondaryHighways => i := 4;
    case NamedStreets => i := 5;
    case NamedHighways => i := 6;
    case TransitMentions => i := 7;
  }

  lemma CategoryListed(c: Category)
    ensures c in AllCategories
  {
    match c
    case Interstates => assert AllCategories[0] == c;
    case UsRoutes => assert AllCategories[1] == c;
    case StateRoutes => assert AllCategories[2] == c;
    case PrimaryHighways => assert AllCategories[3] == c;
    case SecondaryHighways => assert AllCategories[4] == c;
    case NamedStreets => assert AllCategories[5] == c;
    case NamedHighways => assert AllCategories[6] == c;
    case TransitMentions => assert AllCategories[7] == c;
  }

  /** A named road lands in one region only: the one it names a city of, or
      its hashed region. */
  lemma NamedRoadOneRegion(hash: string -> int, data: map<Category, seq<string>>, c: Category, x: string, r: Region)
    requires NamedCategory(c)
    ensures x in AssignToRegions(hash, data)[r][c] <==> x in Items(data, c) && Home(hash, x) == r
  {
    var out := AssignToRegions(hash, data);
    assert x in out[r][c] <==> x in multiset(out[r][c]);
  }

  /** A network item is listed under every region whose network has it. */
  lemma NetworkItemRegions(hash: string -> int, data: map<Category, seq<string>>, c: Category, x: string, r: Region)
    requires NetworkCategory(c)
    ensures x in AssignToRegions(hash, data)[r][c] <==> x in Items(data, c) && x in Network(r, c)
  {
    var out := AssignToRegions(hash, data);
    assert x in out[r][c] <==> x in multiset(out[r][c]);
  }

  /** The primary and secondary highway lists and the transit list of every
      region stay empty: no `SR-` finding ever reaches a region. */
  lemma UnassignedCategoriesEmpty(hash: string -> int, data: map<Category, seq<string>>, r: Region, c: Category)
    requires !NetworkCategory(c) && !NamedCategory(c)
    ensures AssignToRegions(hash, data)[r][c] == []
  {
    var l := AssignToRegions(hash, data)[r][c];
    assert multiset(l) == multiset{};
    assert |l| == |multiset(l)|;
  }

  // ------------------------------------------------------------ road segments

  /** The fields of a RoadSegment the model keeps: its single local name,
      route designation, region and RL tag. */
  datatype Segment = Segment(localName: string, system: string, number: string, signing: string,
                             region: string, tag: string)

  /** The fixed region-to-RL-tag mapping, "Unknown" for other names. */
  function RegionTag(region: string): string {
    if region == "Northern Virginia" then "NoVA"
    else if region == "Central Virginia" then "Piedmont"
    else if region == "Tidewater" then "Tidewater"
    else if region == "Southwest" then "Appalachia"
    else if region == "Valley" then "Shenandoah"
    else if region == "Western Virginia" then "Piedmont"
    else if region == "Northern Neck" then "Tidewater"
    else if region == "Southside" then "Piedmont"
    else "Unknown"
  }

  /** Every region has a tag, and a name that is no region's gets
      "Unknown". */
  lemma RegionTagKnown(r: Region, other: string)
    ensures RegionTag(RegionName(r)) != "Unknown"
    ensures (forall q: Region :: RegionName(q) != other) ==> RegionTag(other) == "Unknown"
  {
    if RegionTag(other) != "Unknown" {
      var q :=
        if other == "Northern Virginia" then NorthernVirginia
        else if other == "Central Virginia" then CentralVirginia
        else if other == "Tidewater" then Tidewater
        else if other == "Southwest" then Southwest
        else if other == "Valley" then Valley
        else if other == "Western Virginia" then WesternVirginia
        else if other == "Northern Neck" then NorthernNeck
        else Southside;
      assert RegionName(q) == other;
    }
  }

  /** The route system, number and signing `create_road_segment` reads off
      an item's prefix; the number is the text between the first and second
      hyphen. An item with no known prefix keeps itself as the number. */
  function RoadRoute(item: string): (r: (string, string, string))
    ensures !StartsWith(item, "I-") && !StartsWith(item, "US-") && !StartsWith(item, "VA-") && !StartsWith(item, "SR-")
      ==> r == ("Unknown", item, "None")
    ensures r.0 != "Unknown" ==> '-' !in r.1
  {
    if StartsWith(item, "I-") then
      assert item[1] == '-';
      ("Interstate", SecondPiece(item), "Interstate")
    else if StartsWith(item, "US-") then
      assert item[2] == '-';
      ("US Highway", SecondPiece(item), "US")
    else if StartsWith(item, "VA-") then
      assert item[2] == '-';
      ("Primary Highway", SecondPiece(item), "VA")
    else if StartsWith(item, "SR-") then
      assert item[2] == '-';
      ("Secondary Highway", SecondPiece(item), "VA")
    else ("Unknown", item, "None")
  }

  /** `item.split("-")[1]` for an item that holds a hyphen. */
  function SecondPiece(item: string): (r: string)
    requires '-' in item
    ensures '-' !in r
  {
    var pieces := Split(item, '-');
    SplitHasTwo(item);
    pieces[1]
  }

  lemma SplitHasTwo(s: string)
    requires '-' in s
    ensures |Split(s, '-')| >= 2
  {
  }

  /** Formatting a route as "PREFIX-number" and reading it back gives the
      number and the system of the prefix. */
  lemma RoadRouteRoundTrip(number: string)
    requires '-' !in number
    ensures RoadRoute("I-" + number) == ("Interstate", number, "Interstate")
    ensures RoadRoute("US-" + number) == ("US Highway", number, "US")
    ensures RoadRoute("VA-" + number) == ("Primary Highway", number, "VA")
    ensures RoadRoute("SR-" + number) == ("Secondary Highway", number, "VA")
  {
    InterstateRoundTrip(number);
    UsRoundTrip(number);
    VaRoundTrip(number);
    SrRoundTrip(number);
  }

  lemma InterstateRoundTrip(number: string)
    requires '-' !in number
    ensures RoadRoute("I-" + number) == ("Interstate", number, "Interstate")
  {
    SplitAfterPrefix("I", number);
    assert ("I-" + number)[..2] == "I-";
  }

  lemma UsRoundTrip(number: string)
    requires '-' !in number
    ensures RoadRoute("US-" + number) == ("US Highway", number, "US")
  {
    SplitAfterPrefix("US", number);
    assert ("US-" + number)[..3] == "US-";
  }

  lemma VaRoundTrip(number: string)
    requires '-' !in number
    ensures RoadRoute("VA-" + number) == ("Primary Highway", number, "VA")
  {
    SplitAfterPrefix("VA", number);
    assert ("VA-" + number)[..3] == "VA-";
  }

  lemma SrRoundTrip(number: string)
    requires '-' !in number
    ensures RoadRoute("SR-" + number) == ("Secondary Highway", number, "VA")
  {
    SplitAfterPrefix("SR", number);
    assert ("SR-" + number)[..3] == "SR-";
  }

  lemma SplitAfterPrefix(p: string, number: string)
    requires '-' !in p && '-' !in number
    ensures '-' in p + "-" + number && SecondPiece(p + "-" + number) == number
  {
    var s := p + "-" + number;
    assert s[|p|] == '-';
    var i := FirstIndex(s, '-');
    assert i == |p|;
    assert s[i + 1..] == number;
    assert s[..i] == p;
  }

  /** A state route item "SR-n" is a Secondary Highway here, while the OSM
      importer reads the same ref as a Primary Highway. */
  lemma SrReadTwoWays(env: Env, number: string)
    requires number != [] && Osm.AllDigits(number)
    ensures RoadRoute("SR-" + number).0 == "Secondary Highway"
    ensures Osm.ParseRef(env, "SR-" + number).system == "Primary Highway"
  {
    assert '-' !in number by {
      assert forall i | 0 <= i < |number| :: IsDigit(number[i]);
    }
    SrRoundTrip(number);
    Osm.SrIsPrimary(env, number);
    assert "SR" + "-" + number == "SR-" + number;
  }

  /** `create_road_segment(item, _, region)`: the route type argument is not
      read. */
  function RoadSegment(item: string, region: string): (s: Segment)
    ensures s.localName == item && s.region == region && s.tag == RegionTag(region)
    ensures (s.system, s.number, s.signing) == RoadRoute(item)
  {
    var (system, number, signing) := RoadRoute(item);
    Segment(item, system, number, signing, region, RegionTag(region))
  }

  /** `create_named_street_segment(name, region)`. */
  function NamedSegment(name: string, region: string): (s: Segment)
    ensures s.localName == name && s.region == region && s.tag == RegionTag(region)
    ensures s.system == "Unknown" && s.number == "Unknown" && s.signing == "None"
  {
    Segment(name, "Unknown", "Unknown", "None", region, RegionTag(region))
  }

  function MakeSegments(items: seq<string>, c: Category, region: string): (r: seq<Segment>)
    ensures |r| == |items|
    ensures forall i | 0 <= i < |items| :: r[i].localName == items[i] && r[i].region == region
    ensures forall i | 0 <= i < |items| :: r[i] == if NamedCategory(c) then NamedSegment(items[i], region) else RoadSegment(items[i], region)
  {
    seq(|items|, i requires 0 <= i < |items| =>
      if NamedCategory(c) then NamedSegment(items[i], region) else RoadSegment(items[i], region))
  }

  /** One region's segments, category by category from index `k` of
      `SegmentCategories`. */
  function RegionSegments(lists: Lists, region: string, k: nat): (r: seq<Segment>)
    requires k <= |SegmentCategories|
    ensures |r| == CountFrom(lists, k)
    ensures forall s | s in r :: s.region == region
    decreases |SegmentCategories| - k
  {
    if k == |SegmentCategories| then []
    else
      var c := SegmentCategories[k];
      MakeSegments(Items(lists, c), c, region) + RegionSegments(lists, region, k + 1)
  }

  /** The number of items in the segment categories from index `k`. */
  function CountFrom(lists: Lists, k: nat): nat
    requires k <= |SegmentCategories|
    decreases |SegmentCategories| - k
  {
    if k == |SegmentCategories| then 0 else |Items(lists, SegmentCategories[k])| + CountFrom(lists, k + 1)
  }

  /** `create_structured_road_segments`: the regions in declaration order
      (those present), each region's categories in order, transit left out. */
  function Segments(regional: map<Region, Lists>, regions: seq<Region>): (r: seq<Segment>)
    ensures |r| == TotalFrom(regional, regions, 0)
    ensures forall s | s in r :: exists i | 0 <= i < |regions| :: regions[i] in regional && s.region == RegionName(regions[i])
  {
    if regions == [] then []
    else
      var rest := Segments(regional, regions[1..]);
      assert forall i | 1 <= i < |regions| :: regions[i] == regions[1..][i - 1];
      var here := if regions[0] in regional then RegionSegments(regional[regions[0]], RegionName(regions[0]), 0) else [];
      here + rest
  }

  /** The counts the metadata block reports. */
  datatype Metadata = Metadata(totalCategories: nat, totalItems: nat, totalSegments: nat)

  /** The items summed over the categories `cs` of the data. */
  function ItemTotal(data: map<Category, seq<string>>, cs: seq<Category>): nat {
    if cs == [] then 0 else |Items(data, cs[0])| + ItemTotal(data, cs[1..])
  }

  /** `create_comprehensive_output`'s metadata: the category count, the
      items over all categories, the segment count. */
  function OutputMetadata(data: map<Category, seq<string>>, regional: map<Region, Lists>): (r: Metadata)
    ensures forall c | c in data :: |data[c]| <= r.totalItems
    ensures r.totalItems == 0 <==> forall c | c in data :: data[c] == []
    ensures r.totalSegments == TotalFrom(regional, AllRegions, 0)
  {
    assert forall c: Category :: c in AllCategories by {
      forall c: Category ensures c in AllCategories { CategoryListed(c); }
    }
    ItemTotalCounts(data, AllCategories);
    assert forall c | c in data :: exists i | 0 <= i < |AllCategories| :: Items(data, AllCategories[i]) == data[c] by {
      forall c | c in data ensures exists i | 0 <= i < |AllCategories| :: Items(data, AllCategories[i]) == data[c] {
        var i := CategoryIndex(c);
      }
    }
    Metadata(|data.Keys|, ItemTotal(data, AllCategories), |Segments(regional, AllRegions)|)
  }

  /** Every listed category's items are part of the total, which is zero
      exactly when all of them are empty. */
  lemma {:induction false} ItemTotalCounts(data: map<Category, seq<string>>, cs: seq<Category>)
    ensures forall i | 0 <= i < |cs| :: |Items(data, cs[i])| <= ItemTotal(data, cs)
    ensures ItemTotal(data, cs) == 0 <==> forall i | 0 <= i < |cs| :: Items(data, cs[i]) == []
  {
    if cs != [] {
      ItemTotalCounts(data, cs[1..]);
      assert forall i | 1 <= i < |cs| :: cs[i] == cs[1..][i - 1];
    }
  }

  // ------------------------------------------------------------ counting segments

  /** The segment categories from index `k` counted over the regions `rs`
      present in `regional`, region by region. */
  function TotalFrom(regional: map<Region, Lists>, rs: seq<Region>, k: nat): nat
    requires k <= |SegmentCategories|
  {
    if rs == [] then 0
    else (if rs[0] in regional then CountFrom(regional[rs[0]], k) else 0) + TotalFrom(regional, rs[1..], k)
  }

  /** The items of category `c` over the regions `rs` present in `regional`. */
  function ColumnTotal(regional: map<Region, Lists>, rs: seq<Region>, c: Category): nat {
    if rs == [] then 0
    else (if rs[0] in regional then |Items(regional[rs[0]], c)| else 0) + ColumnTotal(regional, rs[1..], c)
  }

  /** The same count as `TotalFrom`, category by category. */
  function ColumnsFrom(regional: map<Region, Lists>, rs: seq<Region>, k: nat): nat
    requires k <= |SegmentCategories|
    decreases |SegmentCategories| - k
  {
    if k == |SegmentCategories| then 0
    else ColumnTotal(regional, rs, SegmentCategories[k]) + ColumnsFrom(regional, rs, k + 1)
  }

  lemma {:induction false} TotalNone(regional: map<Region, Lists>, rs: seq<Region>)
    ensures TotalFrom(regional, rs, |SegmentCategories|) == 0
  {
    if rs != [] {
      TotalNone(regional, rs[1..]);
    }
  }

  lemma {:induction false} TotalStep(regional: map<Region, Lists>, rs: seq<Region>, k: nat)
    requires k < |SegmentCategories|
    ensures TotalFrom(regional, rs, k) == ColumnTotal(regional, rs, SegmentCategories[k]) + TotalFrom(regional, rs, k + 1)
  {
    if rs != [] {
      TotalStep(regional, rs[1..], k);
    }
  }

  /** Counting region by region and counting category by category agree. */
  lemma {:induction false} TotalByColumns(regional: map<Region, Lists>, rs: seq<Region>, k: nat)
    requires k <= |SegmentCategories|
    ensures TotalFrom(regional, rs, k) == ColumnsFrom(regional, rs, k)
    decreases |SegmentCategories| - k
  {
    if k == |SegmentCategories| {
      TotalNone(regional, rs);
    } else {
      TotalStep(regional, rs, k);
      TotalByColumns(regional, rs, k + 1);
    }
  }

  /** How often `h` occurs in `rs`. */
  function Occurrences(rs: seq<Region>, h: Region): nat {
    if rs == [] then 0 else (if rs[0] == h then 1 else 0) + Occurrences(rs[1..], h)
  }

  /** How often `h` occurs in `rs` from index `i` on. */
  function OccurrencesFrom(rs: seq<Region>, h: Region, i: nat): nat
    requires i <= |rs|
    decreases |rs| - i
  {
    if i == |rs| then 0 else (if rs[i] == h then 1 else 0) + OccurrencesFrom(rs, h, i + 1)
  }

  lemma {:induction false} OccurrencesSlice(rs: seq<Region>, h: Region, i: nat)
    requires i <= |rs|
    ensures OccurrencesFrom(rs, h, i) == Occurrences(rs[i..], h)
    decreases |rs| - i
  {
    if i < |rs| {
      OccurrencesSlice(rs, h, i + 1);
      assert rs[i..][1..] == rs[i + 1..];
    }
  }

  /** The position of each region in `AllRegions`. */
  function RegionIndex(h: Region): nat {
    match h
    case NorthernVirginia => 0
    case CentralVirginia => 1
    case Tidewater => 2
    case Southwest => 3
    case Valley => 4
    case WesternVirginia => 5
    case NorthernNeck => 6
    case Southside => 7
  }

  /** A list whose every position holds the region of that index counts
      each region once, at its index. */
  lemma {:induction false} IndexedOnce(rs: seq<Region>, h: Region, i: nat)
    requires i <= |rs|
    requires forall j | 0 <= j < |rs| :: RegionIndex(rs[j]) == j
    requires RegionIndex(h) < |rs| && rs[RegionIndex(h)] == h
    ensures OccurrencesFrom(rs, h, i) == if i <= RegionIndex(h) then 1 else 0
    decreases |rs| - i
  {
    if i < |rs| {
      IndexedOnce(rs, h, i + 1);
      assert rs[i] == h <==> i == RegionIndex(h);
    }
  }

  /** Each region is declared exactly once. */
  lemma RegionsOnce(h: Region)
    ensures Occurrences(AllRegions, h) == 1
  {
    OccurrencesSlice(AllRegions, h, 0);
    assert AllRegions[0..] == AllRegions;
    AllRegionsIndexed();
    IndexedOnce(AllRegions, h, 0);
  }

  /** Each position of the declared list holds the region of that index. */
  lemma AllRegionsIndexed()
    ensures forall j | 0 <= j < |AllRegions| :: RegionIndex(AllRegions[j]) == j
  {
    assert |AllRegions| == 8;
  }

  /** The named roads of `xs` homed in each region of `rs`, counted. */
  function HomedTotal(hash: string -> int, xs: seq<string>, rs: seq<Region>): nat {
    if rs == [] then 0 else |HomedIn(hash, xs, rs[0])| + HomedTotal(hash, xs, rs[1..])
  }

  lemma {:induction false} HomedTotalNil(hash: string -> int, rs: seq<Region>)
    ensures HomedTotal(hash, [], rs) == 0
  {
    if rs != [] {
      HomedTotalNil(hash, rs[1..]);
    }
  }

  lemma {:induction false} HomedTotalCons(hash: string -> int, x: string, xs: seq<string>, rs: seq<Region>)
    ensures HomedTotal(hash, [x] + xs, rs) == Occurrences(rs, Home(hash, x)) + HomedTotal(hash, xs, rs)
  {
    if rs != [] {
      HomedTotalCons(hash, x, xs, rs[1..]);
      assert ([x] + xs)[1..] == xs;
    }
  }

  /** Every named road is homed in exactly one region: the regional lists
      of a named category hold as many entries as the category itself. */
  lemma {:induction false} HomedPartition(hash: string -> int, xs: seq<string>)
    ensures HomedTotal(hash, xs, AllRegions) == |xs|
  {
    if xs == [] {
      HomedTotalNil(hash, AllRegions);
    } else {
      assert xs == [xs[0]] + xs[1..];
      HomedTotalCons(hash, xs[0], xs[1..], AllRegions);
      RegionsOnce(Home(hash, xs[0]));
      HomedPartition(hash, xs[1..]);
    }
  }

  /** A network category's items counted once per region whose network
      has them. */
  function NetworkTotal(data: map<Category, seq<string>>, c: Category, rs: seq<Region>): nat
    requires NetworkCategory(c)
  {
    if rs == [] then 0 else |FilterIn(Items(data, c), Network(rs[0], c))| + NetworkTotal(data, c, rs[1..])
  }

  /** One category's entries over the regions before sorting. */
  function UnsortedTotal(hash: string -> int, data: map<Category, seq<string>>, rs: seq<Region>, c: Category): nat {
    if rs == [] then 0 else |Unsorted(hash, data, rs[0], c)| + UnsortedTotal(hash, data, rs[1..], c)
  }

  /** Assignment keeps every regional list's length. */
  lemma AssignedLengths(hash: string -> int, data: map<Category, seq<string>>)
    ensures forall r, c :: LengthKept(hash, data, AssignToRegions(hash, data), r, c)
  {
    var out := AssignToRegions(hash, data);
    forall r, c ensures |out[r][c]| == |Unsorted(hash, data, r, c)| {
      assert |multiset(out[r][c])| == |multiset(Unsorted(hash, data, r, c))|;
    }
  }

  /** `out` holds region `r`'s list of category `c`, as long as before sorting. */
  predicate LengthKept(hash: string -> int, data: map<Category, seq<string>>, out: map<Region, Lists>, r: Region, c: Category) {
    r in out && c in out[r] && |out[r][c]| == |Unsorted(hash, data, r, c)|
  }

  lemma {:induction false} LengthsColumn(hash: string -> int, data: map<Category, seq<string>>, out: map<Region, Lists>, rs: seq<Region>, c: Category)
    requires forall r :: LengthKept(hash, data, out, r, c)
    ensures ColumnTotal(out, rs, c) == UnsortedTotal(hash, data, rs, c)
  {
    if rs != [] {
      assert LengthKept(hash, data, out, rs[0], c);
      LengthsColumn(hash, data, out, rs[1..], c);
    }
  }

  lemma {:induction false} NetworkColumn(hash: string -> int, data: map<Category, seq<string>>, rs: seq<Region>, c: Category)
    requires NetworkCategory(c)
    ensures UnsortedTotal(hash, data, rs, c) == NetworkTotal(data, c, rs)
  {
    if rs != [] {
      NetworkColumn(hash, data, rs[1..], c);
    }
  }

  lemma {:induction false} NamedColumn(hash: string -> int, data: map<Category, seq<string>>, rs: seq<Region>, c: Category)
    requires NamedCategory(c)
    ensures UnsortedTotal(hash, data, rs, c) == HomedTotal(hash, Items(data, c), rs)
  {
    if rs != [] {
      NamedColumn(hash, data, rs[1..], c);
    }
  }

  lemma {:induction false} EmptyColumn(hash: string -> int, data: map<Category, seq<string>>, rs: seq<Region>, c: Category)
    requires !NetworkCategory(c) && !NamedCategory(c)
    ensures UnsortedTotal(hash, data, rs, c) == 0
  {
    if rs != [] {
      EmptyColumn(hash, data, rs[1..], c);
    }
  }

  /** The metadata's segment count, category by category. */
  lemma MetadataColumns(data: map<Category, seq<string>>, out: map<Region, Lists>)
    ensures OutputMetadata(data, out).totalSegments ==
      ColumnTotal(out, AllRegions, Interstates) + ColumnTotal(out, AllRegions, UsRoutes)
      + ColumnTotal(out, AllRegions, StateRoutes) + ColumnTotal(out, AllRegions, PrimaryHighways)
      + ColumnTotal(out, AllRegions, SecondaryHighways) + ColumnTotal(out, AllRegions, NamedStreets)
      + ColumnTotal(out, AllRegions, NamedHighways)
  {
    TotalByColumns(out, AllRegions, 0);
  }

  /** The segment count of the assigned data: every interstate, US and state
      route once per region whose network has it, every named street and
      named highway exactly once, and nothing for the primary, secondary and
      transit lists. */
  lemma SegmentCount(hash: string -> int, data: map<Category, seq<string>>)
    ensures OutputMetadata(data, AssignToRegions(hash, data)).totalSegments ==
      NetworkTotal(data, Interstates, AllRegions) + NetworkTotal(data, UsRoutes, AllRegions)
      + NetworkTotal(data, StateRoutes, AllRegions)
      + |Items(data, NamedStreets)| + |Items(data, NamedHighways)|
  {
    var out := AssignToRegions(hash, data);
    AssignedLengths(hash, data);
    MetadataColumns(data, out);
    LengthsCount(hash, data, out);
  }

  lemma LengthsCount(hash: string -> int, data: map<Category, seq<string>>, out: map<Region, Lists>)
    requires forall r, c :: LengthKept(hash, data, out, r, c)
    ensures ColumnTotal(out, AllRegions, Interstates) + ColumnTotal(out, AllRegions, UsRoutes)
      + ColumnTotal(out, AllRegions, StateRoutes) + ColumnTotal(out, AllRegions, PrimaryHighways)
      + ColumnTotal(out, AllRegions, SecondaryHighways) + ColumnTotal(out, AllRegions, NamedStreets)
      + ColumnTotal(out, AllRegions, NamedHighways) ==
      NetworkTotal(data, Interstates, AllRegions) + NetworkTotal(data, UsRoutes, AllRegions)
      + NetworkTotal(data, StateRoutes, AllRegions)
      + |Items(data, NamedStreets)| + |Items(data, NamedHighways)|
  {
    NetworkColumnsCount(hash, data, out);
    OtherColumnsCount(hash, data, out);
  }

  lemma NetworkColumnsCount(hash: string -> int, data: map<Category, seq<string>>, out: map<Region, Lists>)
    requires forall r, c :: LengthKept(hash, data, out, r, c)
    ensures ColumnTotal(out, AllRegions, Interstates) + ColumnTotal(out, AllRegions, UsRoutes)
      + ColumnTotal(out, AllRegions, StateRoutes) ==
      NetworkTotal(data, Interstates, AllRegions) + NetworkTotal(data, UsRoutes, AllRegions)
      + NetworkTotal(data, StateRoutes, AllRegions)
  {
    NetworkCount(hash, data, out, Interstates);
    NetworkCount(hash, data, out, UsRoutes);
    NetworkCount(hash, data, out, StateRoutes);
  }

  lemma OtherColumnsCount(hash: string -> int, data: map<Category, seq<string>>, out: map<Region, Lists>)
    requires forall r, c :: LengthKept(hash, data, out, r, c)
    ensures ColumnTotal(out, AllRegions, PrimaryHighways) + ColumnTotal(out, AllRegions, SecondaryHighways)
      + ColumnTotal(out, AllRegions, NamedStreets) + ColumnTotal(out, AllRegions, NamedHighways) ==
      |Items(data, NamedStreets)| + |Items(data, NamedHighways)|
  {
    EmptyCount(hash, data, out, PrimaryHighways);
    EmptyCount(hash, data, out, SecondaryHighways);
    NamedCount(hash, data, out, NamedStreets);
    NamedCount(hash, data, out, NamedHighways);
  }

  lemma NetworkCount(hash: string -> int, data: map<Category, seq<string>>, out: map<Region, Lists>, c: Category)
    requires NetworkCategory(c) && forall r :: LengthKept(hash, data, out, r, c)
    ensures ColumnTotal(out, AllRegions, c) == NetworkTotal(data, c, AllRegions)
  {
    LengthsColumn(hash, data, out, AllRegions, c);
    NetworkColumn(hash, data, AllRegions, c);
  }

  lemma EmptyCount(hash: string -> int, data: map<Category, seq<string>>, out: map<Region, Lists>, c: Category)
    requires !NetworkCategory(c) && !NamedCategory(c) && forall r :: LengthKept(hash, data, out, r, c)
    ensures ColumnTotal(out, AllRegions, c) == 0
  {
    LengthsColumn(hash, data, out, AllRegions, c);
    EmptyColumn(hash, data, AllRegions, c);
  }

  lemma NamedCount(hash: string -> int, data: map<Category, seq<string>>, out: map<Region, Lists>, c: Category)
    requires NamedCategory(c) && forall r :: LengthKept(hash, data, out, r, c)
    ensures ColumnTotal(out, AllRegions, c) == |Items(data, c)|
  {
    LengthsColumn(hash, data, out, AllRegions, c);
    NamedColumn(hash, data, AllRegions, c);
    HomedPartition(hash, Items(data, c));
  }
}

=== FILE: units.dfy ===
/** Small helpers of parser_pack.py: height and weight text to numbers, latitude
    and longitude clamping, coordinate extraction, gender normalisation, the
    age-based height/weight estimate table, dot-path lookup, first-non-blank
    selection and the fallback date parser used by harmonisation. Regex
    searches come from the environment. */
module Units {
  import opened Wrappers
  import opened Json
  import opened Text
  import opened Dates
  import opened Runtime

  function Min(a: real, b: real): real { if a <= b then a else b }
  function Max(a: real, b: real): real { if a >= b then a else b }

  // ---------------------------------------------------------------- heights

  /** `to_inches(text)`: two or more feet-inch matches give the mean of the first
      two in inches; one match gives that height; otherwise an explicit
      "NN in"/"NN inches" value; empty input and no match give `None`. */
  function ToInches(env: Env, text: string): (r: Option<real>)
    ensures text == "" ==> r == None
    ensures text != "" && |env.feetInches(Strip(text))| >= 2 ==>
      var m := env.feetInches(Strip(text));
      var a := (m[0].0 * 12 + m[0].1) as real;
      var b := (m[1].0 * 12 + m[1].1) as real;
      r.Some? && Min(a, b) <= r.value <= Max(a, b) && r.value - a == b - r.value
    ensures text != "" && |env.feetInches(Strip(text))| == 1 ==>
      r == Some((env.feetInches(Strip(text))[0].0 * 12 + env.feetInches(Strip(text))[0].1) as real)
    ensures text != "" && env.feetInches(Strip(text)) == [] ==>
      r == (if env.inchesOnly(Strip(text)).Some? then Some(env.inchesOnly(Strip(text)).value as real) else None)
  {
    if text == "" then None
    else
      var s := Strip(text);
      var m := env.feetInches(s);
      if |m| >= 2 then
        var a := m[0].0 * 12 + m[0].1;
        var b := m[1].0 * 12 + m[1].1;
        Some((a + b) as real / 2.0)
      else if |m| == 1 then
        Some((m[0].0 * 12 + m[0].1) as real)
      else
        match env.inchesOnly(s)
        case Some(n) => Some(n as real)
        case None => None
  }

  /** The documented example: 5'8" - 5'10" is 69 inches. */
  lemma HeightRangeExample(env: Env, text: string)
    requires text != "" && env.feetInches(Strip(text)) == [(5, 8), (5, 10)]
    ensures ToInches(env, text) == Some(69.0)
  {
  }

  // ---------------------------------------------------------------- weights

  /** `to_pounds(text)`: an "a - b lb" range gives its midpoint, a single "n lb"
      gives n, and empty input or no match gives `None`. */
  function ToPounds(env: Env, text: string): (r: Option<real>)
    ensures text == "" ==> r == None
    ensures text != "" && env.poundRange(Strip(text)).Some? ==>
      var (a, b) := env.poundRange(Strip(text)).value;
      r.Some? && Min(a as real, b as real) <= r.value <= Max(a as real, b as real)
      && r.value - a as real == b as real - r.value
    ensures text != "" && env.poundRange(Strip(text)).None? ==>
      r == (if env.poundSingle(Strip(text)).Some? then Some(env.poundSingle(Strip(text)).value as real) else None)
  {
    if text == "" then None
    else
      var s := Strip(text);
      match env.poundRange(s)
      case Some((a, b)) => Some((a as real + b as real) / 2.0)
      case None =>
        match env.poundSingle(s)
        case Some(n) => Some(n as real)
        case None => None
  }

  /** The documented example: "130 - 150 lbs" is 140 pounds. */
  lemma WeightRangeExample(env: Env, text: string)
    requires text != "" && env.poundRange(Strip(text)) == Some((130, 150))
    ensures ToPounds(env, text) == Some(140.0)
  {
  }

  // ---------------------------------------------------------------- coordinates

  /** `clamp_lat`: `None` stays `None`; a number is clamped into [-90, 90]. */
  function ClampLat(x: Option<real>): (r: Option<real>)
    ensures r.Some? <==> x.Some?
    ensures r.Some? ==> -90.0 <= r.value <= 90.0
    ensures x.Some? && -90.0 <= x.value <= 90.0 ==> r == x
  {
    match x
    case None => None
    case Some(v) => Some(Max(-90.0, Min(90.0, v)))
  }

  /** `clamp_lon`: `None` stays `None`; a number is clamped into [-180, 180]. */
  function ClampLon(x: Option<real>): (r: Option<real>)
    ensures r.Some? <==> x.Some?
    ensures r.Some? ==> -180.0 <= r.value <= 180.0
    ensures x.Some? && -180.0 <= x.value <= 180.0 ==> r == x
  {
    match x
    case None => None
    case Some(v) => Some(Max(-180.0, Min(180.0, v)))
  }

  /** Clamping moves an out-of-range value to the nearer bound and is idempotent. */
  lemma ClampNearestBound(x: real)
    ensures x > 90.0 ==> ClampLat(Some(x)) == Some(90.0)
    ensures x < -90.0 ==> ClampLat(Some(x)) == Some(-90.0)
    ensures x > 180.0 ==> ClampLon(Some(x)) == Some(180.0)
    ensures x < -180.0 ==> ClampLon(Some(x)) == Some(-180.0)
    ensures ClampLat(ClampLat(Some(x))) == ClampLat(Some(x))
    ensures ClampLon(ClampLon(Some(x))) == ClampLon(Some(x))
  {
  }

  /** `extract_coords(text)`: the first "lat,lon" pair, each clamped; `(None, None)`
      for empty text or no match. */
  function ExtractCoords(env: Env, text: string): (r: (Option<real>, Option<real>))
    ensures r.0.Some? <==> r.1.Some?
    ensures r.0.Some? ==> -90.0 <= r.0.value <= 90.0 && -180.0 <= r.1.value <= 180.0
    ensures r.0.Some? <==> text != "" && env.coordMatch(text).Some?
  {
    if text == "" then (None, None)
    else
      match env.coordMatch(text)
      case Some((a, b)) => (ClampLat(Some(a)), ClampLon(Some(b)))
      case None => (None, None)
  }

  // ---------------------------------------------------------------- gender

  /** `normalize_gender(s)`: after strip and lower-casing, a leading "m" gives
      "male" and a leading "f" gives "female"; anything else, and the empty
      string, gives `None`. */
  function NormalizeGender(s: string): (r: Option<string>)
    ensures r == None || r == Some("male") || r == Some("female")
    ensures r == Some("male") <==> Strip(s) != "" && LowerChar(Strip(s)[0]) == 'm'
    ensures r == Some("female") <==> Strip(s) != "" && LowerChar(Strip(s)[0]) == 'f'
  {
    if s == "" then None
    else
      var t := Lower(Strip(s));
      if StartsWith(t, "m") then Some("male")
      else if StartsWith(t, "f") then Some("female")
      else None
  }

  /** Normalising an already normalised gender changes nothing. */
  lemma NormalizeGenderIdempotent(s: string)
    requires NormalizeGender(s).Some?
    ensures NormalizeGender(NormalizeGender(s).value) == NormalizeGender(s)
  {
    StripTrimmed("male");
    StripTrimmed("female");
  }

  // ---------------------------------------------------------------- estimates

  function MaleHeight(a: int): Option<real> {
    if a == 2 then Some(34.5) else if a == 3 then Some(37.5) else if a == 4 then Some(40.5)
    else if a == 5 then Some(43.0) else if a == 6 then Some(45.5) else if a == 7 then Some(48.0)
    else if a == 8 then Some(50.5) else if a == 9 then Some(52.5) else if a == 10 then Some(54.5)
    else if a == 11 then Some(56.5) else if a == 12 then Some(58.5) else if a == 13 then Some(61.0)
    else if a == 14 then Some(64.0) else if a == 15 then Some(67.0) else if a == 16 then Some(69.0)
    else if a == 17 then Some(70.0) else if a == 18 then Some(70.5) else None
  }

  function FemaleHeight(a: int): Option<real> {
    if a == 2 then Some(34.0) else if a == 3 then Some(37.0) else if a == 4 then Some(40.0)
    else if a == 5 then Some(42.5) else if a == 6 then Some(45.0) else if a == 7 then Some(47.5)
    else if a == 8 then Some(50.0) else if a == 9 then Some(52.0) else if a == 10 then Some(54.0)
    else if a == 11 then Some(56.5) else if a == 12 then Some(59.0) else if a == 13 then Some(61.5)
    else if a == 14 then Some(63.0) else if a == 15 then Some(64.0) else if a == 16 then Some(64.5)
    else if a == 17 then Some(65.0) else if a == 18 then Some(65.0) else None
  }

  function MaleWeight(a: int): Option<real> {
    if a == 2 then Some(28.0) else if a == 3 then Some(32.0) else if a == 4 then Some(36.0)
    else if a == 5 then Some(40.0) else if a == 6 then Some(45.0) else if a == 7 then Some(50.0)
    else if a == 8 then Some(56.0) else if a == 9 then Some(63.0) else if a == 10 then Some(70.0)
    else if a == 11 then Some(78.0) else if a == 12 then Some(88.0) else if a == 13 then Some(100.0)
    else if a == 14 then Some(115.0) else if a == 15 then Some(130.0) else if a == 16 then Some(145.0)
    else if a == 17 then Some(160.0) else if a == 18 then Some(170.0) else None
  }

  function FemaleWeight(a: int): Option<real> {
    if a == 2 then Some(26.0) else if a == 3 then Some(30.0) else if a == 4 then Some(34.0)
    else if a == 5 then Some(38.0) else if a == 6 then Some(42.0) else if a == 7 then Some(47.0)
    else if a == 8 then Some(53.0) else if a == 9 then Some(60.0) else if a == 10 then Some(68.0)
    else if a == 11 then Some(78.0) else if a == 12 then Some(90.0) else if a == 13 then Some(105.0)
    else if a == 14 then Some(115.0) else if a == 15 then Some(120.0) else if a == 16 then Some(125.0)
    else if a == 17 then Some(130.0) else if a == 18 then Some(135.0) else None
  }

  function HeightTable(gender: string, a: int): Option<real> {
    if gender == "male" then MaleHeight(a) else if gender == "female" then FemaleHeight(a) else None
  }

  function WeightTable(gender: string, a: int): Option<real> {
    if gender == "male" then MaleWeight(a) else if gender == "female" then FemaleWeight(a) else None
  }

  /** `_estimate_height_weight_by_age(age, gender)`: the growth-chart entry for
      `int(age)` when the table has one, else the adult default from age 18 on
      (68 in / 170 lb for "male", 64 in / 140 lb for any other gender), else `None`. */
  function EstimateHeightWeight(age: real, gender: string): (r: (Option<real>, Option<real>))
    ensures (gender == "male" || gender == "female") && 2 <= Trunc(age) <= 18 ==>
      r == (HeightTable(gender, Trunc(age)), WeightTable(gender, Trunc(age))) && r.0.Some? && r.1.Some?
    ensures Trunc(age) > 18 ==>
      r == (if gender == "male" then (Some(68.0), Some(170.0)) else (Some(64.0), Some(140.0)))
    ensures Trunc(age) < 2 ==> r == (None, None)
    ensures gender != "male" && gender != "female" && Trunc(age) < 18 ==> r == (None, None)
    ensures r.0.Some? ==> 34.0 <= r.0.value <= 70.5
    ensures r.1.Some? ==> 26.0 <= r.1.value <= 170.0
  {
    var a := Trunc(age);
    var h := HeightTable(gender, a);
    var w := WeightTable(gender, a);
    var h' := if h.None? && a >= 18 then Some(if gender == "male" then 68.0 else 64.0) else h;
    var w' := if w.None? && a >= 18 then Some(if gender == "male" then 170.0 else 140.0) else w;
    (h', w')
  }

  /** Within the growth charts, the estimates never decrease with age. */
  lemma {:induction false} EstimatesGrowWithAge(gender: string, a: int, b: int)
    requires gender == "male" || gender == "female"
    requires 2 <= a <= b <= 18
    ensures HeightTable(gender, a).value <= HeightTable(gender, b).value
    ensures WeightTable(gender, a).value <= WeightTable(gender, b).value
    decreases b - a
  {
    if a < b {
      EstimatesGrowWithAge(gender, a + 1, b);
    }
  }

  // ---------------------------------------------------------------- dot paths

  /** `d or {}`. */
  function OrEmpty(d: Value): Value {
    if Truthy(d) then d else Obj(map[])
  }

  /** The loop of `get_nested`: `None` when a non-dict is met before the path ends. */
  function Walk(cur: Value, parts: seq<string>): Option<Value>
    decreases |parts|
  {
    if parts == [] then Some(cur)
    else if cur.Obj? then Walk(Get(cur.fields, parts[0]), parts[1..])
    else None
  }

  /** `get_nested(d, path, default)`: follows the dot-separated path through
      nested dicts; `default` when the walk meets a non-dict or ends on `None`.
      It never answers `None` unless that is the default, and a start that is
      not a non-empty dict gives the default whatever the path. */
  function GetNested(d: Value, path: string, default: Value): (r: Value)
    ensures r != Null || default == Null
    ensures !d.Obj? || d.fields == map[] ==> r == default
  {
    WalkEmptyStart(d, Split(path, '.'));
    match Walk(OrEmpty(d), Split(path, '.'))
    case None => default
    case Some(v) => if v == Null then default else v
  }

  /** A path without dots is a plain lookup: the value under the key unless it
      is absent or `None`; a non-dict that is truthy gives the default. */
  lemma GetNestedSingleKey(d: Value, key: string, default: Value)
    requires '.' !in key
    ensures d.Obj? ==> (GetNested(d, key, default)
      == if key in d.fields && d.fields[key] != Null then d.fields[key] else default)
    ensures !d.Obj? ==> GetNested(d, key, default) == default
  {
    assert Split(key, '.') == [key];
    var o := OrEmpty(d);
    if o.Obj? {
      assert Walk(o, [key]) == Walk(Get(o.fields, key), []);
    }
  }

  /** A walk that starts anywhere but at a non-empty dict finds nothing. */
  lemma WalkEmptyStart(d: Value, parts: seq<string>)
    requires parts != []
    ensures !d.Obj? || d.fields == map[] ==>
      Walk(OrEmpty(d), parts).None? || Walk(OrEmpty(d), parts) == Some(Null)
  {
    if !Truthy(d) {
      WalkFalsy(d, parts);
    }
  }

  lemma {:induction false} WalkFalsy(v: Value, parts: seq<string>)
    requires !Truthy(v) && parts != []
    ensures Walk(OrEmpty(v), parts).None? || Walk(OrEmpty(v), parts) == Some(Null)
  {
    if |parts| > 1 {
      assert Walk(OrEmpty(v), parts) == Walk(Null, parts[1..]);
    }
  }

  /** A dotted path is the composition of its first segment and the rest:
      `get_nested(d, "a.rest")` is `get_nested(get_nested(d, "a", None), "rest")`. */
  lemma {:induction false} GetNestedCompose(d: Value, a: string, rest: string, default: Value)
    requires '.' !in a
    ensures GetNested(d, a + "." + rest, default) == GetNested(GetNested(d, a, Null), rest, default)
  {
    SplitFirst(a, rest);
    var parts := Split(rest, '.');
    var o := OrEmpty(d);
    if o.Obj? {
      var v := Get(o.fields, a);
      assert Walk(o, [a] + parts) == Walk(v, parts);
      assert Walk(o, [a]) == Some(v);
      if Truthy(v) {
        assert OrEmpty(v) == v;
      } else {
        WalkFalsy(v, parts);
        WalkNonDict(v, parts);
      }
    } else {
      assert Walk(o, [a]) == None;
      WalkFalsy(Null, parts);
    }
  }

  lemma {:induction false} WalkNonDict(v: Value, parts: seq<string>)
    requires parts != [] && !Truthy(v)
    ensures v.Obj? ==> Walk(v, parts) == Walk(OrEmpty(v), parts)
    ensures !v.Obj? ==> Walk(v, parts) == None
  {
  }

  lemma {:induction false} SplitFirst(a: string, rest: string)
    requires '.' !in a
    ensures Split(a + "." + rest, '.') == [a] + Split(rest, '.')
  {
    var s := a + "." + rest;
    assert s[|a|] == '.';
    assert '.' in s;
    var i := FirstIndex(s, '.');
    assert s[..|a|] == a;
    assert s[..i] == a;
    assert s[i + 1..] == rest;
  }

  // ---------------------------------------------------------------- pick first

  /** The position of the first accepted value at or after `k`, or `|vals|`
      when there is none. */
  function FirstFilled(env: Env, vals: seq<Value>, k: nat): (i: nat)
    requires k <= |vals|
    ensures k <= i <= |vals|
    ensures i < |vals| ==> Filled(env, vals[i])
    ensures forall j | k <= j < i :: !Filled(env, vals[j])
    decreases |vals| - k
  {
    if k == |vals| then k
    else if Filled(env, vals[k]) then k
    else FirstFilled(env, vals, k + 1)
  }

  /** `_pick_first(*vals)`: the first value that is not `None` and whose text is
      not blank, or `None`. */
  function PickFirst(env: Env, vals: seq<Value>): (r: Option<Value>)
    ensures r.Some? ==> exists i | 0 <= i < |vals| :: (vals[i] == r.value
      && Filled(env, r.value) && forall j | 0 <= j < i :: !Filled(env, vals[j]))
    ensures r.None? <==> forall j | 0 <= j < |vals| :: !Filled(env, vals[j])
  {
    var i := FirstFilled(env, vals, 0);
    if i < |vals| then Some(vals[i]) else None
  }

  // ---------------------------------------------------------------- dates

  /** The five formats `parse_date_to_iso_utc` tries, in order. */
  const IsoUtcFormats: seq<string> := ["%Y-%m-%d", "%m/%d/%Y", "%m/%d/%y", "%b %d, %Y", "%B %d, %Y"]

  /** The first format of `fmts` (from index `k`) that `strptime` accepts, as a date. */
  function FirstParse(env: Env, s: string, fmts: seq<string>): (r: Option<Date>)
    ensures r.Some? ==> exists k | 0 <= k < |fmts| :: (env.strptime(s, fmts[k]) == r
      && forall j | 0 <= j < k :: env.strptime(s, fmts[j]).None?)
    ensures r.None? <==> forall k | 0 <= k < |fmts| :: env.strptime(s, fmts[k]).None?
  {
    if fmts == [] then None
    else if env.strptime(s, fmts[0]).Some? then env.strptime(s, fmts[0])
    else
      var r := FirstParse(env, s, fmts[1..]);
      assert forall j | 1 <= j < |fmts| :: fmts[j] == fmts[1..][j - 1];
      if r.Some? then
        var k :| 0 <= k < |fmts[1..]| && env.strptime(s, fmts[1..][k]) == r
          && forall j | 0 <= j < k :: env.strptime(s, fmts[1..][j]).None?;
        assert fmts[k + 1] == fmts[1..][k];
        r
      else r
  }

  /** `parse_date_to_iso_utc(s)`: the stripped text parsed with the first accepting
      format, rendered "YYYY-MM-DDT00:00:00Z"; `None` for blank text or no format. */
  function ParseDateToIsoUtc(env: Env, s: string): (r: Option<string>)
    ensures Blank(s) ==> r == None
    ensures r.Some? ==> exists d: Date :: r.value == FormatYmd(d) + "T00:00:00Z"
    ensures r.None? <==> Blank(s) || FirstParse(env, Strip(s), IsoUtcFormats).None?
  {
    var t := Strip(s);
    if t == "" then None
    else
      match FirstParse(env, t, IsoUtcFormats)
      case Some(d) => Some(FormatYmd(d) + "T00:00:00Z")
      case None => None
  }
}

=== FILE: wrappers.dfy ===
/** Failure-carrying wrappers shared by every module.

    `Option` stands for Python's "value or None" results; `Result` stands for an
    operation that either returns or raises, with the exception's class name kept
    as a string so that a reader can match it against the source. */
module Wrappers {

  datatype Option<+T> = None | Some(value: T) {

    /** The wrapped value, or `default` for `None` (Python's `x if x is not None else d`). */
    function GetOr(default: T): T {
      if Some? then value else default
    }
  }

  datatype Result<+T> = Ok(value: T) | Raise(error: string)
}
